=== FILE: README.md ===
# tflite2onnx core, modelled in Dafny

tflite2onnx turns a TensorFlow Lite model into an ONNX model. Its core is an in-memory graph of
`Tensor` and `Operator` objects, each with a lifecycle status (uninitialized, initialized,
parsed, converted, and a reserved invalid status). The graph works in three passes:

- It parses every TFLite operator into an ONNX-flavoured operator. Some operators splice in
  helper operators (Transpose, Quantize/Dequantize, Pow, Reshape) and helper tensors.
- It seeds explicit tensor layouts such as NHWC to NCHW and propagates them across
  layout-agnostic operators.
- It rewrites axis-like attributes (concat/reduce axes, pads, slice begin/end/strides,
  reshape shapes) for the layout each operator ended up in. Softmax keeps its axis: its
  `transform` does nothing.

The model keeps these objects in an arena (`Ir.Arena`): sequences of tensors and operators,
addressed by index, plus the name-to-tensor registry of the `TensorFactory`. Every
`assert`, `KeyError`, `IndexError`, `ValueError` and `NotImplementedError` of the source
becomes an `Err` of `Wrappers.Result`, so every converter and rewrite states its error
conditions as well as its results.

The modules follow the source files:

| module | source file |
|---|---|
| `Layouts` | `tflite2onnx/layout.py` (`getPerm`, `transform`, `Layout`) |
| `Tensors`, `Factory` | `tflite2onnx/tensor.py` (`Tensor`, and the methods of `TensorFactory`: `get`, `getWithRef`, `createScalar`, `createVector`, `createEmptyTensor`, `createQuantScale`, `createQuantZeroPoint`, `getData`) |
| `Dtypes`, `Payload` | `tflite2onnx/mapping.py`, the numpy-valued data of `tensor.py` |
| `Lifecycle` | `tflite2onnx/common.py` (`Status`, `T2OBase`) |
| `Operators`, `OpCommon` | `tflite2onnx/op/common.py` (`Operator`, `OpFactory`) |
| `Ir` | the object graph shared by all of the above: edges, registry, helper ownership |
| `TransposeHelpers`, `QuantizeSplice`, `PowerSplice` | `tflite2onnx/transpose.py`, `tflite2onnx/quantize.py` and `createQuantize`/`createDequantize` of `op/quantize.py`, `appendSquare`/`appendInvert` |
| `Activation`, `PadOp` | `tflite2onnx/op/activation.py`, `tflite2onnx/op/padding.py` (fused activations, `computePaddingSize`) |
| one module per converter | `tflite2onnx/op/*.py` (`BinaryOp`, `ConcatOp`, `ConvOp`, `ConvTransposeOp`, `FullyConnectedOp`, `PoolingOp`, `QuantizeOp`, `ReduceOp`, `ReshapeOp`, `ResizeOp`, `RsqrtOp`, `SliceOp`, `SoftmaxOp`, `SplitOp`, `SquaredDifferenceOp`, `SquaredDifferenceIdentityOp`, `TransposeOp`, `UnaryOp`) |
| `Propagation`, `Graphs` | `_collectOpAndTensor`, `_propagateLayout` and the layout seeding of `convert` in `tflite2onnx/graph.py` |
| `Tflite` | the fields of the flatbuffer objects the converters read (opcodes, options, tensor indices) |
| `Axes`, `Seqs` | shared helpers: axis remapping through a layout, first/last index, duplicates |

The main properties proved:

- Each converter accepts exactly the opcodes and operand counts the source asserts. It
  produces the inputs, outputs, attributes and helper objects the source builds, and fails in
  the cases where the source raises. Where "## Findings" lists a discrepancy, the converters
  follow that table's "evidently intended" column, and its as-written members model the
  source as it stands:
  - ParseConv, ParseQuantize and ParseResize test the opcode for membership in their two
    opcodes, while the assertions at conv.py:50, quantize.py:37 and resize.py:62 accept every
    opcode.
  - ParseResize builds the unused region of interest as an empty float32 vector, while the
    source always raises at resize.py:72.
  - ParseSlice reads bit i of a mask as dimension i, while slice.py:55-58 reads the bits
    most-significant first.
  - ParseRsqrt, ParseSquaredDifference and ParseSquaredDifferenceIdentity splice the Pow with
    the corrected `PowerSplice.AppendPower`, which makes the Pow the producer of the output;
    the source leaves the operator as that producer (rsqrt.py:72-75,
    squared_difference.py:82-85).
- Every graph rewrite keeps the arena well-formed (`Ir.Valid`). The corrected splices also
  keep producer/consumer edges mutual (`Ir.Mutual`). Everything the rewrite does not name is
  left unchanged.
- `getPerm` and `transform` agree. Transforming a shape, an axis or a pad list with a layout
  moves each entry to the position the permutation names.
- Helper collection (`op_all`) places each operator's pre helpers before it and its post
  helpers after it, with the operator itself once in its own expansion. It contains every
  helper of each operator it lists, and nothing outside the graph.
- Propagation changes only the layouts of tensors that had none, and each of those gets a
  layout some seed carried. When propagation ends, no walked tensor still has an unlaid-out
  propagatable neighbour.
- Running the layout transforms after propagation changes only operator attributes and the
  data and shapes of tensors (`Graphs.TransformOperators`, `Graphs.Retouched`); Padding
  rewrites its pads constant even without a layout.

## Model

| member | source | states |
|---|---|---|
| Layouts.LastIndex | tflite2onnx/layout.py:2-5 | the position `getPerm` records for a label is its last occurrence in the input layout |
| Layouts.GetPerm | tflite2onnx/layout.py:1-8 | defined exactly when every label of the output layout occurs in the input layout (else KeyError); one entry per output label, entry i pointing at the last position of label i in the input layout |
| Layouts.Gather | tflite2onnx/layout.py:16 | `[x[p] for p in perm]` is defined exactly when every index is below the length of `x`; entry i is `x[perm[i]]` |
| Layouts.Transform | tflite2onnx/layout.py:11-17 | equal layouts give the input back unchanged; otherwise defined exactly when the labels are covered and every index is in range, and entry i is the input at the position of output label i |
| Layouts.LastIndexDistinct | tflite2onnx/layout.py:2-5 | with distinct labels, the recorded position of each label is its own index |
| Layouts.GetPermIdentity | tflite2onnx/layout.py:1-8 | `getPerm(a, a)` is the identity permutation for distinct labels |
| Layouts.TransformDefined | tflite2onnx/layout.py:11-17 | between layouts naming the same distinct axes, transforming an input of that rank succeeds, keeps the length, and entry i is the input at the source position of target label i |
| Layouts.TransformRoundTrip | tflite2onnx/layout.py:11-17 | transforming from `a` to `b` and back to `a` returns the original input |
| Layouts.GetPermInverse | tflite2onnx/layout.py:1-8 | `getPerm(b, a)` applied to `getPerm(a, b)` is the identity |
| Layouts.ReindexMultiset | tflite2onnx/layout.py:16 | gathering by an injective in-range index list of full length keeps the multiset of elements |
| Layouts.TransformIsPermutation | tflite2onnx/layout.py:15-17 | between layouts naming the same distinct axes, the result is a permutation of the input |
| Layouts.NewLayout | tflite2onnx/layout.py:21-24 | a fresh layout keeps source and target and is currently in its source order |
| Layouts.GetPermExamples2 | tests/test_layout.py:15-16 | `getPerm('01','01') == [0,1]` and `getPerm('01','10') == [1,0]` |
| Layouts.GetPermExamples4 | tests/test_layout.py:17-19 | the three four-axis `getPerm` cases, including `getPerm('0123','3021') == [3,0,2,1]` |
| Layouts.ChannelsFirst | tflite2onnx/layout.py:11-17 | NHWC to NCHW is defined exactly on inputs of at least four entries and yields `[x0, x3, x1, x2]` |
| Layouts.TransformExamples | tests/test_layout.py:9-10 | `transform([1,2,6,8],'NCHW','NHWC') == [1,6,8,2]` and the reverse gives `[1,8,2,6]` |
| Axes.Normalize | tflite2onnx/op/concat.py:62 | an axis in `[-rank, rank)` becomes a position of the shape, a non-negative axis is kept, and an axis below `-rank` stays negative so its later lookup fails |
| Axes.RemapAxis | tflite2onnx/op/concat.py:61-63 | the remapped axis is a position of the permutation holding the normalised axis; it exists exactly when the normalised axis is in the permutation (else ValueError), and a label missing from the source fails |
| Axes.RemapAxisMeaning | tflite2onnx/op/concat.py:61-63 | for layouts naming the same distinct axes, exactly the axes in `[-rank, rank)` remap, each to the target position of the label the source has at that axis |
| Axes.RemapAxisExtent | tflite2onnx/op/split.py:71-74 | the remapped axis indexes, in the transformed shape, the extent the original axis had |
| Axes.RemapAxes | tflite2onnx/op/reduce.py:72-74 | a list of axes remaps entry by entry, failing when any entry fails |
| Axes.RemapAxesMeaning | tflite2onnx/op/reduce.py:72-74 | every axis of the list lands on the target position of its source label, and the list remaps exactly when every axis is in range |
| Axes.TransformAxisAttr | tflite2onnx/op/concat.py:57-63 | no output is an error; an output without layout leaves the graph unchanged; otherwise only the "axis" attribute changes, to its remapped value, and it fails when the attribute is missing or does not remap |
| Axes.AxisAttrFollowsOutput | tflite2onnx/op/split.py:68-74 | after the transformation the axis attribute selects, in the transformed output shape, the dimension it selected before |
| BinaryOp.PrependOnes | tflite2onnx/op/binary.py:146-149 | inserting `n` ones at the front: `n` ones followed by the original shape |
| BinaryOp.AlignDimension | tflite2onnx/op/binary.py:135-151 | the flag says whether `a` is strictly shorter; the aligned shape has the longer rank and is the shorter shape (`b` on a tie) padded on the left with ones |
| BinaryOp.AlignDimensionExamples | tests/test_layout.py:22-29 | the five `alignDimension` cases of the test suite |
| BinaryOp.AlignTwice | tflite2onnx/op/binary.py:135-151 | aligning the aligned shape again against the longer one changes nothing |
| BinaryOp.PrependOnesDims | tflite2onnx/op/binary.py:146-149 | leading ones change no dimension counted from the right |
| BinaryOp.AlignKeepsBroadcast | tflite2onnx/op/binary.py:46-60 | after alignment the operands have equal rank, broadcast exactly when the originals do, and to the same shape (the "fake broadcasting" the comment promises) |
| BinaryOp.ReshapedTensor | tflite2onnx/op/binary.py:62-69 | `new_t` is named `TFLITE2ONNX_Reshape_<todo>`, copies type, quantization and layout, takes the aligned shape, and is parsed with no edges |
| BinaryOp.ShapeTensor | tflite2onnx/op/binary.py:73-78 | `shape_t` is named `TFLITE2ONNX_NewShape_<todo>`, is an int64 vector of length rank holding the aligned shape, parsed |
| BinaryOp.AddReshapeNodes | tflite2onnx/op/binary.py:62-80 | fails exactly when the aligned tensor's name is already registered; otherwise appends `new_t`, `shape_t` and a fresh Reshape and registers only `new_t` |
| BinaryOp.LinkReshapeInput | tflite2onnx/op/binary.py:83-85 | fails exactly when `self` is not a consumer of `todo`; the Reshape reads `todo` and takes `self`'s place among its consumers, and `self` reads the aligned tensor in place of `todo` |
| BinaryOp.LinkReshapeEdges | tflite2onnx/op/binary.py:87-92 | the Reshape reads the shape constant and produces the aligned tensor, which `self` consumes |
| BinaryOp.FinishReshape | tflite2onnx/op/binary.py:93-95 | the Reshape is parsed and appended to `self`'s pre helpers; nothing else changes |
| BinaryOp.LinkReshape | tflite2onnx/op/binary.py:83-93 | all the Reshape's edges in source order, failing exactly when `self` does not consume `todo` |
| BinaryOp.Reroute | tflite2onnx/op/binary.py:62-95 | the whole rewrite succeeds exactly when the aligned name is free and `self` consumes `todo`, and leaves the arena as the reference rerouting |
| BinaryOp.NodesThenLinks | tflite2onnx/op/binary.py:62-95 | the step-by-step rewrite meets the one-shot reference definition of the rerouted graph |
| BinaryOp.FakeBroadcast | tflite2onnx/op/binary.py:46-95 | equal ranks leave the graph untouched; otherwise it succeeds exactly when the aligned rank equals the output's, the aligned name is free and `self` consumes the operand it drops, and then the graph is rerouted |
| BinaryOp.ReroutedShapes | tflite2onnx/op/binary.py:84-91 | rerouting replaces the first `todo` input by the aligned tensor, whose shape is the aligned shape, and changes no existing shape |
| BinaryOp.ReroutedOperands | tflite2onnx/op/binary.py:46-95 | after rerouting, both operands of `self` have the rank of its output and broadcast to the shape the original operands did |
| BinaryOp.BroadcastedOperands | tflite2onnx/op/binary.py:46-95 | the same, for a graph that fake broadcasting produced |
| BinaryOp.ReadOperands | tflite2onnx/op/binary.py:107-118 | the tensors registered for TFLite inputs 0 and 1 become the operator's next two inputs, in that order, and the one for output 0 its next output, produced by the operator alone; nothing else of the operator changes |
| BinaryOp.ParseBinary | tflite2onnx/op/binary.py:97-129 | success implies an ADD or MUL entry with exactly two inputs and one output; the operator is parsed with its kind and attributes kept and delivers TFLite output 0 through its fused activation; for a fresh operator its two operands have equal rank and each is TFLite input 0 or 1 itself or the Reshape of it, the Reshape present exactly when the ranks differed, with the broadcast shape unchanged |
| BinaryOp.BroadcastAligned | tflite2onnx/op/binary.py:46-60 | after fake broadcasting, the two operands have equal rank, each stands for TFLite input 0 or 1 in order, a Reshape is in front exactly when the ranks differed, and the broadcast shape is the original one |
| BinaryOp.BroadcastWiring | tflite2onnx/op/binary.py:62-95 | fake broadcasting of operands of different rank registers exactly one new name, keeps every old shape and the operator's index, and leaves two operands, one of them new, each leading back to the original operand in its place |
| BinaryOp.ReroutedUnaligned | tflite2onnx/op/binary.py:83-95 | after rerouting, each operand leads back to the original operand in its place, and one of them is new |
| BinaryOp.SplicedAligned | tflite2onnx/op/binary.py:127-129 | splicing the fused activation and marking the operator parsed keep its aligned operands |
| Activation.FusedOpcode | tflite2onnx/op/activation.py:11-14 | only RELU and RELU6 fused activations have an operator (else KeyError), RELU mapping to RELU and RELU6 to RELU6 |
| Activation.ReLUTypeName | tflite2onnx/op/activation.py:16-19 | only the RELU and RELU6 opcodes have an ONNX type, `Relu` and `Clip` |
| Activation.ReLUType | tflite2onnx/op/activation.py:30-42 | an uninitialized operator reports `Relu-family`; otherwise the preset opcode, when there is one, decides, and else the TFLite operator's opcode, which must be in the table |
| Activation.ScalarLike | tflite2onnx/tensor.py:206-208 | a scalar like `ref` exists exactly when `ref` has a known element type, and is `createScalar` of that type's name; the graph only grows |
| Activation.LinkBound | tflite2onnx/op/activation.py:69-74 | the bound is the scalar registered under its name (the existing one when present, a new tensor holding the value otherwise), is appended to the activation's inputs, and the activation consumes it |
| Activation.LinkClipBounds | tflite2onnx/op/activation.py:68-74 | a RELU6 reads two further inputs, the registered scalars 0 and 6 of the element type |
| Activation.ParseReLU | tflite2onnx/op/activation.py:52-82 | success implies a RELU or RELU6 entry with one input and one output; the operator is parsed with kind and attributes kept, its next input is the tensor of TFLite input 0 (then the scalars 0 and 6 of its type for RELU6) and its next output the tensor of TFLite output 0 |
| Activation.FafName | tflite2onnx/op/activation.py:134 | the in-between name is `TFLITE2ONNX_FAF_` followed by the output's name, which can be read back from it; it is never the output's own name |
| Activation.FafTensor | tflite2onnx/op/activation.py:133-140 | the in-between tensor is `TFLITE2ONNX_FAF_<output>`, copies type, quantization, layout and shape of `output`, and is parsed with no data or edges |
| Activation.SpliceTensor | tflite2onnx/op/activation.py:130-145 | succeeds exactly when `output` is parsed, the new name is free and `intermediate` produces `output`; the new tensor is registered, replaces `output` among `intermediate`'s outputs and has `intermediate` as producer |
| Activation.ActivationOp | tflite2onnx/op/activation.py:148-160 | a new ReLU with the preset opcode reads the in-between tensor first (then the bounds 0 and 6 for RELU6) and is among its consumers; a plain RELU cannot fail |
| Activation.Rewire | tflite2onnx/op/activation.py:162-169 | succeeds exactly when `output`'s producers are `[intermediate]`; the activation then produces `output`, is parsed and becomes a post helper of `master` |
| Activation.HandleFusedActivation | tflite2onnx/op/activation.py:100-171 | no fused activation leaves the graph unchanged; an unknown one, an unparsed output, a taken name or a wrong edge fails; a RELU splice succeeds when its guard holds; success yields `intermediate -> FAF tensor -> activation -> output` with the activation a post helper of `master`, and leaves everything else of `master` and of existing tensors but their edges alone |
| Activation.StepsSplice | tflite2onnx/op/activation.py:130-169 | the three steps together meet the reference description of a spliced graph |
| Activation.SplicedDelivers | tflite2onnx/op/activation.py:130-169 | after a splice behind the master, its last post helper is the ReLU or Clip of the fused activation, producing the original output from a tensor the master writes |
| Activation.HandledDelivers | tflite2onnx/op/activation.py:100-171 | handling the fused activation and marking the master parsed leave TFLite output 0 delivered: by the master itself without an activation, by its last post helper with one |
| Activation.FusedParsed | tflite2onnx/op/activation.py:100-171 | a converter that read its inputs still reads them in order after the fused activation is handled, and delivers its output |
| Tensors.NewTensor | tflite2onnx/tensor.py:14-32 | a new tensor has no shape, type or data, scale 1.0 and zero point 127, the given layout and bias flag, no edges, and is initialized |
| Tensors.AddProducer | tflite2onnx/tensor.py:38-41 | only a tensor without producer accepts one, and then has exactly that producer |
| Tensors.RemoveProducer | tflite2onnx/tensor.py:43-46 | succeeds exactly when `op` is the single producer, leaving none |
| Tensors.ReplaceProducer | tflite2onnx/tensor.py:48-51 | succeeds exactly when `original` is the single producer, which becomes `new` |
| Tensors.AddConsumer | tflite2onnx/tensor.py:53-55 | rejects an operator already consuming; otherwise appends it last |
| Tensors.RemoveConsumer | tflite2onnx/tensor.py:57-59 | succeeds exactly when `op` consumes; drops its first occurrence, one fewer consumer |
| Tensors.ReplaceConsumer | tflite2onnx/tensor.py:61-66 | succeeds exactly when `original` consumes; its first occurrence becomes `new` and every other position is kept |
| Tensors.ProducerRoundTrip | tflite2onnx/tensor.py:38-46 | adding a producer then removing it restores the tensor |
| Tensors.ConsumerRoundTrip | tflite2onnx/tensor.py:53-59 | adding a consumer then removing it restores the tensor |
| Tensors.ReplaceConsumerRoundTrip | tflite2onnx/tensor.py:61-66 | replacing a consumer by a new one and back restores the tensor |
| Tensors.ConsumersStayDistinct | tflite2onnx/tensor.py:53-66 | consumer lists stay duplicate-free under `addConsumer`, and under replacement by an operator not yet there |
| Tensors.IsInitializer | tflite2onnx/tensor.py:34-36 | a tensor is an initializer exactly when it holds constant data; `Tensors.Validate` and `Graphs.Partition` are its partners |
| Tensors.Validate | tflite2onnx/tensor.py:131-136 | passes exactly when the tensor has no producer if it holds data, at most one otherwise, and a non-empty name |
| Tensors.ValidateAfterAddProducer | tflite2onnx/tensor.py:38-41 | a named tensor that just got its producer validates exactly when it holds no constant data |
| Tensors.Quantized | tflite2onnx/tensor.py:68-76 | only a UINT8 or INT32 tensor is quantized; an INT32 tensor only when it is a bias; a tensor read from the model never without a quantization record; a helper tensor of type UINT8 always |
| Tensors.Dequantize | tflite2onnx/tensor.py:78-87 | a tensor that is not quantized is untouched; a quantized one becomes FLOAT and no longer quantized, and each constant element `q` becomes `(q - zero_point) * scale`; nothing else changes |
| Tensors.DequantizeIdempotent | tflite2onnx/tensor.py:78-87 | dequantizing twice is dequantizing once |
| Tensors.IsScalar | tflite2onnx/tensor.py:89-91 | true exactly for a tensor without layout, of rank 0, holding one element; it raises exactly when such a tensor has no data (the length of `None`) |
| Tensors.AsDtype | tflite2onnx/tensor.py:93-96 | fails exactly on an unknown type name; otherwise sets the type code and casts every constant element, keeping whether data exists |
| Tensors.AsDtypeIdempotent | tflite2onnx/tensor.py:93-96 | casting to the same type twice is casting once |
| Tensors.TransformTensor | tflite2onnx/tensor.py:121-129 | succeeds exactly for a parsed tensor with a layout whose transformation of the shape is defined; the shape is reordered and the layout marked as being in its target order |
| Tensors.TransformTensorPermutes | tflite2onnx/tensor.py:121-129 | with a layout naming the same distinct axes twice and a matching rank, the transformation succeeds and the new shape is a permutation of the old |
| Tensors.Parse | tflite2onnx/tensor.py:98-119 | a parsed tensor is untouched; otherwise it succeeds exactly for an initialized model tensor of supported type whose quantization, when quantized, is per-tensor, and it copies name, shape, type, data and (only when quantized) scale and zero point from the entry |
| Tensors.ReadQuantization | tflite2onnx/tensor.py:110-114 | succeeds exactly for one scale and one zero point, which it stores |
| Tensors.ParseIdempotent | tflite2onnx/tensor.py:98-100 | parsing twice is parsing once |
| Factory.Get | tflite2onnx/tensor.py:174-184 | succeeds exactly for an index of the subgraph; the name maps to the returned tensor; a known name returns its tensor and only fills a missing layout; a new name appends a fresh initialized tensor with the given layout and bias flag |
| Factory.GetTwiceSameTensor | tflite2onnx/tensor.py:174-184 | asking twice for the same TFLite tensor yields the same object |
| Factory.GetKeepsFirstLayout | tflite2onnx/tensor.py:182-183 | a layout given at the first request is never overwritten by a later request |
| Factory.GetWithRef | tflite2onnx/tensor.py:186-204 | fails exactly when the name exists and uniqueness is forced; an existing name returns its tensor unchanged; a new one appends a helper copying type, layout, shape and quantization of `ref` |
| Factory.Constant | tflite2onnx/tensor.py:238-246 | a constant is shared by name: an existing name returns its tensor and changes nothing; a new one (which needs a known type name) appends and registers a parsed constant with the data, type and shape |
| Factory.ConstantTensor | tflite2onnx/tensor.py:240-244 | the constant has the name, type, data and shape given, no layout or edges, and is parsed |
| Factory.ScalarName | tflite2onnx/tensor.py:207 | the name is `TFLITE2ONNX_Scalar_` followed by the type name, `_` and the value's text |
| Factory.VectorName | tflite2onnx/tensor.py:211-213 | the name is `TFLITE2ONNX_Vector_` followed by the type name, `_` and the rendered elements |
| Factory.ScalarVectorApart | tflite2onnx/tensor.py:207-213 | a scalar and a vector never share a registry name |
| Factory.CreateScalar | tflite2onnx/tensor.py:206-208 | the scalar is the tensor registered as `TFLITE2ONNX_Scalar_<type>_<value>`; a new one holds `[value]` with empty shape and the type's code |
| Factory.CreateVector | tflite2onnx/tensor.py:210-222 | the vector is the tensor registered under its rendered name; a new one holds the elements with shape `[len]` |
| Factory.CreateEmptyTensor | tflite2onnx/tensor.py:224-236 | always succeeds: the float32 tensor `TFLITE2ONNX_EmptyTensor` of shape `[0]` and no elements |
| Factory.CreateQuantScale | tflite2onnx/tensor.py:248-253 | always succeeds with the float32 scalar of the tensor's scale |
| Factory.CreateQuantZeroPoint | tflite2onnx/tensor.py:255-261 | succeeds exactly for a zero point in [0, 255], with the uint8 scalar holding it |
| Factory.ScalarShared | tflite2onnx/tensor.py:238-246 | asking again for the same scalar returns the tensor registered the first time and changes nothing |
| Factory.IntData | tflite2onnx/tensor.py:263-279 | reading an index outside the subgraph fails; an empty buffer reads as `None`; a read buffer holds exactly the returned integers |
| Factory.IntDataOfInts | tflite2onnx/tensor.py:263-279 | a buffer holding integers reads back as those integers |
| Factory.ParseAt | tflite2onnx/tensor.py:98-119 | parsing the tensor at a handle succeeds exactly when `Tensor.parse` does and replaces only that tensor |
| Factory.SetParsedAt | tflite2onnx/common.py:67-69 | succeeds exactly for an initialized tensor, which becomes parsed; nothing else changes |
| Lifecycle.Code | tflite2onnx/common.py:5-19 | each status has its own code: 0 exactly for UNINITIALIZED, 1 INITIALIZED, 2 PARSED, 3 CONVERTED, 10 INVALID |
| Lifecycle.StatusOf | tflite2onnx/common.py:5-19 | `Status(c)` is defined exactly for the codes 0 to 3 and 10 |
| Lifecycle.StatusOfCode | tflite2onnx/common.py:5-19 | looking up a status's code gives the status back, and a code that looks up a status is that status's code |
| Lifecycle.SetInited | tflite2onnx/common.py:60-62 | allowed exactly from UNINITIALIZED, moving one step forward |
| Lifecycle.SetParsed | tflite2onnx/common.py:67-69 | allowed exactly from INITIALIZED, moving one step forward |
| Lifecycle.SetConverted | tflite2onnx/common.py:74-76 | allowed exactly from PARSED, moving one step forward |
| Lifecycle.SetInvalid | tflite2onnx/common.py:78-79 | allowed from every status, ending at INVALID (10) |
| Lifecycle.Step | tflite2onnx/common.py:60-79 | INVALID is always reachable; any other successful step starts live and advances the code by exactly one; a step fails only by a failed assertion |
| Lifecycle.Run | tflite2onnx/common.py:60-79 | no transitions keep the status; a run fails only by a failed assertion; once INVALID an object stays INVALID |
| Lifecycle.RunNeverMovesBackwards | tflite2onnx/common.py:60-79 | a run of transitions that ends live started live and advanced by exactly one per step |
| Lifecycle.OnlyPathToConverted | tflite2onnx/common.py:60-76 | from a fresh object, the only run reaching CONVERTED is inited, parsed, converted |
| Dtypes.ToMapKeys | tflite2onnx/mapping.py:21-30 | the keys of a dict literal are exactly the keys of its items |
| Dtypes.ToMapLast | tflite2onnx/mapping.py:21-30 | a key maps to the value of its last item |
| Dtypes.ToMap | tflite2onnx/mapping.py:21-30 | a dict literal has at most one entry per item: a repeated key keeps one entry |
| Dtypes.InverseDictKeys | tflite2onnx/mapping.py:5-6 | the keys of `inverseDict(d)` are exactly the values of `d` |
| Dtypes.InverseDictInverts | tflite2onnx/mapping.py:5-6 | for an injective dict, `inverseDict(d)[d[k]] == k` and `d[inverseDict(d)[v]] == v` |
| Dtypes.InverseDict | tflite2onnx/mapping.py:5-6 | `inverseDict(d)` has at most as many entries as `d`: values that repeat collapse into one key |
| Dtypes.AllItemsLookup | tflite2onnx/mapping.py:5-6 | every item of an injective dict literal is found under its key in the dict and under its value in the inverse |
| Dtypes.BuildIndirectMapping | tflite2onnx/mapping.py:9-18 | succeeds exactly when the sizes agree, the dicts are non-empty and every value of `a` is a key of `b`; the result has the keys of `a` and sends `x` to `b[a[x]]` |
| Dtypes.NameTablesInjective | tflite2onnx/mapping.py:21-43 | the ONNX and the TFLite name tables are injective |
| Dtypes.NameTableSizes | tests/test_mapping.py:4-10 | the four name tables have 8 entries each |
| Dtypes.OnnxToName | tflite2onnx/mapping.py:21-30 | every ONNX type code listed in `DTYPE_ONNX2NAME` maps to the dtype name it is listed with |
| Dtypes.NameToOnnx | tflite2onnx/mapping.py:32 | every dtype name listed in `DTYPE_ONNX2NAME` finds the ONNX code it is listed with |
| Dtypes.TfliteToName | tflite2onnx/mapping.py:34-43 | every TFLite type code listed in `DTYPE_TFLITE2NAME` maps to the dtype name it is listed with |
| Dtypes.NameToTflite | tflite2onnx/mapping.py:45 | every dtype name listed in `DTYPE_TFLITE2NAME` finds the TFLite code it is listed with |
| Dtypes.TfliteToOnnx | tflite2onnx/mapping.py:47 | the table is defined when the module loads, and a TFLite code converts to the ONNX code that carries the same dtype name |
| Dtypes.OnnxToTflite | tflite2onnx/mapping.py:48 | the table is defined when the module loads, and an ONNX code converts to the TFLite code that carries the same dtype name |
| Dtypes.ComposeThroughInverse | tflite2onnx/mapping.py:47-48 | two injective tables listing the same names compose, through the inverse of the second, into the table pairing their codes, with one entry per name |
| Dtypes.MutualInverse | tflite2onnx/mapping.py:47-48 | two maps that pair the same codes in both directions are mutual inverses |
| Dtypes.IndirectInverse | tflite2onnx/mapping.py:47-48 | composing in both directions gives two defined tables that undo each other |
| Dtypes.IndirectUndo | tflite2onnx/mapping.py:47-48 | both composed tables are defined, the first has one entry per name, and the second undoes the first |
| Dtypes.DirectTablesInverse | tests/test_mapping.py:4-10 | `DTYPE_TFLITE2ONNX` and `DTYPE_ONNX2TFLITE` are defined, have 8 entries, and are mutual inverses |
| Dtypes.TfliteToOnnxTable | tflite2onnx/mapping.py:47 | the table the module builds at load time, of 8 entries |
| Dtypes.OnnxCode | tflite2onnx/mapping.py:32 | a name has an ONNX code exactly when it is one of the eight table names, and the code is one the tables know |
| Dtypes.OnnxName | tflite2onnx/mapping.py:21-30 | a code has a name exactly when it is one of the eight ONNX codes, and the name is a table name |
| Dtypes.NameCodeRoundTrip | tflite2onnx/mapping.py:21-32 | looking up the name of a known code and then its code gives the code back |
| Dtypes.OnnxCodeIsTable | tflite2onnx/mapping.py:32 | the lookup of a name agrees with the dict `DTYPE_NAME2ONNX` |
| Dtypes.OnnxNameIsTable | tflite2onnx/mapping.py:21-30 | the lookup of a code agrees with the dict `DTYPE_ONNX2NAME` |
| Ir.Register | tflite2onnx/tensor.py:179 | `registery[name] = t` keeps the graph's reference invariant and changes only the entry of that name |
| Ir.AppendInput | tflite2onnx/op/common.py:71 | `o.inputs.append(t)` keeps the reference invariant and only appends `t` to that operator's inputs |
| Ir.AppendOutput | tflite2onnx/op/common.py:79 | `o.outputs.append(t)` keeps the reference invariant and only appends `t` to that operator's outputs |
| Ir.AppendPre | tflite2onnx/op/squareddifference.py:94 | `o.pre.append(h)` for a helper created after `o` keeps the reference invariant (helpers come after their owner) and only appends `h` to `o`'s pre helpers |
| Ir.AppendPost | tflite2onnx/op/activation.py:169 | `o.post.append(h)` for a helper created after `o` keeps the reference invariant and only appends `h` to `o`'s post helpers |
| Ir.AddConsumerAt | tflite2onnx/tensor.py:53-55 | on a tensor of the graph: fails exactly when the operator already consumes it, else appends it to that tensor's consumers only |
| Ir.RemoveConsumerAt | tflite2onnx/tensor.py:57-59 | on a tensor of the graph: fails exactly when the operator does not consume it, else drops its first occurrence |
| Ir.ReplaceConsumerAt | tflite2onnx/tensor.py:61-66 | on a tensor of the graph: fails exactly when `original` does not consume it, else swaps its first occurrence |
| Ir.AddProducerAt | tflite2onnx/tensor.py:38-41 | on a tensor of the graph: fails exactly when it already has a producer |
| Ir.ReplaceProducerAt | tflite2onnx/tensor.py:48-51 | on a tensor of the graph: fails exactly unless `original` is its single producer |
| Ir.ReplaceInputAt | tflite2onnx/op/common.py:82-88 | fails exactly when `original` is not an input; otherwise its first occurrence becomes the replacement |
| Ir.ReplaceOutputAt | tflite2onnx/op/common.py:90-96 | fails exactly when `original` is not an output; otherwise its first occurrence becomes the replacement |
| Ir.LinkInput | tflite2onnx/op/activation.py:65-66 | `t.addConsumer(o); o.inputs.append(t)` fails exactly when `o` already consumes `t`, and otherwise only grows the graph |
| Ir.LinkOutput | tflite2onnx/op/activation.py:79-80 | `t.addProducer(o); o.outputs.append(t)` fails exactly when `t` already has a producer |
| Ir.LinkInputKeepsMutual | tflite2onnx/op/activation.py:65-66 | a new input edge, linked in both directions, keeps the producer/consumer references consistent with the operators' tensor lists |
| Ir.LinkOutputKeepsMutual | tflite2onnx/op/activation.py:79-80 | a new output edge, linked in both directions, keeps the references consistent |
| Operators.NewOperator | tflite2onnx/op/common.py:13-21 | a new operator has no tensors or helpers, its class's initial attributes, is initialized, and (with the name fix below) starts unnamed on the newer base |
| Operators.NewOperatorAsWritten | tflite2onnx/common.py:46-55 | as written, every operator starts with the placeholder name `Unintialized` |
| Operators.NameOnParse | tflite2onnx/op/common.py:98-106 | a name already set is kept; an unnamed operator takes the name of its first output, failing without outputs |
| Operators.ParsedNameAsWritten | tflite2onnx/op/common.py:105 | as written the fallback never fires: a constructed operator keeps the placeholder name through parsing whatever its outputs |
| Operators.ParsedNameCorrected | tflite2onnx/op/common.py:105 | with the name left unset at construction, a newer-base operator is named after its first output |
| Operators.ReplaceInput | tflite2onnx/op/common.py:82-88 | succeeds exactly when `original` is an input; its first occurrence becomes the replacement, every other position is kept |
| Operators.ReplaceOutput | tflite2onnx/op/common.py:90-96 | the same on the outputs |
| Operators.ScanReplace | tflite2onnx/op/operator.py:29-35 | the scan overwrites the first identical element and fails with an assertion exactly when none is found |
| Operators.LegacyReplaceInput | tflite2onnx/op/operator.py:29-35 | the older base's `replaceInput` agrees with the newer one on every input |
| Operators.LegacyReplaceOutput | tflite2onnx/op/operator.py:37-43 | the older base's `replaceOutput` agrees with the newer one on every input |
| Operators.ReplaceInputRoundTrip | tflite2onnx/op/common.py:82-88 | replacing an input by a tensor that is not an input, and back, restores the operator |
| Operators.Validate | tflite2onnx/op/common.py:108-109 | passes exactly when the operator produces something |
| Operators.Propagatable | tflite2onnx/op/common.py:27-48 | layout-transparent classes propagate across all their tensors; Padding and Slice across their first input and output only, failing when either is missing; every other class across none |
| Operators.PropagatableAreOwnTensors | tflite2onnx/op/common.py:27-48 | a layout only propagates to the operator's own tensors, to none across a barrier class, and to all of them or exactly two otherwise |
| OpCommon.DataAttr | tflite2onnx/op/reduce.py:62 | an attribute read from a constant is `None` exactly when the constant holds no data, and otherwise its integers |
| OpCommon.OpEntry | tflite2onnx/op/common.py:16 | a helper operator (negative index) has no TFLite entry; any other index inside the subgraph has its entry |
| OpCommon.InputIndex | tflite2onnx/op/common.py:67 | `self.tflite.Inputs(i)` is defined exactly for an operator of the subgraph with more than `i` inputs |
| OpCommon.OutputIndex | tflite2onnx/op/common.py:75 | `self.tflite.Outputs(i)` is defined exactly for an operator of the subgraph with more than `i` outputs |
| OpCommon.FetchTensor | tflite2onnx/op/common.py:68-69 | `get` then `parse` yields the tensor registered under the entry's name, parsed, with the layout asked for unless it had one, adding no edge and changing no other tensor, binding no name but the entry's |
| OpCommon.ParseAtKeepsParsed | tflite2onnx/tensor.py:98-119 | parsing one tensor keeps every parsed tensor and the layout and edges of the tensor parsed |
| OpCommon.GetKeepsParsed | tflite2onnx/tensor.py:174-184 | a registry lookup keeps every parsed tensor and every edge; it fills a missing layout at most |
| OpCommon.FetchInput | tflite2onnx/op/common.py:67-69 | the tensor at input position `i`, registered and parsed, without a new edge, binding no name but that input's |
| OpCommon.ParseInput | tflite2onnx/op/common.py:66-72 | `parseInput`: the tensor registered under the name of TFLite input `i` (the existing one, or a new one holding its buffer) is parsed, appended to the operator's inputs, and the operator becomes one of its consumers; its producers are untouched, and no other name changes its entry in the registry |
| OpCommon.FetchOutput | tflite2onnx/op/common.py:75-77 | the tensor at output position `i`, registered and parsed, without a new edge |
| OpCommon.ParseOutput | tflite2onnx/op/common.py:74-80 | `parseOutput`: the tensor registered under the name of TFLite output `i` (existing or new) is parsed, appended to the operator's outputs, and has the operator as its single producer; its consumers are untouched |
| OpCommon.ParseInputKeepsMutual | tflite2onnx/op/common.py:66-72 | `parseInput` keeps the producer/consumer references consistent with the operators' tensor lists |
| OpCommon.ParseOutputKeepsMutual | tflite2onnx/op/common.py:74-80 | `parseOutput` keeps the references consistent |
| OpCommon.ParseInputs | tflite2onnx/op/concat.py:32-37 | `parseInput(i)` for every `i < n`: the operator's inputs grow by the parsed tensors of TFLite inputs 0 to `n - 1`, in that order, and nothing else of the operators changes |
| OpCommon.ParseOutputs | tflite2onnx/op/split.py:60-61 | `parseOutput(i)` for every `i < n`: the operator's outputs grow by the parsed tensors of TFLite outputs 0 to `n - 1`, in that order, and nothing else of the operators changes |
| OpCommon.ParseInputOutput | tflite2onnx/op/common.py:66-80 | the tensors of TFLite input 0 and output 0 are appended, both parsed; the operator consumes the input and alone produces the output, and no other tensor object is created |
| OpCommon.SameEdgesMutual | tflite2onnx/tensor.py:174-184 | lookups and parsing, which only add edgeless tensors, keep the references consistent |
| OpCommon.SetOpParsed | tflite2onnx/op/common.py:98-106 | succeeds exactly for an initialized operator that can be named; it is named and marked parsed |
| OpCommon.SetOpParsedNamesAfterOutput | tflite2onnx/op/common.py:98-106 | a newer-base operator that started unnamed is named after its first output |
| OpCommon.TypeMapping | tflite2onnx/op/common.py:11 | the opcodes a converter class claims are distinct |
| OpCommon.RegisterConverter | tflite2onnx/op/common.py:136-141 | succeeds exactly when none of the class's opcodes is taken; then exactly the old opcodes and the class's opcodes are bound, the new ones to the class and the old ones unchanged |
| OpCommon.Create | tflite2onnx/op/common.py:148-159 | succeeds exactly for an operator whose opcode is registered, appending a new operator of the registered class; an unregistered builtin is unsupported and any other unregistered opcode a bad value |
| OpCommon.SquaredDifferenceClash | tflite2onnx/op/common.py:136-141 | the two SquaredDifference converters claim the same opcode: the second registration fails |
| ConcatOp.ReadConcat | tflite2onnx/op/concat.py:32-48 | every input is read in order and linked, the "axis" attribute takes the option's axis, and the output is read and produced by the operator alone |
| ConcatOp.ParseConcat | tflite2onnx/op/concat.py:23-52 | success implies a CONCATENATION entry with at least one input and exactly one output; the operator is parsed, reads the tensors of every TFLite input in order, has "axis" set to the option's axis, and delivers TFLite output 0 through its fused activation |
| ConvOp.OpcodeCheckAcceptsAll | tflite2onnx/op/conv.py:50 | the opcode check as written accepts every opcode, ADD included, which is not a convolution |
| ConvOp.ConvType | tflite2onnx/op/conv.py:33-38 | since `quantized` returns False first, the type is always `Conv`, never `QLinearConv` |
| ConvOp.Spatial | tflite2onnx/op/conv.py:95 | `shape[1:3]` of an NHWC shape is its height and width |
| ConvOp.ConvAttributes | tflite2onnx/op/conv.py:93-103 | the attributes exist exactly when a depthwise input has a channel axis and multiplier 1 and the padding computation succeeds; group is the input channels for depthwise and 1 otherwise; kernel, strides, dilations and pads are as computed |
| ConvOp.ConvAttributesOfImage | tflite2onnx/op/conv.py:93-103 | for 4-D shapes, non-zero strides and a known scheme the attributes exist, and the pads add up per axis to the total padding, split with the odd unit at the end |
| ConvOp.ReadTwoInputs | tflite2onnx/op/conv.py:57-70 | the input and weight are read with their layouts, linked as the next two inputs, and get those layouts when new |
| ConvOp.ReadOutputBias | tflite2onnx/op/conv.py:72-86 | the output is read with its layout and produced by the operator alone; the bias is read without layout, flagged as bias, and linked |
| ConvOp.ReadWeighted | tflite2onnx/op/conv.py:56-86 | input, weight and bias become the next three inputs and the output the next output; new tensors get the layouts asked for, the bias none and the bias flag |
| ConvOp.ConvBody | tflite2onnx/op/conv.py:56-103 | the operator's next three inputs are the tensors registered for TFLite inputs 0, 1 and 2 and its next output the one for output 0; it gains exactly the attributes computed from the shapes of that input and weight |
| ConvOp.AttachAttributes | tflite2onnx/op/conv.py:93-103 | fails exactly when the attributes cannot be computed; otherwise only the operator's attributes change, merged with them |
| ConvOp.ParseConv | tflite2onnx/op/conv.py:46-107 | success implies a convolution (checked as intended) with three inputs, one output and, for depthwise, multiplier 1; the operator is parsed, its next three inputs are the tensors of TFLite inputs 0, 1 and 2, it delivers TFLite output 0 through its fused activation, keeps its pre helpers, and carries the computed attributes |
| ConvTransposeOp.ConvTransposeAttributes | tflite2onnx/op/conv_transpose.py:61-76 | exist exactly for an output with four axes and a known padding scheme; the output shape is channels-first, dilations unit, one group, auto_pad the scheme's spelling, kernel and strides as read |
| ConvTransposeOp.OutputShapeRestores | tflite2onnx/op/conv_transpose.py:59-71 | the output-shape attribute transformed back to channels-last is the output's shape |
| ConvTransposeOp.ReadOutput | tflite2onnx/op/conv_transpose.py:59-60 | the tensor registered for TFLite output 0 is read with the image layout, becomes the next output and is produced by the operator alone |
| ConvTransposeOp.ReadConvTranspose | tflite2onnx/op/conv_transpose.py:50-60 | X, the tensor of TFLite input 2, with the image layout, W, the tensor of TFLite input 1, with the depthwise filter layout, and the tensor of TFLite output 0 with the image layout, linked in that order |
| ConvTransposeOp.ParseConvTranspose | tflite2onnx/op/conv_transpose.py:40-78 | success implies a TRANSPOSE_CONV with three inputs and one output; the operator's next two inputs are the tensors of TFLite inputs 2 and 1, its next output that of output 0; it is parsed, and its attributes are those computed from W and the output |
| FullyConnectedOp.GemmType | tflite2onnx/op/fullyconnected.py:24-26 | the ONNX type is always Gemm |
| FullyConnectedOp.GemmDefaults | tflite2onnx/op/fullyconnected.py:12-22 | exactly the four Gemm attributes: unit alpha and beta, A as is and B transposed |
| FullyConnectedOp.ParseFullyConnected | tflite2onnx/op/fullyconnected.py:28-77 | success implies a FULLY_CONNECTED with three inputs, one output, and plain options; the operator is parsed with its attributes unchanged, keeps its pre helpers and its earlier inputs, gains the tensors of TFLite inputs 0, 1 and 2 in order, and delivers TFLite output 0 through its fused activation |
| PadOp.AutoPad | tflite2onnx/op/padding.py:9-12 | only SAME and VALID have an auto_pad spelling, `SAME_UPPER` and `VALID` |
| PadOp.TruncDiv | tflite2onnx/op/padding.py:98-103 | numpy's true division followed by `astype('int')` rounds toward zero: the quotient is Euclidean for natural operands, and in general falls short of the dividend in magnitude by less than one divisor, with the dividend's sign |
| PadOp.EffectiveSize | tflite2onnx/op/padding.py:95-96 | without dilation the extent is the kernel itself; a dilated kernel spans at least the kernel and at most `kernel * dilation` |
| PadOp.OutputSize | tflite2onnx/op/padding.py:97-103 | under SAME with a positive stride the output has `ceil(input / stride)` positions; under VALID, when a window fits, it has at least one position and exactly as many as there are window positions that fit |
| PadOp.AxisTotal | tflite2onnx/op/padding.py:105-109 | the total padding of an axis is never negative, covers what the windows of the output extent reach past the input (so under SAME the padded input is just long enough for the last window), and is zero under VALID when a window fits |
| PadOp.ComputePaddingSize | tflite2onnx/op/padding.py:89-116 | succeeds exactly when all four lists have the same length, the mode is SAME or VALID and no stride is zero (a length mismatch is an assertion); the result lists all begins then all ends, each axis's pair summing to its total with the odd unit at the end |
| PadOp.PaddingOf2D | tflite2onnx/op/padding.py:89-116 | for the two spatial axes the padding has four entries, begins before ends, each pair summing to the axis total |
| PadOp.PaddingSizeExample | tests/test_padding.py:10-17 | SAME padding of a 10x10 input with a 3x3 kernel pads one element on every side |
| PadOp.Column | tflite2onnx/op/padding.py:79-80 | column `c` of a row-major `[n, 2]` matrix: entry `i` is `pads[2*i + c]` |
| PadOp.TransformPads | tflite2onnx/op/padding.py:68-85 | only a `[n, 2]` matrix can be reordered; without a layout the begins come first and then the ends, each in axis order |
| PadOp.TransformPadsPermutes | tflite2onnx/op/padding.py:78-83 | with a layout, axis `i` of the target order receives the begin and the end of axis `perm[i]` of the source order |
| PadOp.TransformPadsKeepsValues | tflite2onnx/op/padding.py:76-77 | without a layout the reordering is a permutation of the pads |
| PadOp.ColumnsKeepValues | tflite2onnx/op/padding.py:79-83 | the two columns of a matrix of pairs together hold exactly its values |
| PadOp.ReadPads | tflite2onnx/op/padding.py:51-59 | the tensors of TFLite inputs 0 and 1, data and pads, become the next two inputs and no registered name changes its tensor; the pads must be a constant `[rank, 2]` matrix, rank being the data's, and are converted to int64 |
| PadOp.ReadPadding | tflite2onnx/op/padding.py:51-61 | the tensors of TFLite inputs 0 and 1 become the next two inputs and that of output 0 the next output, produced by the operator; the pads are the constant int64 `[rank, 2]` matrix `ReadPads` demands |
| PadOp.ParsePadding | tflite2onnx/op/padding.py:37-63 | success implies a PAD or MIRROR_PAD with two inputs and one output; the next two inputs are the tensors of TFLite inputs 0 and 1 and the next output that of output 0; the mode is `reflect` for MIRROR_PAD and `constant` otherwise; the operator is parsed with its pads a constant int64 `[rank, 2]` matrix |
| PadOp.TransformPadding | tflite2onnx/op/padding.py:68-85 | succeeds exactly when the pads input holds data that can be reordered; only the pads tensor changes, to the reordered vector of shape `[2n]` |
| PoolingOp.PoolingTypeOf | tflite2onnx/op/pooling.py:13-16 | only AVERAGE_POOL_2D and MAX_POOL_2D have a type, `AveragePool` and `MaxPool` |
| PoolingOp.PoolingType | tflite2onnx/op/pooling.py:30-38 | `Pooling` before initialization, afterwards the type of the operator's opcode, which must be a pooling one |
| PoolingOp.PoolingAttributes | tflite2onnx/op/pooling.py:59-61 | exist exactly for a known padding scheme: auto_pad its spelling, kernel the filter extent, strides as read |
| PoolingOp.PoolingAttributesOverride | tflite2onnx/op/pooling.py:22-61 | parsing overwrites every constructor default: a new pooling operator ends with exactly the attributes of its options |
| PoolingOp.ReadPooling | tflite2onnx/op/pooling.py:49-68 | the tensors registered for TFLite input 0 and output 0 are read with the image layout (when new) and become the next input and output; the output is produced by the operator alone |
| PoolingOp.ParsePooling | tflite2onnx/op/pooling.py:40-72 | success implies a pooling opcode with one input and one output and a known padding; the operator is parsed, its next input is the tensor of TFLite input 0, it delivers TFLite output 0 through its fused activation, keeps its pre helpers, and carries the options' attributes over its own |
| QuantizeOp.IsQuantize | tflite2onnx/op/quantize.py:24-27 | false for an operator that is not parsed; for a parsed one it fails exactly without outputs and is true exactly when the first output is uint8 |
| QuantizeOp.QuantizeType | tflite2onnx/op/quantize.py:20-22 | `QuantizeLinear` exactly when `isQuantize` holds, `DequantizeLinear` otherwise |
| QuantizeOp.TypeFollowsOutput | tflite2onnx/op/quantize.py:20-27 | a parsed operator with a uint8 output is a QuantizeLinear, any other a DequantizeLinear |
| QuantizeOp.OpcodeCheckAcceptsAll | tflite2onnx/op/quantize.py:37 | the opcode check as written accepts every opcode, ADD included |
| QuantizeOp.ParseQuantize | tflite2onnx/op/quantize.py:33-54 | success implies a QUANTIZE or DEQUANTIZE (checked as intended) with one input and one output; the operator's next input and output are the tensors of TFLite input 0 and output 0; it is parsed, keeps its attributes, and produces its output alone |
| QuantizeOp.Sides | tflite2onnx/op/quantize.py:57-62 | the float and quantized sides exist exactly when `isQuantize` is defined and the operator has an input and an output |
| QuantizeOp.DequantizeSides | tflite2onnx/op/quantize.py:64-65 | succeeds exactly when the two sides differ and the quantized side is quantized; only the float side changes, dequantized |
| QuantizeOp.LinkHelper | tflite2onnx/op/quantize.py:68-69 | a helper constant becomes the operator's next input, read by it; fails exactly when it already reads it |
| QuantizeOp.LinkScale | tflite2onnx/op/quantize.py:67-69 | the float32 scalar registered for the scale of the quantized side becomes the next input |
| QuantizeOp.LinkZeroPoint | tflite2onnx/op/quantize.py:70-72 | success implies a zero point in [0, 255]; the uint8 scalar registered for it becomes the next input |
| QuantizeOp.DequantizeQuantize | tflite2onnx/op/quantize.py:56-72 | success implies distinct sides, a quantized quantized side and a zero point in [0, 255]; the float side is no longer quantized, and scale then zero point are appended as inputs read by the operator; its outputs and all other operators are unchanged |
| ReduceOp.ParseReduce | tflite2onnx/op/reduce.py:38-65 | success implies a MEAN with two inputs and one output whose axes constant can be read; only the data, the tensor of TFLite input 0, becomes an input, and the tensor of output 0 the next output; "axes" holds the constant and "keepdims" is 1 exactly when input and output have the same rank |
| ReduceOp.TransformReduce | tflite2onnx/op/reduce.py:67-74 | no data input is an error; no layout leaves the graph unchanged; otherwise it succeeds exactly when the axes were read and all remap, and only "axes" changes |
| ReduceOp.ReducedAxesFollowInput | tflite2onnx/op/reduce.py:67-74 | after the transformation each axis names, in the input's target order, the dimension the original axis named in the source order |
| ReduceOp.EntriesAsWritten | tflite2onnx/op/reduce.py:73 | as written, a non-negative axis is kept and a negative one becomes the whole axes array shifted by the rank |
| ReduceOp.AsWrittenAgrees | tflite2onnx/op/reduce.py:72-74 | as written and corrected agree when no axis is negative, and for a single axis |
| ReduceOp.AgreesFrom | tflite2onnx/op/reduce.py:72-74 | the element-by-element agreement behind `AsWrittenAgrees` |
| ReduceOp.NegativeAxisAmongSeveral | tflite2onnx/op/reduce.py:73 | axes `[-1, 1]` on NHWC to NCHW: as written a ValueError, intended `[1, 2]` |
| ReshapeOp.ReadReshapeInputs | tflite2onnx/op/reshape.py:39-54 | the tensors of TFLite inputs 0 and 1, data and shape, become the next two inputs and no registered name changes its tensor; the shape must be constant and is int64 afterwards |
| ReshapeOp.ParseReshape | tflite2onnx/op/reshape.py:29-64 | success implies a RESHAPE with two inputs and one output; the operator gains the tensors of TFLite inputs 0 and 1 and of output 0, is parsed, and its shape input is a constant int64 tensor |
| ReshapeOp.TransformReshape | tflite2onnx/op/reshape.py:66-76 | a model Reshape is left alone; a fake-broadcasting one succeeds exactly when it changes rank, its output has a layout and the shape constant can be reordered, and then only that constant's data changes |
| ReshapeOp.TransformFromInts | tflite2onnx/op/reshape.py:76 | reordering commutes with reading integers as payload values |
| ReshapeOp.ShapeFollowsOutput | tflite2onnx/op/reshape.py:66-76 | the transformed shape constant holds exactly the shape the output gets when it is transformed |
| ResizeOp.ResizeType | tflite2onnx/op/resize.py:42-44 | the ONNX type is `Resize` whatever the state |
| ResizeOp.OpcodeCheckAcceptsAll | tflite2onnx/op/resize.py:62 | the opcode assertion as written accepts every opcode, ADD included, though ADD is not a resize |
| ResizeOp.ResizeOverrides | tflite2onnx/op/resize.py:103-106 | "mode" is overridden exactly for a bilinear resize and the coordinate mapping exactly when align_corners is asked, nothing else |
| ResizeOp.ResizeModes | tflite2onnx/op/resize.py:17-40 | after parsing, the mode is linear exactly for bilinear and nearest otherwise, the mapping align_corners exactly when asked and half_pixel otherwise; the other defaults stay |
| ResizeOp.ExtendSizes | tflite2onnx/op/resize.py:90-93 | succeeds exactly with two sizes and a rank-four image; the result has four entries: batch, channels, then the two sizes |
| ResizeOp.Float64VectorFails | tflite2onnx/op/resize.py:72 | a first empty vector built from `np.array([])`, of type float64, fails the dtype lookup |
| ResizeOp.Placeholder | tflite2onnx/op/resize.py:72-73 | always succeeds when the vector is new, and then holds no entries, shape `[0]`, float32; an existing parsed one is returned untouched |
| ResizeOp.ReadPlaceholders | tflite2onnx/op/resize.py:70-80 | the same empty vector is appended twice to the inputs, registered and consumed by the operator; every parsed tensor keeps its contents |
| ResizeOp.LinkPlaceholder | tflite2onnx/op/resize.py:72-75 | the empty vector is appended once, registered and consumed by the operator; every parsed tensor keeps its contents |
| ResizeOp.AppendPlaceholder | tflite2onnx/op/resize.py:78-80 | always succeeds; the already parsed vector is appended to the inputs and nothing else changes |
| ResizeOp.ReadSizes | tflite2onnx/op/resize.py:83-94 | the sizes become the next input, the tensor registered for TFLite input 1, and no registered name changes its tensor; that tensor is parsed, of shape `[4]` and int64, and holds `[N, C]` of the image followed by the two sizes `parseInput(1)` handed over (the buffer of a new tensor, the data of a parsed one) |
| ResizeOp.ParseResizeAsWritten | tflite2onnx/op/resize.py:58-112 | as written, `parse` always fails |
| ResizeOp.ReadResize | tflite2onnx/op/resize.py:67-96 | the operator's inputs grow by the image (TFLite input 0), placeholder, placeholder and the sizes (TFLite input 1) in that order, and its outputs by the tensor of TFLite output 0; the sizes tensor has shape `[4]`, int64, and, when it is neither the image nor the placeholder, holds the image's batch and channels followed by the sizes read |
| ResizeOp.ReadImage | tflite2onnx/op/resize.py:68-75 | the image, the parsed tensor of TFLite input 0, becomes the next input, followed twice by the registered empty vector; only those two names are bound anew, no registered name changes its tensor, and every parsed tensor keeps its contents |
| ResizeOp.ReadSizesOutput | tflite2onnx/op/resize.py:83-96 | the widened sizes (TFLite input 1) are appended to the inputs and the tensor of TFLite output 0 to the outputs; the sizes keep shape `[4]`, int64 and their widened contents past the output's parse |
| ResizeOp.SizesSeenAlike | tflite2onnx/op/resize.py:68-83 | reading the image and the placeholders changes neither which object the sizes' TFLite name is registered to nor the data `parseInput(1)` then hands over, unless the sizes are the image or the placeholder |
| ResizeOp.SizesKept | tflite2onnx/op/resize.py:92-96 | parsing the output keeps the widened sizes and the image shape they were built from |
| ResizeOp.ParseResize | tflite2onnx/op/resize.py:58-112 | success implies a resize opcode with at least two inputs and one output; four inputs are appended: the tensor of TFLite input 0, the registered empty vector twice, and the tensor of TFLite input 1; that last one has shape `[4]`, int64, and (when it is neither the image nor the placeholder) holds batch and channels of the image before the two sizes read; the next output is that of output 0; the attributes get the overrides of the opcode and options |
| OpCommon.MappedType | tflite2onnx/op/rsqrt.py:22-30 | the type of a converter whose table maps one opcode: its ONNX name while uninitialized; afterwards that name exactly when the TFLite opcode is the one mapped, an error otherwise |
| RsqrtOp.SqrtType | tflite2onnx/op/rsqrt.py:22-30 | `Sqrt` while uninitialized; afterwards `Sqrt` exactly when the TFLite opcode is RSQRT, an error otherwise |
| RsqrtOp.ParseRsqrt | tflite2onnx/op/rsqrt.py:32-48 | success implies an RSQRT with one input and one output; the operator is parsed, its next input is the tensor of TFLite input 0, and its one new post helper is a Pow of exponent -1 on its output, writing the tensor of TFLite output 0 when the operator had no outputs before |
| SliceOp.Bit | tflite2onnx/op/slice.py:55-56 | a bit is 0 or 1, and 0 beyond the width of the number |
| SliceOp.Binary | tflite2onnx/op/slice.py:55-56 | the digits of `format(d, 'b')`: at least one, each 0 or 1, without a leading zero unless the number is 0 |
| SliceOp.Bits | tflite2onnx/op/slice.py:55-59 | fails exactly for a negative mask; otherwise entry `i` is bit `i` of the mask |
| SliceOp.BitsAsWritten | tflite2onnx/op/slice.py:55-56 | fails exactly for a negative mask |
| SliceOp.PaddedBinary | tflite2onnx/op/slice.py:55-56 | a mask below `2^n` is formatted to exactly `n` digits, entry `i` being bit `n - 1 - i` |
| SliceOp.BinaryFits | tflite2onnx/op/slice.py:56 | a value below `2^n` has at most `n` binary digits |
| SliceOp.MaskBitsReversed | tflite2onnx/op/slice.py:55-59 | as written, entry `i` is the bit of dimension `rank - 1 - i` |
| SliceOp.BeginMaskOfFirstDimension | tflite2onnx/op/slice.py:58-66 | begin mask 1 on a rank-2 slice: as written the begin of dimension 1 is cleared, intended dimension 0 |
| SliceOp.Masked | tflite2onnx/op/slice.py:65-73 | same length; an entry whose bit is set becomes the fill value and every other entry is kept |
| SliceOp.MaskedHolds | tflite2onnx/op/slice.py:65-73 | every masked entry holds its fill value |
| SliceOp.ReadSliceData | tflite2onnx/op/slice.py:35-40 | the tensors of TFLite input 0 and output 0 are appended, of equal rank, and are the only new objects |
| SliceOp.ReadBound | tflite2onnx/op/slice.py:61-73 | the tensor of TFLite input `pos` is appended, has one entry per dimension, and, when new, holds its TFLite buffer masked; other parsed tensors keep their data |
| SliceOp.ReadSliceBounds | tflite2onnx/op/slice.py:34-73 | the tensors of TFLite inputs 0 to 2 become data, begin and end; the end holds each dimension's extent where its end bit is set, and a begin distinct from the end holds 0 where its begin bit is set; a new bound shared with no other operand holds its TFLite buffer masked, and only these and the output can be new |
| SliceOp.ReadBothBounds | tflite2onnx/op/slice.py:61-73 | after the data and the output, the tensors of TFLite inputs 1 and 2 become the next two inputs, begin then end, each with one entry per dimension and masked as `ReadSliceBounds` states |
| SliceOp.AddAxes | tflite2onnx/op/slice.py:75-79 | the axes vector is the one registered under the factory name of the int32 vector `[0, rank)`; a new one holds `0, 1, ..., rank - 1` with shape `[rank]`; it becomes the next input |
| SliceOp.ReadStrides | tflite2onnx/op/slice.py:81-84 | the tensor of TFLite input 3 becomes the next input, an initializer with one entry per dimension |
| SliceOp.ReadAxesStrides | tflite2onnx/op/slice.py:75-84 | the registered axes vector then TFLite input 3 as strides are appended as the last inputs; a new axes vector holds `[0, rank)` |
| SliceOp.ParseSlice | tflite2onnx/op/slice.py:24-86 | success implies a STRIDED_SLICE with four inputs, one output and no ellipsis, new-axis or shrink-axis mask; the operator is parsed with five new inputs: the tensors of TFLite inputs 0 to 2, the registered axes vector `[0, rank)` and TFLite input 3, and its output is TFLite output 0; the begin and end constants respect the masks read in dimension order, and a new one shared with no other operand holds its buffer masked |
| SliceOp.ReadSliceOperands | tflite2onnx/op/slice.py:34-84 | the five operands and the output as `ParseSlice` states them, with the status untouched |
| SliceOp.SliceRead | tflite2onnx/op/slice.py:34-84 | reading the bounds and then the axes and strides yields those operands |
| SliceOp.TransformData | tflite2onnx/op/slice.py:100 | fails exactly when the tensor has no data or its layout cannot reorder it; otherwise only that tensor's data changes, reordered |
| SliceOp.TransformSlice | tflite2onnx/op/slice.py:91-104 | no output is an error and no layout leaves the graph unchanged; success with a layout implies five inputs, and only tensor data changes |
| SliceOp.TransformedFollows | tflite2onnx/layout.py:11-17 | reordering one entry per axis puts the entry of each axis where the layout moves that axis |
| SliceOp.BoundsFollowOutput | tflite2onnx/op/slice.py:91-104 | with distinct begin, end and strides constants of the output's rank, the transformation succeeds and each constant's entries move with the output's dimensions |
| SoftmaxOp.ParseSoftmax | tflite2onnx/op/softmax.py:22-56 | success implies a SOFTMAX with one input and one output; the tensors of TFLite input 0 and output 0 are appended, the operator is parsed, and "axis" is -1, the last axis |
| SplitOp.Pieces | tflite2onnx/op/split.py:55-57 | fails exactly for fewer than one piece |
| SplitOp.PiecesCover | tflite2onnx/op/split.py:53-57 | `n` pieces whose total is at most the extent and short of it by less than `n`; the total equals the extent exactly when `n` divides it |
| SplitOp.SplitAxis | tflite2onnx/op/split.py:41-44 | succeeds exactly when the axis constant holds one integer, and returns it |
| SplitOp.ReadSplit | tflite2onnx/op/split.py:35-57 | success implies a readable axis and as many outputs as pieces, at least one; the data input is appended and "axis" and "split" hold the axis and the pieces of the extent the axis names, negative axes counting from the end |
| SplitOp.ParseSplit | tflite2onnx/op/split.py:28-63 | success implies a SPLIT with two inputs and one output per piece; the operator is parsed, its next input is the tensor of TFLite input 1 and its next outputs those of every TFLite output in order; "axis" is the constant axis and "split" the pieces of the extent it names |
| SquaredDifferenceOp.SubType | tflite2onnx/op/squared_difference.py:29-37 | `Sub` while uninitialized; afterwards `Sub` exactly when the opcode is SQUARED_DIFFERENCE, an error otherwise |
| SquaredDifferenceOp.ReadTensors | tflite2onnx/op/squared_difference.py:49-51 | the tensors of TFLite inputs 0 and 1 become the next two inputs and that of output 0 the next output; a first output is produced by the operator alone |
| SquaredDifferenceOp.ParseSquaredDifference | tflite2onnx/op/squared_difference.py:39-58 | success implies a SQUARED_DIFFERENCE with two inputs and one output; the inputs have equal rank and are the tensors of TFLite inputs 0 and 1, the operator is parsed, and its one new post helper is a Pow of exponent 2 on its output, writing the tensor of TFLite output 0 when the operator had no outputs before |
| SquaredDifferenceIdentityOp.IdentityType | tflite2onnx/op/squareddifference.py:36-44 | `Identity` while uninitialized; afterwards defined exactly where the Sub-based class's type is, and then `Identity` |
| SquaredDifferenceIdentityOp.LinkDifference | tflite2onnx/op/squareddifference.py:77-81 | succeeds exactly when the difference name is free; then one tensor is added, a copy of the output written by the Sub and read by the operator, and registered under that name |
| SquaredDifferenceIdentityOp.MoveInput | tflite2onnx/op/squareddifference.py:83-87 | succeeds exactly when the operator consumes the input; the input is appended to the Sub, and the Sub takes the operator's place among its consumers |
| SquaredDifferenceIdentityOp.Finish | tflite2onnx/op/squareddifference.py:89-94 | always succeeds: the operator reads only the difference and has the Sub as its new pre helper; the Sub writes the difference and is parsed |
| SquaredDifferenceIdentityOp.PrependSubtraction | tflite2onnx/op/squareddifference.py:74-94 | succeeds exactly when there is an output, a free difference name, two inputs, and the operator consumes each in turn; then the one new tensor and operator are the difference and the Sub, which takes both inputs from the operator |
| SquaredDifferenceIdentityOp.HandInputs | tflite2onnx/op/squareddifference.py:83-94 | with the difference and the Sub in place, succeeds exactly under the same guard and yields the same arena |
| SquaredDifferenceIdentityOp.HandedSplice | tflite2onnx/op/squareddifference.py:83-94 | the two input moves and the finish together meet the guard and leave the arena `prependSubtraction` promises |
| SquaredDifferenceIdentityOp.ParseSquaredDifferenceIdentity | tflite2onnx/op/squareddifference.py:46-66 | success implies a SQUARED_DIFFERENCE with two inputs and one output; the operator is parsed, with a Sub in front reading two tensors of equal rank, for a fresh operator those of TFLite inputs 0 and 1, and a Pow of exponent 2 behind, writing the tensor of TFLite output 0 when the operator had no outputs before |
| SquaredDifferenceIdentityOp.Decompose | tflite2onnx/op/squareddifference.py:62-66 | the Sub and the Pow are the two new operators, pre and post helper of the operator; the Sub reads the operator's first two inputs, the Pow writes its former first output, tensor shapes are kept and no registered name changes its tensor |
| SquaredDifferenceIdentityOp.PrependSub | tflite2onnx/op/squareddifference.py:74-94 | after the splice the Sub helper reads the operator's first two inputs and writes a new tensor the operator reads; the operator keeps its outputs, every old tensor its shape and every name its tensor |
| SquaredDifferenceIdentityOp.DecomposedEntry | tflite2onnx/op/squareddifference.py:56-66 | reading the entry's tensors and then decomposing leaves the Sub reading TFLite inputs 0 and 1, of equal rank, and the Pow writing TFLite output 0, for an operator that had neither before |
| SquaredDifferenceIdentityOp.PrependedSubHelper | tflite2onnx/op/squareddifference.py:74-94 | after the splice the new operator is the Sub helper: it writes the one tensor the operator reads, and reads the operator's former two inputs |
| SquaredDifferenceIdentityOp.PrependedKeepsMutual | tflite2onnx/op/squareddifference.py:74-94 | producers, consumers, inputs and outputs stay mutually consistent when the operator read two distinct tensors, each listing it once |
| TransposeOp.ReadTranspose | tflite2onnx/op/transpose.py:35-42 | success implies a readable permutation constant; the data input, the tensor of TFLite input 0, is appended and "perm" holds that constant |
| TransposeOp.ParseTranspose | tflite2onnx/op/transpose.py:26-50 | success implies a TRANSPOSE with two inputs and one output; the operator is parsed, its next input and output are the tensors of TFLite input 0 and output 0, and "perm" holds the permutation constant |
| TransposeHelpers.HelperPerm | tflite2onnx/transpose.py:13-18 | upstream: defined exactly when the output has a layout and is the permutation from its target to its source; downstream: the same with the input's layout from source to target |
| TransposeHelpers.LinkHelper | tflite2onnx/transpose.py:8-22 | succeeds exactly when the output has no producer; the one new operator is a parsed Transpose named "Layout Helper" reading the input and writing the output, linked both ways |
| TransposeHelpers.TransposeInitialAttrs | tflite2onnx/op/transpose.py:11-16 | a new Transpose has an empty "perm" |
| TransposeHelpers.CreateTransposeHelperAsWritten | tflite2onnx/transpose.py:7-24 | as written the permutation is computed but the new helper's "perm" attribute stays empty |
| TransposeHelpers.CreateTransposeHelper | tflite2onnx/transpose.py:7-24 | succeeds exactly when the permutation is defined and the output has no producer; the new helper is a parsed Transpose from input to output whose "perm" is that permutation |
| TransposeHelpers.GatherIsTransform | tflite2onnx/layout.py:1-17 | transposing by `getPerm(a, b)` is the layout reordering from `a` to `b` |
| TransposeHelpers.HelperMovesShape | tflite2onnx/transpose.py:13-18 | downstream the helper's Transpose yields the transformed shape; upstream it takes the transformed shape back to the original |
| TransposeHelpers.PermAttributeLost | tflite2onnx/transpose.py:15-18 | NHWC to NCHW: the permutation is `[0, 3, 1, 2]` but the attribute as written stays `[]` |
| TransposeHelpers.NamingLayout | tflite2onnx/transpose.py:30-34 | upstream the naming layout goes from the target order to the source order, downstream from source to target |
| TransposeHelpers.OwnLayout | tflite2onnx/transpose.py:30-35 | the new tensor's layout is the identity on the target order upstream and on the source order downstream |
| TransposeHelpers.CreateTransposeTensorAsWritten | tflite2onnx/transpose.py:37 | as written every call fails, `nameSuffix` not being defined by the layout |
| TransposeHelpers.CreateTransposeTensor | tflite2onnx/transpose.py:27-50 | success implies the reference is registered and has a layout; an already registered name is returned unchanged; otherwise a new parsed helper tensor of the reference's type and reordered shape is registered under it, or the reordering fails |
| TransposeHelpers.TransposeTensorIdempotent | tflite2onnx/transpose.py:38-40 | a second call returns the tensor the first one created, leaving the graph as it is |
| TransposeHelpers.TransposeTensorShape | tflite2onnx/transpose.py:46 | a new transpose tensor holds the reference's dimensions, and reordering it back gives the reference's shape |
| UnaryOp.ParseUnary | tflite2onnx/op/unary.py:29-41 | success implies an ABS with one input and one output; the tensors of TFLite input 0 and output 0 are appended and the operator is parsed with its attributes kept |
| PowerSplice.NamesDiffer | tflite2onnx/op/squared_difference.py:69-75 | the intermediate tensor and the exponent tensor never get the same name |
| PowerSplice.Filled | tflite2onnx/op/squared_difference.py:78 | fails exactly for a negative dimension; otherwise one entry per element, each the fill value |
| PowerSplice.RefCopy | tflite2onnx/tensor.py:192-200 | the copy has the new name and the reference's type, layout, shape and quantization, no data and no edges, not parsed |
| PowerSplice.LinkIntermediate | tflite2onnx/op/squared_difference.py:69-73 | succeeds exactly when the intermediate name is free; the one new tensor is the output's copy, parsed, written by the operator and read by the Pow, and registered |
| PowerSplice.LinkExponent | tflite2onnx/op/squared_difference.py:75-80 | succeeds exactly when the exponent name is free, the output's type has a name and no dimension is negative; the one new tensor holds the exponent once per element and is read by the Pow |
| PowerSplice.LinkTensors | tflite2onnx/op/squared_difference.py:69-80 | succeeds exactly when both names are free, the type has a name and no dimension is negative; the intermediate and exponent tensors are appended and registered in that order |
| PowerSplice.WirePow | tflite2onnx/op/squared_difference.py:82-87 | always succeeds: the Pow reads the intermediate and the exponent, writes the original output and is parsed |
| PowerSplice.RewireSelf | tflite2onnx/op/squared_difference.py:85-88 | always succeeds: the operator writes the intermediate in place of its output and records the Pow as post helper |
| PowerSplice.AppendPowerAsWritten | tflite2onnx/op/squared_difference.py:66-88 | fails exactly without an output or when the guard fails; otherwise the splice as written |
| PowerSplice.StaleProducer | tflite2onnx/op/squared_difference.py:84-85 | as written, the original output still names the operator as producer though the operator no longer writes it: edges stop being mutual |
| PowerSplice.AppendPower | tflite2onnx/op/squared_difference.py:66-88 | the corrected splice of `appendSquare` / `appendInvert` (see "## Findings"): succeeds exactly when there is an output, the guard holds and the operator is that output's only producer; the Pow then replaces the operator as producer of the output, which the source omits |
| PowerSplice.AppendThenParse | tflite2onnx/op/rsqrt.py:46-48 | two new tensors and one new operator, its post helper, a Pow of the given exponent; inputs, other operators, other tensors and all shapes are kept |
| PowerSplice.AppendedPowHelper | tflite2onnx/op/rsqrt.py:56-78 | the new operator is the Pow helper of the operator and writes its former first output |
| PowerSplice.AppendedFrame | tflite2onnx/op/rsqrt.py:56-78 | every other operator and tensor, the operator's inputs and pre helpers, and every shape are left alone |
| PowerSplice.AppendedKeepsMutual | tflite2onnx/op/rsqrt.py:56-78 | edges stay mutual when the operator has exactly one output and is its only producer |
| QuantizeSplice.QuantizedName | tflite2onnx/op/quantize.py:91 | the name is `TFLITE2ONNX_`, the float tensor's name and `_quantized`, so the name can be read back and is never the float tensor's own |
| QuantizeSplice.DequantizedName | tflite2onnx/op/quantize.py:123 | the name is `TFLITE2ONNX_`, the quantized tensor's name and `_dequantized`; it is never that tensor's own name nor the name its quantize splice would use |
| QuantizeSplice.Derived | tflite2onnx/op/quantize.py:95-102 | the new tensor has the given name, type and layout, the shape and quantization of its source, no data and no edges, and is parsed |
| QuantizeSplice.PushPair | tflite2onnx/op/quantize.py:103-110 | always succeeds: exactly one tensor and one Quantize operator from the input to it are added, and the tensor is registered |
| QuantizeSplice.CutEdge | tflite2onnx/op/quantize.py:103-113 | succeeds exactly when `post` consumes the float tensor; the new operator then takes `post`'s place among its consumers |
| QuantizeSplice.JoinEdge | tflite2onnx/op/quantize.py:114-116 | succeeds exactly when `post` reads the float tensor; the new tensor is then produced by the new operator, read by `post` in its place, and lists `post` as consumer only when asked |
| QuantizeSplice.SpliceQuantize | tflite2onnx/op/quantize.py:89-118 | succeeds exactly when the quantized name is free and `post` and the float tensor are linked both ways; the result is the splice on that edge |
| QuantizeSplice.CreateQuantize | tflite2onnx/op/quantize.py:89-118 | the same guard; the new tensor copies the float tensor's layout and lists `post` as consumer |
| QuantizeSplice.CreateQuantizeLegacy | tflite2onnx/quantize.py:12-39 | the same guard; the new tensor has no layout and `post` is not recorded as its consumer |
| QuantizeSplice.QuantizeEdges | tflite2onnx/op/quantize.py:89-118 | `post` reads the new tensor where it read the float one; the new operator reads the float tensor and is its consumer, replacing `post` when it was listed once; the new tensor is a uint8 copy of the float tensor's shape and quantization, registered under its name |
| QuantizeSplice.QuantizeKeepsMutual | tflite2onnx/op/quantize.py:112-116 | edges stay mutual when `post` reads the float tensor once and is listed once |
| QuantizeSplice.MissingConsumerEdge | tflite2onnx/quantize.py:34-37 | the older splice leaves the new tensor read by `post` without listing it: edges stop being mutual |
| QuantizeSplice.RewireConsumers | tflite2onnx/op/quantize.py:144-146 | succeeds exactly when the consumers are distinct and each reads the quantized tensor; each then reads the float tensor in place of its first quantized input, and the float tensor lists exactly them |
| QuantizeSplice.RewireOne | tflite2onnx/op/quantize.py:145-146 | always succeeds: one consumer reads the float tensor in place of its first quantized input and is appended to its consumers |
| QuantizeSplice.OnlyConsumer | tflite2onnx/op/quantize.py:148 | the quantized tensor is read by the new operator alone afterwards |
| QuantizeSplice.SpliceDequantize | tflite2onnx/op/quantize.py:121-150 | succeeds exactly when the dequantized name is free and the consumers of the quantized tensor are distinct and all read it; the result is the dequantize splice |
| QuantizeSplice.CreateDequantizeAsWritten | tflite2onnx/op/quantize.py:121-150 | the same guard; the new tensor is registered under the quantized tensor's name, and the former consumers stay on its list |
| QuantizeSplice.CreateDequantize | tflite2onnx/op/quantize.py:121-150 | the same guard; the new tensor is registered under its own name, and the quantized tensor is read by the new operator alone |
| QuantizeSplice.RegistryMisnamed | tflite2onnx/op/quantize.py:135 | as written a registered name finds a tensor called otherwise, and a second splice's freshness check passes again |
| QuantizeSplice.DequantizeKeepsNames | tflite2onnx/op/quantize.py:123-135 | as intended registered names keep naming their tensors, and a second splice behind the same tensor fails |
| QuantizeSplice.StaleConsumers | tflite2onnx/op/quantize.py:144-148 | as written a former consumer is still listed though it no longer reads the quantized tensor: edges stop being mutual |
| QuantizeSplice.DequantizeKeepsMutual | tflite2onnx/op/quantize.py:144-148 | as intended edges stay mutual when every consumer reads the quantized tensor once |
| QuantizeSplice.FirstIndexOfPrefix | tflite2onnx/op/common.py:82-88 | the first occurrence of a value in a concatenation is its first occurrence in the prefix when it occurs there |
| Graphs.Expand | tflite2onnx/graph.py:31-36 | the expansion contains the operator and only operators at or after it |
| Graphs.ExpandAll | tflite2onnx/graph.py:32-36 | every helper is in the result, and every entry comes after the master |
| Graphs.Flatten | tflite2onnx/graph.py:37-38 | every root is in `op_all`, and every entry is an operator of the graph |
| Graphs.CollectOps | tflite2onnx/graph.py:28-40 | fails exactly when there are no operators; otherwise contains every root |
| Graphs.FlattenWithoutHelpers | tflite2onnx/graph.py:28-38 | without helpers `op_all` is the list of roots itself |
| Graphs.ExpandOrder | tflite2onnx/graph.py:31-36 | the operator occurs once in its expansion, its pre helpers before it and its post helpers after it |
| Graphs.ExpandClosed | tflite2onnx/graph.py:31-36 | every helper of an operator in an expansion is in the expansion |
| Graphs.ExpandAllClosed | tflite2onnx/graph.py:32-36 | the same closure for the expansions of a helper list |
| Graphs.FlattenClosed | tflite2onnx/graph.py:28-38 | `op_all` contains every helper of each of its operators |
| Graphs.Partition | tflite2onnx/graph.py:41-48 | constants and values are disjoint, together exactly the tensors read or written, and split by whether the tensor holds data |
| Graphs.TouchedStep | tflite2onnx/graph.py:43-44 | one more operator adds exactly its inputs and outputs |
| Graphs.SeedOperator | tflite2onnx/graph.py:82-88 | every tensor of the operator the user names gets the given layout; tensors already seeded stay seeded and nothing else changes |
| Graphs.SeedLayouts | tflite2onnx/graph.py:80-88 | every tensor of a root operator the user names gets the given layout, and nothing else changes |
| Graphs.SeedRejectsLaidOut | tflite2onnx/graph.py:85 | a named tensor that already has a layout is never seeded |
| Graphs.RetouchedTrans | tflite2onnx/graph.py:165-166 | changing only attributes, data and shapes twice changes only those |
| Graphs.AxisAttrRetouches | tflite2onnx/op/concat.py:57-63 | the axis remapping changes only that operator's attributes |
| Graphs.ReduceRetouches | tflite2onnx/op/reduce.py:67-74 | the axes remapping changes only that operator's attributes |
| Graphs.PaddingRetouches | tflite2onnx/op/padding.py:68-85 | the pads reordering changes no operator and only tensor data |
| Graphs.ReshapeRetouches | tflite2onnx/op/reshape.py:66-76 | the shape reordering changes no operator and only tensor data |
| Graphs.SliceRetouches | tflite2onnx/op/slice.py:91-104 | the bounds reordering changes no operator and only tensor data |
| Graphs.TransformOperator | tflite2onnx/graph.py:166 | an operator whose class does nothing leaves the graph unchanged; otherwise only its attributes and tensor data and shapes change |
| Graphs.TransformOperators | tflite2onnx/graph.py:165-166 | only attributes, data and shapes change; operators not visited keep their attributes; with nothing to transform the graph is unchanged |
| Graphs.RootTensorsTouched | tflite2onnx/graph.py:41-48 | every tensor of a root operator is among the tensors `op_all` touches |
| Graphs.ApplyLayouts | tflite2onnx/graph.py:162-163 | every walked tensor with a layout ends in that layout's target; other tensors keep their layouts and operators are untouched |
| Graphs.PropagateLayouts | tflite2onnx/graph.py:116-166 | edges, names and lists stay; every touched tensor that had a layout ends in its target, and untouched tensors keep their layouts |
| Graphs.ConvertLayouts | tflite2onnx/graph.py:77-90 | operators keep their edges; every tensor of a root operator the user names ends in the layout the user gave, in its target order |
| Propagation.Neighbours | tflite2onnx/op/common.py:27-48 | only tensors the operator reads or writes; fails exactly for a propagatable operator of a class that names its first input and output when it lacks either |
| Propagation.LaidOutFromSeeds | tflite2onnx/graph.py:149 | every layout given during the walk is one a tensor carried before it |
| Propagation.SettledStable | tflite2onnx/graph.py:142-156 | shrinking the wild set keeps crossed operators settled |
| Propagation.FrameStep | tflite2onnx/graph.py:149 | giving a wild tensor a seed's layout changes nothing else |
| Propagation.FrameEdges | tflite2onnx/graph.py:134-157 | the walk changes no tensor's producers or consumers |
| Propagation.CrossStep | tflite2onnx/graph.py:137-156 | crossing one more operator keeps the earlier ones and the other walked tensors settled |
| Propagation.PopClosed | tflite2onnx/graph.py:135-157 | moving a tensor to the walked set keeps every other walked tensor settled |
| Propagation.PopShrinks | tflite2onnx/graph.py:134-157 | each pass walks one more tensor, so the walk ends |
| Propagation.PopSound | tflite2onnx/graph.py:135-157 | moving a laid-out tensor to the walked set keeps the four sets a partition |
| Propagation.Finished | tflite2onnx/graph.py:134-157 | when nothing is left to walk, the walked tensors are exactly those with a layout, every initially laid-out one among them |
| Propagation.CrossTensor | tflite2onnx/graph.py:139-156 | fails only for a wild tensor across a propagatable operator whose scalar test fails; a wild tensor leaves the wild set, taking the walked tensor's layout and waiting to be walked, or being ignored when scalar or across a non-propagatable operator |
| Propagation.CrossOperator | tflite2onnx/graph.py:137-156 | an operator whose tensors cannot be listed is an error; afterwards none of its tensors is wild |
| Propagation.VisitTensor | tflite2onnx/graph.py:137-157 | afterwards no walked tensor is next to a wild one |
| Propagation.Start | tflite2onnx/graph.py:120-127 | the tensors with a layout are to be walked, the others wild, and the two sets split the tensors |
| Propagation.StartSound | tflite2onnx/graph.py:120-133 | the starting walk partitions the tensors and, having walked nothing, is closed |
| Propagation.PropagateLayout | tflite2onnx/graph.py:116-159 | at the end nothing waits, only wild tensors got a layout, each a seed's; the walked tensors are exactly those with a layout and include all seeds; no walked tensor is next to a wild one; without seeds nothing changes |
| Propagation.TransformWalked | tflite2onnx/graph.py:162-163 | succeeds exactly when every walked tensor can be transformed; only those change, each ending in its target layout |
| Payload.Ints | tflite2onnx/tensor.py:93-96 | succeeds exactly when every entry is an integer, and returns those integers in order |
| Payload.IntsFromInts | tflite2onnx/tensor.py:93-96 | integers stored as a payload read back as the same integers |
| Payload.Wrap | tflite2onnx/tensor.py:96 | the wrapped value lies in the signed or unsigned range of the width |
| Payload.WrapInRange | tflite2onnx/tensor.py:96 | a value already in range is left alone |
| Payload.CastAll | tflite2onnx/tensor.py:93-96 | same length, each entry converted on its own |
| Payload.WidenInt32ToInt64 | tflite2onnx/op/reshape.py:50-52 | widening int32 values to int64 keeps every value |
| Payload.CastIdempotent | tflite2onnx/tensor.py:93-96 | converting twice to the same type is converting once |
| Payload.WrapTwice | tflite2onnx/tensor.py:96 | wrapping twice to the same width is wrapping once |

## Left out

- Model and graph I/O: reading the flatbuffer file, building the ONNX protobuf (`convert`
  methods of the operators, graph.py:100-114) and saving it. These are foreign libraries; the
  flatbuffer fields the converters read are the plain data of module `Tflite`.
- Graph.parse (graph.py:50-75) is not modelled as one loop over the operator count. Each of its
  steps is: the `getOp` dispatch (`OpCommon.Create`), each converter's `parse`, the lookup of
  graph inputs and outputs (`Factory`), and `_collectOpAndTensor` (`Graphs.CollectOps`,
  `Graphs.Partition`).
- `handleQuantizationTensor` (graph.py:92-98) and its replacement of graph outputs: it calls
  into the ONNX quantization helpers. The splices it builds are modelled (`QuantizeSplice`).
- numpy array contents: the transposition of tensor data in `Tensor.transform` is not modelled.
  Shapes, layouts and integer attribute data are.
- Floating-point arithmetic: dequantized values, the float16/float32 rounding when data is cast,
  and the float attributes of Resize (`cubic_coeff_a`, `extrapolation_value`), kept as text.
- rsqrt.py imports `PowerWrapper` from op/binary.py, which does not define it. The model uses the
  class as squared_difference.py defines it.
- `PowerWrapper(self.TFactory, -1)` does not match the three-argument constructor of `Binary`
  (op/binary.py:27). The model constructs the Pow operator as the surrounding code intends.
- `SubtractWrapper(self.TFactory, -1)` (op/squareddifference.py:75) has the same constructor
  mismatch. The model constructs the Sub operator as the surrounding code intends.
- The exponent of the Pow helpers (2 and -1) is kept as a `Payload.Num` without arithmetic.
- Only one of the two `SquaredDifference` classes can be registered for the same opcode. The clash
  is modelled (`OpCommon.SquaredDifferenceClash`); the identity variant is modelled on its own.
- `Layout.current` is shared between copies made by `copy.deepcopy` of operators. The model keeps
  each tensor's layout as a value, so that aliasing is not represented.
- The per-module loggers: no behaviour.
- op/__init__.py imports `Activation` (line 1) and `TransposeConv` (line 7), which
  op/activation.py and op/conv.py do not define, so the package fails to import as written. Its
  other work, registering each converter class with `OpFactory.register` (lines 24-40), is
  modelled by `OpCommon.RegisterConverter` and `OpCommon.Create`.
- The operator files mix two revisions of the operator base, and the model reads every class on
  the newer base of op/common.py: an `attrs` dictionary (op/common.py:21), a class-level
  `TypeMapping` (op/common.py:11) and the constructor `(TFactory, index)` that `OpFactory`
  calls (op/common.py:159). As written:
  - concat.py, conv.py, fullyconnected.py, pooling.py, reduce.py, softmax.py and transpose.py
    derive from the older base of op/operator.py:8-15, which defines no `attrs`, so their
    constructors raise AttributeError at concat.py:15, conv.py:17, fullyconnected.py:16,
    pooling.py:23, reduce.py:19, softmax.py:14 and transpose.py:14;
  - `OpFactory.register` reads `converter.TypeMapping` (op/common.py:138), which those classes
    lack (pooling.py:13 and reduce.py:10 keep a module-level `OpTypeMapping` instead) and which
    Unary inherits empty from op/common.py:11 (its own table is the module-level one at
    unary.py:9); `OpCommon.TypeMapping` gives each class the opcodes of its own table, or, where
    it has none, those its `parse` accepts;
  - they take `(model, graph, index)`, while `OpFactory` passes `(TFactory, index)`;
  - unary.py:15-16 passes `(model, graph, tregistry, index)` to the three-argument base of
    op/common.py.
- The `axis` field that op/quantize.py:16 sets and nothing reads.
- Propagation.CrossOperator: follows each class's `propagatableTensors()` list
  (op/common.py:27-48), not the `n.layoutPropagatable` property that graph.py:138 reads. Only
  five classes define that property: ReLU (activation.py:49), Binary with its Pow and Sub
  wrappers (binary.py:43), Reduce (reduce.py:35), Reshape (reshape.py:26) and Transpose
  (transpose.py:23). On every other class graph.py:138 raises AttributeError, and the model
  does not reproduce that error. Where the property exists the two readings agree: True
  for ReLU and Binary, whose lists hold all their tensors, and False for the other three,
  whose lists are empty. Propagation.PropagateLayout inherits this through CrossOperator.
- PadOp.ComputePaddingSize: a zero stride is an error in the model. numpy only warns on the
  division by zero at padding.py:98-100, and `astype('int')` then turns the infinite quotient
  into an undefined integer; the model does not promise that value.
- TransposeHelpers.CreateTransposeTensor: leaves out `assert(ref.layout.match)`
  (transpose.py:39), since `Layout` defines no `match` either, and `assert(ref.onnx is None)`
  (transpose.py:42), since the ONNX objects of the conversion step are not modelled.
- RsqrtOp.ParseRsqrt: states that the Pow helper writes the tensor of TFLite output 0 only for
  an operator with no outputs before parsing, which is how the graph creates every operator.
- SquaredDifferenceOp.ParseSquaredDifference: the same restriction for its Pow helper.
- SquaredDifferenceIdentityOp.ParseSquaredDifferenceIdentity: states which TFLite tensors the Sub
  reads and the Pow writes only for an operator with no inputs or outputs before parsing.
- BinaryOp.ParseBinary: states which tensors the operands are only for an operator with no
  inputs and no pre helpers yet, which is how the graph creates every Binary operator.
- SliceOp.ParseSlice: states the masked buffers of the begin and end constants only when they
  are new and shared with no other operand; a tensor reused from the registry keeps its data.
- ResizeOp.ReadSizes: states the widened contents of the sizes only when their TFLite name is
  not registered yet or names a parsed tensor. A registered tensor that is not parsed is left
  behind only by a failed parse, which ends the conversion.
- ResizeOp.ReadSizesOutput: states the widened contents only when the sizes tensor is not the
  image, since widening the image's own tensor also rewrites the shape it was widened against.
- ResizeOp.ReadResize: states the widened contents only when the sizes tensor is neither the
  image nor the empty placeholder, that is when TFLite input 1 shares its name with neither;
  shape `[4]` and type int64 are stated in every case.
- ResizeOp.ParseResize: the same restriction as ResizeOp.ReadResize.
- Propagation.PropagateLayout returns at once when no tensor has a layout. The loop would do
  nothing in that case either.
- QuantizeSplice.QuantizeKeepsMutual: proved only when the post operator reads the float tensor
  once, and is listed once among its consumers.
- QuantizeSplice.DequantizeKeepsMutual: proved only when each consumer reads the quantized tensor
  once.
- SquaredDifferenceIdentityOp.PrependedKeepsMutual: proved only for two distinct inputs whose
  consumer lists have no duplicates.
- PowerSplice.AppendedKeepsMutual: proved only when the operator is the single producer of its
  single output.
- The older files call a module-level tensor API that tensor.py does not define: it has no
  module-level functions and no `registery` (line 10 holds only `logger`; the factory methods
  are those of `TensorFactory`, tensor.py:167-279). As written these calls raise
  AttributeError: graph.py:25 (`tensor.registery.clear()`) and graph.py:64/70
  (`tensor.get`); transpose.py:29/38/40/49; quantize.py:15/25; and in op/ the `tensor.get`,
  `tensor.createScalar`, `tensor.createQuant*`, `tensor.getData` and `tensor.registery` calls
  of activation.py, binary.py, concat.py, conv.py, fullyconnected.py, pooling.py, quantize.py,
  reduce.py, reshape.py, softmax.py and transpose.py. The model puts the `Factory` functions
  over one registry in their place, with the meaning the `TensorFactory` methods give them.

## Findings

| source | as written | input that shows it | evidently intended | confidence | as-written member | corrected member |
|---|---|---|---|---|---|---|
| tflite2onnx/op/reduce.py:73 | a negative axis is replaced by `axes + len(perm)`, the whole axes array shifted by the rank | axes `[-1, 1]` on a layout from NHWC to NCHW: `perm.index` gets a two-element array and raises ValueError | `axe + len(perm)`, mapping `[-1, 1]` to `[1, 2]` | not executed | ReduceOp.NegativeAxisAmongSeveral | ReduceOp.ReducedAxesFollowInput |
| tflite2onnx/op/slice.py:55-58 | mask bits are read most-significant first, so bit 0 of the mask names the last dimension | begin mask 1 on a rank-2 slice clears the begin of dimension 1 | bit i of the mask belongs to dimension i, as in TFLite's StridedSlice | not executed | SliceOp.BeginMaskOfFirstDimension | SliceOp.Bit | tflite2onnx/op/slice.py:55-56 | a bit is 0 or 1, and 0 beyond the width of the number |
| SliceOp.Binary | tflite2onnx/op/slice.py:55-56 | the digits of `format(d, 'b')`: at least one, each 0 or 1, without a leading zero unless the number is 0 |
| SliceOp.Bits |
| tflite2onnx/common.py:51 | every object starts named 'Unintialized', so the fallback of op/common.py:105 that names an operator after its first output never fires | any operator after `parse` | the operator is named after its first output | not executed | Operators.ParsedNameAsWritten | Operators.ParsedNameCorrected |
| tflite2onnx/transpose.py:15-18 | the permutation is stored in `op.perm`, so the ONNX attribute `perm` stays `[]` | a downstream helper on a layout from NHWC to NCHW | `attrs['perm']` is `[0, 3, 1, 2]` | not executed | TransposeHelpers.PermAttributeLost | TransposeHelpers.HelperMovesShape |
| tflite2onnx/transpose.py:37-42 | `l.nameSuffix` is not an attribute of `Layout`, so every call raises AttributeError; the corrected member also drops the checks `ref.layout.match` (no such attribute either) and `ref.onnx is None` | any registered tensor with a layout | a name suffix derived from the layout | not executed | TransposeHelpers.CreateTransposeTensorAsWritten | TransposeHelpers.TransposeTensorShape |
| tflite2onnx/op/squared_difference.py:82-85 | the original output keeps the operator as its producer after the Pow is appended (also rsqrt.py:72-75 and squareddifference.py:112-115) | any SQUARED_DIFFERENCE or RSQRT operator | the Pow replaces the operator as the producer of the output | not executed | PowerSplice.StaleProducer | PowerSplice.AppendPower, PowerSplice.AppendedKeepsMutual, RsqrtOp.ParseRsqrt, SquaredDifferenceOp.ParseSquaredDifference, SquaredDifferenceIdentityOp.ParseSquaredDifferenceIdentity |
| tflite2onnx/op/conv.py:50 | `opcode is tflite.BuiltinOperator.CONV_2D or tflite.BuiltinOperator.DEPTHWISE_CONV_2D` is always true, the second operand being a non-zero constant | opcode ADD | a membership test over CONV_2D and DEPTHWISE_CONV_2D | not executed | ConvOp.OpcodeCheckAcceptsAll | ConvOp.ParseConv |
| tflite2onnx/op/quantize.py:37 | `opcode is tflite.BuiltinOperator.QUANTIZE or tflite.BuiltinOperator.DEQUANTIZE` is always true, the second operand being a non-zero constant | opcode ADD | a membership test over QUANTIZE and DEQUANTIZE | not executed | QuantizeOp.OpcodeCheckAcceptsAll | QuantizeOp.ParseQuantize |
| tflite2onnx/op/resize.py:62 | `opcode is tflite.BuiltinOperator.RESIZE_BILINEAR or tflite.BuiltinOperator.RESIZE_NEAREST_NEIGHBOR` is always true, the second operand being a non-zero constant | opcode ADD | a membership test over the two resize opcodes | not executed | ResizeOp.OpcodeCheckAcceptsAll | ResizeOp.ParseResize |
| tflite2onnx/quantize.py:34-37 | `post_op` reads the new tensor in place of the float one (`replaceInput`), but the new tensor never lists `post_op` as a consumer | any quantize splice | the edge is recorded, as op/quantize.py:115 does | not executed | QuantizeSplice.MissingConsumerEdge | QuantizeSplice.QuantizeKeepsMutual |
| tflite2onnx/op/quantize.py:135 | the new float tensor is registered under the name of the quantized tensor | any `createDequantize` | registered under its own new name | not executed | QuantizeSplice.RegistryMisnamed | QuantizeSplice.DequantizeKeepsNames |
| tflite2onnx/op/quantize.py:144-148 | the former consumers stay listed on the quantized tensor after they are moved to the float one | a consumer reading the quantized tensor once | the quantized tensor is read by the Dequantize alone | not executed | QuantizeSplice.StaleConsumers | QuantizeSplice.DequantizeKeepsMutual |
| tflite2onnx/op/resize.py:72-78 | `createVector(im, np.array([]))` passes two arguments, and an empty numpy array is float64, which the type table lacks | any RESIZE operator, once its first input is parsed | an empty float32 vector for the unused ROI input | not executed | ResizeOp.Float64VectorFails | ResizeOp.ParseResize |

=== FILE: activation.dfy ===
/** Activations (tflite2onnx/op/activation.py): the ReLU converter, and the splice that
    turns the fused activation of a converter into a separate ReLU or Clip operator
    behind it. */
module Activation {
  import opened Wrappers
  import opened Seqs
  import opened Lifecycle
  import opened Payload
  import opened Tensors
  import opened Operators
  import opened Ir
  import opened Factory
  import opened OpCommon
  import Tflite
  import Dtypes

  /** `FusedActFunc2OpType`: the builtin operator implementing a fused activation. */
  function FusedOpcode(faf: int): (r: Result<int>)
    ensures r.Ok? <==> faf == Tflite.ACT_RELU || faf == Tflite.ACT_RELU6
    ensures faf == Tflite.ACT_RELU ==> r == Ok(Tflite.RELU)
    ensures faf == Tflite.ACT_RELU6 ==> r == Ok(Tflite.RELU6)
  {
    if faf == Tflite.ACT_RELU6 then Ok(Tflite.RELU6)
    else if faf == Tflite.ACT_RELU then Ok(Tflite.RELU)
    else Err(Assertion("fused activation function not supported"))
  }

  /** `OpTypeMapping` of the ReLU family. */
  function ReLUTypeName(opcode: int): (r: Result<string>)
    ensures r.Ok? <==> opcode == Tflite.RELU || opcode == Tflite.RELU6
    ensures opcode == Tflite.RELU ==> r == Ok("Relu")
    ensures opcode == Tflite.RELU6 ==> r == Ok("Clip")
  {
    if opcode == Tflite.RELU then Ok("Relu")
    else if opcode == Tflite.RELU6 then Ok("Clip")
    else Err(Assertion("opcode is not an activation"))
  }

  /** `ReLU.type`: the placeholder before initialization; afterwards the preset opcode of
      a fused activation, or else the opcode of the TFLite operator, decides. An operator
      with neither fails. */
  function ReLUType(g: Tflite.Subgraph, op: Operator): (r: Result<string>)
    requires op.kind.ReLU?
    ensures op.status == Uninitialized ==> r == Ok("Relu-family")
    ensures op.status != Uninitialized && op.kind.preset.Some? ==> r == ReLUTypeName(op.kind.preset.value)
    ensures op.status != Uninitialized && op.kind.preset.None? ==>
              (r.Ok? <==> 0 <= op.index < |g.operators| && ReLUTypeName(g.operators[op.index].opcode).Ok?)
  {
    if op.status.Uninitialized? then Ok("Relu-family")
    else if op.kind.preset.Some? then ReLUTypeName(op.kind.preset.value)
    else
      var e :- OpEntry(g, op);
      ReLUTypeName(e.opcode)
  }

  /** `tensor.createScalar(ref, value)`: the scalar `value` of the element type of `ref`. */
  function ScalarLike(a: Arena, ref: TensorId, value: int): (r: Result<(Arena, TensorId)>)
    requires Valid(a) && ref < |a.tensors|
    ensures r.Ok? <==> a.tensors[ref].dtype.Some? && a.tensors[ref].dtype.value in Dtypes.OnnxCodes
    ensures r.Ok? ==> r == CreateScalar(a, Dtypes.OnnxName(a.tensors[ref].dtype.value).value, Int(value))
    ensures r.Ok? ==> Valid(r.value.0) && Extends(a, r.value.0) && r.value.0.ops == a.ops
                      && r.value.1 < |r.value.0.tensors|
  {
    var dtype := a.tensors[ref].dtype;
    :- Need(dtype.Some?, "tensor has no type");
    var name :- Dtypes.OnnxName(dtype.value);
    CreateScalar(a, name, Int(value))
  }

  /** `t = createScalar(ref, value); t.addConsumer(act); act.inputs.append(t)`: the
      scalar is the one registered under its name, built when the name is new. */
  method LinkBound(a: Arena, act: OpId, ref: TensorId, value: int) returns (r: Result<(Arena, TensorId)>)
    requires Valid(a) && act < |a.ops| && ref < |a.tensors|
    ensures r.Ok? ==> a.tensors[ref].dtype.Some? && a.tensors[ref].dtype.value in Dtypes.OnnxCodes
    ensures (&& a.tensors[ref].dtype.Some? && a.tensors[ref].dtype.value in Dtypes.OnnxCodes
             && ScalarName(Dtypes.OnnxName(a.tensors[ref].dtype.value).value, Int(value)) !in a.registry) ==> r.Ok?
    ensures r.Ok? ==> var (b, t) := r.value;
              var n := ScalarName(Dtypes.OnnxName(a.tensors[ref].dtype.value).value, Int(value));
              && Valid(b) && Extends(a, b) && t < |b.tensors|
              && n in b.registry && b.registry[n] == t
              && (n in a.registry ==> t == a.registry[n])
              && (n !in a.registry ==> t == |a.tensors| && b.tensors[t].data == Some([Int(value)]))
              && b.ops == a.ops[act := a.ops[act].(inputs := a.ops[act].inputs + [t])]
              && act in b.tensors[t].consumers
  {
    var s := ScalarLike(a, ref, value);
    if s.Err? {
      return Err(s.error);
    }
    var (b, t) := s.value;
    var c := LinkInput(b, act, t);
    if c.Err? {
      return Err(c.error);
    }
    ExtendsTrans(a, b, c.value);
    return Ok((c.value, t));
  }

  /** The bounds 0 and 6 of a RELU6, as two further inputs of `act`. */
  method LinkClipBounds(a: Arena, act: OpId, ref: TensorId) returns (r: Result<(Arena, TensorId, TensorId)>)
    requires Valid(a) && act < |a.ops| && ref < |a.tensors|
    ensures r.Ok? ==> a.tensors[ref].dtype.Some? && a.tensors[ref].dtype.value in Dtypes.OnnxCodes
    ensures r.Ok? ==> var (b, lo, hi) := r.value;
              var d := Dtypes.OnnxName(a.tensors[ref].dtype.value).value;
              && Valid(b) && Extends(a, b)
              && b.ops == a.ops[act := a.ops[act].(inputs := a.ops[act].inputs + [lo, hi])]
              && ScalarName(d, Int(0)) in b.registry && b.registry[ScalarName(d, Int(0))] == lo
              && ScalarName(d, Int(6)) in b.registry && b.registry[ScalarName(d, Int(6))] == hi
  {
    var rlo := LinkBound(a, act, ref, 0);
    if rlo.Err? {
      return Err(rlo.error);
    }
    var (b, lo) := rlo.value;
    var rhi := LinkBound(b, act, ref, 6);
    if rhi.Err? {
      return Err(rhi.error);
    }
    var (c, hi) := rhi.value;
    ExtendsTrans(a, b, c);
    assert a.ops[act].inputs + [lo] + [hi] == a.ops[act].inputs + [lo, hi];
    return Ok((c, lo, hi));
  }

  /** `ReLU.parse`: one input and one output; a RELU6 also reads the bounds 0 and 6. */
  method ParseReLU(a: Arena, g: Tflite.Subgraph, o: OpId) returns (r: Result<Arena>)
    requires Valid(a) && o < |a.ops|
    ensures r.Ok? ==> Valid(r.value) && |r.value.ops| == |a.ops|
    ensures r.Ok? ==> 0 <= a.ops[o].index < |g.operators|
    ensures r.Ok? ==> var e := g.operators[a.ops[o].index];
              && (e.opcode == Tflite.RELU || e.opcode == Tflite.RELU6)
              && |e.inputs| == 1 && |e.outputs| == 1
              && |r.value.ops[o].inputs| == |a.ops[o].inputs| + (if e.opcode == Tflite.RELU6 then 3 else 1)
              && |r.value.ops[o].outputs| == |a.ops[o].outputs| + 1
              && r.value.ops[o].status == Parsed
    ensures r.Ok? ==> var b, n := r.value, |a.ops[o].inputs|;
              && |b.ops[o].inputs| > n && b.ops[o].inputs[..n] == a.ops[o].inputs
              && InputIs(b, g, a.ops[o].index, 0, b.ops[o].inputs[n])
              && WritesOutputs(a, b, g, o, 1)
              && b.ops[o].attrs == a.ops[o].attrs && b.ops[o].kind == a.ops[o].kind
    ensures r.Ok? && g.operators[a.ops[o].index].opcode == Tflite.RELU6 ==>
              var b, n := r.value, |a.ops[o].inputs|;
              && |b.ops[o].inputs| == n + 3 && b.ops[o].inputs[n] < |b.tensors|
              && ClipBounds(b, b.tensors[b.ops[o].inputs[n]], b.ops[o].inputs[n + 1], b.ops[o].inputs[n + 2])
  {
    var re := OpEntry(g, a.ops[o]);
    if re.Err? {
      return Err(re.error);
    }
    var e := re.value;
    if !(e.opcode == Tflite.RELU || e.opcode == Tflite.RELU6) {
      return Err(Assertion("opcode is not an activation"));
    }
    if |e.inputs| != 1 {
      return Err(Assertion("ReLU takes one input"));
    }
    if |e.outputs| != 1 {
      return Err(Assertion("ReLU has one output"));
    }
    var ri := ReadReLUInput(a, g, o, e.opcode == Tflite.RELU6);
    if ri.Err? {
      return Err(ri.error);
    }
    var (c, it) := ri.value;
    var ro := ParseOutput(c, g, o, 0, None);
    if ro.Err? {
      return Err(ro.error);
    }
    var (d, ot) := ro.value;
    assert d.tensors[it].dtype == c.tensors[it].dtype;
    AppendedWrites(a, d, g, o, [ot]);
    r := SetOpParsed(d, o);
    if r.Ok? {
      ReadsWritesKept(a, d, r.value, g, o, 0, 1);
    }
  }

  /** The input half of `ReLU.parse`: input 0, and for a RELU6 the bounds after it. */
  method ReadReLUInput(a: Arena, g: Tflite.Subgraph, o: OpId, clip: bool) returns (r: Result<(Arena, TensorId)>)
    requires Valid(a) && o < |a.ops|
    ensures r.Ok? ==> var (c, it) := r.value;
              var n := |a.ops[o].inputs|;
              && Valid(c) && |c.ops| == |a.ops| && KeepsNames(a, c) && it < |c.tensors|
              && c.tensors[it].status == Parsed && InputIs(c, g, a.ops[o].index, 0, it)
              && c.ops[o] == a.ops[o].(inputs := c.ops[o].inputs)
              && |c.ops[o].inputs| == n + (if clip then 3 else 1)
              && c.ops[o].inputs[..n] == a.ops[o].inputs && c.ops[o].inputs[n] == it
              && (clip ==> ClipBounds(c, c.tensors[it], c.ops[o].inputs[n + 1], c.ops[o].inputs[n + 2]))
  {
    var ri := ParseInput(a, g, o, 0, None, false);
    if ri.Err? {
      return Err(ri.error);
    }
    var (b, it) := ri.value;
    if !clip {
      return Ok((b, it));
    }
    var rb := LinkClipBounds(b, o, it);
    if rb.Err? {
      return Err(rb.error);
    }
    var (c, lo, hi) := rb.value;
    assert c.ops[o].inputs == a.ops[o].inputs + [it, lo, hi];
    return Ok((c, it));
  }

  /** `lo` and `hi` are the scalars 0 and 6 of the element type of `x`, each the tensor
      registered under its name. */
  predicate ClipBounds(b: Arena, x: Tensor, lo: TensorId, hi: TensorId) {
    && x.dtype.Some? && x.dtype.value in Dtypes.OnnxCodes
    && var d := Dtypes.OnnxName(x.dtype.value).value;
       && ScalarName(d, Int(0)) in b.registry && b.registry[ScalarName(d, Int(0))] == lo
       && ScalarName(d, Int(6)) in b.registry && b.registry[ScalarName(d, Int(6))] == hi
  }

  // ---------------------------------------------------------------- handleFusedActivation

  /** The name of the tensor between a converter and its fused activation: the output's
      name behind a fixed prefix, so it is never the output's own name and the output's name
      can be read back from it. */
  function FafName(output: string): (r: string)
    ensures |r| == 16 + |output| && r[..16] == "TFLITE2ONNX_FAF_" && r[16..] == output
    ensures r != output
  {
    "TFLITE2ONNX_FAF_" + output
  }

  /** The tensor between a converter and its fused activation: a parsed copy of `output`'s
      type, quantization, layout and shape, without data or edges. */
  function FafTensor(x: Tensor): (t: Tensor)
    ensures t.name == FafName(x.name) && t.status == Parsed && t.origin == Helper
    ensures t.dtype == x.dtype && t.scale == x.scale && t.zeroPoint == x.zeroPoint
    ensures t.layout == x.layout && t.shape == x.shape && t.data == None
    ensures t.producers == [] && t.consumers == [] && !t.isBias
  {
    Tensor(FafName(x.name), Helper, x.shape, x.dtype, None, x.scale, x.zeroPoint, x.layout, [], [], false, Parsed)
  }

  /** First step of the splice: the new tensor is registered and takes the place of
      `output` among the outputs of `intermediate`, which becomes its producer. */
  method SpliceTensor(a: Arena, output: TensorId, intermediate: OpId) returns (r: Result<(Arena, TensorId)>)
    requires Valid(a) && output < |a.tensors| && intermediate < |a.ops|
    ensures r.Ok? <==> a.tensors[output].status == Parsed && FafName(a.tensors[output].name) !in a.registry
                       && output in a.ops[intermediate].outputs
    ensures r.Ok? ==> var (b, f) := r.value;
              && Valid(b) && f == |a.tensors| && |b.tensors| == f + 1
              && b.tensors[..f] == a.tensors
              && b.tensors[f] == FafTensor(a.tensors[output]).(producers := [intermediate])
              && b.registry == a.registry[FafName(a.tensors[output].name) := f]
              && b.ops == a.ops[intermediate := a.ops[intermediate].(outputs := ReplaceFirst(a.ops[intermediate].outputs, output, f))]
  {
    var x := a.tensors[output];
    if !x.status.Parsed? {
      return Err(Assertion("activation output is not parsed"));
    }
    var name := FafName(x.name);
    if name in a.registry {
      return Err(Assertion("fused activation tensor already registered"));
    }
    var (b, f) := PushTensor(a, FafTensor(x));
    var c := Register(b, name, f);
    var d := ReplaceOutputAt(c, intermediate, output, f);
    if d.Err? {
      return Err(d.error);
    }
    var e := AddProducerAt(d.value, f, intermediate).value;
    assert e.tensors[..f] == a.tensors;
    return Ok((e, f));
  }

  /** Second step: the activation operator, reading the new tensor `f` (and the bounds of
      a RELU6). A plain ReLU cannot fail here. */
  method ActivationOp(a: Arena, f: TensorId, opcode: int) returns (r: Result<(Arena, OpId)>)
    requires Valid(a) && f < |a.tensors|
    requires opcode == Tflite.RELU || opcode == Tflite.RELU6
    ensures opcode == Tflite.RELU ==> r.Ok?
    ensures r.Ok? ==> var (b, act) := r.value;
              && Valid(b) && Extends(a, b) && act == |a.ops| && |b.ops| == act + 1 && b.ops[..act] == a.ops
              && b.ops[act] == NewOperator(ReLU(Some(opcode)), -1).(inputs := b.ops[act].inputs)
              && |b.ops[act].inputs| == (if opcode == Tflite.RELU6 then 3 else 1) && b.ops[act].inputs[0] == f
              && act in b.tensors[f].consumers
  {
    var (b, act) := PushOp(a, NewOperator(ReLU(Some(opcode)), -1));
    var c := LinkInput(b, act, f).value;
    if opcode == Tflite.RELU6 {
      var rb := LinkClipBounds(c, act, f);
      if rb.Err? {
        return Err(rb.error);
      }
      var d := rb.value.0;
      ExtendsTrans(a, c, d);
      return Ok((d, act));
    }
    return Ok((c, act));
  }

  /** Last step: the activation becomes the producer of `output` in place of
      `intermediate`, is parsed (an operator of the older base keeps its name), and is
      recorded as a post helper of `master`. */
  method Rewire(a: Arena, master: OpId, output: TensorId, intermediate: OpId, act: OpId) returns (r: Result<Arena>)
    requires Valid(a) && master < act < |a.ops| && output < |a.tensors|
    requires a.ops[act].status == Initialized && Legacy(a.ops[act].kind)
    ensures r.Ok? <==> a.tensors[output].producers == [intermediate]
    ensures r.Ok? ==> Valid(r.value)
    ensures r.Ok? ==> r.value == a.(tensors := a.tensors[output := a.tensors[output].(producers := [act])],
                                    ops := a.ops[act := a.ops[act].(outputs := a.ops[act].outputs + [output],
                                                                    status := Parsed)]
                                                [master := a.ops[master].(post := a.ops[master].post + [act])])
  {
    var b := ReplaceProducerAt(a, output, intermediate, act);
    if b.Err? {
      return Err(b.error);
    }
    var c := AppendOutput(b.value, act, output);
    var d := SetOpParsed(c, act).value;
    return Ok(AppendPost(d, master, act));
  }

  /** `handleFusedActivation(master, option, output, intermediate)`. Without a fused
      activation nothing changes. Otherwise `intermediate -> output` becomes
      `intermediate -> FAF tensor -> activation -> output`, and the activation is recorded
      as a post helper of `master`. */
  method HandleFusedActivation(a: Arena, master: OpId, faf: int, output: TensorId, intermediate: OpId) returns (r: Result<Arena>)
    requires Valid(a) && master < |a.ops| && intermediate < |a.ops| && output < |a.tensors|
    ensures faf == Tflite.ACT_NONE ==> r == Ok(a)
    ensures faf != Tflite.ACT_NONE && r.Ok? ==> FusedOpcode(faf).Ok? && SpliceGuard(a, output, intermediate)
    ensures faf == Tflite.ACT_RELU && SpliceGuard(a, output, intermediate) ==> r.Ok?
    ensures faf != Tflite.ACT_NONE && r.Ok? ==>
              Valid(r.value) && Spliced(a, r.value, master, output, intermediate, FusedOpcode(faf).value)
    ensures r.Ok? ==> SpliceFrame(a, r.value, master)
    ensures r.Ok? && intermediate == master && output in a.ops[master].outputs && a.tensors[output].producers == [master] ==>
              Delivers(r.value, master, faf, output)
  {
    if faf == Tflite.ACT_NONE {
      return Ok(a);
    }
    var ropc := FusedOpcode(faf);
    if ropc.Err? {
      return Err(ropc.error);
    }
    var opcode := ropc.value;
    var rs := SpliceTensor(a, output, intermediate);
    if rs.Err? {
      return Err(rs.error);
    }
    var (b, f) := rs.value;
    var ra := ActivationOp(b, f, opcode);
    if ra.Err? {
      return Err(ra.error);
    }
    var (c, act) := ra.value;
    assert c.tensors[output].producers == a.tensors[output].producers;
    r := Rewire(c, master, output, intermediate, act);
    if r.Ok? {
      StepsSplice(a, b, c, r.value, master, output, intermediate, opcode);
      if intermediate == master {
        SplicedDelivers(a, r.value, master, output, faf);
      }
    }
  }

  /** The three steps of the splice, taken together, leave the graph `Spliced`. */
  lemma StepsSplice(a: Arena, b: Arena, c: Arena, d: Arena, master: OpId, output: TensorId, intermediate: OpId, opcode: int)
    requires Valid(a) && master < |a.ops| && intermediate < |a.ops| && output < |a.tensors|
    requires output in a.ops[intermediate].outputs && FafName(a.tensors[output].name) !in a.registry
    requires var f := |a.tensors|;
             && |b.tensors| == f + 1 && b.tensors[..f] == a.tensors
             && b.tensors[f] == FafTensor(a.tensors[output]).(producers := [intermediate])
             && b.registry == a.registry[FafName(a.tensors[output].name) := f]
             && b.ops == a.ops[intermediate := a.ops[intermediate].(outputs := ReplaceFirst(a.ops[intermediate].outputs, output, f))]
    requires var f := |a.tensors|;
             var act := |b.ops|;
             && Extends(b, c) && |c.ops| == act + 1 && c.ops[..act] == b.ops
             && c.ops[act] == NewOperator(ReLU(Some(opcode)), -1).(inputs := c.ops[act].inputs)
             && |c.ops[act].inputs| == (if opcode == Tflite.RELU6 then 3 else 1) && c.ops[act].inputs[0] == f
             && act in c.tensors[f].consumers
    requires var act := |b.ops|;
             d == c.(tensors := c.tensors[output := c.tensors[output].(producers := [act])],
                     ops := c.ops[act := c.ops[act].(outputs := c.ops[act].outputs + [output], status := Parsed)]
                                 [master := c.ops[master].(post := c.ops[master].post + [act])])
    ensures Spliced(a, d, master, output, intermediate, opcode)
    ensures SpliceFrame(a, d, master)
  {
    var f := |a.tensors|;
    var act := |a.ops|;
    assert c.ops[intermediate] == b.ops[intermediate] && c.ops[master] == b.ops[master];
    assert c.tensors[f] == b.tensors[f].(consumers := c.tensors[f].consumers);
  }

  /** What a splice leaves alone: every registered name; of `master`, everything but its
      outputs and post helpers; of every tensor already there, everything but its edges. */
  predicate SpliceFrame(a: Arena, b: Arena, master: OpId)
    requires master < |a.ops|
  {
    && |a.ops| <= |b.ops| && |a.tensors| <= |b.tensors| && KeepsNames(a, b)
    && b.ops[master] == a.ops[master].(outputs := b.ops[master].outputs, post := b.ops[master].post)
    && forall t | 0 <= t < |a.tensors| ::
         b.tensors[t] == a.tensors[t].(producers := b.tensors[t].producers, consumers := b.tensors[t].consumers)
  }

  /** What the splice checks before it changes anything that stays changed. */
  predicate SpliceGuard(a: Arena, output: TensorId, intermediate: OpId)
    requires output < |a.tensors| && intermediate < |a.ops|
  {
    && a.tensors[output].status == Parsed
    && FafName(a.tensors[output].name) !in a.registry
    && output in a.ops[intermediate].outputs
    && a.tensors[output].producers == [intermediate]
  }

  /** The shape of the graph after a splice of `output`: the new tensor `f` (the first one
      appended) sits between `intermediate` and the new activation `act` (the first
      operator appended), which now produces `output`. */
  predicate Spliced(a: Arena, b: Arena, master: OpId, output: TensorId, intermediate: OpId, opcode: int)
    requires master < |a.ops| && intermediate < |a.ops| && output < |a.tensors|
  {
    var f := |a.tensors|;
    var act := |a.ops|;
    && |b.ops| == act + 1 && |b.tensors| > f
    && b.tensors[f] == FafTensor(a.tensors[output]).(producers := [intermediate], consumers := b.tensors[f].consumers)
    && act in b.tensors[f].consumers
    && FafName(a.tensors[output].name) in b.registry && b.registry[FafName(a.tensors[output].name)] == f
    && output in a.ops[intermediate].outputs
    && b.ops[intermediate].outputs == ReplaceFirst(a.ops[intermediate].outputs, output, f)
    && b.ops[act].kind == ReLU(Some(opcode)) && b.ops[act].index == -1 && b.ops[act].status == Parsed
    && b.ops[act].outputs == [output] && b.ops[act].name == Some(DefaultName)
    && |b.ops[act].inputs| == (if opcode == Tflite.RELU6 then 3 else 1) && b.ops[act].inputs[0] == f
    && b.ops[master].post == a.ops[master].post + [act]
    && b.tensors[output].producers == [act]
    && forall p | 0 <= p < act && p != master && p != intermediate :: b.ops[p] == a.ops[p]
  }

  /** After a splice behind `master` itself, the activation delivers `output`. */
  lemma SplicedDelivers(a: Arena, b: Arena, master: OpId, output: TensorId, faf: int)
    requires master < |a.ops| && output < |a.tensors| && FusedOpcode(faf).Ok?
    requires Spliced(a, b, master, output, master, FusedOpcode(faf).value)
    ensures output < |b.tensors| && Delivers(b, master, faf, output)
  {
    var k := FirstIndex(a.ops[master].outputs, output);
    assert b.ops[master].outputs[k] == |a.tensors|;
  }

  /** The tensor registered for TFLite output 0 of the entry of `master` is delivered
      after the fused activation `faf`, as `Delivers` says. */
  predicate DeliversOutput(b: Arena, g: Tflite.Subgraph, master: OpId, faf: int)
    requires Valid(b) && master < |b.ops|
  {
    && 0 <= b.ops[master].index < |g.operators| && |g.operators[b.ops[master].index].outputs| > 0
    && var x := g.operators[b.ops[master].index].outputs[0];
       && 0 <= x < |g.tensors| && g.tensors[x].name in b.registry
       && Delivers(b, master, faf, b.registry[g.tensors[x].name])
  }

  /** Handling the fused activation of `master`, whose output `ot` is TFLite output 0 of
      its entry, delivers that output; naming and marking `master` parsed keeps it so. */
  lemma HandledDelivers(a: Arena, b: Arena, c: Arena, g: Tflite.Subgraph, master: OpId, faf: int, ot: TensorId)
    requires Valid(a) && Valid(b) && master < |a.ops| && ot < |a.tensors|
    requires OutputIs(a, g, a.ops[master].index, 0, ot)
    requires SpliceFrame(a, b, master) && Delivers(b, master, faf, ot)
    requires SetOpParsed(b, master).Ok? && c == SetOpParsed(b, master).value
    ensures Valid(c) && DeliversOutput(c, g, master, faf)
  {
  }

  /** A converter that read its inputs, handled its fused activation and was marked
      parsed still reads those inputs and delivers its output. */
  lemma FusedParsed(a: Arena, b: Arena, d: Arena, c: Arena, g: Tflite.Subgraph, o: OpId, faf: int, ot: TensorId, count: nat)
    requires Valid(b) && Valid(d) && o < |a.ops| && o < |b.ops| && ot < |b.tensors|
    requires ReadsInputs(a, b, g, o, count) && OutputIs(b, g, b.ops[o].index, 0, ot)
    requires SpliceFrame(b, d, o) && Delivers(d, o, faf, ot)
    requires SetOpParsed(d, o).Ok? && c == SetOpParsed(d, o).value
    ensures Valid(c) && ReadsInputs(a, c, g, o, count) && DeliversOutput(c, g, o, faf)
  {
    ReadsKept(a, b, c, g, o, count);
    HandledDelivers(b, d, c, g, o, faf, ot);
  }

  /** How `master` delivers `t`, the output of its TFLite operator, once the fused
      activation `faf` is handled: without one, `master` produces `t` itself; with one,
      the last post helper of `master` is the ReLU or Clip of that activation, which
      produces `t` from a tensor that `master` outputs. */
  predicate Delivers(b: Arena, master: OpId, faf: int, t: TensorId)
    requires master < |b.ops| && t < |b.tensors|
  {
    if faf == Tflite.ACT_NONE then t in b.ops[master].outputs && b.tensors[t].producers == [master]
    else
      && FusedOpcode(faf).Ok? && |b.ops[master].post| > 0
      && var act := b.ops[master].post[|b.ops[master].post| - 1];
         && act < |b.ops| && b.ops[act].kind == ReLU(Some(FusedOpcode(faf).value))
         && b.ops[act].outputs == [t] && b.tensors[t].producers == [act]
         && |b.ops[act].inputs| > 0 && b.ops[act].inputs[0] in b.ops[master].outputs
  }
}

=== FILE: axes.dfy ===
/** Remapping of axis attributes when the layouts of an operator's tensors are transformed,
    as the `transform()` of Concat (tflite2onnx/op/concat.py), Split
    (tflite2onnx/op/split.py) and Reduce (tflite2onnx/op/reduce.py) do it: an axis given
    in the TFLite order becomes the position of the same axis in the ONNX order. */
module Axes {
  import opened Wrappers
  import opened Seqs
  import opened Lifecycle
  import opened Layouts
  import opened Tensors
  import opened Operators
  import opened Ir

  /** `axis if axis >= 0 else axis + rank`: a negative axis counts from the end. An axis in
      `[-rank, rank)` becomes a position of the shape; a non-negative one is kept, and one
      below `-rank` stays negative, so a later lookup of it fails. */
  function Normalize(axis: int, rank: nat): (r: int)
    ensures -(rank as int) <= axis < rank ==> 0 <= r < rank
    ensures axis >= 0 ==> r == axis
    ensures axis < -(rank as int) ==> r < 0
  {
    if axis >= 0 then axis else axis + rank
  }

  /** `layout.perm.index(axis)`, the axis first normalized by the length of the
      permutation: the position of the target order that takes the normalized axis of the
      source order. A label of the target missing from the source is a KeyError, an axis
      the permutation does not hold a ValueError. */
  function RemapAxis(axis: int, l: Layout): (r: Result<nat>)
    ensures r.Ok? ==> GetPerm(l.source, l.target).Ok?
    ensures r.Ok? ==> var perm := GetPerm(l.source, l.target).value;
              r.value < |perm| && perm[r.value] == Normalize(axis, |perm|)
    ensures GetPerm(l.source, l.target).Ok? ==>
              (r.Ok? <==> Normalize(axis, |l.target|) in GetPerm(l.source, l.target).value)
  {
    var perm :- l.Perm();
    Index(perm, Normalize(axis, |perm|))
  }

  /** Between layouts naming the same distinct axes, exactly the axes in `[-rank, rank)`
      are remapped, each to the position where the target order holds the label the
      source order has at the normalized axis. */
  lemma {:induction false} RemapAxisMeaning(axis: int, l: Layout)
    requires SameAxes(l.source, l.target)
    ensures RemapAxis(axis, l).Ok? <==> -|l.source| <= axis < |l.source|
    ensures RemapAxis(axis, l).Ok? ==>
              l.target[RemapAxis(axis, l).value] == l.source[Normalize(axis, |l.source|)]
  {
    var src, tgt := l.source, l.target;
    var perm := GetPerm(src, tgt).value;
    var n := Normalize(axis, |src|);
    if 0 <= n < |src| {
      assert src[n] in tgt;
      var i :| 0 <= i < |tgt| && tgt[i] == src[n];
      assert src[perm[i]] == src[n];
      assert perm[i] == n;
      assert n in perm;
    } else {
      assert n !in perm;
    }
  }

  /** The remapped axis of a reordered shape has the extent the axis had before. */
  lemma RemapAxisExtent<T>(x: seq<T>, axis: int, l: Layout)
    requires SameAxes(l.source, l.target) && |x| == |l.source| && -|x| <= axis < |x|
    ensures RemapAxis(axis, l).Ok? && Transform(x, l.source, l.target).Ok?
    ensures Transform(x, l.source, l.target).value[RemapAxis(axis, l).value] == x[Normalize(axis, |x|)]
  {
    RemapAxisMeaning(axis, l);
    TransformDefined(x, l.source, l.target);
    LastIndexDistinct(l.source, Normalize(axis, |x|));
  }

  /** Every axis of a list remapped in turn. */
  function RemapAxes(axes: seq<int>, l: Layout): (r: Result<seq<nat>>)
    ensures r.Ok? <==> forall k | 0 <= k < |axes| :: RemapAxis(axes[k], l).Ok?
    ensures r.Ok? ==> |r.value| == |axes| && forall k | 0 <= k < |axes| :: r.value[k] == RemapAxis(axes[k], l).value
  {
    if |axes| == 0 then Ok([])
    else
      var head :- RemapAxis(axes[0], l);
      var tail :- RemapAxes(axes[1..], l);
      assert forall k | 1 <= k < |axes| :: axes[k] == axes[1..][k - 1];
      Ok([head] + tail)
  }

  /** The list form of `RemapAxisMeaning`: every axis in range is remapped to the
      position of its label in the target order. */
  lemma RemapAxesMeaning(axes: seq<int>, l: Layout)
    requires SameAxes(l.source, l.target)
    ensures RemapAxes(axes, l).Ok? <==> forall k | 0 <= k < |axes| :: -|l.source| <= axes[k] < |l.source|
    ensures RemapAxes(axes, l).Ok? ==> forall k | 0 <= k < |axes| ::
              l.target[RemapAxes(axes, l).value[k]] == l.source[Normalize(axes[k], |l.source|)]
  {
    forall k | 0 <= k < |axes|
      ensures RemapAxis(axes[k], l).Ok? <==> -|l.source| <= axes[k] < |l.source|
      ensures RemapAxis(axes[k], l).Ok? ==> l.target[RemapAxis(axes[k], l).value] == l.source[Normalize(axes[k], |l.source|)]
    {
      RemapAxisMeaning(axes[k], l);
    }
  }

  /** The `transform()` of Concat and Split: without a layout on the first output nothing
      changes; otherwise the integer attribute "axis" is remapped by that layout. A
      missing output is an IndexError, a missing or non-integer attribute a KeyError or
      TypeError. */
  function TransformAxisAttr(a: Arena, o: OpId): (r: Result<Arena>)
    requires Valid(a) && o < |a.ops|
    ensures |a.ops[o].outputs| == 0 ==> r.Err?
    ensures |a.ops[o].outputs| > 0 && a.tensors[OutputOf(a, o, 0)].layout.None? ==> r == Ok(a)
    ensures |a.ops[o].outputs| > 0 && a.tensors[OutputOf(a, o, 0)].layout.Some? ==>
              var l := a.tensors[OutputOf(a, o, 0)].layout.value;
              var attrs := a.ops[o].attrs;
              && (r.Ok? <==> "axis" in attrs && attrs["axis"].AInt? && RemapAxis(attrs["axis"].i, l).Ok?)
              && (r.Ok? ==> r.value == a.(ops := a.ops[o := a.ops[o].(attrs := attrs["axis" := AInt(RemapAxis(attrs["axis"].i, l).value)])]))
  {
    if |a.ops[o].outputs| == 0 then Err(Assertion("list index out of range")) else
    var layout := a.tensors[OutputOf(a, o, 0)].layout;
    if layout.None? then Ok(a)
    else
      :- Need("axis" in a.ops[o].attrs && a.ops[o].attrs["axis"].AInt?, "axis attribute is not an integer");
      var k :- RemapAxis(a.ops[o].attrs["axis"].i, layout.value);
      Ok(SetAttr(a, o, "axis", AInt(k)))
  }

  /** After the transformation, the "axis" attribute indexes the dimension of the
      transformed output that the original axis indexed in the untransformed output, when
      the layout names the same distinct axes as the output has dimensions. */
  lemma {:induction false} AxisAttrFollowsOutput(a: Arena, o: OpId)
    requires Valid(a) && o < |a.ops| && |a.ops[o].outputs| > 0
    requires "axis" in a.ops[o].attrs && a.ops[o].attrs["axis"].AInt?
    requires var out := a.tensors[OutputOf(a, o, 0)];
             && out.status == Parsed && out.layout.Some?
             && SameAxes(out.layout.value.source, out.layout.value.target)
             && |out.shape| == |out.layout.value.source|
             && -|out.shape| <= a.ops[o].attrs["axis"].i < |out.shape|
    ensures TransformAxisAttr(a, o).Ok?
    ensures var out := a.tensors[OutputOf(a, o, 0)];
            var b := TransformAxisAttr(a, o).value;
            && TransformTensor(out).Ok?
            && b.ops[o].attrs["axis"].AInt?
            && 0 <= b.ops[o].attrs["axis"].i < |TransformTensor(out).value.shape|
            && TransformTensor(out).value.shape[b.ops[o].attrs["axis"].i]
               == out.shape[Normalize(a.ops[o].attrs["axis"].i, |out.shape|)]
  {
    var out := a.tensors[OutputOf(a, o, 0)];
    var l := out.layout.value;
    RemapAxisExtent(out.shape, a.ops[o].attrs["axis"].i, l);
  }
}

=== FILE: binary.dfy ===
/** The element-wise binary converters ADD and MUL (tflite2onnx/op/binary.py). TFLite
    broadcasts operands of different rank implicitly; before layouts are propagated the
    converter gives the lower-rank operand the rank of the other one by a Reshape that
    prepends dimensions of size one ("fake broadcasting"). */
module BinaryOp {
  import opened Wrappers
  import opened Seqs
  import opened Lifecycle
  import opened Payload
  import opened Tensors
  import opened Operators
  import opened Ir
  import opened OpCommon
  import Tflite
  import Dtypes
  import Activation

  // ---------------------------------------------------------------- alignDimension

  /** `aligned.insert(0, 1)` repeated `n` times. */
  function PrependOnes(s: seq<int>, n: nat): (r: seq<int>)
    ensures |r| == |s| + n
    ensures forall i | 0 <= i < n :: r[i] == 1
    ensures r[n..] == s
  {
    if n == 0 then s else [1] + PrependOnes(s, n - 1)
  }

  /** `alignDimension(a, b)`: whether `a` is the shorter shape, and the shorter shape
      padded on the left with ones to the rank of the longer one. With equal ranks `b` is
      the one "aligned", unchanged. */
  function AlignDimension(a: seq<int>, b: seq<int>): (r: (bool, seq<int>))
    ensures r.0 <==> |a| < |b|
    ensures |r.1| == if |a| < |b| then |b| else |a|
    ensures var short := if r.0 then a else b;
            var d := |r.1| - |short|;
            && (forall i | 0 <= i < d :: r.1[i] == 1)
            && r.1[d..] == short
  {
    var alignA := |a| < |b|;
    var short := if alignA then a else b;
    var long := if alignA then b else a;
    (alignA, PrependOnes(short, |long| - |short|))
  }

  /** The alignment examples of tests/test_layout.py. */
  lemma AlignDimensionExamples()
    ensures AlignDimension([2, 3, 4, 5], []) == (false, [1, 1, 1, 1])
    ensures AlignDimension([2, 3, 4, 5], [5]) == (false, [1, 1, 1, 5])
    ensures AlignDimension([4, 5], [2, 3, 4, 5]) == (true, [1, 1, 4, 5])
    ensures AlignDimension([1, 4, 5], [2, 3, 1, 1]) == (true, [1, 1, 4, 5])
    ensures AlignDimension([3, 4, 5], [2, 1, 1, 1]) == (true, [1, 3, 4, 5])
  {
    assert PrependOnes([], 4) == [1, 1, 1, 1];
    assert PrependOnes([5], 3) == [1, 1, 1, 5];
    assert PrependOnes([4, 5], 2) == [1, 1, 4, 5];
    assert PrependOnes([1, 4, 5], 1) == [1, 1, 4, 5];
    assert PrependOnes([3, 4, 5], 1) == [1, 3, 4, 5];
  }

  /** Aligning once is enough: the aligned shape has the rank of the longer one, so
      aligning it again against that shape changes nothing. */
  lemma AlignTwice(a: seq<int>, b: seq<int>)
    ensures var (alignA, s) := AlignDimension(a, b);
            var long := if alignA then b else a;
            AlignDimension(long, s) == (false, s)
  {
    var (alignA, s) := AlignDimension(a, b);
    assert PrependOnes(s, 0) == s;
  }

  // ---------------------------------------------------------------- broadcasting semantics

  /** Dimension `k` counted from the right (`k >= 1`), one past the rank. */
  function DimFromRight(s: seq<int>, k: nat): int {
    if 1 <= k <= |s| then s[|s| - k] else 1
  }

  /** Two shapes broadcast against each other when, aligned on the right, each pair of
      dimensions agrees or one of them is one. */
  predicate Broadcastable(a: seq<int>, b: seq<int>) {
    forall k | 1 <= k <= |a| + |b| ::
      DimFromRight(a, k) == DimFromRight(b, k) || DimFromRight(a, k) == 1 || DimFromRight(b, k) == 1
  }

  /** The shape of the broadcast result. */
  function BroadcastShape(a: seq<int>, b: seq<int>): (r: seq<int>)
    ensures |r| == if |a| < |b| then |b| else |a|
  {
    var n := if |a| < |b| then |b| else |a|;
    seq(n, i requires 0 <= i < n =>
      if DimFromRight(a, n - i) == 1 then DimFromRight(b, n - i) else DimFromRight(a, n - i))
  }

  /** Padding a shape on the left with ones changes none of its dimensions counted from
      the right. */
  lemma {:induction false} PrependOnesDims(s: seq<int>, n: nat, k: nat)
    ensures DimFromRight(PrependOnes(s, n), k) == DimFromRight(s, k)
  {
    var p := PrependOnes(s, n);
    if 1 <= k <= |s| {
      assert p[|p| - k] == p[n..][|s| - k];
    } else if 1 <= k <= |p| {
      assert p[|p| - k] == 1;
    }
  }

  /** Fake broadcasting is sound: the operands after alignment broadcast exactly when the
      original ones do, to the same shape, and now have the same rank. */
  lemma {:induction false} AlignKeepsBroadcast(a: seq<int>, b: seq<int>)
    ensures var (alignA, s) := AlignDimension(a, b);
            var a2 := if alignA then s else a;
            var b2 := if alignA then b else s;
            && |a2| == |b2|
            && (Broadcastable(a2, b2) <==> Broadcastable(a, b))
            && BroadcastShape(a2, b2) == BroadcastShape(a, b)
  {
    var (alignA, s) := AlignDimension(a, b);
    var a2 := if alignA then s else a;
    var b2 := if alignA then b else s;
    var short := if alignA then a else b;
    var long := if alignA then b else a;
    assert s == PrependOnes(short, |long| - |short|);
    forall k: nat
      ensures DimFromRight(a2, k) == DimFromRight(a, k) && DimFromRight(b2, k) == DimFromRight(b, k)
    {
      PrependOnesDims(short, |long| - |short|, k);
    }
    assert BroadcastShape(a2, b2) == BroadcastShape(a, b);
  }

  /** numpy's example of broadcasting a row against a matrix. */
  lemma BroadcastExample()
    ensures Broadcastable([4, 5], [2, 3, 4, 5]) && BroadcastShape([4, 5], [2, 3, 4, 5]) == [2, 3, 4, 5]
    ensures !Broadcastable([3, 4], [2, 3, 5])
  {
    assert DimFromRight([3, 4], 1) == 4 && DimFromRight([2, 3, 5], 1) == 5;
    assert BroadcastShape([4, 5], [2, 3, 4, 5]) == [2, 3, 4, 5] by {
      var r := BroadcastShape([4, 5], [2, 3, 4, 5]);
      assert r[0] == 2 && r[1] == 3 && r[2] == 4 && r[3] == 5;
    }
  }

  // ---------------------------------------------------------------- fakeBroadcast

  function ReshapedName(name: string): string {
    "TFLITE2ONNX_Reshape_" + name
  }

  function NewShapeName(name: string): string {
    "TFLITE2ONNX_NewShape_" + name
  }

  /** `new_t`: the type, quantization and layout of `todo`, the aligned shape, parsed. */
  function ReshapedTensor(todo: Tensor, shape: seq<int>): (t: Tensor)
    ensures t.name == ReshapedName(todo.name) && t.origin == Helper && t.status == Parsed
    ensures t.dtype == todo.dtype && t.scale == todo.scale && t.zeroPoint == todo.zeroPoint
    ensures t.layout == todo.layout && t.shape == shape && t.data == None
    ensures t.producers == [] && t.consumers == [] && !t.isBias
  {
    NewTensor(Helper, None, false).(name := ReshapedName(todo.name), dtype := todo.dtype, scale := todo.scale,
                                     zeroPoint := todo.zeroPoint, layout := todo.layout, shape := shape,
                                     status := Parsed)
  }

  /** `shape_t`: the aligned shape as a constant vector of int64, parsed. */
  function ShapeTensor(todoName: string, shape: seq<int>): (t: Tensor)
    ensures t.name == NewShapeName(todoName) && t.origin == Helper && t.status == Parsed
    ensures t.dtype == Some(Dtypes.OnnxInt64) && t.shape == [|shape|] && t.data == Some(FromInts(shape))
    ensures t.layout == None && t.producers == [] && t.consumers == [] && !t.isBias
  {
    NewTensor(Helper, None, false).(name := NewShapeName(todoName), dtype := Some(Dtypes.OnnxInt64),
                                     shape := [|shape|], data := Some(FromInts(shape)), status := Parsed)
  }

  /** What `fakeBroadcast` reads: an initialized operator with two inputs and an output. */
  predicate Operands(a: Arena, self: OpId)
    requires self < |a.ops|
  {
    a.ops[self].status == Initialized && |a.ops[self].inputs| >= 2 && |a.ops[self].outputs| >= 1
  }

  /** The rank of input `i` of `self`. */
  function InputRank(a: Arena, self: OpId, i: nat): nat
    requires Valid(a) && self < |a.ops| && i < |a.ops[self].inputs|
  {
    |a.tensors[InputOf(a, self, i)].shape|
  }

  /** The operand to align: the first input when it is the shorter one, else the second. */
  function Todo(a: Arena, self: OpId): (t: TensorId)
    requires Valid(a) && self < |a.ops| && Operands(a, self)
    ensures t < |a.tensors| && t in a.ops[self].inputs
  {
    var x := InputOf(a, self, 0);
    var y := InputOf(a, self, 1);
    if AlignDimension(a.tensors[x].shape, a.tensors[y].shape).0 then x else y
  }

  /** The aligned shape of the operand to align. */
  function NewShape(a: Arena, self: OpId): seq<int>
    requires Valid(a) && self < |a.ops| && Operands(a, self)
  {
    AlignDimension(a.tensors[InputOf(a, self, 0)].shape, a.tensors[InputOf(a, self, 1)].shape).1
  }

  /** The arena after fake broadcasting of `self`, whose operands differ in rank. */
  predicate Broadcasted(a: Arena, b: Arena, self: OpId)
    requires Valid(a) && self < |a.ops| && Operands(a, self)
  {
    self in a.tensors[Todo(a, self)].consumers && b == Rerouted(a, self, Todo(a, self), NewShape(a, self))
  }

  /** `a` with `todo` routed through a Reshape to `shape` before `self`: the aligned
      tensor `nt`, registered, and the shape constant `st` are appended, and the Reshape
      `rs` reads `todo` and `st`, produces `nt` and is the pre helper of `self`, which now
      reads `nt` in place of `todo`. Nothing else changes. */
  function Rerouted(a: Arena, self: OpId, todo: TensorId, shape: seq<int>): Arena
    requires self < |a.ops| && todo < |a.tensors| && todo in a.ops[self].inputs
    requires self in a.tensors[todo].consumers
  {
    var nt := |a.tensors|;
    var st := nt + 1;
    var rs := |a.ops|;
    var x := a.tensors[todo];
    var op := a.ops[self];
    Arena(a.tensors[todo := x.(consumers := ReplaceFirst(x.consumers, self, rs))]
            + [ReshapedTensor(x, shape).(producers := [rs], consumers := [self]),
               ShapeTensor(x.name, shape).(consumers := [rs])],
          a.ops[self := op.(inputs := ReplaceFirst(op.inputs, todo, nt), pre := op.pre + [rs])]
            + [NewOperator(Reshape(true), -1).(inputs := [todo, st], outputs := [nt], status := Parsed)],
          a.registry[ReshapedName(x.name) := nt])
  }

  /** First step: the aligned tensor (after the check that its name is free), the shape
      constant and the Reshape operator, all without edges. */
  method AddReshapeNodes(a: Arena, todo: TensorId, shape: seq<int>) returns (r: Result<Arena>)
    requires Valid(a) && todo < |a.tensors|
    ensures r.Ok? <==> ReshapedName(a.tensors[todo].name) !in a.registry
    ensures r.Ok? ==> Valid(r.value)
    ensures r.Ok? ==> r.value == Arena(a.tensors + [ReshapedTensor(a.tensors[todo], shape), ShapeTensor(a.tensors[todo].name, shape)],
                                       a.ops + [NewOperator(Reshape(true), -1)],
                                       a.registry[ReshapedName(a.tensors[todo].name) := |a.tensors|])
  {
    var x := a.tensors[todo];
    if ReshapedName(x.name) in a.registry {
      return Err(Assertion("reshaped tensor already registered"));
    }
    var (b, nt) := PushTensor(a, ReshapedTensor(x, shape));
    var c := Register(b, ReshapedName(x.name), nt);
    var (d, st) := PushTensor(c, ShapeTensor(x.name, shape));
    var (e, rs) := PushOp(d, NewOperator(Reshape(true), -1));
    return Ok(e);
  }

  /** Second step, the input side: the Reshape reads `todo` in place of `self`, and `self`
      reads `nt` in place of `todo`. */
  method LinkReshapeInput(a: Arena, self: OpId, todo: TensorId, nt: TensorId, rs: OpId) returns (r: Result<Arena>)
    requires Valid(a) && self < |a.ops| && rs < |a.ops| && todo < |a.tensors| && nt < |a.tensors|
    requires todo in a.ops[self].inputs && self != rs
    ensures r.Ok? <==> self in a.tensors[todo].consumers
    ensures r.Ok? ==> Valid(r.value)
    ensures r.Ok? ==> r.value == a.(tensors := a.tensors[todo := a.tensors[todo].(consumers := ReplaceFirst(a.tensors[todo].consumers, self, rs))],
                                    ops := a.ops[rs := a.ops[rs].(inputs := a.ops[rs].inputs + [todo])]
                                                [self := a.ops[self].(inputs := ReplaceFirst(a.ops[self].inputs, todo, nt))])
  {
    var b := AppendInput(a, rs, todo);
    var c := ReplaceConsumerAt(b, todo, self, rs);
    if c.Err? {
      return Err(c.error);
    }
    return ReplaceInputAt(c.value, self, todo, nt);
  }

  /** Second step, the edges of the Reshape: it reads `st` and produces `nt`, which
      `self` consumes. */
  method LinkReshapeEdges(a: Arena, self: OpId, nt: TensorId, st: TensorId, rs: OpId) returns (r: Arena)
    requires Valid(a) && self < |a.ops| && rs < |a.ops| && nt < |a.tensors| && st < |a.tensors| && nt != st
    requires a.tensors[st].consumers == [] && a.tensors[nt].producers == [] && a.tensors[nt].consumers == []
    ensures Valid(r)
    ensures r == a.(tensors := a.tensors[st := a.tensors[st].(consumers := [rs])]
                                        [nt := a.tensors[nt].(producers := [rs], consumers := [self])],
                    ops := a.ops[rs := a.ops[rs].(inputs := a.ops[rs].inputs + [st], outputs := a.ops[rs].outputs + [nt])])
  {
    var b := LinkInput(a, rs, st).value;
    var c := LinkOutput(b, rs, nt).value;
    assert c.tensors[nt] == a.tensors[nt].(producers := [rs]);
    var d := AddConsumerAt(c, nt, self).value;
    assert d.tensors[nt] == a.tensors[nt].(producers := [rs], consumers := [self]);
    assert d.tensors[st] == a.tensors[st].(consumers := [rs]);
    return d;
  }

  /** Last step: the Reshape is parsed (an operator of the older base keeps its name)
      and becomes the pre helper of `self`. */
  method FinishReshape(a: Arena, self: OpId, rs: OpId) returns (r: Arena)
    requires Valid(a) && self < rs < |a.ops|
    requires a.ops[rs].status == Initialized && a.ops[rs].kind == Reshape(true)
    ensures Valid(r)
    ensures r == a.(ops := a.ops[rs := a.ops[rs].(status := Parsed)][self := a.ops[self].(pre := a.ops[self].pre + [rs])])
  {
    assert NameOnParse(a.ops[rs], OutputNames(a, rs)) == Ok(a.ops[rs].name);
    var g := SetOpParsed(a, rs).value;
    return AppendPre(g, self, rs);
  }

  /** The edges of the Reshape `rs` that routes `todo` to `nt` before `self`. */
  predicate Linked(b: Arena, d: Arena, self: OpId, todo: TensorId, nt: TensorId, st: TensorId, rs: OpId)
    requires self < |b.ops| && rs < |b.ops| && todo < |b.tensors| && nt < |b.tensors| && st < |b.tensors|
    requires todo in b.ops[self].inputs && self in b.tensors[todo].consumers
  {
    d == b.(tensors := b.tensors[todo := b.tensors[todo].(consumers := ReplaceFirst(b.tensors[todo].consumers, self, rs))]
                                [st := b.tensors[st].(consumers := [rs])]
                                [nt := b.tensors[nt].(producers := [rs], consumers := [self])],
            ops := b.ops[rs := b.ops[rs].(inputs := b.ops[rs].inputs + [todo, st], outputs := b.ops[rs].outputs + [nt],
                                          status := Parsed)]
                        [self := b.ops[self].(inputs := ReplaceFirst(b.ops[self].inputs, todo, nt),
                                              pre := b.ops[self].pre + [rs])])
  }

  /** The second step: the edges of the new Reshape, in the order of the source. */
  method LinkReshape(b: Arena, self: OpId, todo: TensorId, nt: TensorId, st: TensorId, rs: OpId) returns (r: Result<Arena>)
    requires Valid(b) && self < rs < |b.ops| && todo < nt < |b.tensors| && st < |b.tensors| && nt != st && todo != st
    requires todo in b.ops[self].inputs
    requires b.tensors[st].consumers == [] && b.tensors[nt].producers == [] && b.tensors[nt].consumers == []
    requires b.ops[rs].status == Initialized && b.ops[rs].kind == Reshape(true)
    ensures r.Ok? <==> self in b.tensors[todo].consumers
    ensures r.Ok? ==> Valid(r.value) && Linked(b, r.value, self, todo, nt, st, rs)
  {
    var rc := LinkReshapeInput(b, self, todo, nt, rs);
    if rc.Err? {
      return Err(rc.error);
    }
    var c := rc.value;
    var e := LinkReshapeEdges(c, self, nt, st, rs);
    var d := FinishReshape(e, self, rs);
    assert d.tensors[todo] == c.tensors[todo];
    assert c.ops[rs].inputs + [st] == b.ops[rs].inputs + [todo, st];
    assert d.ops[rs] == b.ops[rs].(inputs := b.ops[rs].inputs + [todo, st], outputs := b.ops[rs].outputs + [nt], status := Parsed);
    return Ok(d);
  }

  /** The rewrite itself: `todo`, an input of `self`, is routed through a new Reshape to
      `shape`. */
  method Reroute(a: Arena, self: OpId, todo: TensorId, shape: seq<int>) returns (r: Result<Arena>)
    requires Valid(a) && self < |a.ops| && todo < |a.tensors| && todo in a.ops[self].inputs
    ensures r.Ok? <==> ReshapedName(a.tensors[todo].name) !in a.registry && self in a.tensors[todo].consumers
    ensures r.Ok? ==> Valid(r.value) && r.value == Rerouted(a, self, todo, shape)
  {
    var rb := AddReshapeNodes(a, todo, shape);
    if rb.Err? {
      return Err(rb.error);
    }
    var b := rb.value;
    var nt, st, rs := |a.tensors|, |a.tensors| + 1, |a.ops|;
    assert b.ops[self] == a.ops[self] && b.tensors[todo] == a.tensors[todo];
    assert b.tensors[nt] == ReshapedTensor(a.tensors[todo], shape) && b.tensors[st] == ShapeTensor(a.tensors[todo].name, shape);
    assert b.ops[rs] == NewOperator(Reshape(true), -1);
    r := LinkReshape(b, self, todo, nt, st, rs);
    if r.Ok? {
      NodesThenLinks(a, b, r.value, self, todo, shape);
    }
  }

  /** `fakeBroadcast()`: nothing to do when the operands have the same rank; otherwise
      the lower-rank operand is routed through a Reshape to the aligned shape. The
      aligned shape must have the rank of the output, the aligned tensor's name must be
      free, and `self` must be a consumer of the operand it stops reading. */
  method FakeBroadcast(a: Arena, self: OpId) returns (r: Result<Arena>)
    requires Valid(a) && self < |a.ops|
    ensures r.Ok? ==> Operands(a, self) && Valid(r.value)
    ensures r.Ok? ==> |a.tensors| <= |r.value.tensors| && |a.ops| <= |r.value.ops|
    ensures r.Ok? ==> r.value.ops[self].status == a.ops[self].status
    ensures r.Ok? ==> && r.value.ops[self] == a.ops[self].(inputs := r.value.ops[self].inputs, pre := r.value.ops[self].pre)
                      && KeepsNames(a, r.value)
                      && forall t | 0 <= t < |a.tensors| :: r.value.tensors[t] == a.tensors[t].(consumers := r.value.tensors[t].consumers)
    ensures Operands(a, self) && InputRank(a, self, 0) == InputRank(a, self, 1) ==> r == Ok(a)
    ensures Operands(a, self) && InputRank(a, self, 0) != InputRank(a, self, 1) ==>
              (r.Ok? <==> && |NewShape(a, self)| == |a.tensors[OutputOf(a, self, 0)].shape|
                          && ReshapedName(a.tensors[Todo(a, self)].name) !in a.registry
                          && self in a.tensors[Todo(a, self)].consumers)
    ensures r.Ok? && InputRank(a, self, 0) != InputRank(a, self, 1) ==> Broadcasted(a, r.value, self)
  {
    if !(a.ops[self].status == Initialized) {
      return Err(Assertion("fakeBroadcast before the operator is initialized"));
    }
    if |a.ops[self].inputs| < 2 || |a.ops[self].outputs| < 1 {
      return Err(IndexOutOfRange("list index out of range"));
    }
    var x := InputOf(a, self, 0);
    var y := InputOf(a, self, 1);
    var out := OutputOf(a, self, 0);
    if |a.tensors[x].shape| == |a.tensors[y].shape| {
      return Ok(a);
    }
    var todo := Todo(a, self);
    var shape := NewShape(a, self);
    if |shape| != |a.tensors[out].shape| {
      return Err(Assertion("aligned rank differs from the output rank"));
    }
    r := Reroute(a, self, todo, shape);
    if r.Ok? {
      ReroutedFrame(a, self, todo, shape);
    }
  }

  /** A rerouting changes of `self` only its inputs and pre helpers, of the old tensors
      only the consumers, and only adds a name. */
  lemma ReroutedFrame(a: Arena, self: OpId, todo: TensorId, shape: seq<int>)
    requires self < |a.ops| && todo < |a.tensors| && todo in a.ops[self].inputs
    requires self in a.tensors[todo].consumers && ReshapedName(a.tensors[todo].name) !in a.registry
    ensures var b := Rerouted(a, self, todo, shape);
            && b.ops[self] == a.ops[self].(inputs := b.ops[self].inputs, pre := b.ops[self].pre)
            && KeepsNames(a, b) && |a.tensors| <= |b.tensors|
            && forall t | 0 <= t < |a.tensors| :: b.tensors[t] == a.tensors[t].(consumers := b.tensors[t].consumers)
  {
  }

  /** The new nodes, then their edges, leave the arena `Rerouted`. */
  lemma NodesThenLinks(a: Arena, b: Arena, d: Arena, self: OpId, todo: TensorId, shape: seq<int>)
    requires self < |a.ops| && todo < |a.tensors| && todo in a.ops[self].inputs
    requires self in a.tensors[todo].consumers
    requires b == Arena(a.tensors + [ReshapedTensor(a.tensors[todo], shape), ShapeTensor(a.tensors[todo].name, shape)],
                        a.ops + [NewOperator(Reshape(true), -1)],
                        a.registry[ReshapedName(a.tensors[todo].name) := |a.tensors|])
    requires Linked(b, d, self, todo, |a.tensors|, |a.tensors| + 1, |a.ops|)
    ensures d == Rerouted(a, self, todo, shape)
  {
    var e := Rerouted(a, self, todo, shape);
    assert b.tensors[todo] == a.tensors[todo] && b.ops[self] == a.ops[self];
    assert d.tensors == e.tensors by {
      forall t | 0 <= t < |d.tensors|
        ensures d.tensors[t] == e.tensors[t]
      {
      }
    }
    assert d.ops == e.ops by {
      forall o | 0 <= o < |d.ops|
        ensures d.ops[o] == e.ops[o]
      {
      }
    }
  }

  /** After fake broadcasting, the two operands of `self` have the same rank, that of its
      output, and they broadcast to the same shape as before. */
  lemma {:induction false} BroadcastedOperands(a: Arena, b: Arena, self: OpId)
    requires Valid(a) && self < |a.ops| && Operands(a, self)
    requires InputRank(a, self, 0) != InputRank(a, self, 1)
    requires |NewShape(a, self)| == |a.tensors[OutputOf(a, self, 0)].shape|
    requires Broadcasted(a, b, self)
    ensures var ins, outs := b.ops[self].inputs, b.ops[self].outputs;
            && |ins| >= 2 && |outs| >= 1 && ins[0] < |b.tensors| && ins[1] < |b.tensors| && outs[0] < |b.tensors|
            && |b.tensors[ins[0]].shape| == |b.tensors[ins[1]].shape| == |b.tensors[outs[0]].shape|
            && BroadcastShape(b.tensors[ins[0]].shape, b.tensors[ins[1]].shape)
               == BroadcastShape(a.tensors[InputOf(a, self, 0)].shape, a.tensors[InputOf(a, self, 1)].shape)
  {
    var ins := a.ops[self].inputs;
    var out := OutputOf(a, self, 0);
    ReroutedOperands(a, self, ins[0], ins[1], out);
  }

  /** `ReroutedOperands` without the arena's validity: the shorter of the two inputs
      `x` and `y` of `self` is rerouted to its aligned shape. */
  lemma {:induction false} ReroutedOperands(a: Arena, self: OpId, x: TensorId, y: TensorId, out: TensorId)
    requires self < |a.ops| && |a.ops[self].inputs| >= 2 && |a.ops[self].outputs| >= 1
    requires x == a.ops[self].inputs[0] && y == a.ops[self].inputs[1] && out == a.ops[self].outputs[0]
    requires x < |a.tensors| && y < |a.tensors| && out < |a.tensors|
    requires |a.tensors[x].shape| != |a.tensors[y].shape|
    requires var (alignA, shape) := AlignDimension(a.tensors[x].shape, a.tensors[y].shape);
             |shape| == |a.tensors[out].shape| && self in a.tensors[if alignA then x else y].consumers
    ensures var (alignA, shape) := AlignDimension(a.tensors[x].shape, a.tensors[y].shape);
            var b := Rerouted(a, self, if alignA then x else y, shape);
            var ins, outs := b.ops[self].inputs, b.ops[self].outputs;
            && |ins| >= 2 && |outs| >= 1 && ins[0] < |b.tensors| && ins[1] < |b.tensors| && outs[0] < |b.tensors|
            && |b.tensors[ins[0]].shape| == |b.tensors[ins[1]].shape| == |b.tensors[outs[0]].shape|
            && BroadcastShape(b.tensors[ins[0]].shape, b.tensors[ins[1]].shape)
               == BroadcastShape(a.tensors[x].shape, a.tensors[y].shape)
  {
    var (alignA, shape) := AlignDimension(a.tensors[x].shape, a.tensors[y].shape);
    var todo := if alignA then x else y;
    var nt := |a.tensors|;
    var b := Rerouted(a, self, todo, shape);
    var ins := a.ops[self].inputs;
    ReroutedShapes(a, self, todo, shape);
    AlignKeepsBroadcast(a.tensors[x].shape, a.tensors[y].shape);
    assert x != y;
    if alignA {
      assert FirstIndex(ins, x) == 0;
      assert b.ops[self].inputs[0] == nt && b.ops[self].inputs[1] == y;
    } else {
      assert FirstIndex(ins, y) == 1 by {
        assert ins[0] != y && ins[1] == y;
      }
      assert b.ops[self].inputs[0] == x && b.ops[self].inputs[1] == nt;
    }
  }

  /** The operator and tensor fields of a rerouted arena that fix the operands' shapes. */
  lemma ReroutedShapes(a: Arena, self: OpId, todo: TensorId, shape: seq<int>)
    requires self < |a.ops| && todo < |a.tensors| && todo in a.ops[self].inputs
    requires self in a.tensors[todo].consumers
    ensures var b, nt := Rerouted(a, self, todo, shape), |a.tensors|;
            && |b.tensors| == nt + 2 && |b.ops| == |a.ops| + 1
            && b.ops[self].inputs == ReplaceFirst(a.ops[self].inputs, todo, nt)
            && b.ops[self].outputs == a.ops[self].outputs
            && b.tensors[nt].shape == shape
            && forall t | 0 <= t < nt :: b.tensors[t].shape == a.tensors[t].shape
  {
  }

  /** The tensor `x` stood for before fake broadcasting: the input of the Reshape that
      produces `x` when that Reshape is the last pre helper of `o`, else `x` itself. */
  function Unaligned(b: Arena, o: OpId, x: TensorId): TensorId
    requires o < |b.ops|
  {
    var pre := b.ops[o].pre;
    if |pre| > 0 && pre[|pre| - 1] < |b.ops| && b.ops[pre[|pre| - 1]].kind == Reshape(true)
       && b.ops[pre[|pre| - 1]].outputs == [x] && |b.ops[pre[|pre| - 1]].inputs| > 0
    then b.ops[pre[|pre| - 1]].inputs[0]
    else x
  }

  /** The two operands of `o` stand for TFLite inputs 0 and 1, have the same rank, and
      broadcast to the shape the TFLite operands broadcast to; a Reshape stands between
      exactly when the TFLite operands differ in rank. */
  predicate AlignedOperands(b: Arena, g: Tflite.Subgraph, o: OpId)
    requires o < |b.ops|
  {
    && |b.ops[o].inputs| == 2
    && var x, y := b.ops[o].inputs[0], b.ops[o].inputs[1];
       && x < |b.tensors| && y < |b.tensors|
       && var ux, uy := Unaligned(b, o, x), Unaligned(b, o, y);
          && ux < |b.tensors| && uy < |b.tensors|
          && InputIs(b, g, b.ops[o].index, 0, ux) && InputIs(b, g, b.ops[o].index, 1, uy)
          && |b.tensors[x].shape| == |b.tensors[y].shape|
          && (ux == x && uy == y <==> |b.tensors[ux].shape| == |b.tensors[uy].shape|)
          && BroadcastShape(b.tensors[x].shape, b.tensors[y].shape) == BroadcastShape(b.tensors[ux].shape, b.tensors[uy].shape)
  }

  /** Fake broadcasting of an operator whose only inputs are its two TFLite operands
      leaves them aligned. */
  lemma BroadcastAligned(b: Arena, b2: Arena, g: Tflite.Subgraph, o: OpId)
    requires Valid(b) && o < |b.ops| && Operands(b, o)
    requires b.ops[o].pre == [] && |b.ops[o].inputs| == 2
    requires InputIs(b, g, b.ops[o].index, 0, b.ops[o].inputs[0]) && InputIs(b, g, b.ops[o].index, 1, b.ops[o].inputs[1])
    requires InputRank(b, o, 0) == InputRank(b, o, 1) ==> b2 == b
    requires InputRank(b, o, 0) != InputRank(b, o, 1) ==>
               && |NewShape(b, o)| == |b.tensors[OutputOf(b, o, 0)].shape|
               && ReshapedName(b.tensors[Todo(b, o)].name) !in b.registry
               && Broadcasted(b, b2, o)
    ensures o < |b2.ops| && AlignedOperands(b2, g, o)
  {
    if InputRank(b, o, 0) != InputRank(b, o, 1) {
      BroadcastWiring(b, b2, o);
      BroadcastedOperands(b, b2, o);
      ReroutedAligned(b, b2, g, o, b.ops[o].inputs[0], b.ops[o].inputs[1]);
    } else {
      SameRankAligned(b, g, o);
    }
  }

  /** Operands of the same rank are aligned as they are. */
  lemma SameRankAligned(b: Arena, g: Tflite.Subgraph, o: OpId)
    requires Valid(b) && o < |b.ops| && b.ops[o].pre == [] && |b.ops[o].inputs| == 2
    requires InputIs(b, g, b.ops[o].index, 0, b.ops[o].inputs[0]) && InputIs(b, g, b.ops[o].index, 1, b.ops[o].inputs[1])
    requires InputRank(b, o, 0) == InputRank(b, o, 1)
    ensures AlignedOperands(b, g, o)
  {
  }

  /** How fake broadcasting of an operator with exactly two inputs and no pre helper
      rewires them, in the terms of `ReroutedAligned`; `BroadcastedOperands` gives the
      shapes. */
  lemma BroadcastWiring(b: Arena, b2: Arena, o: OpId)
    requires Valid(b) && o < |b.ops| && Operands(b, o)
    requires b.ops[o].pre == [] && |b.ops[o].inputs| == 2
    requires InputRank(b, o, 0) != InputRank(b, o, 1)
    requires ReshapedName(b.tensors[Todo(b, o)].name) !in b.registry
    requires Broadcasted(b, b2, o)
    ensures var x, y := b.ops[o].inputs[0], b.ops[o].inputs[1];
            && o < |b2.ops| && x < |b.tensors| && y < |b.tensors| && |b.tensors| <= |b2.tensors|
            && b.ops[o].index == b2.ops[o].index
            && (forall t | 0 <= t < |b.tensors| :: b2.tensors[t].shape == b.tensors[t].shape)
            && (exists n :: n !in b.registry && b2.registry == b.registry[n := |b.tensors|])
            && var ins := b2.ops[o].inputs;
               && |ins| == 2 && ins[0] < |b2.tensors| && ins[1] < |b2.tensors|
               && Unaligned(b2, o, ins[0]) == x && Unaligned(b2, o, ins[1]) == y && (ins[0] != x || ins[1] != y)
  {
    var x, y := InputOf(b, o, 0), InputOf(b, o, 1);
    var todo := Todo(b, o);
    var shape := NewShape(b, o);
    assert b.ops[o].inputs == [x, y];
    ReroutedHelper(b, o, todo, shape);
    ReroutedShapes(b, o, todo, shape);
    ReroutedUnaligned(b2, o, x, y, todo, |b.tensors|);
    var n := ReshapedName(b.tensors[todo].name);
    assert n !in b.registry && b2.registry == b.registry[n := |b.tensors|];
  }

  /** The facts of a rerouting that make the operands aligned. */
  lemma ReroutedAligned(b: Arena, b2: Arena, g: Tflite.Subgraph, o: OpId, x: TensorId, y: TensorId)
    requires o < |b.ops| && o < |b2.ops| && x < |b.tensors| && y < |b.tensors| && |b.tensors| <= |b2.tensors|
    requires b.ops[o].index == b2.ops[o].index
    requires InputIs(b, g, b.ops[o].index, 0, x) && InputIs(b, g, b.ops[o].index, 1, y)
    requires |b.tensors[x].shape| != |b.tensors[y].shape|
    requires forall t | 0 <= t < |b.tensors| :: b2.tensors[t].shape == b.tensors[t].shape
    requires exists n :: n !in b.registry && b2.registry == b.registry[n := |b.tensors|]
    requires var ins := b2.ops[o].inputs;
             && |ins| == 2 && ins[0] < |b2.tensors| && ins[1] < |b2.tensors|
             && Unaligned(b2, o, ins[0]) == x && Unaligned(b2, o, ins[1]) == y && (ins[0] != x || ins[1] != y)
             && |b2.tensors[ins[0]].shape| == |b2.tensors[ins[1]].shape|
             && BroadcastShape(b2.tensors[ins[0]].shape, b2.tensors[ins[1]].shape)
                == BroadcastShape(b.tensors[x].shape, b.tensors[y].shape)
    ensures AlignedOperands(b2, g, o)
  {
    var n :| n !in b.registry && b2.registry == b.registry[n := |b.tensors|];
    assert KeepsNames(b, b2);
  }

  /** The Reshape a rerouting adds, and the registry entry of its output. */
  lemma ReroutedHelper(a: Arena, self: OpId, todo: TensorId, shape: seq<int>)
    requires self < |a.ops| && todo < |a.tensors| && todo in a.ops[self].inputs
    requires self in a.tensors[todo].consumers
    ensures var b, nt, rs := Rerouted(a, self, todo, shape), |a.tensors|, |a.ops|;
            && rs < |b.ops| && b.ops[self].pre == a.ops[self].pre + [rs]
            && b.ops[rs].kind == Reshape(true) && b.ops[rs].outputs == [nt] && |b.ops[rs].inputs| == 2
            && b.ops[rs].inputs[0] == todo && b.ops[self].inputs == ReplaceFirst(a.ops[self].inputs, todo, nt)
            && b.registry == a.registry[ReshapedName(a.tensors[todo].name) := nt]
  {
  }

  /** Rerouting one of the two operands `x` and `y` of an operator without pre helpers:
      each new operand stands for the old one in its place. */
  lemma ReroutedUnaligned(b: Arena, self: OpId, x: TensorId, y: TensorId, todo: TensorId, nt: TensorId)
    requires self < |b.ops| && x != y && (todo == x || todo == y) && nt != x && nt != y
    requires |b.ops[self].pre| == 1 && b.ops[self].pre[0] < |b.ops|
    requires var rs := b.ops[self].pre[0];
             && b.ops[rs].kind == Reshape(true) && b.ops[rs].outputs == [nt] && |b.ops[rs].inputs| == 2
             && b.ops[rs].inputs[0] == todo && b.ops[self].inputs == ReplaceFirst([x, y], todo, nt)
    ensures |b.ops[self].inputs| == 2
    ensures Unaligned(b, self, b.ops[self].inputs[0]) == x && Unaligned(b, self, b.ops[self].inputs[1]) == y
    ensures b.ops[self].inputs[0] != x || b.ops[self].inputs[1] != y
  {
    if todo == x {
      assert FirstIndex([x, y], x) == 0;
      assert b.ops[self].inputs == [nt, y];
    } else {
      assert FirstIndex([x, y], y) == 1 by {
        assert [x, y][0] != y && [x, y][1] == y;
      }
      assert b.ops[self].inputs == [x, nt];
    }
  }

  /** The operands stay aligned in an arena that keeps the inputs, the pre helpers and
      the index of `o`, the shapes of the tensors and the registered names. */
  lemma AlignedFramed(b: Arena, d: Arena, g: Tflite.Subgraph, o: OpId)
    requires o < |b.ops| && o < |d.ops| && AlignedOperands(b, g, o)
    requires d.ops[o].inputs == b.ops[o].inputs && d.ops[o].pre == b.ops[o].pre && d.ops[o].index == b.ops[o].index
    requires forall p | p in b.ops[o].pre :: p < |b.ops| && p < |d.ops| && d.ops[p] == b.ops[p]
    requires |b.tensors| <= |d.tensors| && KeepsNames(b, d)
    requires forall t | 0 <= t < |b.tensors| :: d.tensors[t].shape == b.tensors[t].shape
    ensures AlignedOperands(d, g, o)
  {
    var pre := b.ops[o].pre;
    if |pre| > 0 {
      assert pre[|pre| - 1] in pre;
    }
  }

  /** Splicing a fused activation after `o` keeps the pre helpers of `o`. */
  lemma SplicedKeepsPre(b: Arena, d: Arena, o: OpId, faf: int, ot: TensorId)
    requires Valid(b) && o < |b.ops| && ot < |b.tensors|
    requires faf == Tflite.ACT_NONE ==> d == b
    requires faf != Tflite.ACT_NONE ==> Activation.FusedOpcode(faf).Ok? && Activation.Spliced(b, d, o, ot, o, Activation.FusedOpcode(faf).value)
    ensures forall p | p in b.ops[o].pre :: p < |b.ops| && p < |d.ops| && d.ops[p] == b.ops[p]
  {
  }

  /** Splicing a fused activation after `o` and marking `o` parsed keep its operands
      aligned. */
  lemma SplicedAligned(b: Arena, d: Arena, c: Arena, g: Tflite.Subgraph, o: OpId, faf: int, ot: TensorId)
    requires Valid(b) && Valid(d) && o < |b.ops| && ot < |b.tensors| && AlignedOperands(b, g, o)
    requires Activation.SpliceFrame(b, d, o)
    requires faf == Tflite.ACT_NONE ==> d == b
    requires faf != Tflite.ACT_NONE ==> Activation.FusedOpcode(faf).Ok? && Activation.Spliced(b, d, o, ot, o, Activation.FusedOpcode(faf).value)
    requires SetOpParsed(d, o).Ok? && c == SetOpParsed(d, o).value
    ensures AlignedOperands(c, g, o)
  {
    SplicedKeepsPre(b, d, o, faf, ot);
    AlignedFramed(b, d, g, o);
    ParsedKeepsPre(d, c, o);
    AlignedFramed(d, c, g, o);
  }

  /** Marking `o` parsed keeps its pre helpers. */
  lemma ParsedKeepsPre(d: Arena, c: Arena, o: OpId)
    requires Valid(d) && o < |d.ops| && SetOpParsed(d, o).Ok? && c == SetOpParsed(d, o).value
    ensures forall p | p in d.ops[o].pre :: p < |d.ops| && p < |c.ops| && c.ops[p] == d.ops[p]
  {
  }

  // ---------------------------------------------------------------- parse

  /** The opcodes of `OpTypeMapping`. */
  predicate IsBinary(opcode: int) {
    opcode == Tflite.ADD || opcode == Tflite.MUL
  }

  /** The loop over the two inputs and the output of `Binary.parse()`. */
  method ReadOperands(a: Arena, g: Tflite.Subgraph, o: OpId) returns (r: Result<(Arena, TensorId)>)
    requires Valid(a) && o < |a.ops|
    ensures r.Ok? ==> var (b, ot) := r.value;
              && Valid(b) && |b.ops| == |a.ops| && ot < |b.tensors|
              && b.ops[o] == a.ops[o].(inputs := b.ops[o].inputs, outputs := b.ops[o].outputs)
              && ReadsInputs(a, b, g, o, 2) && WritesOutputs(a, b, g, o, 1)
              && ot == b.ops[o].outputs[|a.ops[o].outputs|] && b.tensors[ot].producers == [o]
  {
    var ri := ParseInputs(a, g, o, 2);
    if ri.Err? {
      return Err(ri.error);
    }
    var (b1, _) := ri.value;
    var ro := ParseOutput(b1, g, o, 0, None);
    if ro.Err? {
      return Err(ro.error);
    }
    var (b, ot) := ro.value;
    ReadsKept(a, b1, b, g, o, 2);
    AppendedWrites(a, b, g, o, [ot]);
    return Ok((b, ot));
  }

  /** `Binary.parse()`: two inputs and one output without layout, fake broadcasting, the
      fused activation of the options spliced after the operator itself. */
  method ParseBinary(a: Arena, g: Tflite.Subgraph, o: OpId) returns (r: Result<Arena>)
    requires Valid(a) && o < |a.ops|
    ensures r.Ok? ==> Valid(r.value) && |a.ops| <= |r.value.ops| && 0 <= a.ops[o].index < |g.operators|
    ensures r.Ok? ==> var e := g.operators[a.ops[o].index];
              && IsBinary(e.opcode) && |e.inputs| == 2 && |e.outputs| == 1
              && r.value.ops[o].status == Parsed
              && r.value.ops[o].kind == a.ops[o].kind && r.value.ops[o].attrs == a.ops[o].attrs
              && Activation.DeliversOutput(r.value, g, o, e.options.fusedActivation)
    ensures r.Ok? && a.ops[o].inputs == [] && a.ops[o].pre == [] ==> AlignedOperands(r.value, g, o)
  {
    var re := OpEntry(g, a.ops[o]);
    if re.Err? {
      return Err(re.error);
    }
    var e := re.value;
    if !IsBinary(e.opcode) {
      return Err(Assertion("opcode is not a binary operator"));
    }
    if |e.inputs| != 2 {
      return Err(Assertion("binary operator takes two inputs"));
    }
    if |e.outputs| != 1 {
      return Err(Assertion("binary operator has one output"));
    }
    var ro := ReadOperands(a, g, o);
    if ro.Err? {
      return Err(ro.error);
    }
    var (b, ot) := ro.value;
    var rb := FakeBroadcast(b, o);
    if rb.Err? {
      return Err(rb.error);
    }
    var b2 := rb.value;
    assert OutputIs(b2, g, b2.ops[o].index, 0, ot);
    var rh := Activation.HandleFusedActivation(b2, o, e.options.fusedActivation, ot, o);
    if rh.Err? {
      return Err(rh.error);
    }
    var d := rh.value;
    r := SetOpParsed(d, o);
    if r.Ok? {
      Activation.HandledDelivers(b2, d, r.value, g, o, e.options.fusedActivation, ot);
      if a.ops[o].inputs == [] && a.ops[o].pre == [] {
        assert InputIs(b, g, b.ops[o].index, 0, b.ops[o].inputs[0]) && InputIs(b, g, b.ops[o].index, 1, b.ops[o].inputs[1]);
        BroadcastAligned(b, b2, g, o);
        SplicedAligned(b2, d, r.value, g, o, e.options.fusedActivation, ot);
      }
    }
  }
}

=== FILE: concat.dfy ===
/** The CONCATENATION converter (tflite2onnx/op/concat.py): any positive number of inputs
    joined along the "axis" option, with a fused activation on the output. Layouts cross
    every tensor, and the axis follows the layout of the output. */
module ConcatOp {
  import opened Wrappers
  import opened Lifecycle
  import opened Tensors
  import opened Operators
  import opened Ir
  import opened OpCommon
  import Tflite
  import Activation

  /** `Concat.parse()` up to the fused activation: every input in order, the "axis"
      option, and the output. */
  method ReadConcat(a: Arena, g: Tflite.Subgraph, o: OpId, e: Tflite.OperatorEntry) returns (r: Result<(Arena, seq<TensorId>, TensorId)>)
    requires Valid(a) && o < |a.ops|
    ensures r.Ok? ==> var (b, ts, ot) := r.value;
              && Valid(b) && KeepsParsed(a, b) && |ts| == |e.inputs| && ot < |b.tensors|
              && b.ops == a.ops[o := a.ops[o].(inputs := a.ops[o].inputs + ts, outputs := a.ops[o].outputs + [ot],
                                               attrs := a.ops[o].attrs["axis" := AInt(e.options.axis)])]
              && b.tensors[ot].producers == [o]
              && ReadsInputs(a, b, g, o, |e.inputs|) && OutputIs(b, g, a.ops[o].index, 0, ot)
  {
    var ri := ParseInputs(a, g, o, |e.inputs|);
    if ri.Err? {
      return Err(ri.error);
    }
    var (b, ts) := ri.value;
    var c := SetAttr(b, o, "axis", AInt(e.options.axis));
    var ro := ParseOutput(c, g, o, 0, None);
    if ro.Err? {
      return Err(ro.error);
    }
    var (d, ot) := ro.value;
    KeepsParsedTrans(a, c, d);
    ReadsKept(a, b, d, g, o, |e.inputs|);
    return Ok((d, ts, ot));
  }

  /** `Concat.parse()`: a CONCATENATION with at least one input and one output. */
  method ParseConcat(a: Arena, g: Tflite.Subgraph, o: OpId) returns (r: Result<Arena>)
    requires Valid(a) && o < |a.ops|
    ensures r.Ok? ==> 0 <= a.ops[o].index < |g.operators|
    ensures r.Ok? ==> var e := g.operators[a.ops[o].index];
              e.opcode == Tflite.CONCATENATION && |e.inputs| >= 1 && |e.outputs| == 1
    ensures r.Ok? ==> Valid(r.value) && |r.value.ops| >= |a.ops| && r.value.ops[o].status == Parsed
    ensures r.Ok? ==> var e := g.operators[a.ops[o].index];
              && ReadsInputs(a, r.value, g, o, |e.inputs|)
              && r.value.ops[o].attrs == a.ops[o].attrs["axis" := AInt(e.options.axis)]
              && Activation.DeliversOutput(r.value, g, o, e.options.fusedActivation)
  {
    var re := OpEntry(g, a.ops[o]);
    if re.Err? {
      return Err(re.error);
    }
    var e := re.value;
    if e.opcode != Tflite.CONCATENATION {
      return Err(Assertion("opcode is not CONCATENATION"));
    }
    if |e.inputs| < 1 {
      return Err(Assertion("Concat takes at least one input"));
    }
    if |e.outputs| != 1 {
      return Err(Assertion("Concat has one output"));
    }
    var rc := ReadConcat(a, g, o, e);
    if rc.Err? {
      return Err(rc.error);
    }
    var (b, ts, ot) := rc.value;
    var rh := Activation.HandleFusedActivation(b, o, e.options.fusedActivation, ot, o);
    if rh.Err? {
      return Err(rh.error);
    }
    r := SetOpParsed(rh.value, o);
    if r.Ok? {
      Activation.FusedParsed(a, b, rh.value, r.value, g, o, e.options.fusedActivation, ot, |e.inputs|);
    }
  }
}

=== FILE: conv.dfy ===
/** The CONV_2D and DEPTHWISE_CONV_2D converter (tflite2onnx/op/conv.py, a class of the
    older operator base): input, weight, output and bias tensors, the convolution
    attributes derived from the options and the shapes, and the fused activation spliced
    after the operator. Layouts do not propagate across a convolution. */
module ConvOp {
  import opened Wrappers
  import opened Seqs
  import opened Lifecycle
  import opened Tensors
  import opened Operators
  import opened Ir
  import opened OpCommon
  import opened Layouts
  import Tflite
  import PadOp
  import Activation

  /** `Layout('NHWC', 'NCHW')`: images and feature maps, channels last in TFLite and
      channels first in ONNX. */
  const ImageLayout: Layout := NewLayout("NHWC", "NCHW")

  /** `isDepthwise`. */
  predicate IsDepthwise(opcode: int) {
    opcode == Tflite.DEPTHWISE_CONV_2D
  }

  /** The weight layout: a depthwise filter is `CHWM`, any other `OHWI`. */
  function WeightLayout(depthwise: bool): Layout {
    if depthwise then NewLayout("CHWM", "MCHW") else NewLayout("OHWI", "OIHW")
  }

  // ---------------------------------------------------------------- the opcode check

  /** The opcode check of `parse` as written: the second operand of `or` is the constant
      DEPTHWISE_CONV_2D itself, whose truth does not depend on the opcode. */
  predicate OpcodeCheckAsWritten(opcode: int) {
    opcode == Tflite.CONV_2D || Tflite.DEPTHWISE_CONV_2D != 0
  }

  /** The check intended: the opcode is one of the two convolutions. */
  predicate IsConv(opcode: int) {
    opcode == Tflite.CONV_2D || opcode == Tflite.DEPTHWISE_CONV_2D
  }

  /** The check as written lets every opcode through; ADD is one it should refuse. */
  lemma OpcodeCheckAcceptsAll(opcode: int)
    ensures OpcodeCheckAsWritten(opcode)
    ensures OpcodeCheckAsWritten(Tflite.ADD) && !IsConv(Tflite.ADD)
  {
  }

  // ---------------------------------------------------------------- type

  /** `quantized`: the property returns False before it looks at the output. */
  predicate ConvQuantized(op: Operator) {
    false
  }

  /** `Conv.type`: QLinearConv for a parsed quantized convolution, Conv otherwise. As the
      quantization test always fails, the type is never QLinearConv. */
  function ConvType(op: Operator): (r: string)
    ensures r == "Conv"
  {
    if op.status == Parsed && ConvQuantized(op) then "QLinearConv" else "Conv"
  }

  // ---------------------------------------------------------------- attributes

  /** The height and width of an NHWC shape, `shape[1:3]`. */
  function Spatial(shape: seq<int>): (r: seq<int>)
    ensures |shape| >= 3 ==> r == [shape[1], shape[2]]
  {
    PySlice(shape, 1, 3)
  }

  /** The attributes `parse` computes from the options and from the shapes of the input
      and the weight: dilations and strides from the options, the kernel extent from the
      weight, the group from the input channels of a depthwise convolution, and explicit
      pads. A depthwise input without a channel axis, a depth multiplier other than 1 and
      any failure of the padding computation are errors. */
  function ConvAttributes(opt: Tflite.Options, depthwise: bool, input: seq<int>, weight: seq<int>): (r: Result<map<string, Attr>>)
    ensures r.Ok? <==> && (depthwise ==> |input| > 3 && opt.depthMultiplier == 1)
                       && PadOp.ComputePaddingSize(opt.padding, Spatial(input), Spatial(weight),
                                                   [opt.strideH, opt.strideW], [opt.dilationH, opt.dilationW]).Ok?
    ensures r.Ok? ==> "group" in r.value && r.value["group"] == AInt(if depthwise then input[3] else 1)
    ensures r.Ok? ==> && "kernel_shape" in r.value && r.value["kernel_shape"] == AInts(Spatial(weight))
                      && "strides" in r.value && r.value["strides"] == AInts([opt.strideH, opt.strideW])
                      && "dilations" in r.value && r.value["dilations"] == AInts([opt.dilationH, opt.dilationW])
    ensures r.Ok? ==> "pads" in r.value && r.value["pads"] == AInts(PadOp.ComputePaddingSize(opt.padding, Spatial(input), Spatial(weight),
                                                   [opt.strideH, opt.strideW], [opt.dilationH, opt.dilationW]).value)
  {
    var group :- if depthwise then PyIndex(input, 3) else Ok(1);
    var kernel := Spatial(weight);
    var strides := [opt.strideH, opt.strideW];
    var dilations := [opt.dilationH, opt.dilationW];
    :- Need(!depthwise || opt.depthMultiplier == 1, "depthwise convolution has a depth multiplier other than 1");
    var pads :- PadOp.ComputePaddingSize(opt.padding, Spatial(input), kernel, strides, dilations);
    Ok(map["dilations" := AInts(dilations), "group" := AInt(group), "kernel_shape" := AInts(kernel),
           "strides" := AInts(strides), "pads" := AInts(pads)])
  }

  /** On 4-D input and weight shapes with non-zero strides and a known padding scheme the
      attributes exist: the kernel is the weight's height and width, and the pads hold
      the padding of the two spatial axes, begins first, each total split with the odd
      unit at the end. */
  lemma {:induction false} ConvAttributesOfImage(opt: Tflite.Options, depthwise: bool, input: seq<int>, weight: seq<int>)
    requires |input| == 4 && |weight| == 4
    requires opt.strideH != 0 && opt.strideW != 0
    requires opt.padding == Tflite.SAME || opt.padding == Tflite.VALID
    requires depthwise ==> opt.depthMultiplier == 1
    ensures ConvAttributes(opt, depthwise, input, weight).Ok?
    ensures var m := ConvAttributes(opt, depthwise, input, weight).value;
            && m["kernel_shape"] == AInts([weight[1], weight[2]])
            && m["strides"] == AInts([opt.strideH, opt.strideW])
            && m["dilations"] == AInts([opt.dilationH, opt.dilationW])
            && m["pads"].AInts? && |m["pads"].v| == 4
            && m["pads"].v[0] + m["pads"].v[2] == PadOp.AxisTotal(opt.padding, input[1], weight[1], opt.strideH, opt.dilationH)
            && m["pads"].v[1] + m["pads"].v[3] == PadOp.AxisTotal(opt.padding, input[2], weight[2], opt.strideW, opt.dilationW)
            && 0 <= m["pads"].v[0] <= m["pads"].v[2] <= m["pads"].v[0] + 1
            && 0 <= m["pads"].v[1] <= m["pads"].v[3] <= m["pads"].v[1] + 1
  {
    PadOp.PaddingOf2D(opt.padding, Spatial(input), Spatial(weight), [opt.strideH, opt.strideW], [opt.dilationH, opt.dilationW]);
  }

  // ---------------------------------------------------------------- parse

  /** Four tensor objects created by the four lookups of `parse`, in order: input,
      weight, output, bias. */
  predicate AllNew(a: Arena, it: TensorId, wt: TensorId, ot: TensorId, bt: TensorId) {
    it == |a.tensors| && wt == it + 1 && ot == it + 2 && bt == it + 3
  }

  /** Two lookups of `parse`: the inputs at positions `i` and `j`, asked for with the
      layouts `li` and `lj`, each linked to the operator as an input. */
  method ReadTwoInputs(a: Arena, g: Tflite.Subgraph, o: OpId, i: nat, li: Option<Layout>, j: nat, lj: Option<Layout>) returns (r: Result<(Arena, TensorId, TensorId)>)
    requires Valid(a) && o < |a.ops|
    ensures r.Ok? ==> var (b, it, wt) := r.value;
              && Valid(b) && KeepsParsed(a, b) && |b.tensors| <= |a.tensors| + 2
              && it < |b.tensors| && wt < |b.tensors| && b.tensors[it].status == Parsed && b.tensors[wt].status == Parsed
              && b.ops == a.ops[o := a.ops[o].(inputs := a.ops[o].inputs + [it, wt])]
              && o in b.tensors[it].consumers && o in b.tensors[wt].consumers
              && (forall u | 0 <= u < |a.tensors| && u != it && u != wt :: b.tensors[u] == a.tensors[u])
              && (it == |a.tensors| && wt == it + 1 ==> b.tensors[it].layout == li && b.tensors[wt].layout == lj)
              && InputIs(b, g, a.ops[o].index, i, it) && InputIs(b, g, a.ops[o].index, j, wt)
  {
    var ri := ParseInput(a, g, o, i, li, false);
    if ri.Err? {
      return Err(ri.error);
    }
    var (b1, it) := ri.value;
    var rw := ParseInput(b1, g, o, j, lj, false);
    if rw.Err? {
      return Err(rw.error);
    }
    var (b, wt) := rw.value;
    KeepsParsedTrans(a, b1, b);
    assert a.ops[o].inputs + [it] + [wt] == a.ops[o].inputs + [it, wt];
    return Ok((b, it, wt));
  }

  /** The last two lookups of `parse`: the output, asked for with the layout `lo` and
      produced by the operator, and the bias, flagged as such and read by the operator. */
  method ReadOutputBias(a: Arena, g: Tflite.Subgraph, o: OpId, lo: Option<Layout>) returns (r: Result<(Arena, TensorId, TensorId)>)
    requires Valid(a) && o < |a.ops|
    ensures r.Ok? ==> var (b, ot, bt) := r.value;
              && Valid(b) && KeepsParsed(a, b) && ot < |b.tensors| && bt < |b.tensors|
              && b.ops == a.ops[o := a.ops[o].(inputs := a.ops[o].inputs + [bt], outputs := a.ops[o].outputs + [ot])]
              && b.tensors[ot].producers == [o] && o in b.tensors[bt].consumers
              && (forall u | 0 <= u < |a.tensors| && o in a.tensors[u].consumers :: o in b.tensors[u].consumers)
              && (forall u | 0 <= u < |a.tensors| && u != ot && u != bt :: b.tensors[u] == a.tensors[u])
              && (ot == |a.tensors| && bt == ot + 1 ==>
                    b.tensors[ot].layout == lo && b.tensors[bt].layout == None && b.tensors[bt].isBias)
              && OutputIs(b, g, a.ops[o].index, 0, ot) && InputIs(b, g, a.ops[o].index, 2, bt)
  {
    var ro := ParseOutput(a, g, o, 0, lo);
    if ro.Err? {
      return Err(ro.error);
    }
    var (b1, ot) := ro.value;
    var rb := ParseInput(b1, g, o, 2, None, true);
    if rb.Err? {
      return Err(rb.error);
    }
    var (b, bt) := rb.value;
    KeepsParsedTrans(a, b1, b);
    return Ok((b, ot, bt));
  }

  /** The tensors of a convolution or a fully connected layer in the order `parse` reads
      them: the input, the weight, the output and the bias, each linked to the operator.
      When every lookup creates a new tensor object, each gets the layout asked for, and
      the bias no layout and the bias flag. */
  method ReadWeighted(a: Arena, g: Tflite.Subgraph, o: OpId, li: Option<Layout>, lw: Option<Layout>, lo: Option<Layout>)
    returns (r: Result<(Arena, TensorId, TensorId, TensorId, TensorId)>)
    requires Valid(a) && o < |a.ops|
    ensures r.Ok? ==> var (b, it, wt, ot, bt) := r.value;
              && Valid(b) && KeepsParsed(a, b)
              && it < |b.tensors| && wt < |b.tensors| && ot < |b.tensors| && bt < |b.tensors|
              && b.ops == a.ops[o := a.ops[o].(inputs := a.ops[o].inputs + [it, wt, bt], outputs := a.ops[o].outputs + [ot])]
              && b.tensors[ot].producers == [o]
              && o in b.tensors[it].consumers && o in b.tensors[wt].consumers && o in b.tensors[bt].consumers
    ensures r.Ok? ==> var (b, it, wt, ot, bt) := r.value;
              && InputIs(b, g, a.ops[o].index, 0, it) && InputIs(b, g, a.ops[o].index, 1, wt)
              && InputIs(b, g, a.ops[o].index, 2, bt) && OutputIs(b, g, a.ops[o].index, 0, ot)
    ensures r.Ok? ==> var (b, it, wt, ot, bt) := r.value;
              AllNew(a, it, wt, ot, bt) ==>
                && b.tensors[it].layout == li && b.tensors[wt].layout == lw && b.tensors[ot].layout == lo
                && b.tensors[bt].layout == None && b.tensors[bt].isBias
  {
    var ri := ReadTwoInputs(a, g, o, 0, li, 1, lw);
    if ri.Err? {
      return Err(ri.error);
    }
    var (b1, it, wt) := ri.value;
    var ro := ReadOutputBias(b1, g, o, lo);
    if ro.Err? {
      return Err(ro.error);
    }
    var (b, ot, bt) := ro.value;
    KeepsParsedTrans(a, b1, b);
    assert a.ops[o].inputs + [it, wt] + [bt] == a.ops[o].inputs + [it, wt, bt];
    return Ok((b, it, wt, ot, bt));
  }

  /** `Conv.parse()` up to the fused activation: the four tensors and the attributes,
      computed from the shapes of the input `it` and the weight `wt` just read. */
  method ConvBody(a: Arena, g: Tflite.Subgraph, o: OpId, opt: Tflite.Options, depthwise: bool) returns (r: Result<(Arena, TensorId, TensorId, TensorId)>)
    requires Valid(a) && o < |a.ops|
    ensures r.Ok? ==> var (b, it, wt, ot) := r.value;
              var k := |a.ops[o].inputs|;
              && Valid(b) && |b.ops| == |a.ops| && it < |b.tensors| && wt < |b.tensors| && ot < |b.tensors|
              && b.tensors[ot].producers == [o]
              && |b.ops[o].inputs| == k + 3 && b.ops[o].inputs[k] == it && b.ops[o].inputs[k + 1] == wt
              && ConvAttributes(opt, depthwise, b.tensors[it].shape, b.tensors[wt].shape).Ok?
              && b.ops[o] == a.ops[o].(inputs := b.ops[o].inputs, outputs := a.ops[o].outputs + [ot],
                                       attrs := a.ops[o].attrs + ConvAttributes(opt, depthwise, b.tensors[it].shape, b.tensors[wt].shape).value)
              && ReadsInputs(a, b, g, o, 3) && OutputIs(b, g, a.ops[o].index, 0, ot)
  {
    var rt := ReadWeighted(a, g, o, Some(ImageLayout), Some(WeightLayout(depthwise)), Some(ImageLayout));
    if rt.Err? {
      return Err(rt.error);
    }
    var (b, it, wt, ot, bt) := rt.value;
    AppendedReads(a, b, g, o, [it, wt, bt]);
    var rc := AttachAttributes(b, o, it, wt, opt, depthwise);
    if rc.Err? {
      return Err(rc.error);
    }
    return Ok((rc.value, it, wt, ot));
  }

  /** The attributes of the input `it` and the weight `wt`, merged into those of `o`. */
  method AttachAttributes(a: Arena, o: OpId, it: TensorId, wt: TensorId, opt: Tflite.Options, depthwise: bool) returns (r: Result<Arena>)
    requires Valid(a) && o < |a.ops| && it < |a.tensors| && wt < |a.tensors|
    ensures var m := ConvAttributes(opt, depthwise, a.tensors[it].shape, a.tensors[wt].shape);
            && (r.Ok? <==> m.Ok?)
            && (r.Ok? ==> Valid(r.value) && r.value == a.(ops := a.ops[o := a.ops[o].(attrs := a.ops[o].attrs + m.value)]))
  {
    var rm := ConvAttributes(opt, depthwise, a.tensors[it].shape, a.tensors[wt].shape);
    if rm.Err? {
      return Err(rm.error);
    }
    return Ok(SetAttrs(a, o, rm.value));
  }

  /** `Conv.parse()`: a convolution with bias (three inputs) and one output, its
      attributes, and the fused activation of the options. The operator ends up parsed
      with its new inputs and its attributes in place, and no helper before it. */
  method ParseConv(a: Arena, g: Tflite.Subgraph, o: OpId) returns (r: Result<Arena>)
    requires Valid(a) && o < |a.ops|
    ensures r.Ok? ==> 0 <= a.ops[o].index < |g.operators|
    ensures r.Ok? ==> var e := g.operators[a.ops[o].index];
              && IsConv(e.opcode) && |e.inputs| == 3 && |e.outputs| == 1
              && (IsDepthwise(e.opcode) ==> e.options.depthMultiplier == 1)
    ensures r.Ok? ==> var e := g.operators[a.ops[o].index];
              var b := r.value;
              var k := |a.ops[o].inputs|;
              && Valid(b) && |b.ops| >= |a.ops| && b.ops[o].status == Parsed && b.ops[o].pre == a.ops[o].pre
              && |b.ops[o].inputs| == k + 3 && b.ops[o].inputs[k] < |b.tensors| && b.ops[o].inputs[k + 1] < |b.tensors|
              && var m := ConvAttributes(e.options, IsDepthwise(e.opcode), b.tensors[b.ops[o].inputs[k]].shape,
                                         b.tensors[b.ops[o].inputs[k + 1]].shape);
                 m.Ok? && b.ops[o].attrs == a.ops[o].attrs + m.value
    ensures r.Ok? ==> var e := g.operators[a.ops[o].index];
              && ReadsInputs(a, r.value, g, o, 3)
              && Activation.DeliversOutput(r.value, g, o, e.options.fusedActivation)
  {
    var re := OpEntry(g, a.ops[o]);
    if re.Err? {
      return Err(re.error);
    }
    var e := re.value;
    if !IsConv(e.opcode) {
      return Err(Assertion("opcode is not a convolution"));
    }
    if |e.inputs| != 3 {
      return Err(Assertion("TFLite Conv always has bias"));
    }
    if |e.outputs| != 1 {
      return Err(Assertion("Conv has one output"));
    }
    var rb := ConvBody(a, g, o, e.options, IsDepthwise(e.opcode));
    if rb.Err? {
      return Err(rb.error);
    }
    var (c, it, wt, ot) := rb.value;
    var rh := Activation.HandleFusedActivation(c, o, e.options.fusedActivation, ot, o);
    if rh.Err? {
      return Err(rh.error);
    }
    var d := rh.value;
    assert d.ops[o].inputs == c.ops[o].inputs;
    assert d.tensors[it].shape == c.tensors[it].shape && d.tensors[wt].shape == c.tensors[wt].shape;
    r := SetOpParsed(d, o);
    if r.Ok? {
      Activation.FusedParsed(a, c, d, r.value, g, o, e.options.fusedActivation, ot, 3);
    }
  }
}

=== FILE: conv_transpose.dfy ===
/** The TRANSPOSE_CONV converter (tflite2onnx/op/conv_transpose.py): the data input X
    (TFLite input 2), the weight W (input 1) and the output, and the attributes of an ONNX
    ConvTranspose whose output shape is given explicitly. Layouts do not propagate across
    it and its transformation changes nothing. */
module ConvTransposeOp {
  import opened Wrappers
  import opened Lifecycle
  import opened Tensors
  import opened Operators
  import opened Ir
  import opened OpCommon
  import opened Layouts
  import Tflite
  import PadOp
  import ConvOp

  /** The attributes `parse` computes: the output shape in channels-first order, unit
      dilations, one group, the auto_pad spelling of the padding scheme, the kernel extent
      of the weight and the strides of the options. An output without the four image
      axes and an unknown padding scheme are errors. */
  function ConvTransposeAttributes(opt: Tflite.Options, weight: seq<int>, output: seq<int>): (r: Result<map<string, Attr>>)
    ensures r.Ok? <==> |output| >= 4 && (opt.padding == Tflite.SAME || opt.padding == Tflite.VALID)
    ensures r.Ok? ==> && "output_shape" in r.value
                      && r.value["output_shape"] == AInts([output[0], output[3], output[1], output[2]])
    ensures r.Ok? ==> && "dilations" in r.value && r.value["dilations"] == AInts([1, 1])
                      && "group" in r.value && r.value["group"] == AInt(1)
                      && "auto_pad" in r.value && r.value["auto_pad"] == AText(PadOp.AutoPad(opt.padding).value)
                      && "kernel_shape" in r.value && r.value["kernel_shape"] == AInts(ConvOp.Spatial(weight))
                      && "strides" in r.value && r.value["strides"] == AInts([opt.strideH, opt.strideW])
  {
    ChannelsFirst(output);
    var os :- Transform(output, "NHWC", "NCHW");
    var pad :- PadOp.AutoPad(opt.padding);
    Ok(map["output_shape" := AInts(os), "dilations" := AInts([1, 1]), "group" := AInt(1), "auto_pad" := AText(pad),
           "kernel_shape" := AInts(ConvOp.Spatial(weight)), "strides" := AInts([opt.strideH, opt.strideW])])
  }

  /** The output shape attribute, put back from channels-first into channels-last order,
      is the output's shape. */
  lemma {:induction false} OutputShapeRestores(opt: Tflite.Options, weight: seq<int>, output: seq<int>)
    requires |output| == 4 && (opt.padding == Tflite.SAME || opt.padding == Tflite.VALID)
    ensures ConvTransposeAttributes(opt, weight, output).Ok?
    ensures Transform(ConvTransposeAttributes(opt, weight, output).value["output_shape"].v, "NCHW", "NHWC") == Ok(output)
  {
    ImageAxes();
    TransformRoundTrip(output, "NHWC", "NCHW");
    ChannelsFirst(output);
  }

  /** The output with the image layout, produced by the operator. */
  method ReadOutput(a: Arena, g: Tflite.Subgraph, o: OpId) returns (r: Result<(Arena, TensorId)>)
    requires Valid(a) && o < |a.ops|
    ensures r.Ok? ==> var (b, ot) := r.value;
              && Valid(b) && KeepsParsed(a, b) && ot < |b.tensors|
              && b.ops == a.ops[o := a.ops[o].(outputs := a.ops[o].outputs + [ot])]
              && b.tensors[ot].producers == [o]
              && (forall u | 0 <= u < |a.tensors| :: b.tensors[u].consumers == a.tensors[u].consumers)
              && (ot == |a.tensors| ==> b.tensors[ot].layout == Some(ConvOp.ImageLayout))
              && OutputIs(b, g, a.ops[o].index, 0, ot)
  {
    r := ParseOutput(a, g, o, 0, Some(ConvOp.ImageLayout));
  }

  /** The tensors of `parse` in the order it reads them: X with the image layout, W with
      the depthwise filter layout, and the output with the image layout. When every lookup
      creates a new tensor object, each gets the layout asked for. */
  method ReadConvTranspose(a: Arena, g: Tflite.Subgraph, o: OpId) returns (r: Result<(Arena, TensorId, TensorId, TensorId)>)
    requires Valid(a) && o < |a.ops|
    ensures r.Ok? ==> var (b, xt, wt, ot) := r.value;
              && Valid(b) && KeepsParsed(a, b)
              && xt < |b.tensors| && wt < |b.tensors| && ot < |b.tensors|
              && b.ops == a.ops[o := a.ops[o].(inputs := a.ops[o].inputs + [xt, wt], outputs := a.ops[o].outputs + [ot])]
              && b.tensors[ot].producers == [o] && o in b.tensors[xt].consumers && o in b.tensors[wt].consumers
              && InputIs(b, g, a.ops[o].index, 2, xt) && InputIs(b, g, a.ops[o].index, 1, wt)
              && OutputIs(b, g, a.ops[o].index, 0, ot)
    ensures r.Ok? ==> var (b, xt, wt, ot) := r.value;
              xt == |a.tensors| && wt == xt + 1 && ot == xt + 2 ==>
                && b.tensors[xt].layout == Some(ConvOp.ImageLayout) && b.tensors[ot].layout == Some(ConvOp.ImageLayout)
                && b.tensors[wt].layout == Some(ConvOp.WeightLayout(true))
  {
    var ri := ConvOp.ReadTwoInputs(a, g, o, 2, Some(ConvOp.ImageLayout), 1, Some(ConvOp.WeightLayout(true)));
    if ri.Err? {
      return Err(ri.error);
    }
    var (b1, xt, wt) := ri.value;
    var ro := ReadOutput(b1, g, o);
    if ro.Err? {
      return Err(ro.error);
    }
    var (b, ot) := ro.value;
    KeepsParsedTrans(a, b1, b);
    return Ok((b, xt, wt, ot));
  }

  /** `ConvTranspose.parse()`: a TRANSPOSE_CONV with three inputs, of which X and W become
      inputs of the operator, and one output. The output shape attribute is the output's
      shape in channels-first order. */
  method ParseConvTranspose(a: Arena, g: Tflite.Subgraph, o: OpId) returns (r: Result<Arena>)
    requires Valid(a) && o < |a.ops|
    ensures r.Ok? ==> 0 <= a.ops[o].index < |g.operators|
    ensures r.Ok? ==> var e := g.operators[a.ops[o].index];
              e.opcode == Tflite.TRANSPOSE_CONV && |e.inputs| == 3 && |e.outputs| == 1
    ensures r.Ok? ==> var e := g.operators[a.ops[o].index];
              var b := r.value;
              var k := |a.ops[o].inputs|;
              && Valid(b) && |b.ops| == |a.ops| && b.ops[o].status == Parsed
              && |b.ops[o].inputs| == k + 2 && |b.ops[o].outputs| == |a.ops[o].outputs| + 1
              && b.ops[o].inputs[k + 1] < |b.tensors| && OutputOf(b, o, |a.ops[o].outputs|) < |b.tensors|
              && var m := ConvTransposeAttributes(e.options, b.tensors[b.ops[o].inputs[k + 1]].shape,
                                                  b.tensors[OutputOf(b, o, |a.ops[o].outputs|)].shape);
                 m.Ok? && b.ops[o].attrs == a.ops[o].attrs + m.value
    ensures r.Ok? ==> var b, k := r.value, |a.ops[o].inputs|;
              && b.ops[o].inputs[..k] == a.ops[o].inputs && b.ops[o].outputs[..|a.ops[o].outputs|] == a.ops[o].outputs
              && InputIs(b, g, a.ops[o].index, 2, b.ops[o].inputs[k])
              && InputIs(b, g, a.ops[o].index, 1, b.ops[o].inputs[k + 1])
              && OutputIs(b, g, a.ops[o].index, 0, OutputOf(b, o, |a.ops[o].outputs|))
              && b.tensors[OutputOf(b, o, |a.ops[o].outputs|)].producers == [o]
  {
    var re := OpEntry(g, a.ops[o]);
    if re.Err? {
      return Err(re.error);
    }
    var e := re.value;
    if e.opcode != Tflite.TRANSPOSE_CONV {
      return Err(Assertion("opcode is not TRANSPOSE_CONV"));
    }
    if |e.inputs| != 3 {
      return Err(Assertion("ConvTranspose takes three inputs"));
    }
    if |e.outputs| != 1 {
      return Err(Assertion("ConvTranspose has one output"));
    }
    var rt := ReadConvTranspose(a, g, o);
    if rt.Err? {
      return Err(rt.error);
    }
    var (b, xt, wt, ot) := rt.value;
    var rm := ConvTransposeAttributes(e.options, b.tensors[wt].shape, b.tensors[ot].shape);
    if rm.Err? {
      return Err(rm.error);
    }
    var c := SetAttrs(b, o, rm.value);
    assert c.ops[o].inputs[|a.ops[o].inputs| + 1] == wt && c.ops[o].outputs[|a.ops[o].outputs|] == ot;
    assert c.ops[o].inputs[..|a.ops[o].inputs|] == a.ops[o].inputs && c.ops[o].inputs[|a.ops[o].inputs|] == xt;
    assert c.ops[o].outputs[..|a.ops[o].outputs|] == a.ops[o].outputs;
    r := SetOpParsed(c, o);
  }
}

=== FILE: dtypes.dfy ===
/** The dtype tables of tflite2onnx/mapping.py: TFLite TensorType codes and ONNX
    TensorProto codes, each related to numpy type names, and the two direct tables
    derived from them. A Python dict is written as the list of its items, in order. */
module Dtypes {
  import opened Wrappers

  /** ONNX TensorProto.DataType codes. */
  const OnnxUndefined: int := 0
  const OnnxFloat: int := 1
  const OnnxUint8: int := 2
  const OnnxInt8: int := 3
  const OnnxInt16: int := 5
  const OnnxInt32: int := 6
  const OnnxInt64: int := 7
  const OnnxBool: int := 9
  const OnnxFloat16: int := 10

  /** A numpy type name. The eight the tables know are spelled out; any other name (such
      as the `float64` of an empty numpy array) is kept as its text. */
  datatype TypeName = Bool | Float16 | Float32 | Int16 | Int32 | Int64 | Int8 | Uint8 | Other(text: string)

  /** The spelling of a type name. */
  function Text(n: TypeName): string {
    match n
    case Bool => "bool"
    case Float16 => "float16"
    case Float32 => "float32"
    case Int16 => "int16"
    case Int32 => "int32"
    case Int64 => "int64"
    case Int8 => "int8"
    case Uint8 => "uint8"
    case Other(text) => text
  }

  /** TFLite TensorType codes. */
  const TfliteFloat32: int := 0
  const TfliteFloat16: int := 1
  const TfliteInt32: int := 2
  const TfliteUint8: int := 3
  const TfliteInt64: int := 4
  const TfliteBool: int := 6
  const TfliteInt16: int := 7
  const TfliteInt8: int := 9

  /** The dict built from `items`: a later item overwrites an earlier one with the same key,
      so the dict has at most one entry per item. */
  function ToMap<K(==), V(==)>(items: seq<(K, V)>): (m: map<K, V>)
    ensures |m| <= |items|
  {
    if |items| == 0 then map[]
    else ToMap(items[..|items| - 1])[items[|items| - 1].0 := items[|items| - 1].1]
  }

  lemma {:induction false} ToMapKeys<K, V>(items: seq<(K, V)>)
    ensures forall i | 0 <= i < |items| :: items[i].0 in ToMap(items)
    ensures forall k | k in ToMap(items) :: exists i | 0 <= i < |items| :: items[i].0 == k
  {
    if |items| > 0 {
      ToMapKeys(items[..|items| - 1]);
    }
  }

  /** The items of `m`, written out in `ToMap` form, map a key to the value of its last item. */
  lemma {:induction false} ToMapLast<K, V>(items: seq<(K, V)>, i: nat)
    requires i < |items|
    requires forall j | i < j < |items| :: items[j].0 != items[i].0
    ensures items[i].0 in ToMap(items) && ToMap(items)[items[i].0] == items[i].1
  {
    if i < |items| - 1 {
      ToMapLast(items[..|items| - 1], i);
    }
  }

  function Swap<K(==), V(==)>(items: seq<(K, V)>): (r: seq<(V, K)>)
    ensures |r| == |items|
    ensures forall i | 0 <= i < |items| :: r[i] == (items[i].1, items[i].0)
  {
    seq(|items|, i requires 0 <= i < |items| => (items[i].1, items[i].0))
  }

  /** `inverseDict(d)`: `{v: k for k, v in d.items()}`; with repeated values the last key
      wins, so the inverse never has more entries than `d`. */
  function InverseDict<K(==), V(==)>(items: seq<(K, V)>): (r: map<V, K>)
    ensures |r| <= |items|
  {
    ToMap(Swap(items))
  }

  lemma {:induction false} InverseDictKeys<K, V>(items: seq<(K, V)>)
    ensures forall i | 0 <= i < |items| :: items[i].1 in InverseDict(items)
    ensures forall v | v in InverseDict(items) :: exists i | 0 <= i < |items| :: items[i].1 == v
  {
    ToMapKeys(Swap(items));
    forall v | v in InverseDict(items)
      ensures exists i | 0 <= i < |items| :: items[i].1 == v
    {
      var i :| 0 <= i < |items| && Swap(items)[i].0 == v;
      assert items[i].1 == v;
    }
    forall i | 0 <= i < |items|
      ensures items[i].1 in InverseDict(items)
    {
      assert Swap(items)[i].0 == items[i].1;
    }
  }

  /** The items describe an injective dict: distinct keys and distinct values. */
  predicate Injective<K(==), V(==)>(items: seq<(K, V)>) {
    forall i, j | 0 <= i < j < |items| :: items[i].0 != items[j].0 && items[i].1 != items[j].1
  }

  /** For an injective dict `d`, `inverseDict(d)[d[k]] == k` and `d[inverseDict(d)[v]] == v`. */
  lemma {:induction false} InverseDictInverts<K, V>(items: seq<(K, V)>)
    requires Injective(items)
    ensures forall k | k in ToMap(items) ::
              ToMap(items)[k] in InverseDict(items) && InverseDict(items)[ToMap(items)[k]] == k
    ensures forall v | v in InverseDict(items) ::
              InverseDict(items)[v] in ToMap(items) && ToMap(items)[InverseDict(items)[v]] == v
  {
    var d := ToMap(items);
    var inv := InverseDict(items);
    ToMapKeys(items);
    InverseDictKeys(items);
    forall i | 0 <= i < |items|
      ensures d[items[i].0] == items[i].1 && inv[items[i].1] == items[i].0
    {
      ItemsLookup(items, i);
    }
    forall k | k in d
      ensures d[k] in inv && inv[d[k]] == k
    {
      var i :| 0 <= i < |items| && items[i].0 == k;
    }
    forall v | v in inv
      ensures inv[v] in d && d[inv[v]] == v
    {
      var i :| 0 <= i < |items| && items[i].1 == v;
    }
  }

  /** `buildIndirectMapping(a, b)`: composes `a: x -> y` with `b: y -> z`. The sizes must
      agree; reading the first key of `b` fails on empty dicts; an `a` value missing from
      `b` raises KeyError. */
  function BuildIndirectMapping<X(==), Y(==), Z>(a: map<X, Y>, b: map<Y, Z>): (r: Result<map<X, Z>>)
    ensures r.Ok? <==> |a| == |b| && |b| > 0 && forall x | x in a :: a[x] in b
    ensures r.Ok? ==> r.value.Keys == a.Keys
    ensures r.Ok? ==> forall x | x in a :: a[x] in b && r.value[x] == b[a[x]]
  {
    if |a| != |b| then Err(Assertion("buildIndirectMapping of dicts of different sizes")) else
    if |b| == 0 then Err(IndexOutOfRange("list index out of range"))
    else if exists x | x in a :: a[x] !in b then Err(KeyNotFound("intermediate dtype name"))
    else Ok(map x | x in a :: b[a[x]])
  }

  const OnnxToNameItems: seq<(int, TypeName)> := [
    (OnnxBool, Bool), (OnnxFloat16, Float16), (OnnxFloat, Float32), (OnnxInt16, Int16),
    (OnnxInt32, Int32), (OnnxInt64, Int64), (OnnxInt8, Int8), (OnnxUint8, Uint8)]

  const TfliteToNameItems: seq<(int, TypeName)> := [
    (TfliteBool, Bool), (TfliteFloat16, Float16), (TfliteFloat32, Float32), (TfliteInt16, Int16),
    (TfliteInt32, Int32), (TfliteInt64, Int64), (TfliteInt8, Int8), (TfliteUint8, Uint8)]

  /** `DTYPE_ONNX2NAME`: every ONNX code of the literal names its dtype. */
  function OnnxToName(): (m: map<int, TypeName>)
    ensures forall i | 0 <= i < |OnnxToNameItems| ::
              OnnxToNameItems[i].0 in m && m[OnnxToNameItems[i].0] == OnnxToNameItems[i].1
  {
    NameTablesInjective();
    AllItemsLookup(OnnxToNameItems);
    ToMap(OnnxToNameItems)
  }

  /** `DTYPE_NAME2ONNX`: every dtype name of the literal finds its ONNX code. */
  function NameToOnnx(): (m: map<TypeName, int>)
    ensures forall i | 0 <= i < |OnnxToNameItems| ::
              OnnxToNameItems[i].1 in m && m[OnnxToNameItems[i].1] == OnnxToNameItems[i].0
  {
    NameTablesInjective();
    AllItemsLookup(OnnxToNameItems);
    InverseDict(OnnxToNameItems)
  }

  /** `DTYPE_TFLITE2NAME`: every TFLite code of the literal names its dtype. */
  function TfliteToName(): (m: map<int, TypeName>)
    ensures forall i | 0 <= i < |TfliteToNameItems| ::
              TfliteToNameItems[i].0 in m && m[TfliteToNameItems[i].0] == TfliteToNameItems[i].1
  {
    NameTablesInjective();
    AllItemsLookup(TfliteToNameItems);
    ToMap(TfliteToNameItems)
  }

  /** `DTYPE_NAME2TFLITE`: every dtype name of the literal finds its TFLite code. */
  function NameToTflite(): (m: map<TypeName, int>)
    ensures forall i | 0 <= i < |TfliteToNameItems| ::
              TfliteToNameItems[i].1 in m && m[TfliteToNameItems[i].1] == TfliteToNameItems[i].0
  {
    NameTablesInjective();
    AllItemsLookup(TfliteToNameItems);
    InverseDict(TfliteToNameItems)
  }

  /** `DTYPE_TFLITE2ONNX`: defined at load time, and a TFLite code converts to the ONNX code
      of the same dtype name. */
  function TfliteToOnnx(): (r: Result<map<int, int>>)
    ensures r.Ok?
    ensures forall t | t in r.value ::
              t in TfliteToName() && r.value[t] in OnnxToName() && OnnxToName()[r.value[t]] == TfliteToName()[t]
  {
    NameTablesInjective();
    ComposeThroughInverse(TfliteToNameItems, OnnxToNameItems);
    InverseDictInverts(OnnxToNameItems);
    BuildIndirectMapping(TfliteToName(), NameToOnnx())
  }

  /** `DTYPE_ONNX2TFLITE`: defined at load time, and an ONNX code converts to the TFLite code
      of the same dtype name. */
  function OnnxToTflite(): (r: Result<map<int, int>>)
    ensures r.Ok?
    ensures forall o | o in r.value ::
              o in OnnxToName() && r.value[o] in TfliteToName() && TfliteToName()[r.value[o]] == OnnxToName()[o]
  {
    NameTablesInjective();
    ComposeThroughInverse(OnnxToNameItems, TfliteToNameItems);
    InverseDictInverts(TfliteToNameItems);
    BuildIndirectMapping(OnnxToName(), NameToTflite())
  }

  lemma NameTablesInjective()
    ensures Injective(OnnxToNameItems) && Injective(TfliteToNameItems)
  {
  }

  lemma {:induction false} ToMapCard<K, V>(items: seq<(K, V)>)
    requires forall i, j | 0 <= i < j < |items| :: items[i].0 != items[j].0
    ensures |ToMap(items)| == |items|
  {
    if |items| > 0 {
      var init := items[..|items| - 1];
      ToMapCard(init);
      ToMapKeys(init);
      assert items[|items| - 1].0 !in ToMap(init);
    }
  }

  /** The four name tables have 8 entries each, and the two derived tables are defined. */
  lemma {:induction false} NameTableSizes()
    ensures |OnnxToName()| == 8 && |NameToOnnx()| == 8
    ensures |TfliteToName()| == 8 && |NameToTflite()| == 8
  {
    NameTablesInjective();
    ToMapCard(OnnxToNameItems);
    ToMapCard(TfliteToNameItems);
    ToMapCard(Swap(OnnxToNameItems));
    ToMapCard(Swap(TfliteToNameItems));
  }

  /** The contents of a `ToMap` of items with distinct keys, and of an `InverseDict` of items with distinct values. */
  lemma {:induction false} ItemsLookup<K, V>(items: seq<(K, V)>, i: nat)
    requires Injective(items) && i < |items|
    ensures items[i].0 in ToMap(items) && ToMap(items)[items[i].0] == items[i].1
    ensures items[i].1 in InverseDict(items) && InverseDict(items)[items[i].1] == items[i].0
  {
    ToMapLast(items, i);
    ToMapLast(Swap(items), i);
  }

  /** Every item of a dict literal with distinct keys and values is found in the dict and in its inverse. */
  lemma AllItemsLookup<K, V>(items: seq<(K, V)>)
    requires Injective(items)
    ensures forall i | 0 <= i < |items| :: items[i].0 in ToMap(items) && ToMap(items)[items[i].0] == items[i].1
    ensures forall i | 0 <= i < |items| :: items[i].1 in InverseDict(items) && InverseDict(items)[items[i].1] == items[i].0
  {
    forall i | 0 <= i < |items|
      ensures items[i].0 in ToMap(items) && ToMap(items)[items[i].0] == items[i].1
      ensures items[i].1 in InverseDict(items) && InverseDict(items)[items[i].1] == items[i].0
    {
      ItemsLookup(items, i);
    }
  }

  /** Two injective tables `a: x -> name` and `b: y -> name` listing the same names in the same
      order compose, through the inverse of `b`, into the table sending `a[i].0` to `b[i].0`. */
  lemma {:induction false} ComposeThroughInverse<X, Y, N>(a: seq<(X, N)>, b: seq<(Y, N)>)
    requires Injective(a) && Injective(b) && |a| == |b| > 0
    requires forall i | 0 <= i < |a| :: a[i].1 == b[i].1
    ensures BuildIndirectMapping(ToMap(a), InverseDict(b)).Ok?
    ensures |BuildIndirectMapping(ToMap(a), InverseDict(b)).value| == |a|
    ensures forall x | x in BuildIndirectMapping(ToMap(a), InverseDict(b)).value ::
              exists i | 0 <= i < |a| :: a[i].0 == x
    ensures forall i | 0 <= i < |a| ::
              a[i].0 in BuildIndirectMapping(ToMap(a), InverseDict(b)).value
              && BuildIndirectMapping(ToMap(a), InverseDict(b)).value[a[i].0] == b[i].0
  {
    ToMapCard(a);
    ToMapCard(Swap(b));
    ToMapKeys(a);
    InverseDictKeys(b);
    forall i | 0 <= i < |a|
      ensures ToMap(a)[a[i].0] == a[i].1 && InverseDict(b)[b[i].1] == b[i].0
    {
      ItemsLookup(a, i);
      ItemsLookup(b, i);
    }
    forall x | x in ToMap(a)
      ensures ToMap(a)[x] in InverseDict(b)
    {
      var i :| 0 <= i < |a| && a[i].0 == x;
    }
  }


  lemma {:induction false} MutualInverse<X, Y, N>(f: map<X, Y>, g: map<Y, X>, a: seq<(X, N)>, b: seq<(Y, N)>)
    requires |a| == |b|
    requires forall x | x in f :: exists i | 0 <= i < |a| :: a[i].0 == x
    requires forall y | y in g :: exists i | 0 <= i < |b| :: b[i].0 == y
    requires forall i | 0 <= i < |a| :: a[i].0 in f && f[a[i].0] == b[i].0
    requires forall i | 0 <= i < |b| :: b[i].0 in g && g[b[i].0] == a[i].0
    ensures forall x | x in f :: f[x] in g && g[f[x]] == x
    ensures forall y | y in g :: g[y] in f && f[g[y]] == y
  {
    forall x | x in f
      ensures f[x] in g && g[f[x]] == x
    {
      var i :| 0 <= i < |a| && a[i].0 == x;
    }
    forall y | y in g
      ensures g[y] in f && f[g[y]] == y
    {
      var i :| 0 <= i < |b| && b[i].0 == y;
    }
  }

  /** The two composed tables are mutual inverses. */
  lemma {:induction false} IndirectInverse<X, Y, N>(a: seq<(X, N)>, b: seq<(Y, N)>)
    requires Injective(a) && Injective(b) && |a| == |b| > 0
    requires forall i | 0 <= i < |a| :: a[i].1 == b[i].1
    ensures BuildIndirectMapping(ToMap(a), InverseDict(b)).Ok?
    ensures BuildIndirectMapping(ToMap(b), InverseDict(a)).Ok?
    ensures |BuildIndirectMapping(ToMap(a), InverseDict(b)).value| == |a|
    ensures |BuildIndirectMapping(ToMap(b), InverseDict(a)).value| == |a|
    ensures forall x | x in BuildIndirectMapping(ToMap(a), InverseDict(b)).value ::
              BuildIndirectMapping(ToMap(a), InverseDict(b)).value[x] in BuildIndirectMapping(ToMap(b), InverseDict(a)).value
              && BuildIndirectMapping(ToMap(b), InverseDict(a)).value[BuildIndirectMapping(ToMap(a), InverseDict(b)).value[x]] == x
    ensures forall y | y in BuildIndirectMapping(ToMap(b), InverseDict(a)).value ::
              BuildIndirectMapping(ToMap(b), InverseDict(a)).value[y] in BuildIndirectMapping(ToMap(a), InverseDict(b)).value
              && BuildIndirectMapping(ToMap(a), InverseDict(b)).value[BuildIndirectMapping(ToMap(b), InverseDict(a)).value[y]] == y
  {
    IndirectUndo(a, b);
    IndirectUndo(b, a);
  }

  /** One direction of `IndirectInverse`: the composed table from `a` to `b` is undone by
      the one from `b` to `a`. */
  lemma {:induction false} IndirectUndo<X, Y, N>(a: seq<(X, N)>, b: seq<(Y, N)>)
    requires Injective(a) && Injective(b) && |a| == |b| > 0
    requires forall i | 0 <= i < |a| :: a[i].1 == b[i].1
    ensures BuildIndirectMapping(ToMap(a), InverseDict(b)).Ok?
    ensures BuildIndirectMapping(ToMap(b), InverseDict(a)).Ok?
    ensures |BuildIndirectMapping(ToMap(a), InverseDict(b)).value| == |a|
    ensures forall x | x in BuildIndirectMapping(ToMap(a), InverseDict(b)).value ::
              BuildIndirectMapping(ToMap(a), InverseDict(b)).value[x] in BuildIndirectMapping(ToMap(b), InverseDict(a)).value
              && BuildIndirectMapping(ToMap(b), InverseDict(a)).value[BuildIndirectMapping(ToMap(a), InverseDict(b)).value[x]] == x
  {
    ComposeThroughInverse(a, b);
    ComposeThroughInverse(b, a);
    var f := BuildIndirectMapping(ToMap(a), InverseDict(b)).value;
    var g := BuildIndirectMapping(ToMap(b), InverseDict(a)).value;
    forall x | x in f
      ensures f[x] in g && g[f[x]] == x
    {
      var i :| 0 <= i < |a| && a[i].0 == x;
    }
  }

  /** Every table holds 8 entries, and the two direct tables are mutual inverses. */
  lemma DirectTablesInverse()
    ensures TfliteToOnnx().Ok? && OnnxToTflite().Ok?
    ensures |TfliteToOnnx().value| == 8 && |OnnxToTflite().value| == 8
    ensures forall t | t in TfliteToOnnx().value ::
              TfliteToOnnx().value[t] in OnnxToTflite().value
              && OnnxToTflite().value[TfliteToOnnx().value[t]] == t
    ensures forall o | o in OnnxToTflite().value ::
              OnnxToTflite().value[o] in TfliteToOnnx().value
              && TfliteToOnnx().value[OnnxToTflite().value[o]] == o
  {
    NameTablesInjective();
    IndirectInverse(TfliteToNameItems, OnnxToNameItems);
  }
  /** The value `DTYPE_TFLITE2ONNX` takes once the module is loaded. */
  function TfliteToOnnxTable(): (m: map<int, int>)
    ensures TfliteToOnnx() == Ok(m)
    ensures |m| == 8
  {
    DirectTablesInverse();
    TfliteToOnnx().value
  }

  /** `DTYPE_NAME2ONNX[name]`, with the KeyError of a name outside the table; the lookup is
      written out case by case, and `OnnxCodeIsTable` ties it to the dict. */
  function OnnxCode(name: TypeName): (r: Result<int>)
    ensures r.Ok? <==> !name.Other?
    ensures r.Ok? ==> r.value in OnnxCodes
  {
    match name
    case Bool => Ok(OnnxBool)
    case Float16 => Ok(OnnxFloat16)
    case Float32 => Ok(OnnxFloat)
    case Int16 => Ok(OnnxInt16)
    case Int32 => Ok(OnnxInt32)
    case Int64 => Ok(OnnxInt64)
    case Int8 => Ok(OnnxInt8)
    case Uint8 => Ok(OnnxUint8)
    case Other(text) => Err(KeyNotFound("dtype name " + text))
  }

  /** `DTYPE_ONNX2NAME[code]`, with the KeyError of a code outside the table. */
  function OnnxName(code: int): (r: Result<TypeName>)
    ensures r.Ok? <==> code in OnnxCodes
    ensures r.Ok? ==> !r.value.Other?
  {
    if code == OnnxBool then Ok(Bool)
    else if code == OnnxFloat16 then Ok(Float16)
    else if code == OnnxFloat then Ok(Float32)
    else if code == OnnxInt16 then Ok(Int16)
    else if code == OnnxInt32 then Ok(Int32)
    else if code == OnnxInt64 then Ok(Int64)
    else if code == OnnxInt8 then Ok(Int8)
    else if code == OnnxUint8 then Ok(Uint8)
    else Err(KeyNotFound("ONNX dtype code"))
  }

  /** The ONNX codes the tables know. */
  const OnnxCodes: set<int> := {OnnxBool, OnnxFloat16, OnnxFloat, OnnxInt16, OnnxInt32, OnnxInt64, OnnxInt8, OnnxUint8}

  /** Looking a code up by name and the name up by code are inverse. */
  lemma NameCodeRoundTrip(code: int)
    requires code in OnnxCodes
    ensures OnnxName(code).Ok? && OnnxCode(OnnxName(code).value) == Ok(code)
  {
  }

  /** The case-by-case lookup of a name is the dict `DTYPE_NAME2ONNX`. */
  lemma {:induction false} OnnxCodeIsTable(name: TypeName)
    ensures OnnxCode(name).Ok? <==> name in NameToOnnx()
    ensures OnnxCode(name).Ok? ==> OnnxCode(name).value == NameToOnnx()[name]
  {
    var items := OnnxToNameItems;
    NameTablesInjective();
    InverseDictKeys(items);
    if i :| 0 <= i < |items| && items[i].1 == name {
      ItemsLookup(items, i);
    } else {
      assert items[0].1 != name && items[1].1 != name && items[2].1 != name && items[3].1 != name;
      assert items[4].1 != name && items[5].1 != name && items[6].1 != name && items[7].1 != name;
    }
  }

  /** The case-by-case lookup of a code is the dict `DTYPE_ONNX2NAME`. */
  lemma {:induction false} OnnxNameIsTable(code: int)
    ensures OnnxName(code).Ok? <==> code in OnnxToName()
    ensures OnnxName(code).Ok? ==> OnnxName(code).value == OnnxToName()[code]
  {
    var items := OnnxToNameItems;
    NameTablesInjective();
    ToMapKeys(items);
    if i :| 0 <= i < |items| && items[i].0 == code {
      ItemsLookup(items, i);
    } else {
      assert items[0].0 != code && items[1].0 != code && items[2].0 != code && items[3].0 != code;
      assert items[4].0 != code && items[5].0 != code && items[6].0 != code && items[7].0 != code;
    }
  }
}

=== FILE: factory.dfy ===
/** `TensorFactory` (tflite2onnx/tensor.py): the name-keyed registry through which the
    converter obtains tensor objects, so that every name stands for one object, and the
    constructors of the helper tensors the rewrites insert. The module-level `tensor.get`,
    `tensor.createScalar` and `tensor.registery` that the older operator classes call are
    not part of this model's sources; they are modelled by the same functions. */
module Factory {
  import opened Wrappers
  import opened Seqs
  import opened Lifecycle
  import opened Layouts
  import opened Payload
  import opened Tensors
  import opened Ir
  import Tflite
  import Dtypes

  /** `str(value)` of a payload element, as it appears in a helper tensor name. */
  function NumText(x: Num): string {
    match x
    case Int(i) => IntToString(i)
    case Real(text) => text
    case Affine(_, _, _) => "affine"
    case Truncated(y) => NumText(y)
  }

  /** The text of an integer vector in a helper tensor name: elements joined by `_`. */
  function Render(v: seq<int>): string {
    "[" + Join(v) + "]"
  }

  function Join(v: seq<int>): string
    decreases |v|
  {
    if |v| == 0 then "" else if |v| == 1 then IntToString(v[0]) else IntToString(v[0]) + "_" + Join(v[1..])
  }

  /** `get(index, layout, is_bias)`: the tensor registered under the name of TFLite tensor
      `index`, created and registered when the name is new. An existing tensor only gets
      the layout when it has none; a new one gets the layout and the bias flag. */
  function Get(a: Arena, g: Tflite.Subgraph, index: int, layout: Option<Layout>, isBias: bool): (r: Result<(Arena, TensorId)>)
    requires Valid(a)
    ensures r.Ok? <==> 0 <= index < |g.tensors|
    ensures r.Ok? ==> Valid(r.value.0) && r.value.1 < |r.value.0.tensors|
    ensures r.Ok? ==> var name := g.tensors[index].name;
              && r.value.0.registry == a.registry[name := r.value.1]
              && r.value.0.ops == a.ops
    ensures r.Ok? && g.tensors[index].name in a.registry ==>
              var t := a.registry[g.tensors[index].name];
              && r.value.1 == t
              && r.value.0.tensors == a.tensors[t := r.value.0.tensors[t]]
              && r.value.0.tensors[t] == a.tensors[t].(layout := if a.tensors[t].layout.None? then layout else a.tensors[t].layout)
    ensures r.Ok? && g.tensors[index].name !in a.registry ==>
              && r.value.1 == |a.tensors|
              && r.value.0.tensors == a.tensors + [NewTensor(FromModel(index, g.tensors[index]), layout, isBias)]
  {
    var e :- Tflite.TensorAt(g, index);
    if e.name !in a.registry then
      var (b, t) := PushTensor(a, NewTensor(FromModel(index, e), layout, isBias));
      Ok((Register(b, e.name, t), t))
    else
      var t := a.registry[e.name];
      var x := a.tensors[t];
      var b := UpdateTensor(a, t, x.(layout := if x.layout.None? then layout else x.layout));
      Ok((b, t))
  }

  /** Asking twice for the same TFLite tensor yields the same object. */
  lemma GetTwiceSameTensor(a: Arena, g: Tflite.Subgraph, index: int, l1: Option<Layout>, l2: Option<Layout>, isBias: bool)
    requires Valid(a) && 0 <= index < |g.tensors|
    ensures Get(a, g, index, l1, isBias).Ok?
    ensures var (b, t) := Get(a, g, index, l1, isBias).value;
            Get(b, g, index, l2, isBias).Ok? && Get(b, g, index, l2, isBias).value.1 == t
  {
  }

  /** A layout given at the first request is never overwritten by a later one. */
  lemma GetKeepsFirstLayout(a: Arena, g: Tflite.Subgraph, index: int, l1: Layout, l2: Option<Layout>, isBias: bool)
    requires Valid(a) && 0 <= index < |g.tensors| && g.tensors[index].name !in a.registry
    ensures Get(a, g, index, Some(l1), isBias).Ok?
    ensures var (b, t) := Get(a, g, index, Some(l1), isBias).value;
            Get(b, g, index, l2, isBias).value.0.tensors[t].layout == Some(l1)
  {
  }

  /** `getWithRef(ref, name, forceUnique)`: the tensor registered under `name`; when the
      name is new, a helper tensor copying type, layout, shape and quantization of `ref`.
      With `forceUnique` the name must be new. */
  function GetWithRef(a: Arena, ref: TensorId, name: string, forceUnique: bool): (r: Result<(Arena, TensorId)>)
    requires Valid(a) && ref < |a.tensors|
    ensures r.Ok? <==> name !in a.registry || !forceUnique
    ensures r.Ok? ==> Valid(r.value.0) && r.value.1 < |r.value.0.tensors| && r.value.0.ops == a.ops
    ensures r.Ok? && name in a.registry ==> r.value == (a, a.registry[name])
    ensures r.Ok? && name !in a.registry ==>
              var x := a.tensors[ref];
              && r.value.1 == |a.tensors|
              && r.value.0 == a.(tensors := a.tensors + [r.value.0.tensors[r.value.1]], registry := a.registry[name := r.value.1])
              && r.value.0.tensors[r.value.1] == NewTensor(Helper, x.layout, false).(
                   name := name, dtype := x.dtype, shape := x.shape, scale := x.scale, zeroPoint := x.zeroPoint)
  {
    if name !in a.registry then
      var x := a.tensors[ref];
      var helper := Tensor(name, Helper, x.shape, x.dtype, None, x.scale, x.zeroPoint, x.layout, [], [], false, Initialized);
      var (b, t) := PushTensor(a, helper);
      Ok((Register(b, name, t), t))
    else
      :- Need(!forceUnique, "helper tensor name already registered");
      Ok((a, a.registry[name]))
  }

  /** A constant helper tensor registered under `name`, built when the name is new: the
      given type, data and shape, already parsed. */
  function Constant(a: Arena, name: string, dtypeName: Dtypes.TypeName, data: seq<Num>, shape: seq<int>): (r: Result<(Arena, TensorId)>)
    requires Valid(a)
    ensures r.Ok? <==> name in a.registry || Dtypes.OnnxCode(dtypeName).Ok?
    ensures r.Ok? ==> Valid(r.value.0) && r.value.1 < |r.value.0.tensors| && r.value.0.ops == a.ops
    ensures r.Ok? ==> Extends(a, r.value.0)
    ensures r.Ok? && name in a.registry ==> r.value == (a, a.registry[name])
    ensures r.Ok? && name !in a.registry ==>
              && r.value.1 == |a.tensors|
              && r.value.0 == a.(tensors := a.tensors + [ConstantTensor(name, Dtypes.OnnxCode(dtypeName).value, data, shape)],
                                 registry := a.registry[name := |a.tensors|])
  {
    if name in a.registry then Ok((a, a.registry[name]))
    else
      var code :- Dtypes.OnnxCode(dtypeName);
      var (b, t) := PushTensor(a, ConstantTensor(name, code, data, shape));
      Ok((Register(b, name, t), t))
  }

  /** The constant a helper constructor builds: no layout, no edges, parsed. */
  function ConstantTensor(name: string, code: int, data: seq<Num>, shape: seq<int>): (t: Tensor)
    ensures t.name == name && t.dtype == Some(code) && t.data == Some(data) && t.shape == shape
    ensures t.status == Parsed && t.layout == None && t.producers == [] && t.consumers == []
    ensures t.origin == Helper && !t.isBias
  {
    Tensor(name, Helper, shape, Some(code), Some(data), DefaultScale, DefaultZeroPoint, None, [], [], false, Parsed)
  }

  /** The registry name of the scalar `value` of type `dtypeName`: the type name and the
      value follow the scalar prefix. */
  function ScalarName(dtypeName: Dtypes.TypeName, value: Num): (r: string)
    ensures |r| >= 19 && r[..19] == "TFLITE2ONNX_Scalar_"
    ensures r[19..] == Dtypes.Text(dtypeName) + "_" + NumText(value)
  {
    var prefix := "TFLITE2ONNX_Scalar_";
    var rest := Dtypes.Text(dtypeName) + "_" + NumText(value);
    assert (prefix + rest)[..19] == prefix && (prefix + rest)[19..] == rest;
    prefix + rest
  }

  /** `createScalar(dtype, value)`: the scalar `[value]` named after type and value. Its
      shape is left empty. */
  function CreateScalar(a: Arena, dtypeName: Dtypes.TypeName, value: Num): (r: Result<(Arena, TensorId)>)
    requires Valid(a)
    ensures r == Constant(a, ScalarName(dtypeName, value), dtypeName, [value], [])
    ensures r.Ok? <==> ScalarName(dtypeName, value) in a.registry || Dtypes.OnnxCode(dtypeName).Ok?
    ensures r.Ok? ==> var n := ScalarName(dtypeName, value);
              n in r.value.0.registry && r.value.0.registry[n] == r.value.1
    ensures r.Ok? && ScalarName(dtypeName, value) !in a.registry ==>
              r.value.0.tensors[r.value.1].data == Some([value]) && r.value.0.tensors[r.value.1].shape == []
              && r.value.0.tensors[r.value.1].dtype == Some(Dtypes.OnnxCode(dtypeName).value)
  {
    Constant(a, ScalarName(dtypeName, value), dtypeName, [value], [])
  }

  /** The registry name of the vector `v` of type `dtypeName`: the type name and the
      rendered elements follow the vector prefix. */
  function VectorName(dtypeName: Dtypes.TypeName, v: seq<int>): (r: string)
    ensures |r| >= 19 && r[..19] == "TFLITE2ONNX_Vector_"
    ensures r[19..] == Dtypes.Text(dtypeName) + "_" + Render(v)
  {
    var prefix := "TFLITE2ONNX_Vector_";
    var rest := Dtypes.Text(dtypeName) + "_" + Render(v);
    assert (prefix + rest)[..19] == prefix && (prefix + rest)[19..] == rest;
    prefix + rest
  }

  /** Scalars and vectors never share a registry name: the prefixes differ. */
  lemma ScalarVectorApart(d: Dtypes.TypeName, x: Num, e: Dtypes.TypeName, v: seq<int>)
    ensures ScalarName(d, x) != VectorName(e, v)
  {
    assert ScalarName(d, x)[..19][12] == 'S';
    assert VectorName(e, v)[..19][12] == 'V';
  }

  /** `createVector(ndarray)` for a one-dimensional integer array of type `dtypeName`. */
  function CreateVector(a: Arena, dtypeName: Dtypes.TypeName, v: seq<int>): (r: Result<(Arena, TensorId)>)
    requires Valid(a)
    ensures r == Constant(a, VectorName(dtypeName, v), dtypeName, FromInts(v), [|v|])
    ensures r.Ok? ==> var n := VectorName(dtypeName, v);
              n in r.value.0.registry && r.value.0.registry[n] == r.value.1
    ensures r.Ok? && VectorName(dtypeName, v) !in a.registry ==>
              r.value.0.tensors[r.value.1].data == Some(FromInts(v)) && r.value.0.tensors[r.value.1].shape == [|v|]
  {
    Constant(a, VectorName(dtypeName, v), dtypeName, FromInts(v), [|v|])
  }

  /** `createEmptyTensor()`: the float32 tensor of shape `[0]` without elements. */
  function CreateEmptyTensor(a: Arena): (r: Result<(Arena, TensorId)>)
    requires Valid(a)
    ensures r.Ok?
    ensures r == Constant(a, "TFLITE2ONNX_EmptyTensor", Dtypes.Float32, [], [0])
  {
    Constant(a, "TFLITE2ONNX_EmptyTensor", Dtypes.Float32, [], [0])
  }

  /** `createQuantScale(tensor)`: the float32 scalar holding the tensor's scale. */
  function CreateQuantScale(a: Arena, t: TensorId): (r: Result<(Arena, TensorId)>)
    requires Valid(a) && t < |a.tensors|
    ensures r.Ok?
    ensures r == CreateScalar(a, Dtypes.Float32, a.tensors[t].scale)
  {
    CreateScalar(a, Dtypes.Float32, a.tensors[t].scale)
  }

  /** `createQuantZeroPoint(tensor)`: the uint8 scalar holding the tensor's zero point,
      which must lie in [0, 255]. */
  function CreateQuantZeroPoint(a: Arena, t: TensorId): (r: Result<(Arena, TensorId)>)
    requires Valid(a) && t < |a.tensors|
    ensures r.Ok? <==> 0 <= a.tensors[t].zeroPoint <= 255
    ensures r.Ok? ==> r == CreateScalar(a, Dtypes.Uint8, Int(a.tensors[t].zeroPoint))
  {
    var zp := a.tensors[t].zeroPoint;
    :- Need(zp >= 0 && zp <= 255, "zero point out of uint8 range");
    CreateScalar(a, Dtypes.Uint8, Int(zp))
  }

  /** Helper constants are shared: asking again for the same scalar returns the tensor
      registered the first time, and changes nothing. */
  lemma ScalarShared(a: Arena, dtypeName: Dtypes.TypeName, value: Num)
    requires Valid(a) && CreateScalar(a, dtypeName, value).Ok?
    ensures var (b, t) := CreateScalar(a, dtypeName, value).value;
            CreateScalar(b, dtypeName, value) == Ok((b, t))
  {
  }

  /** `getData(index, 'int32')`: the buffer of TFLite tensor `index` read as integers,
      `None` when the buffer holds no data. Decoding the raw bytes is not modelled: the
      buffer is given decoded, and an element that is not an integer is a type error. */
  function IntData(g: Tflite.Subgraph, index: int): (r: Result<Option<seq<int>>>)
    ensures r.Ok? ==> 0 <= index < |g.tensors|
    ensures 0 <= index < |g.tensors| && g.tensors[index].buffer.None? ==> r == Ok(None)
    ensures r.Ok? && r.value.Some? ==> g.tensors[index].buffer == Some(FromInts(r.value.value))
  {
    var e :- Tflite.TensorAt(g, index);
    if e.buffer.None? then Ok(None)
    else
      var v :- Ints(e.buffer.value);
      assert FromInts(v) == e.buffer.value;
      Ok(Some(v))
  }

  /** A buffer holding the integers `v` reads back as `v`. */
  lemma IntDataOfInts(g: Tflite.Subgraph, index: int, v: seq<int>)
    requires 0 <= index < |g.tensors| && g.tensors[index].buffer == Some(FromInts(v))
    ensures IntData(g, index) == Ok(Some(v))
  {
    IntsFromInts(v);
  }

  /** `t.parse()` on the tensor object `t` of the arena; its edges are untouched. */
  function ParseAt(a: Arena, t: TensorId): (r: Result<Arena>)
    requires Valid(a) && t < |a.tensors|
    ensures r.Ok? <==> Parse(a.tensors[t]).Ok?
    ensures r.Ok? ==> Valid(r.value) && r.value == a.(tensors := a.tensors[t := Parse(a.tensors[t]).value])
  {
    var x :- Parse(a.tensors[t]);
    Ok(UpdateTensor(a, t, x))
  }

  /** `t.setParsed()` on a helper tensor the converter fills itself. */
  function SetParsedAt(a: Arena, t: TensorId): (r: Result<Arena>)
    requires Valid(a) && t < |a.tensors|
    ensures r.Ok? <==> a.tensors[t].status == Initialized
    ensures r.Ok? ==> Valid(r.value) && r.value == a.(tensors := a.tensors[t := a.tensors[t].(status := Parsed)])
  {
    var s :- SetParsed(a.tensors[t].status);
    Ok(UpdateTensor(a, t, a.tensors[t].(status := s)))
  }
}

=== FILE: fullyconnected.dfy ===
/** The FULLY_CONNECTED converter (tflite2onnx/op/fullyconnected.py): an ONNX Gemm whose
    input, weight and output carry no layout, with the bias as third input and the fused
    activation of the options. Layouts do not propagate across it and its transformation
    changes nothing. */
module FullyConnectedOp {
  import opened Wrappers
  import opened Lifecycle
  import opened Tensors
  import opened Operators
  import opened Ir
  import opened OpCommon
  import Tflite
  import ConvOp
  import Activation

  /** The ONNX operator type, in every state. */
  function GemmType(op: Operator): (r: string)
    ensures r == "Gemm"
  {
    "Gemm"
  }

  /** The constructor's attributes are those of a TFLite fully connected layer written as a
      Gemm: unit scaling of both terms, the input as is and the weight transposed, since
      TFLite stores it output-major. */
  lemma GemmDefaults(index: int)
    ensures var op := NewOperator(FullyConnected, index);
            && op.attrs.Keys == {"alpha", "beta", "transA", "transB"}
            && op.attrs["alpha"] == AFloat("1.0") && op.attrs["beta"] == AFloat("1.0")
            && op.attrs["transA"] == AInt(0) && op.attrs["transB"] == AInt(1)
  {
  }

  /** The options `parse` accepts: the output keeps no extra dimensions and the weight is in
      the default format. */
  predicate PlainOptions(opt: Tflite.Options) {
    !opt.keepNumDims && opt.weightsFormat == Tflite.WEIGHTS_DEFAULT
  }

  /** `FullyConnected.parse()`: a FULLY_CONNECTED with bias (three inputs) and one output,
      in plain options, and the fused activation. The operator ends up parsed with its
      constructor attributes unchanged and no helper before it. The tensors are read as
      `ConvOp.ReadWeighted` does, asking for no layout. */
  method ParseFullyConnected(a: Arena, g: Tflite.Subgraph, o: OpId) returns (r: Result<Arena>)
    requires Valid(a) && o < |a.ops|
    ensures r.Ok? ==> 0 <= a.ops[o].index < |g.operators|
    ensures r.Ok? ==> var e := g.operators[a.ops[o].index];
              && e.opcode == Tflite.FULLY_CONNECTED && |e.inputs| == 3 && |e.outputs| == 1
              && PlainOptions(e.options)
    ensures r.Ok? ==> var b := r.value;
              var k := |a.ops[o].inputs|;
              && Valid(b) && |b.ops| >= |a.ops| && b.ops[o].status == Parsed && b.ops[o].pre == a.ops[o].pre
              && b.ops[o].attrs == a.ops[o].attrs
              && |b.ops[o].inputs| == k + 3 && b.ops[o].inputs[..k] == a.ops[o].inputs
    ensures r.Ok? ==> var e := g.operators[a.ops[o].index];
              && ReadsInputs(a, r.value, g, o, 3)
              && Activation.DeliversOutput(r.value, g, o, e.options.fusedActivation)
  {
    var re := OpEntry(g, a.ops[o]);
    if re.Err? {
      return Err(re.error);
    }
    var e := re.value;
    if e.opcode != Tflite.FULLY_CONNECTED {
      return Err(Assertion("opcode is not FULLY_CONNECTED"));
    }
    if |e.inputs| != 3 {
      return Err(Assertion("TFLite Fully Connected always has bias"));
    }
    if |e.outputs| != 1 {
      return Err(Assertion("FullyConnected has one output"));
    }
    var rt := ConvOp.ReadWeighted(a, g, o, None, None, None);
    if rt.Err? {
      return Err(rt.error);
    }
    var (b, it, wt, ot, bt) := rt.value;
    if e.options.keepNumDims {
      return Err(Assertion("KeepNumDims is not supported"));
    }
    if e.options.weightsFormat != Tflite.WEIGHTS_DEFAULT {
      return Err(Assertion("only the default weights format is supported"));
    }
    var rh := Activation.HandleFusedActivation(b, o, e.options.fusedActivation, ot, o);
    if rh.Err? {
      return Err(rh.error);
    }
    var d := rh.value;
    assert d.ops[o].inputs == a.ops[o].inputs + [it, wt, bt];
    assert d.ops[o].inputs[..|a.ops[o].inputs|] == a.ops[o].inputs;
    r := SetOpParsed(d, o);
    if r.Ok? {
      AppendedReads(a, b, g, o, [it, wt, bt]);
      Activation.FusedParsed(a, b, d, r.value, g, o, e.options.fusedActivation, ot, 3);
    }
  }
}

=== FILE: graph.dfy ===
/** The bookkeeping passes of tflite2onnx/graph.py: flattening the root operators with their
    helpers into execution order (`_collectOpAndTensor`), splitting the tensors they touch
    into constants and values, and seeding the layouts the user names (`convert`). */
module Graphs {
  import opened Wrappers
  import opened Layouts
  import opened Tensors
  import opened Operators
  import opened Ir
  import Propagation
  import Axes
  import PadOp
  import ReduceOp
  import ReshapeOp
  import SliceOp

  // ---------------------------------------------------------------- op_all

  /** `_recursive(op)`: the helpers before `o`, expanded, then `o`, then the helpers after
      it, expanded. Helpers are created after their master, so ids grow downwards. */
  function Expand(a: Arena, o: OpId): (r: seq<OpId>)
    requires Valid(a) && o < |a.ops|
    ensures o in r
    ensures forall x | x in r :: o <= x < |a.ops|
    decreases |a.ops| - o, 1, 0
  {
    ExpandAll(a, a.ops[o].pre, o) + [o] + ExpandAll(a, a.ops[o].post, o)
  }

  /** The expansions of the helpers `hs` of `parent`, in order. */
  function ExpandAll(a: Arena, hs: seq<OpId>, parent: nat): (r: seq<OpId>)
    requires Valid(a) && forall h | h in hs :: parent < h < |a.ops|
    ensures forall h | h in hs :: h in r
    ensures forall x | x in r :: parent < x < |a.ops|
    decreases |a.ops| - parent, 0, |hs|
  {
    if hs == [] then []
    else
      assert hs[0] in hs && forall h | h in hs[1..] :: h in hs;
      Expand(a, hs[0]) + ExpandAll(a, hs[1..], parent)
  }

  /** The expansions of the roots, in order. */
  function Flatten(a: Arena, roots: seq<OpId>): (r: seq<OpId>)
    requires Valid(a) && forall o | o in roots :: o < |a.ops|
    ensures forall o | o in roots :: o in r
    ensures forall x | x in r :: x < |a.ops|
    ensures |r| >= |roots|
  {
    if roots == [] then []
    else
      assert roots[0] in roots && forall o | o in roots[1..] :: o in roots;
      Expand(a, roots[0]) + Flatten(a, roots[1..])
  }

  /** `op_all` as `_collectOpAndTensor` builds it, failing when there is nothing. */
  function CollectOps(a: Arena, roots: seq<OpId>): (r: Result<seq<OpId>>)
    requires Valid(a) && forall o | o in roots :: o < |a.ops|
    ensures r.Ok? <==> roots != []
    ensures r.Ok? ==> forall o | o in roots :: o in r.value
    ensures r.Ok? ==> forall x | x in r.value :: x < |a.ops|
  {
    var all := Flatten(a, roots);
    if |all| == 0 then Err(Assertion("no operator in the graph")) else Ok(all)
  }

  /** Without helpers, `op_all` is the roots themselves. */
  lemma {:induction false} FlattenWithoutHelpers(a: Arena, roots: seq<OpId>)
    requires Valid(a) && forall o | o in roots :: o < |a.ops|
    requires forall o | 0 <= o < |a.ops| :: a.ops[o].pre == [] && a.ops[o].post == []
    ensures Flatten(a, roots) == roots
  {
    if roots != [] {
      assert roots[0] in roots && forall o | o in roots[1..] :: o in roots;
      assert Expand(a, roots[0]) == [roots[0]];
      FlattenWithoutHelpers(a, roots[1..]);
    }
  }

  /** Execution order within one expansion: every helper before `o` runs before it, every
      helper after `o` runs after it. */
  lemma ExpandOrder(a: Arena, o: OpId) returns (k: nat)
    requires Valid(a) && o < |a.ops|
    ensures k < |Expand(a, o)| && Expand(a, o)[k] == o
    ensures o !in Expand(a, o)[..k] && o !in Expand(a, o)[k + 1..]
    ensures forall h | h in a.ops[o].pre :: h in Expand(a, o)[..k]
    ensures forall h | h in a.ops[o].post :: h in Expand(a, o)[k + 1..]
  {
    var before := ExpandAll(a, a.ops[o].pre, o);
    var after := ExpandAll(a, a.ops[o].post, o);
    var r := Expand(a, o);
    k := |before|;
    assert r == before + [o] + after;
    assert r[..k] == before;
    assert r[k + 1..] == after;
  }

  /** `op_all` is closed under helpers: every helper of an operator in an expansion is in
      the expansion. */
  lemma {:induction false} ExpandClosed(a: Arena, o: OpId)
    requires Valid(a) && o < |a.ops|
    ensures forall x, h | x in Expand(a, o) && (h in a.ops[x].pre || h in a.ops[x].post) :: h in Expand(a, o)
    decreases |a.ops| - o, 1, 0
  {
    var pre := ExpandAll(a, a.ops[o].pre, o);
    var post := ExpandAll(a, a.ops[o].post, o);
    ExpandAllClosed(a, a.ops[o].pre, o);
    ExpandAllClosed(a, a.ops[o].post, o);
    assert Expand(a, o) == pre + [o] + post;
  }

  lemma {:induction false} ExpandAllClosed(a: Arena, hs: seq<OpId>, parent: nat)
    requires Valid(a) && forall h | h in hs :: parent < h < |a.ops|
    ensures forall x, h | x in ExpandAll(a, hs, parent) && (h in a.ops[x].pre || h in a.ops[x].post) ::
              h in ExpandAll(a, hs, parent)
    decreases |a.ops| - parent, 0, |hs|
  {
    if hs != [] {
      assert hs[0] in hs && forall h | h in hs[1..] :: h in hs;
      ExpandClosed(a, hs[0]);
      ExpandAllClosed(a, hs[1..], parent);
    }
  }

  /** The closure carries over to the whole of `op_all`. */
  lemma {:induction false} FlattenClosed(a: Arena, roots: seq<OpId>)
    requires Valid(a) && forall o | o in roots :: o < |a.ops|
    ensures forall x, h | x in Flatten(a, roots) && (h in a.ops[x].pre || h in a.ops[x].post) :: h in Flatten(a, roots)
  {
    if roots != [] {
      assert roots[0] in roots && forall o | o in roots[1..] :: o in roots;
      ExpandClosed(a, roots[0]);
      FlattenClosed(a, roots[1..]);
    }
  }

  // ---------------------------------------------------------------- initializer and value_info

  /** Every tensor an operator of `ops` reads or writes. */
  function Touched(a: Arena, ops: seq<OpId>): set<TensorId> {
    set o, t | o in ops && 0 <= o < |a.ops| && t in a.ops[o].inputs + a.ops[o].outputs :: t
  }

  /** The loop of `_collectOpAndTensor` over `op_all`: each tensor read or written goes to
      the constants when it holds data and to the values otherwise. */
  method Partition(a: Arena, ops: seq<OpId>) returns (initializer: set<TensorId>, valueInfo: set<TensorId>)
    requires Valid(a) && forall o | o in ops :: o < |a.ops|
    ensures initializer !! valueInfo
    ensures initializer + valueInfo == Touched(a, ops)
    ensures forall t | t in initializer + valueInfo :: t < |a.tensors|
    ensures forall t | t in initializer :: IsInitializer(a.tensors[t])
    ensures forall t | t in valueInfo :: !IsInitializer(a.tensors[t])
  {
    initializer, valueInfo := {}, {};
    var i := 0;
    while i < |ops|
      invariant 0 <= i <= |ops|
      invariant initializer !! valueInfo
      invariant initializer + valueInfo == Touched(a, ops[..i])
      invariant forall t | t in initializer + valueInfo :: t < |a.tensors|
      invariant forall t | t in initializer :: IsInitializer(a.tensors[t])
      invariant forall t | t in valueInfo :: !IsInitializer(a.tensors[t])
    {
      var o := ops[i];
      assert o in ops;
      var ts := a.ops[o].inputs + a.ops[o].outputs;
      var j := 0;
      while j < |ts|
        invariant 0 <= j <= |ts|
        invariant initializer !! valueInfo
        invariant initializer + valueInfo == Touched(a, ops[..i]) + set t | t in ts[..j]
        invariant forall t | t in initializer + valueInfo :: t < |a.tensors|
        invariant forall t | t in initializer :: IsInitializer(a.tensors[t])
        invariant forall t | t in valueInfo :: !IsInitializer(a.tensors[t])
      {
        var t := ts[j];
        assert t in a.ops[o].inputs || t in a.ops[o].outputs;
        if IsInitializer(a.tensors[t]) {
          initializer := initializer + {t};
        } else {
          valueInfo := valueInfo + {t};
        }
        assert ts[..j + 1] == ts[..j] + [t];
        j := j + 1;
      }
      TouchedStep(a, ops, i);
      i := i + 1;
    }
    assert ops[..i] == ops;
  }

  /** One more operator adds its tensors to the touched set. */
  lemma TouchedStep(a: Arena, ops: seq<OpId>, i: nat)
    requires i < |ops| && ops[i] < |a.ops|
    ensures var ts := a.ops[ops[i]].inputs + a.ops[ops[i]].outputs;
            Touched(a, ops[..i + 1]) == Touched(a, ops[..i]) + set t | t in ts
  {
    assert ops[..i + 1] == ops[..i] + [ops[i]];
  }

  // ---------------------------------------------------------------- explicit layouts

  /** `t` took the layout the user gave for its name: it had none, the entry is a pair,
      and nothing else about it changed. */
  predicate Seeded(a: Arena, b: Arena, explicit: map<string, seq<string>>, t: TensorId)
    requires t < |a.tensors| && t < |b.tensors|
  {
    var x := a.tensors[t];
    && x.name in explicit && |explicit[x.name]| == 2 && x.layout.None?
    && b.tensors[t] == x.(layout := Some(NewLayout(explicit[x.name][0], explicit[x.name][1])))
  }

  /** Every tensor of `b` is that of `a`, or seeded from it. */
  predicate SeededOnly(a: Arena, b: Arena, explicit: map<string, seq<string>>) {
    && |b.tensors| == |a.tensors| && b.ops == a.ops && b.registry == a.registry
    && forall t | 0 <= t < |a.tensors| :: b.tensors[t] == a.tensors[t] || Seeded(a, b, explicit, t)
  }

  /** The seeding loop of `convert` over the tensors of one root operator. */
  method SeedOperator(a: Arena, a0: Arena, explicit: map<string, seq<string>>, o: OpId) returns (r: Result<Arena>)
    requires Valid(a) && o < |a.ops| && SeededOnly(a0, a, explicit)
    ensures r.Ok? ==> Valid(r.value) && SeededOnly(a0, r.value, explicit)
    ensures r.Ok? ==> forall t | t in a.ops[o].inputs + a.ops[o].outputs && a.tensors[t].name in explicit ::
                        Seeded(a0, r.value, explicit, t)
    ensures r.Ok? ==> forall t | 0 <= t < |a.tensors| && Seeded(a0, a, explicit, t) :: Seeded(a0, r.value, explicit, t)
  {
    var ts := a.ops[o].inputs + a.ops[o].outputs;
    var b := a;
    var j := 0;
    while j < |ts|
      invariant 0 <= j <= |ts|
      invariant Valid(b) && SeededOnly(a0, b, explicit) && b.ops == a.ops
      invariant forall t | 0 <= t < |a.tensors| :: b.tensors[t].name == a.tensors[t].name
      invariant forall k | 0 <= k < j && ts[k] < |a.tensors| && a.tensors[ts[k]].name in explicit ::
                  Seeded(a0, b, explicit, ts[k])
      invariant forall t | 0 <= t < |a.tensors| && Seeded(a0, a, explicit, t) :: Seeded(a0, b, explicit, t)
    {
      var t := ts[j];
      assert t in a.ops[o].inputs || t in a.ops[o].outputs;
      var x := b.tensors[t];
      if x.name in explicit {
        if x.layout.Some? {
          return Err(Assertion("tensor already has a layout"));
        }
        var pair := explicit[x.name];
        if |pair| != 2 {
          return Err(Assertion("an explicit layout is a pair"));
        }
        assert x == a0.tensors[t];
        b := UpdateTensor(b, t, x.(layout := Some(NewLayout(pair[0], pair[1]))));
      }
      j := j + 1;
    }
    forall t | t in ts && a.tensors[t].name in explicit
      ensures Seeded(a0, b, explicit, t)
    {
      var k :| 0 <= k < |ts| && ts[k] == t;
    }
    return Ok(b);
  }

  /** The seeding of `convert`: each tensor of each root operator whose name the user
      gave a layout for gets that layout; it must have none yet and the entry must be a
      pair. Helper operators are not visited. */
  method SeedLayouts(a: Arena, roots: seq<OpId>, explicit: map<string, seq<string>>) returns (r: Result<Arena>)
    requires Valid(a) && forall o | o in roots :: o < |a.ops|
    ensures r.Ok? ==> Valid(r.value) && SeededOnly(a, r.value, explicit)
    ensures r.Ok? ==> forall o, t | o in roots && t in a.ops[o].inputs + a.ops[o].outputs && a.tensors[t].name in explicit ::
                        Seeded(a, r.value, explicit, t)
  {
    var b := a;
    var i := 0;
    assert SeededOnly(a, a, explicit);
    while i < |roots|
      invariant 0 <= i <= |roots|
      invariant Valid(b) && SeededOnly(a, b, explicit)
      invariant forall o, t | o in roots[..i] && o < |a.ops| && t in a.ops[o].inputs + a.ops[o].outputs && t < |a.tensors|
                                && a.tensors[t].name in explicit :: Seeded(a, b, explicit, t)
    {
      var o := roots[i];
      assert o in roots;
      forall t | 0 <= t < |a.tensors|
        ensures b.tensors[t].name == a.tensors[t].name
      {
      }
      var rs := SeedOperator(b, a, explicit, o);
      if rs.Err? {
        return Err(rs.error);
      }
      assert roots[..i + 1] == roots[..i] + [o];
      b := rs.value;
      i := i + 1;
    }
    assert roots[..i] == roots;
    return Ok(b);
  }

  /** A tensor the user names that already has a layout stops the seeding. */
  lemma {:induction false} SeedRejectsLaidOut(a: Arena, b: Arena, roots: seq<OpId>, explicit: map<string, seq<string>>, o: OpId, t: TensorId)
    requires Valid(a) && o in roots && o < |a.ops| && t in a.ops[o].inputs
    requires a.tensors[t].name in explicit && a.tensors[t].layout.Some?
    requires SeededOnly(a, b, explicit)
    ensures !Seeded(a, b, explicit, t)
  {
  }

  // ---------------------------------------------------------------- operator transformations

  /** The classes whose `transform()` does something: Concat and Split remap their axis,
      Reduce its axes, Padding and Slice reorder constants, Reshape its target shape. The
      others are `pass`. */
  predicate HasTransform(k: Kind) {
    k.Concat? || k.Split? || k.Padding? || k.Reduce? || k.Reshape? || k.Slice?
  }

  /** `b` differs from `a` at most in operator attributes and in the data and shapes of
      tensors: every edge, layout, name and list stays. */
  predicate Retouched(a: Arena, b: Arena) {
    && |b.tensors| == |a.tensors| && |b.ops| == |a.ops| && b.registry == a.registry
    && (forall t | 0 <= t < |a.tensors| :: b.tensors[t] == a.tensors[t].(data := b.tensors[t].data, shape := b.tensors[t].shape))
    && (forall o | 0 <= o < |a.ops| :: b.ops[o] == a.ops[o].(attrs := b.ops[o].attrs))
  }

  lemma RetouchedTrans(a: Arena, b: Arena, c: Arena)
    requires Retouched(a, b) && Retouched(b, c)
    ensures Retouched(a, c)
  {
  }

  /** The axis remapping of Concat and Split touches one attribute. */
  lemma AxisAttrRetouches(a: Arena, o: OpId)
    requires Valid(a) && o < |a.ops| && Axes.TransformAxisAttr(a, o).Ok?
    ensures var b := Axes.TransformAxisAttr(a, o).value;
            Valid(b) && Retouched(a, b) && forall x | 0 <= x < |a.ops| && x != o :: b.ops[x] == a.ops[x]
  {
  }

  /** The axes remapping of Reduce touches one attribute. */
  lemma ReduceRetouches(a: Arena, o: OpId)
    requires Valid(a) && o < |a.ops| && ReduceOp.TransformReduce(a, o).Ok?
    ensures var b := ReduceOp.TransformReduce(a, o).value;
            Valid(b) && Retouched(a, b) && forall x | 0 <= x < |a.ops| && x != o :: b.ops[x] == a.ops[x]
  {
  }

  /** The pads reordering of Padding touches one constant. */
  lemma PaddingRetouches(a: Arena, o: OpId)
    requires Valid(a) && o < |a.ops| && PadOp.TransformPadding(a, o).Ok?
    ensures var b := PadOp.TransformPadding(a, o).value;
            Valid(b) && Retouched(a, b) && b.ops == a.ops
  {
    var b := PadOp.TransformPadding(a, o).value;
    assert b.tensors == a.tensors[InputOf(a, o, 1) := b.tensors[InputOf(a, o, 1)]];
  }

  /** The target-shape reordering of a broadcasting Reshape touches one constant. */
  lemma ReshapeRetouches(a: Arena, o: OpId)
    requires Valid(a) && o < |a.ops| && a.ops[o].kind.Reshape? && ReshapeOp.TransformReshape(a, o).Ok?
    ensures var b := ReshapeOp.TransformReshape(a, o).value;
            Valid(b) && Retouched(a, b) && b.ops == a.ops
  {
  }

  /** The bounds reordering of Slice touches three constants. */
  lemma SliceRetouches(a: Arena, o: OpId)
    requires Valid(a) && o < |a.ops| && SliceOp.TransformSlice(a, o).Ok?
    ensures var b := SliceOp.TransformSlice(a, o).value;
            Valid(b) && Retouched(a, b) && b.ops == a.ops
  {
  }

  /** `op.transform()`, dispatched on the operator's class. */
  method TransformOperator(a: Arena, o: OpId) returns (r: Result<Arena>)
    requires Valid(a) && o < |a.ops|
    ensures !HasTransform(a.ops[o].kind) ==> r == Ok(a)
    ensures r.Ok? ==> Valid(r.value) && Retouched(a, r.value)
    ensures r.Ok? ==> forall x | 0 <= x < |a.ops| && x != o :: r.value.ops[x] == a.ops[x]
  {
    match a.ops[o].kind
    case Concat =>
      r := Axes.TransformAxisAttr(a, o);
      if r.Ok? { AxisAttrRetouches(a, o); }
    case Split =>
      r := Axes.TransformAxisAttr(a, o);
      if r.Ok? { AxisAttrRetouches(a, o); }
    case Reduce =>
      r := ReduceOp.TransformReduce(a, o);
      if r.Ok? { ReduceRetouches(a, o); }
    case Padding =>
      r := PadOp.TransformPadding(a, o);
      if r.Ok? { PaddingRetouches(a, o); }
    case Reshape(_) =>
      r := ReshapeOp.TransformReshape(a, o);
      if r.Ok? { ReshapeRetouches(a, o); }
    case Slice =>
      r := SliceOp.TransformSlice(a, o);
      if r.Ok? { SliceRetouches(a, o); }
    case _ => r := Ok(a);
  }

  /** `for op in self.op_all: op.transform()`: the operators transformed in order, failing
      at the first that fails. Only attributes and constants change; operators outside
      `ops` keep their attributes, and when no operator of `ops` has a transformation the
      graph is unchanged. */
  method TransformOperators(a: Arena, ops: seq<OpId>) returns (r: Result<Arena>)
    requires Valid(a) && forall o | o in ops :: o < |a.ops|
    ensures r.Ok? ==> Valid(r.value) && Retouched(a, r.value)
    ensures r.Ok? ==> forall x | 0 <= x < |a.ops| && x !in ops :: r.value.ops[x] == a.ops[x]
    ensures (forall o | o in ops :: !HasTransform(a.ops[o].kind)) ==> r == Ok(a)
  {
    var b := a;
    var i := 0;
    while i < |ops|
      invariant 0 <= i <= |ops|
      invariant Valid(b) && Retouched(a, b)
      invariant forall x | 0 <= x < |a.ops| && x !in ops[..i] :: b.ops[x] == a.ops[x]
      invariant (forall o | o in ops :: !HasTransform(a.ops[o].kind)) ==> b == a
    {
      var o := ops[i];
      assert o in ops;
      var rt := TransformOperator(b, o);
      if rt.Err? {
        return Err(rt.error);
      }
      RetouchedTrans(a, b, rt.value);
      assert ops[..i + 1] == ops[..i] + [o];
      b := rt.value;
      i := i + 1;
    }
    return Ok(b);
  }

  // ---------------------------------------------------------------- the layout pass of convert

  /** Every tensor of a root operator is among the tensors `op_all` touches. */
  lemma RootTensorsTouched(a: Arena, roots: seq<OpId>, o: OpId, t: TensorId)
    requires Valid(a) && forall x | x in roots :: x < |a.ops|
    requires o in roots && t in a.ops[o].inputs + a.ops[o].outputs
    ensures t in Touched(a, Flatten(a, roots))
  {
    assert o in Flatten(a, roots);
  }

  /** The walk over the tensors `u` followed by `for t in T_walked: t.transform()`: every
      tensor of `u` that had a layout ends in that layout's target, every other tensor
      keeps its layout, and the operators are untouched. */
  method ApplyLayouts(a: Arena, u: set<TensorId>) returns (r: Result<Arena>)
    requires Valid(a) && forall t | t in u :: t < |a.tensors|
    ensures r.Ok? ==> Valid(r.value) && |r.value.tensors| == |a.tensors| && r.value.ops == a.ops
    ensures r.Ok? ==> forall t | t in u && a.tensors[t].layout.Some? ::
              r.value.tensors[t].layout == Some(a.tensors[t].layout.value.(current := a.tensors[t].layout.value.target))
    ensures r.Ok? ==> forall t | 0 <= t < |a.tensors| && t !in u :: r.value.tensors[t].layout == a.tensors[t].layout
  {
    var rp := Propagation.PropagateLayout(a, u);
    if rp.Err? {
      return Err(rp.error);
    }
    var (c, w) := rp.value;
    r := Propagation.TransformWalked(c, w.walked);
  }

  /** `_propagateLayout`, over the operators `ops` of `op_all`: the layouts are propagated
      across the tensors they touch, the walked tensors are transformed, then the operators.
      Every edge and name stays; every tensor touched that had a layout ends in that
      layout's target, and every other keeps its layout. */
  method PropagateLayouts(a: Arena, ops: seq<OpId>) returns (r: Result<Arena>)
    requires Valid(a) && forall o | o in ops :: o < |a.ops|
    ensures r.Ok? ==> Valid(r.value) && |r.value.tensors| == |a.tensors| && |r.value.ops| == |a.ops|
    ensures r.Ok? ==> forall x | 0 <= x < |a.ops| :: r.value.ops[x] == a.ops[x].(attrs := r.value.ops[x].attrs)
    ensures r.Ok? ==> forall t | t in Touched(a, ops) && a.tensors[t].layout.Some? ::
              r.value.tensors[t].layout == Some(a.tensors[t].layout.value.(current := a.tensors[t].layout.value.target))
    ensures r.Ok? ==> forall t | 0 <= t < |a.tensors| && t !in Touched(a, ops) :: r.value.tensors[t].layout == a.tensors[t].layout
  {
    var initializer, valueInfo := Partition(a, ops);
    var rl := ApplyLayouts(a, initializer + valueInfo);
    if rl.Err? {
      return Err(rl.error);
    }
    r := TransformOperators(rl.value, ops);
  }

  /** The layout handling of `convert`: the explicit layouts are seeded, `op_all` is
      collected, and the layouts are propagated and applied. Operators keep their edges;
      every tensor of a root operator whose name the user gave a layout for ends up in
      that layout's target. */
  method ConvertLayouts(a: Arena, roots: seq<OpId>, explicit: map<string, seq<string>>) returns (r: Result<Arena>)
    requires Valid(a) && forall o | o in roots :: o < |a.ops|
    ensures r.Ok? ==> Valid(r.value) && |r.value.tensors| == |a.tensors| && |r.value.ops| == |a.ops|
    ensures r.Ok? ==> forall x | 0 <= x < |a.ops| :: r.value.ops[x] == a.ops[x].(attrs := r.value.ops[x].attrs)
    ensures r.Ok? ==> forall o, t | o in roots && t in a.ops[o].inputs + a.ops[o].outputs && a.tensors[t].name in explicit ::
              var e := explicit[a.tensors[t].name];
              |e| == 2 && r.value.tensors[t].layout == Some(Layout(e[0], e[1], e[1]))
  {
    var rs := SeedLayouts(a, roots, explicit);
    if rs.Err? {
      return Err(rs.error);
    }
    var b := rs.value;
    var rc := CollectOps(b, roots);
    if rc.Err? {
      return Err(rc.error);
    }
    var rp := PropagateLayouts(b, rc.value);
    if rp.Err? {
      return Err(rp.error);
    }
    forall o, t | o in roots && t in a.ops[o].inputs + a.ops[o].outputs && a.tensors[t].name in explicit
      ensures var e := explicit[a.tensors[t].name];
              |e| == 2 && rp.value.tensors[t].layout == Some(Layout(e[0], e[1], e[1]))
    {
      assert Seeded(a, b, explicit, t);
      RootTensorsTouched(b, roots, o, t);
    }
    return rp;
  }
}

=== FILE: ir.dfy ===
/** The converter's object graph as an arena: every tensor and every operator object of
    one subgraph lives in a sequence, and the references between them (producers,
    consumers, inputs, outputs, helper operators) are indices into those sequences. The
    registry maps a tensor name to the tensor registered under it. The primitives here
    change one record or append one record and keep every reference in range. */
module Ir {
  import opened Wrappers
  import opened Seqs
  import opened Tensors
  import opened Operators

  datatype Arena = Arena(tensors: seq<Tensor>, ops: seq<Operator>, registry: map<string, TensorId>)

  const Empty: Arena := Arena([], [], map[])

  /** Every reference of the arena is in range. Object references in the converter cannot
      dangle; the ordering of helpers rules out a helper list that reaches back to its
      master. */
  predicate Valid(a: Arena) {
    && (forall n | n in a.registry :: a.registry[n] < |a.tensors|)
    && (forall t, p | 0 <= t < |a.tensors| && p in a.tensors[t].producers :: p < |a.ops|)
    && (forall t, c | 0 <= t < |a.tensors| && c in a.tensors[t].consumers :: c < |a.ops|)
    && (forall o, t | 0 <= o < |a.ops| && t in a.ops[o].inputs :: t < |a.tensors|)
    && (forall o, t | 0 <= o < |a.ops| && t in a.ops[o].outputs :: t < |a.tensors|)
    && (forall o, h | 0 <= o < |a.ops| && h in a.ops[o].pre :: o < h < |a.ops|)
    && (forall o, h | 0 <= o < |a.ops| && h in a.ops[o].post :: o < h < |a.ops|)
  }

  lemma EmptyValid()
    ensures Valid(Empty)
  {
  }

  /** Input `i` of operator `o`, a tensor of the arena. */
  function InputOf(a: Arena, o: OpId, i: nat): (t: TensorId)
    requires Valid(a) && o < |a.ops| && i < |a.ops[o].inputs|
    ensures t == a.ops[o].inputs[i] && t < |a.tensors|
  {
    assert a.ops[o].inputs[i] in a.ops[o].inputs;
    a.ops[o].inputs[i]
  }

  /** Output `i` of operator `o`, a tensor of the arena. */
  function OutputOf(a: Arena, o: OpId, i: nat): (t: TensorId)
    requires Valid(a) && o < |a.ops| && i < |a.ops[o].outputs|
    ensures t == a.ops[o].outputs[i] && t < |a.tensors|
  {
    assert a.ops[o].outputs[i] in a.ops[o].outputs;
    a.ops[o].outputs[i]
  }

  // ---------------------------------------------------------------- validity of one edit

  /** Replacing one tensor record by one whose edges name existing operators keeps the
      arena valid. */
  lemma TensorEditValid(a: Arena, t: TensorId, x: Tensor)
    requires Valid(a) && t < |a.tensors|
    requires forall p | p in x.producers :: p < |a.ops|
    requires forall c | c in x.consumers :: c < |a.ops|
    ensures Valid(a.(tensors := a.tensors[t := x]))
  {
    var b := a.(tensors := a.tensors[t := x]);
    assert forall u, p | 0 <= u < |b.tensors| && p in b.tensors[u].producers :: p < |b.ops| by {
      forall u, p | 0 <= u < |b.tensors| && p in b.tensors[u].producers ensures p < |b.ops| {
        if u != t { assert p in a.tensors[u].producers; }
      }
    }
    assert forall u, c | 0 <= u < |b.tensors| && c in b.tensors[u].consumers :: c < |b.ops| by {
      forall u, c | 0 <= u < |b.tensors| && c in b.tensors[u].consumers ensures c < |b.ops| {
        if u != t { assert c in a.tensors[u].consumers; }
      }
    }
  }

  /** Replacing one operator record by one whose tensors exist and whose helpers exist and
      come after it keeps the arena valid. */
  lemma OpEditValid(a: Arena, o: OpId, x: Operator)
    requires Valid(a) && o < |a.ops|
    requires forall t | t in x.inputs :: t < |a.tensors|
    requires forall t | t in x.outputs :: t < |a.tensors|
    requires forall h | h in x.pre :: o < h < |a.ops|
    requires forall h | h in x.post :: o < h < |a.ops|
    ensures Valid(a.(ops := a.ops[o := x]))
  {
    var b := a.(ops := a.ops[o := x]);
    assert forall u, t | 0 <= u < |b.ops| && t in b.ops[u].inputs :: t < |b.tensors| by {
      forall u, t | 0 <= u < |b.ops| && t in b.ops[u].inputs ensures t < |b.tensors| {
        if u != o { assert t in a.ops[u].inputs; }
      }
    }
    assert forall u, t | 0 <= u < |b.ops| && t in b.ops[u].outputs :: t < |b.tensors| by {
      forall u, t | 0 <= u < |b.ops| && t in b.ops[u].outputs ensures t < |b.tensors| {
        if u != o { assert t in a.ops[u].outputs; }
      }
    }
    assert forall u, h | 0 <= u < |b.ops| && h in b.ops[u].pre :: u < h < |b.ops| by {
      forall u, h | 0 <= u < |b.ops| && h in b.ops[u].pre ensures u < h < |b.ops| {
        if u != o { assert h in a.ops[u].pre; }
      }
    }
    assert forall u, h | 0 <= u < |b.ops| && h in b.ops[u].post :: u < h < |b.ops| by {
      forall u, h | 0 <= u < |b.ops| && h in b.ops[u].post ensures u < h < |b.ops| {
        if u != o { assert h in a.ops[u].post; }
      }
    }
  }

  /** The elements of `s + [x]` are those of `s` and `x`. */
  lemma AppendMembers<T>(s: seq<T>, x: T)
    ensures forall y | y in s + [x] :: y in s || y == x
  {
    forall y | y in s + [x]
      ensures y in s || y == x
    {
      var i :| 0 <= i < |s + [x]| && (s + [x])[i] == y;
      if i < |s| { assert s[i] == y; }
    }
  }

  /** The elements of `ReplaceFirst(s, x, y)` are those of `s` and `y`. */
  lemma ReplaceMembers<T>(s: seq<T>, x: T, y: T)
    requires x in s
    ensures forall z | z in ReplaceFirst(s, x, y) :: z in s || z == y
  {
    var r := ReplaceFirst(s, x, y);
    forall z | z in r
      ensures z in s || z == y
    {
      var i :| 0 <= i < |r| && r[i] == z;
      if i == FirstIndex(s, x) {
      } else {
        assert s[i] == z;
      }
    }
  }

  /** The elements of `RemoveFirst(s, x)` are elements of `s`. */
  lemma RemoveMembers<T>(s: seq<T>, x: T)
    requires x in s
    ensures forall z | z in RemoveFirst(s, x) :: z in s
  {
    var r := RemoveFirst(s, x);
    forall z | z in r
      ensures z in s
    {
      var i :| 0 <= i < |r| && r[i] == z;
      var k := FirstIndex(s, x);
      if i >= k { assert s[i + 1] == z; } else { assert s[i] == z; }
    }
  }

  // ---------------------------------------------------------------- primitives

  /** A new tensor object without edges, not yet registered under any name. */
  function PushTensor(a: Arena, x: Tensor): (r: (Arena, TensorId))
    requires Valid(a) && x.producers == [] && x.consumers == []
    ensures Valid(r.0)
    ensures r.1 == |a.tensors| && r.0 == a.(tensors := a.tensors + [x])
  {
    var b := a.(tensors := a.tensors + [x]);
    assert forall t, p | 0 <= t < |b.tensors| && p in b.tensors[t].producers :: p < |b.ops| by {
      forall t, p | 0 <= t < |b.tensors| && p in b.tensors[t].producers ensures p < |b.ops| {
        assert p in a.tensors[t].producers;
      }
    }
    assert forall t, c | 0 <= t < |b.tensors| && c in b.tensors[t].consumers :: c < |b.ops| by {
      forall t, c | 0 <= t < |b.tensors| && c in b.tensors[t].consumers ensures c < |b.ops| {
        assert c in a.tensors[t].consumers;
      }
    }
    (b, |a.tensors|)
  }

  /** A new operator object without tensors or helpers. */
  function PushOp(a: Arena, x: Operator): (r: (Arena, OpId))
    requires Valid(a) && x.inputs == [] && x.outputs == [] && x.pre == [] && x.post == []
    ensures Valid(r.0)
    ensures r.1 == |a.ops| && r.0 == a.(ops := a.ops + [x])
  {
    var b := a.(ops := a.ops + [x]);
    assert forall o, t | 0 <= o < |b.ops| && t in b.ops[o].inputs :: t < |b.tensors| by {
      forall o, t | 0 <= o < |b.ops| && t in b.ops[o].inputs ensures t < |b.tensors| {
        assert t in a.ops[o].inputs;
      }
    }
    assert forall o, t | 0 <= o < |b.ops| && t in b.ops[o].outputs :: t < |b.tensors| by {
      forall o, t | 0 <= o < |b.ops| && t in b.ops[o].outputs ensures t < |b.tensors| {
        assert t in a.ops[o].outputs;
      }
    }
    assert forall o, h | 0 <= o < |b.ops| && h in b.ops[o].pre :: o < h < |b.ops| by {
      forall o, h | 0 <= o < |b.ops| && h in b.ops[o].pre ensures o < h < |b.ops| {
        assert h in a.ops[o].pre;
      }
    }
    assert forall o, h | 0 <= o < |b.ops| && h in b.ops[o].post :: o < h < |b.ops| by {
      forall o, h | 0 <= o < |b.ops| && h in b.ops[o].post ensures o < h < |b.ops| {
        assert h in a.ops[o].post;
      }
    }
    (b, |a.ops|)
  }

  /** `registery[name] = t`. */
  function Register(a: Arena, name: string, t: TensorId): (r: Arena)
    requires Valid(a) && t < |a.tensors|
    ensures Valid(r)
    ensures r == a.(registry := a.registry[name := t])
  {
    a.(registry := a.registry[name := t])
  }

  // ---------------------------------------------------------------- tensor edges in the arena

  /** `t.addConsumer(o)`. */
  function AddConsumerAt(a: Arena, t: TensorId, o: OpId): (r: Result<Arena>)
    requires Valid(a) && t < |a.tensors| && o < |a.ops|
    ensures r.Ok? <==> o !in a.tensors[t].consumers
    ensures r.Ok? ==> Valid(r.value)
    ensures r.Ok? ==> r.value == a.(tensors := a.tensors[t := a.tensors[t].(consumers := a.tensors[t].consumers + [o])])
  {
    var x :- AddConsumer(a.tensors[t], o);
    AppendMembers(a.tensors[t].consumers, o);
    TensorEditValid(a, t, x);
    Ok(a.(tensors := a.tensors[t := x]))
  }

  /** `t.removeConsumer(o)`. */
  function RemoveConsumerAt(a: Arena, t: TensorId, o: OpId): (r: Result<Arena>)
    requires Valid(a) && t < |a.tensors|
    ensures r.Ok? <==> o in a.tensors[t].consumers
    ensures r.Ok? ==> Valid(r.value)
    ensures r.Ok? ==> r.value == a.(tensors := a.tensors[t := a.tensors[t].(consumers := RemoveFirst(a.tensors[t].consumers, o))])
  {
    var x :- RemoveConsumer(a.tensors[t], o);
    RemoveMembers(a.tensors[t].consumers, o);
    TensorEditValid(a, t, x);
    Ok(a.(tensors := a.tensors[t := x]))
  }

  /** `t.replaceConsumer(original, replacement)`. */
  function ReplaceConsumerAt(a: Arena, t: TensorId, original: OpId, replacement: OpId): (r: Result<Arena>)
    requires Valid(a) && t < |a.tensors| && replacement < |a.ops|
    ensures r.Ok? <==> original in a.tensors[t].consumers
    ensures r.Ok? ==> Valid(r.value)
    ensures r.Ok? ==> r.value == a.(tensors := a.tensors[t := a.tensors[t].(consumers := ReplaceFirst(a.tensors[t].consumers, original, replacement))])
  {
    var x :- ReplaceConsumer(a.tensors[t], original, replacement);
    ReplaceMembers(a.tensors[t].consumers, original, replacement);
    TensorEditValid(a, t, x);
    Ok(a.(tensors := a.tensors[t := x]))
  }

  /** `t.addProducer(o)`. */
  function AddProducerAt(a: Arena, t: TensorId, o: OpId): (r: Result<Arena>)
    requires Valid(a) && t < |a.tensors| && o < |a.ops|
    ensures r.Ok? <==> a.tensors[t].producers == []
    ensures r.Ok? ==> Valid(r.value)
    ensures r.Ok? ==> r.value == a.(tensors := a.tensors[t := a.tensors[t].(producers := [o])])
  {
    var x :- AddProducer(a.tensors[t], o);
    TensorEditValid(a, t, x);
    Ok(a.(tensors := a.tensors[t := x]))
  }

  /** `t.replaceProducer(original, replacement)`. */
  function ReplaceProducerAt(a: Arena, t: TensorId, original: OpId, replacement: OpId): (r: Result<Arena>)
    requires Valid(a) && t < |a.tensors| && replacement < |a.ops|
    ensures r.Ok? <==> a.tensors[t].producers == [original]
    ensures r.Ok? ==> Valid(r.value)
    ensures r.Ok? ==> r.value == a.(tensors := a.tensors[t := a.tensors[t].(producers := [replacement])])
  {
    var x :- ReplaceProducer(a.tensors[t], original, replacement);
    TensorEditValid(a, t, x);
    Ok(a.(tensors := a.tensors[t := x]))
  }

  /** Fills a tensor field that carries no reference (name, shape, type, data, layout,
      quantization, status): the edges are kept. */
  function UpdateTensor(a: Arena, t: TensorId, x: Tensor): (r: Arena)
    requires Valid(a) && t < |a.tensors|
    requires x.producers == a.tensors[t].producers && x.consumers == a.tensors[t].consumers
    ensures Valid(r)
    ensures r == a.(tensors := a.tensors[t := x])
  {
    TensorEditValid(a, t, x);
    a.(tensors := a.tensors[t := x])
  }

  // ---------------------------------------------------------------- operator lists in the arena

  /** `o.inputs.append(t)`. */
  function AppendInput(a: Arena, o: OpId, t: TensorId): (r: Arena)
    requires Valid(a) && o < |a.ops| && t < |a.tensors|
    ensures Valid(r)
    ensures r == a.(ops := a.ops[o := a.ops[o].(inputs := a.ops[o].inputs + [t])])
  {
    AppendMembers(a.ops[o].inputs, t);
    OpEditValid(a, o, a.ops[o].(inputs := a.ops[o].inputs + [t]));
    a.(ops := a.ops[o := a.ops[o].(inputs := a.ops[o].inputs + [t])])
  }

  /** `o.outputs.append(t)`. */
  function AppendOutput(a: Arena, o: OpId, t: TensorId): (r: Arena)
    requires Valid(a) && o < |a.ops| && t < |a.tensors|
    ensures Valid(r)
    ensures r == a.(ops := a.ops[o := a.ops[o].(outputs := a.ops[o].outputs + [t])])
  {
    AppendMembers(a.ops[o].outputs, t);
    OpEditValid(a, o, a.ops[o].(outputs := a.ops[o].outputs + [t]));
    a.(ops := a.ops[o := a.ops[o].(outputs := a.ops[o].outputs + [t])])
  }

  /** `o.inputs = ts`. */
  function SetInputs(a: Arena, o: OpId, ts: seq<TensorId>): (r: Arena)
    requires Valid(a) && o < |a.ops| && forall t | t in ts :: t < |a.tensors|
    ensures Valid(r)
    ensures r == a.(ops := a.ops[o := a.ops[o].(inputs := ts)])
  {
    OpEditValid(a, o, a.ops[o].(inputs := ts));
    a.(ops := a.ops[o := a.ops[o].(inputs := ts)])
  }

  /** `o.pre.append(h)`: a helper created after `o`. */
  function AppendPre(a: Arena, o: OpId, h: OpId): (r: Arena)
    requires Valid(a) && o < h < |a.ops|
    ensures Valid(r)
    ensures r == a.(ops := a.ops[o := a.ops[o].(pre := a.ops[o].pre + [h])])
  {
    AppendMembers(a.ops[o].pre, h);
    OpEditValid(a, o, a.ops[o].(pre := a.ops[o].pre + [h]));
    a.(ops := a.ops[o := a.ops[o].(pre := a.ops[o].pre + [h])])
  }

  /** `o.post.append(h)`: a helper created after `o`. */
  function AppendPost(a: Arena, o: OpId, h: OpId): (r: Arena)
    requires Valid(a) && o < h < |a.ops|
    ensures Valid(r)
    ensures r == a.(ops := a.ops[o := a.ops[o].(post := a.ops[o].post + [h])])
  {
    AppendMembers(a.ops[o].post, h);
    OpEditValid(a, o, a.ops[o].(post := a.ops[o].post + [h]));
    a.(ops := a.ops[o := a.ops[o].(post := a.ops[o].post + [h])])
  }

  /** `o.replaceInput(original, replacement)`. */
  function ReplaceInputAt(a: Arena, o: OpId, original: TensorId, replacement: TensorId): (r: Result<Arena>)
    requires Valid(a) && o < |a.ops| && replacement < |a.tensors|
    ensures r.Ok? <==> original in a.ops[o].inputs
    ensures r.Ok? ==> Valid(r.value)
    ensures r.Ok? ==> r.value == a.(ops := a.ops[o := a.ops[o].(inputs := ReplaceFirst(a.ops[o].inputs, original, replacement))])
  {
    var x :- ReplaceInput(a.ops[o], original, replacement);
    ReplaceMembers(a.ops[o].inputs, original, replacement);
    OpEditValid(a, o, x);
    Ok(a.(ops := a.ops[o := x]))
  }

  /** `o.replaceOutput(original, replacement)`. */
  function ReplaceOutputAt(a: Arena, o: OpId, original: TensorId, replacement: TensorId): (r: Result<Arena>)
    requires Valid(a) && o < |a.ops| && replacement < |a.tensors|
    ensures r.Ok? <==> original in a.ops[o].outputs
    ensures r.Ok? ==> Valid(r.value)
    ensures r.Ok? ==> r.value == a.(ops := a.ops[o := a.ops[o].(outputs := ReplaceFirst(a.ops[o].outputs, original, replacement))])
  {
    var x :- ReplaceOutput(a.ops[o], original, replacement);
    ReplaceMembers(a.ops[o].outputs, original, replacement);
    OpEditValid(a, o, x);
    Ok(a.(ops := a.ops[o := x]))
  }

  /** Sets one attribute of operator `o`. */
  function SetAttr(a: Arena, o: OpId, key: string, v: Attr): (r: Arena)
    requires Valid(a) && o < |a.ops|
    ensures Valid(r)
    ensures r == a.(ops := a.ops[o := a.ops[o].(attrs := a.ops[o].attrs[key := v])])
  {
    OpEditValid(a, o, a.ops[o].(attrs := a.ops[o].attrs[key := v]));
    a.(ops := a.ops[o := a.ops[o].(attrs := a.ops[o].attrs[key := v])])
  }

  /** Several attributes set at once; a key of `m` replaces the value there was. */
  function SetAttrs(a: Arena, o: OpId, m: map<string, Attr>): (r: Arena)
    requires Valid(a) && o < |a.ops|
    ensures Valid(r)
    ensures r == a.(ops := a.ops[o := a.ops[o].(attrs := a.ops[o].attrs + m)])
  {
    OpEditValid(a, o, a.ops[o].(attrs := a.ops[o].attrs + m));
    a.(ops := a.ops[o := a.ops[o].(attrs := a.ops[o].attrs + m)])
  }

  function UpdateOp(a: Arena, o: OpId, x: Operator): (r: Arena)
    requires Valid(a) && o < |a.ops|
    requires x.inputs == a.ops[o].inputs && x.outputs == a.ops[o].outputs
    requires x.pre == a.ops[o].pre && x.post == a.ops[o].post
    ensures Valid(r)
    ensures r == a.(ops := a.ops[o := x])
  {
    OpEditValid(a, o, x);
    a.(ops := a.ops[o := x])
  }

  /** `t.addConsumer(o); o.inputs.append(t)`: a new input edge in both directions. */
  function LinkInput(a: Arena, o: OpId, t: TensorId): (r: Result<Arena>)
    requires Valid(a) && o < |a.ops| && t < |a.tensors|
    ensures r.Ok? <==> o !in a.tensors[t].consumers
    ensures r.Ok? ==> Valid(r.value) && Extends(a, r.value)
    ensures r.Ok? ==> r.value == a.(tensors := a.tensors[t := a.tensors[t].(consumers := a.tensors[t].consumers + [o])],
                                    ops := a.ops[o := a.ops[o].(inputs := a.ops[o].inputs + [t])])
  {
    var b :- AddConsumerAt(a, t, o);
    Ok(AppendInput(b, o, t))
  }

  /** `t.addProducer(o); o.outputs.append(t)`: a new output edge in both directions. */
  function LinkOutput(a: Arena, o: OpId, t: TensorId): (r: Result<Arena>)
    requires Valid(a) && o < |a.ops| && t < |a.tensors|
    ensures r.Ok? <==> a.tensors[t].producers == []
    ensures r.Ok? ==> Valid(r.value)
    ensures r.Ok? ==> r.value == a.(tensors := a.tensors[t := a.tensors[t].(producers := [o])],
                                    ops := a.ops[o := a.ops[o].(outputs := a.ops[o].outputs + [t])])
  {
    var b :- AddProducerAt(a, t, o);
    Ok(AppendOutput(b, o, t))
  }

  /** Every name registered in `a` stands for the same tensor object in `b`. */
  predicate KeepsNames(a: Arena, b: Arena) {
    forall n | n in a.registry :: n in b.registry && b.registry[n] == a.registry[n]
  }

  /** `b` keeps every tensor of `a` and every name `a` registers; an old tensor may only
      have gained consumers. Helper constants and new input edges change an arena so. */
  predicate Extends(a: Arena, b: Arena) {
    && |a.tensors| <= |b.tensors|
    && KeepsNames(a, b)
    && (forall t | 0 <= t < |a.tensors| :: b.tensors[t] == a.tensors[t].(consumers := b.tensors[t].consumers))
    && (forall t, c | 0 <= t < |a.tensors| && c in a.tensors[t].consumers :: c in b.tensors[t].consumers)
  }

  /** Growing an arena twice is growing it. */
  lemma ExtendsTrans(a: Arena, b: Arena, c: Arena)
    requires Extends(a, b) && Extends(b, c)
    ensures Extends(a, c)
  {
  }

  // ---------------------------------------------------------------- edge consistency

  /** The references between operators and tensors agree in both directions: an operator
      reads every tensor it lists as input and is a consumer of it, and it is the producer
      of every tensor it lists as output. */
  predicate Mutual(a: Arena)
    requires Valid(a)
  {
    && (forall o, t | 0 <= o < |a.ops| && t in a.ops[o].inputs :: o in a.tensors[t].consumers)
    && (forall o, t | 0 <= o < |a.ops| && t in a.ops[o].outputs :: o in a.tensors[t].producers)
    && (forall t, o | 0 <= t < |a.tensors| && o in a.tensors[t].consumers :: t in a.ops[o].inputs)
    && (forall t, o | 0 <= t < |a.tensors| && o in a.tensors[t].producers :: t in a.ops[o].outputs)
  }

  /** Linking a new input edge keeps a consistent arena consistent. */
  lemma LinkInputKeepsMutual(a: Arena, o: OpId, t: TensorId)
    requires Valid(a) && Mutual(a) && o < |a.ops| && t < |a.tensors|
    requires o !in a.tensors[t].consumers
    ensures AddConsumerAt(a, t, o).Ok?
    ensures Mutual(AppendInput(AddConsumerAt(a, t, o).value, o, t))
  {
    var b := AppendInput(AddConsumerAt(a, t, o).value, o, t);
    assert forall o2, t2 | 0 <= o2 < |b.ops| && t2 in b.ops[o2].inputs :: o2 in b.tensors[t2].consumers by {
      forall o2, t2 | 0 <= o2 < |b.ops| && t2 in b.ops[o2].inputs ensures o2 in b.tensors[t2].consumers {
        if o2 == o && t2 == t {
        } else if o2 == o {
          assert t2 in a.ops[o].inputs;
        } else {
          assert t2 in a.ops[o2].inputs;
        }
      }
    }
    assert forall t2, o2 | 0 <= t2 < |b.tensors| && o2 in b.tensors[t2].consumers :: t2 in b.ops[o2].inputs by {
      forall t2, o2 | 0 <= t2 < |b.tensors| && o2 in b.tensors[t2].consumers ensures t2 in b.ops[o2].inputs {
        if t2 == t && o2 == o {
        } else if t2 == t {
          assert o2 in a.tensors[t].consumers;
        } else {
          assert o2 in a.tensors[t2].consumers;
        }
      }
    }
  }

  /** Linking a new output edge keeps a consistent arena consistent. */
  lemma LinkOutputKeepsMutual(a: Arena, o: OpId, t: TensorId)
    requires Valid(a) && Mutual(a) && o < |a.ops| && t < |a.tensors|
    requires a.tensors[t].producers == []
    ensures AddProducerAt(a, t, o).Ok?
    ensures Mutual(AppendOutput(AddProducerAt(a, t, o).value, o, t))
  {
    var b := AppendOutput(AddProducerAt(a, t, o).value, o, t);
    assert forall o2, t2 | 0 <= o2 < |b.ops| && t2 in b.ops[o2].outputs :: o2 in b.tensors[t2].producers by {
      forall o2, t2 | 0 <= o2 < |b.ops| && t2 in b.ops[o2].outputs ensures o2 in b.tensors[t2].producers {
        if o2 == o && t2 == t {
        } else if o2 == o {
          assert t2 in a.ops[o].outputs;
          assert o in a.tensors[t2].producers;
          assert t2 != t;
        } else {
          assert t2 in a.ops[o2].outputs;
          assert t2 != t;
        }
      }
    }
    assert forall t2, o2 | 0 <= t2 < |b.tensors| && o2 in b.tensors[t2].producers :: t2 in b.ops[o2].outputs by {
      forall t2, o2 | 0 <= t2 < |b.tensors| && o2 in b.tensors[t2].producers ensures t2 in b.ops[o2].outputs {
        if t2 == t {
        } else {
          assert o2 in a.tensors[t2].producers;
        }
      }
    }
  }
}

=== FILE: layout.dfy ===
/** Layout permutation algebra of tflite2onnx/layout.py.

    A layout is a string of axis labels ("NHWC"). `getPerm(a, b)` gives, for each
    label of `b`, its position in `a`; `transform(x, a, b)` reorders `x` from the
    axis order `a` to the axis order `b`. */
module Layouts {
  import opened Wrappers
  import opened Seqs

  /** `char2index` is filled left to right, so a repeated label keeps its LAST position. */
  function LastIndex(a: string, c: char): (k: nat)
    requires c in a
    ensures k < |a| && a[k] == c
    ensures forall j | k < j < |a| :: a[j] != c
  {
    if a[|a| - 1] == c then |a| - 1 else LastIndex(a[..|a| - 1], c)
  }

  /** Every label of `b` occurs in `a`: otherwise `char2index[c]` raises KeyError. */
  predicate Covers(a: string, b: string) {
    forall c | c in b :: c in a
  }

  /** The labels are pairwise distinct (a proper layout such as "NHWC"). */
  predicate Distinct(a: string) {
    NoDup(a)
  }

  /** `a` and `b` name the same distinct axes, possibly in another order. */
  predicate SameAxes(a: string, b: string) {
    |a| == |b| && Distinct(a) && Distinct(b) && Covers(a, b) && Covers(b, a)
  }

  function Perm(a: string, b: string): (p: seq<nat>)
    requires Covers(a, b)
  {
    seq(|b|, i requires 0 <= i < |b| => LastIndex(a, b[i]))
  }

  /** `getPerm(ilayout, olayout)`. */
  function GetPerm(a: string, b: string): (r: Result<seq<nat>>)
    ensures r.Ok? <==> Covers(a, b)
    ensures r.Ok? ==> |r.value| == |b|
    ensures r.Ok? ==> forall i | 0 <= i < |b| :: r.value[i] < |a| && a[r.value[i]] == b[i]
    ensures r.Ok? ==> forall i, j | 0 <= i < |b| && r.value[i] < j < |a| :: a[j] != b[i]
  {
    if Covers(a, b) then Ok(Perm(a, b)) else Err(KeyNotFound("layout label"))
  }

  /** `[x[p] for p in perm]`, with the IndexError of an entry past the end of `x`. */
  function Gather<T>(x: seq<T>, perm: seq<nat>): (r: Result<seq<T>>)
    ensures r.Ok? <==> forall i | 0 <= i < |perm| :: perm[i] < |x|
    ensures r.Ok? ==> |r.value| == |perm|
    ensures r.Ok? ==> forall i | 0 <= i < |perm| :: r.value[i] == x[perm[i]]
  {
    if forall i | 0 <= i < |perm| :: perm[i] < |x| then
      Ok(seq(|perm|, i requires 0 <= i < |perm| => x[perm[i]]))
    else
      Err(IndexOutOfRange("list index out of range"))
  }

  /** `transform(input, ilayout, olayout)`: the input itself when the layouts are equal,
      otherwise the input reordered by `getPerm(ilayout, olayout)`. */
  function Transform<T>(x: seq<T>, a: string, b: string): (r: Result<seq<T>>)
    ensures a == b ==> r == Ok(x)
    ensures a != b ==> (r.Ok? <==> Covers(a, b) && forall i | 0 <= i < |b| :: LastIndex(a, b[i]) < |x|)
    ensures a != b && r.Ok? ==> |r.value| == |b|
    ensures a != b && r.Ok? ==> forall i | 0 <= i < |b| :: r.value[i] == x[LastIndex(a, b[i])]
  {
    if a == b then Ok(x)
    else
      var perm :- GetPerm(a, b);
      Gather(x, perm)
  }

  /** On distinct labels a label's position is its index: `getPerm(a, a)` is the identity. */
  lemma LastIndexDistinct(a: string, i: nat)
    requires Distinct(a) && i < |a|
    ensures LastIndex(a, a[i]) == i
  {
  }

  lemma GetPermIdentity(a: string)
    requires Distinct(a)
    ensures GetPerm(a, a) == Ok(Range(|a|))
  {
    assert Covers(a, a);
    var p := Perm(a, a);
    forall i | 0 <= i < |a|
      ensures p[i] == i
    {
      LastIndexDistinct(a, i);
    }
    assert p == Range(|a|);
  }

  /** Whenever the two layouts name the same distinct axes, `transform` succeeds on any input of matching rank and yields a reordering of it. */
  lemma TransformDefined<T>(x: seq<T>, a: string, b: string)
    requires SameAxes(a, b) && |x| == |a|
    ensures Transform(x, a, b).Ok?
    ensures |Transform(x, a, b).value| == |x|
    ensures forall i | 0 <= i < |b| :: Transform(x, a, b).value[i] == x[LastIndex(a, b[i])]
  {
    if a == b {
      forall i | 0 <= i < |b|
        ensures x[i] == x[LastIndex(a, b[i])]
      {
        LastIndexDistinct(a, i);
      }
    }
  }

  /** `transform(transform(x, a, b), b, a) == x` for layouts naming the same distinct axes. */
  lemma {:induction false} TransformRoundTrip<T>(x: seq<T>, a: string, b: string)
    requires SameAxes(a, b) && |x| == |a|
    ensures Transform(x, a, b).Ok?
    ensures Transform(Transform(x, a, b).value, b, a) == Ok(x)
  {
    TransformDefined(x, a, b);
    var y := Transform(x, a, b).value;
    assert SameAxes(b, a);
    TransformDefined(y, b, a);
    var z := Transform(y, b, a).value;
    forall j | 0 <= j < |a|
      ensures z[j] == x[j]
    {
      var k := LastIndex(b, a[j]);
      assert z[j] == y[k];
      assert b[k] == a[j];
      assert y[k] == x[LastIndex(a, b[k])];
      LastIndexDistinct(a, j);
    }
    assert z == x;
  }

  /** Applying `getPerm(b, a)` to `getPerm(a, b)` gives the identity permutation. */
  lemma {:induction false} GetPermInverse(a: string, b: string)
    requires SameAxes(a, b)
    ensures GetPerm(a, b).Ok? && GetPerm(b, a).Ok?
    ensures Gather(GetPerm(a, b).value, GetPerm(b, a).value) == Ok(Range(|a|))
  {
    var p := Perm(a, b);
    var q := Perm(b, a);
    forall i | 0 <= i < |a|
      ensures q[i] < |p| && p[q[i]] == i
    {
      assert b[q[i]] == a[i];
      LastIndexDistinct(a, i);
    }
    assert Gather(p, q).value == Range(|a|);
  }

  /** Reindexing by an injective map of the positions keeps the multiset of elements. */
  lemma {:induction false} ReindexMultiset<T>(x: seq<T>, p: seq<nat>)
    requires |p| == |x|
    requires forall i | 0 <= i < |p| :: p[i] < |x|
    requires forall i, j | 0 <= i < j < |p| :: p[i] != p[j]
    ensures Gather(x, p).Ok?
    ensures multiset(Gather(x, p).value) == multiset(x)
    decreases |x|
  {
    if |x| > 0 {
      var n := |x| - 1;
      var m := p[n];
      var x' := x[..m] + x[m + 1..];
      var p' := seq(n, i requires 0 <= i < n => if p[i] < m then p[i] else p[i] - 1);
      forall i | 0 <= i < n
        ensures p'[i] < |x'| && x'[p'[i]] == x[p[i]]
      {
        assert p[i] != m;
      }
      forall i, j | 0 <= i < j < n
        ensures p'[i] != p'[j]
      {
      }
      ReindexMultiset(x', p');
      var y := Gather(x, p).value;
      var y' := Gather(x', p').value;
      assert y == y' + [x[m]];
      assert x == x[..m] + [x[m]] + x[m + 1..];
      assert multiset(x) == multiset(x[..m]) + multiset{x[m]} + multiset(x[m + 1..]);
    }
  }

  /** Between layouts naming the same distinct axes, `transform` permutes its input. */
  lemma TransformIsPermutation<T>(x: seq<T>, a: string, b: string)
    requires SameAxes(a, b) && |x| == |a|
    ensures Transform(x, a, b).Ok?
    ensures multiset(Transform(x, a, b).value) == multiset(x)
  {
    TransformDefined(x, a, b);
    if a != b {
      var p := Perm(a, b);
      forall i, j | 0 <= i < j < |p|
        ensures p[i] != p[j]
      {
        assert a[p[i]] == b[i] && a[p[j]] == b[j];
      }
      ReindexMultiset(x, p);
    }
  }

  /** A layout object: `source` and `target` orders, and which of the two the tensor is `current`ly in. */
  datatype Layout = Layout(source: string, target: string, current: string) {

    /** `Layout.perm`. */
    function Perm(): Result<seq<nat>> {
      GetPerm(source, target)
    }

    /** `Layout.transform(input)`: reorder from source to target and mark the target current. */
    function Apply<T>(x: seq<T>): (r: Result<(seq<T>, Layout)>)
      ensures r.Ok? <==> Transform(x, source, target).Ok?
      ensures r.Ok? ==> r.value.0 == Transform(x, source, target).value
      ensures r.Ok? ==> r.value.1 == Layout(source, target, target)
    {
      var y :- Transform(x, source, target);
      Ok((y, this.(current := target)))
    }
  }

  /** `Layout(source, target)`: a fresh layout is in its source order. */
  function NewLayout(source: string, target: string): (l: Layout)
    ensures l.source == source && l.target == target && l.current == source
  {
    Layout(source, target, source)
  }

  /** `getPerm` on the two-axis layouts. */
  lemma GetPermExamples2()
    ensures GetPerm("01", "01") == Ok([0, 1])
    ensures GetPerm("01", "10") == Ok([1, 0])
  {
    assert LastIndex("01", '0') == 0 && LastIndex("01", '1') == 1;
    assert Perm("01", "01") == [0, 1];
    assert Perm("01", "10") == [1, 0];
  }

  lemma LastIndex0123()
    ensures LastIndex("0123", '0') == 0 && LastIndex("0123", '1') == 1
    ensures LastIndex("0123", '2') == 2 && LastIndex("0123", '3') == 3
  {
    LastIndexDistinct("0123", 0);
    LastIndexDistinct("0123", 1);
    LastIndexDistinct("0123", 2);
    LastIndexDistinct("0123", 3);
  }

  /** `getPerm` on the four-axis layouts. */
  lemma GetPermExamples4()
    ensures GetPerm("0123", "0123") == Ok([0, 1, 2, 3])
    ensures GetPerm("0123", "0312") == Ok([0, 3, 1, 2])
    ensures GetPerm("0123", "3021") == Ok([3, 0, 2, 1])
  {
    LastIndex0123();
    assert Perm("0123", "0123") == [0, 1, 2, 3];
    assert Perm("0123", "0312") == [0, 3, 1, 2];
    assert Perm("0123", "3021") == [3, 0, 2, 1];
  }

  /** NHWC to NCHW moves the channel axis in front of height and width; the shape needs
      the four axes. */
  lemma ChannelsFirst<T>(x: seq<T>)
    ensures Transform(x, "NHWC", "NCHW").Ok? <==> |x| >= 4
    ensures |x| >= 4 ==> Transform(x, "NHWC", "NCHW").value == [x[0], x[3], x[1], x[2]]
  {
    assert LastIndex("NHWC", 'N') == 0 && LastIndex("NHWC", 'H') == 1;
    assert LastIndex("NHWC", 'W') == 2 && LastIndex("NHWC", 'C') == 3;
    assert Covers("NHWC", "NCHW") by {
      assert "NCHW" == ['N', 'C', 'H', 'W'];
    }
    var r := Transform(x, "NHWC", "NCHW");
    if |x| >= 4 {
      assert r.Ok?;
      assert r.value == [x[0], x[3], x[1], x[2]];
    } else {
      assert LastIndex("NHWC", "NCHW"[1]) >= |x|;
    }
  }

  /** The two image layouts name the same four axes. */
  lemma ImageAxes()
    ensures SameAxes("NHWC", "NCHW")
  {
    assert "NHWC" == ['N', 'H', 'W', 'C'] && "NCHW" == ['N', 'C', 'H', 'W'];
  }

  lemma TransformExamples()
    ensures Transform([1, 2, 6, 8], "NCHW", "NHWC") == Ok([1, 6, 8, 2])
    ensures Transform([1, 2, 6, 8], "NHWC", "NCHW") == Ok([1, 8, 2, 6])
  {
    assert LastIndex("NCHW", 'N') == 0 && LastIndex("NCHW", 'C') == 1;
    assert LastIndex("NCHW", 'H') == 2 && LastIndex("NCHW", 'W') == 3;
    assert LastIndex("NHWC", 'N') == 0 && LastIndex("NHWC", 'H') == 1;
    assert LastIndex("NHWC", 'W') == 2 && LastIndex("NHWC", 'C') == 3;
    assert Perm("NCHW", "NHWC") == [0, 2, 3, 1];
    assert Perm("NHWC", "NCHW") == [0, 3, 1, 2];
    assert Gather([1, 2, 6, 8], [0, 2, 3, 1]).value == [1, 6, 8, 2];
    assert Gather([1, 2, 6, 8], [0, 3, 1, 2]).value == [1, 8, 2, 6];
  }
}

=== FILE: lifecycle.dfy ===
/** The life-cycle status shared by tensors and operators (tflite2onnx/common.py):
    an object is created UNINITIALIZED, registered (INITIALIZED), filled from the
    TFLite model (PARSED), turned into ONNX (CONVERTED), or marked INVALID. */
module Lifecycle {
  import opened Wrappers

  datatype Status = Uninitialized | Initialized | Parsed | Converted | Invalid

  /** The enum value of each status; distinct statuses have distinct values. */
  function Code(s: Status): (c: nat)
    ensures s != Invalid ==> c < 4
    ensures c == 0 <==> s == Uninitialized
    ensures c == 1 <==> s == Initialized
    ensures c == 2 <==> s == Parsed
    ensures c == 3 <==> s == Converted
    ensures c == 10 <==> s == Invalid
  {
    match s
    case Uninitialized => 0
    case Initialized => 1
    case Parsed => 2
    case Converted => 3
    case Invalid => 10
  }

  /** `Status(c)`: the status whose enum value is `c`, if any. */
  function StatusOf(c: int): (r: Option<Status>)
    ensures r.Some? <==> 0 <= c < 4 || c == 10
  {
    if c == 0 then Some(Uninitialized)
    else if c == 1 then Some(Initialized)
    else if c == 2 then Some(Parsed)
    else if c == 3 then Some(Converted)
    else if c == 10 then Some(Invalid)
    else None
  }

  /** Looking a status up by its value gives it back, and a value found is its code. */
  lemma StatusOfCode(s: Status, c: int)
    ensures StatusOf(Code(s)) == Some(s)
    ensures StatusOf(c) == Some(s) ==> Code(s) == c
  {
  }

  /** Every object starts here. */
  const Fresh: Status := Uninitialized

  /** `setInited`: only an uninitialized object may become initialized. */
  function SetInited(s: Status): (r: Result<Status>)
    ensures r.Ok? <==> s == Uninitialized
    ensures r.Ok? ==> r.value == Initialized && Code(r.value) == Code(s) + 1
  {
    if !s.Uninitialized? then Err(Assertion("setInited on an object that is not uninitialized")) else
    Ok(Initialized)
  }

  /** `setParsed`: only an initialized object may become parsed. */
  function SetParsed(s: Status): (r: Result<Status>)
    ensures r.Ok? <==> s == Initialized
    ensures r.Ok? ==> r.value == Parsed && Code(r.value) == Code(s) + 1
  {
    if !s.Initialized? then Err(Assertion("setParsed on an object that is not initialized")) else
    Ok(Parsed)
  }

  /** `setConverted`: only a parsed object may become converted. */
  function SetConverted(s: Status): (r: Result<Status>)
    ensures r.Ok? <==> s == Parsed
    ensures r.Ok? ==> r.value == Converted && Code(r.value) == Code(s) + 1
  {
    if !s.Parsed? then Err(Assertion("setConverted on an object that is not parsed")) else
    Ok(Converted)
  }

  /** `setInvalid`: allowed from every status. */
  function SetInvalid(s: Status): (r: Status)
    ensures r == Invalid && Code(r) == 10
  {
    Invalid
  }

  datatype Transition = ToInited | ToParsed | ToConverted | ToInvalid

  /** One transition. INVALID is always reachable; any other step that succeeds starts from
      a live status and advances it by exactly one, and a step fails only by a failed
      assertion. */
  function Step(s: Status, t: Transition): (r: Result<Status>)
    ensures t == ToInvalid ==> r == Ok(Invalid)
    ensures r.Ok? && t != ToInvalid ==> s != Invalid && Code(r.value) == Code(s) + 1
    ensures r.Err? ==> r.error.Assertion?
  {
    match t
    case ToInited => SetInited(s)
    case ToParsed => SetParsed(s)
    case ToConverted => SetConverted(s)
    case ToInvalid => Ok(SetInvalid(s))
  }

  /** Apply transitions in order, stopping at the first failed assertion. No transitions
      leave the status as it is, a run fails only by a failed assertion, and once INVALID an
      object stays INVALID. */
  function Run(s: Status, ts: seq<Transition>): (r: Result<Status>)
    ensures |ts| == 0 ==> r == Ok(s)
    ensures r.Err? ==> r.error.Assertion?
    ensures s == Invalid && r.Ok? ==> r.value == Invalid
    decreases |ts|
  {
    if |ts| == 0 then Ok(s)
    else
      var s' :- Step(s, ts[0]);
      Run(s', ts[1..])
  }

  /** Exactly one of the four status predicates holds for a live status. */
  lemma ExactlyOnePredicate(s: Status)
    requires s != Invalid
    ensures (s.Uninitialized? && !s.Initialized? && !s.Parsed? && !s.Converted?)
         || (!s.Uninitialized? && s.Initialized? && !s.Parsed? && !s.Converted?)
         || (!s.Uninitialized? && !s.Initialized? && s.Parsed? && !s.Converted?)
         || (!s.Uninitialized? && !s.Initialized? && !s.Parsed? && s.Converted?)
  {
  }

  /** No run moves backwards: a run that ends in a live status started in a live status
      that is no later, and one that takes k successful steps without INVALID advances by k. */
  lemma {:induction false} RunNeverMovesBackwards(s: Status, ts: seq<Transition>)
    requires Run(s, ts).Ok? && Run(s, ts).value != Invalid
    ensures s != Invalid
    ensures Code(s) + |ts| == Code(Run(s, ts).value)
    decreases |ts|
  {
    if |ts| > 0 {
      var s' := Step(s, ts[0]).value;
      RunNeverMovesBackwards(s', ts[1..]);
    }
  }

  /** From a fresh object the only run reaching CONVERTED is inited, parsed, converted. */
  lemma {:induction false} OnlyPathToConverted(ts: seq<Transition>)
    requires Run(Fresh, ts) == Ok(Converted)
    ensures ts == [ToInited, ToParsed, ToConverted]
  {
    RunNeverMovesBackwards(Fresh, ts);
    var s1 := Step(Fresh, ts[0]).value;
    RunNeverMovesBackwards(s1, ts[1..]);
    assert s1 == Initialized;
    var s2 := Step(s1, ts[1]).value;
    assert ts[1..][1..] == ts[2..];
    RunNeverMovesBackwards(s2, ts[2..]);
    assert s2 == Parsed;
    assert Step(s2, ts[2]) == Ok(Converted);
  }
}

=== FILE: op_common.dfy ===
/** The operator-side steps shared by every converter class (tflite2onnx/op/common.py):
    reading an input or output tensor of the TFLite operator into the arena and linking
    it, naming the operator when it is parsed, and the opcode registry that picks the
    converter class of a TFLite operator. */
module OpCommon {
  import opened Wrappers
  import opened Seqs
  import opened Lifecycle
  import opened Layouts
  import opened Tensors
  import opened Operators
  import opened Ir
  import opened Factory
  import Tflite

  /** An attribute read with `getData`: the integers of a constant, or `None` when it
      holds no data. */
  function DataAttr(d: Option<seq<int>>): (r: Attr)
    ensures d.None? <==> r.ANone?
    ensures d.Some? ==> r == AInts(d.value)
  {
    if d.None? then ANone else AInts(d.value)
  }

  /** `self.tflite`: the TFLite operator entry; a helper operator (negative index) has none. */
  function OpEntry(g: Tflite.Subgraph, op: Operator): (r: Result<Tflite.OperatorEntry>)
    ensures r.Ok? <==> 0 <= op.index < |g.operators|
    ensures r.Ok? ==> r.value == g.operators[op.index]
  {
    if op.index < 0 then Err(TypeMismatch("'NoneType' object has no attribute 'Inputs'"))
    else if op.index >= |g.operators| then Err(IndexOutOfRange("operator index out of range"))
    else Ok(g.operators[op.index])
  }

  /** The TFLite tensor index at input position `i` of operator `o`. */
  function InputIndex(a: Arena, g: Tflite.Subgraph, o: OpId, i: nat): (r: Result<int>)
    requires o < |a.ops|
    ensures r.Ok? <==> 0 <= a.ops[o].index < |g.operators| && i < |g.operators[a.ops[o].index].inputs|
    ensures r.Ok? ==> r.value == g.operators[a.ops[o].index].inputs[i]
  {
    var e :- OpEntry(g, a.ops[o]);
    Tflite.IndexAt(e.inputs, i)
  }

  /** The TFLite tensor index at output position `i` of operator `o`. */
  function OutputIndex(a: Arena, g: Tflite.Subgraph, o: OpId, i: nat): (r: Result<int>)
    requires o < |a.ops|
    ensures r.Ok? <==> 0 <= a.ops[o].index < |g.operators| && i < |g.operators[a.ops[o].index].outputs|
    ensures r.Ok? ==> r.value == g.operators[a.ops[o].index].outputs[i]
  {
    var e :- OpEntry(g, a.ops[o]);
    Tflite.IndexAt(e.outputs, i)
  }

  /** The number of inputs and outputs of the TFLite operator behind `o`. */
  function InputsLength(a: Arena, g: Tflite.Subgraph, o: OpId): (r: Result<nat>)
    requires o < |a.ops|
    ensures r.Ok? <==> 0 <= a.ops[o].index < |g.operators|
    ensures r.Ok? ==> r.value == |g.operators[a.ops[o].index].inputs|
  {
    var e :- OpEntry(g, a.ops[o]);
    Ok(|e.inputs|)
  }

  function OutputsLength(a: Arena, g: Tflite.Subgraph, o: OpId): (r: Result<nat>)
    requires o < |a.ops|
    ensures r.Ok? <==> 0 <= a.ops[o].index < |g.operators|
    ensures r.Ok? ==> r.value == |g.operators[a.ops[o].index].outputs|
  {
    var e :- OpEntry(g, a.ops[o]);
    Ok(|e.outputs|)
  }

  /** The builtin options of the TFLite operator behind `o`. */
  function OptionsOf(a: Arena, g: Tflite.Subgraph, o: OpId): (r: Result<Tflite.Options>)
    requires o < |a.ops|
    ensures r.Ok? <==> 0 <= a.ops[o].index < |g.operators|
    ensures r.Ok? ==> r.value == g.operators[a.ops[o].index].options
  {
    var e :- OpEntry(g, a.ops[o]);
    Ok(e.options)
  }

  /** Tensors of `a` that are already parsed keep their contents in `b`: only a missing
      layout may be filled in and edges may change. Registered names keep their tensors. */
  predicate KeepsParsed(a: Arena, b: Arena) {
    && |a.tensors| <= |b.tensors|
    && KeepsNames(a, b)
    && (forall t | 0 <= t < |a.tensors| && a.tensors[t].status == Parsed ::
          && b.tensors[t] == a.tensors[t].(layout := b.tensors[t].layout, producers := b.tensors[t].producers,
                                          consumers := b.tensors[t].consumers)
          && (a.tensors[t].layout.Some? ==> b.tensors[t].layout == a.tensors[t].layout))
  }

  /** `t` is a parsed tensor object; a new one has the bias flag asked for. The layout
      asked for is given to it unless it already had one. Every other tensor is kept, and
      at most one tensor object, `t`, is added. */
  predicate Obtained(a: Arena, b: Arena, t: TensorId, layout: Option<Layout>, isBias: bool) {
    && t < |b.tensors| && b.tensors[t].status == Parsed && |b.tensors| <= |a.tensors| + 1
    && (|b.tensors| > |a.tensors| ==> t == |a.tensors|)
    && (t >= |a.tensors| ==> b.tensors[t].isBias == isBias)
    && b.tensors[t].layout == (if t < |a.tensors| && a.tensors[t].layout.Some? then a.tensors[t].layout else layout)
    && KeepsParsed(a, b)
    && (forall u | 0 <= u < |a.tensors| && u != t :: b.tensors[u] == a.tensors[u])
  }

  /** The tensor objects `b` has beyond those of `a` are among `ts`. */
  predicate NewAmong(a: Arena, b: Arena, ts: set<TensorId>) {
    |a.tensors| <= |b.tensors| && forall u | |a.tensors| <= u < |b.tensors| :: u in ts
  }

  /** Two growth steps add only the objects either of them names. */
  lemma NewAmongTrans(a: Arena, b: Arena, c: Arena, s: set<TensorId>, t: set<TensorId>)
    requires NewAmong(a, b, s) && NewAmong(b, c, t)
    ensures NewAmong(a, c, s + t)
  {
  }

  /** An object of `b` that `a` lacks is one of the named ones. */
  lemma NewIsAmong(a: Arena, b: Arena, ts: set<TensorId>, u: TensorId)
    requires NewAmong(a, b, ts) && |a.tensors| <= u < |b.tensors|
    ensures u in ts
  {
  }

  /** `t` is the object registered under `name`: the one registered before, or a new one. */
  predicate RegisteredAs(a: Arena, b: Arena, t: TensorId, name: string) {
    && name in b.registry && b.registry[name] == t
    && (name in a.registry ==> t == a.registry[name])
    && (name !in a.registry ==> t == |a.tensors|)
  }

  /** `t` is the tensor object registered under the name of the TFLite tensor at input
      position `k` of operator entry `index`. */
  predicate InputIs(b: Arena, g: Tflite.Subgraph, index: int, k: nat, t: TensorId) {
    && 0 <= index < |g.operators| && k < |g.operators[index].inputs|
    && var x := g.operators[index].inputs[k];
       0 <= x < |g.tensors| && g.tensors[x].name in b.registry && b.registry[g.tensors[x].name] == t
  }

  /** `t` is the tensor object registered under the name of the TFLite tensor at output
      position `k` of operator entry `index`. */
  predicate OutputIs(b: Arena, g: Tflite.Subgraph, index: int, k: nat, t: TensorId) {
    && 0 <= index < |g.operators| && k < |g.operators[index].outputs|
    && var x := g.operators[index].outputs[k];
       0 <= x < |g.tensors| && g.tensors[x].name in b.registry && b.registry[g.tensors[x].name] == t
  }

  /** Operator `o` of `b` lists the inputs it had in `a`, then the tensor objects of the
      TFLite input positions 0 to `count - 1` of its entry, in that order. */
  predicate ReadsInputs(a: Arena, b: Arena, g: Tflite.Subgraph, o: OpId, count: nat)
    requires o < |a.ops| && o < |b.ops|
  {
    var n := |a.ops[o].inputs|;
    && |b.ops[o].inputs| == n + count && b.ops[o].inputs[..n] == a.ops[o].inputs
    && forall j | n <= j < n + count :: InputIs(b, g, a.ops[o].index, j - n, b.ops[o].inputs[j])
  }

  /** Operator `o` of `b` lists the outputs it had in `a`, then the tensor objects of the
      TFLite output positions 0 to `count - 1` of its entry, in that order. */
  predicate WritesOutputs(a: Arena, b: Arena, g: Tflite.Subgraph, o: OpId, count: nat)
    requires o < |a.ops| && o < |b.ops|
  {
    var n := |a.ops[o].outputs|;
    && |b.ops[o].outputs| == n + count && b.ops[o].outputs[..n] == a.ops[o].outputs
    && forall j | n <= j < n + count :: OutputIs(b, g, a.ops[o].index, j - n, b.ops[o].outputs[j])
  }

  /** Appending the tensors of positions 0, 1, ... reads those positions. */
  lemma AppendedReads(a: Arena, b: Arena, g: Tflite.Subgraph, o: OpId, ts: seq<TensorId>)
    requires o < |a.ops| && o < |b.ops| && b.ops[o].inputs == a.ops[o].inputs + ts
    requires forall k | 0 <= k < |ts| :: InputIs(b, g, a.ops[o].index, k, ts[k])
    ensures ReadsInputs(a, b, g, o, |ts|)
  {
    var n := |a.ops[o].inputs|;
    assert b.ops[o].inputs[..n] == a.ops[o].inputs;
    forall j | n <= j < n + |ts|
      ensures InputIs(b, g, a.ops[o].index, j - n, b.ops[o].inputs[j])
    {
      assert b.ops[o].inputs[j] == ts[j - n];
    }
  }

  lemma AppendedWrites(a: Arena, b: Arena, g: Tflite.Subgraph, o: OpId, ts: seq<TensorId>)
    requires o < |a.ops| && o < |b.ops| && b.ops[o].outputs == a.ops[o].outputs + ts
    requires forall k | 0 <= k < |ts| :: OutputIs(b, g, a.ops[o].index, k, ts[k])
    ensures WritesOutputs(a, b, g, o, |ts|)
  {
    var n := |a.ops[o].outputs|;
    assert b.ops[o].outputs[..n] == a.ops[o].outputs;
    forall j | n <= j < n + |ts|
      ensures OutputIs(b, g, a.ops[o].index, j - n, b.ops[o].outputs[j])
    {
      assert b.ops[o].outputs[j] == ts[j - n];
    }
  }

  /** What an operator reads and writes stays so while the names stay registered and its
      lists are left alone. */
  lemma ReadsWritesKept(a: Arena, b: Arena, c: Arena, g: Tflite.Subgraph, o: OpId, ni: nat, no: nat)
    requires o < |a.ops| && o < |b.ops| && o < |c.ops| && KeepsNames(b, c)
    requires c.ops[o].inputs == b.ops[o].inputs && c.ops[o].outputs == b.ops[o].outputs
    ensures ReadsInputs(a, b, g, o, ni) ==> ReadsInputs(a, c, g, o, ni)
    ensures WritesOutputs(a, b, g, o, no) ==> WritesOutputs(a, c, g, o, no)
  {
    if ReadsInputs(a, b, g, o, ni) {
      ReadsKept(a, b, c, g, o, ni);
    }
    if WritesOutputs(a, b, g, o, no) {
      WritesKept(a, b, c, g, o, no);
    }
  }

  lemma ReadsKept(a: Arena, b: Arena, c: Arena, g: Tflite.Subgraph, o: OpId, count: nat)
    requires o < |a.ops| && o < |b.ops| && o < |c.ops| && KeepsNames(b, c)
    requires c.ops[o].inputs == b.ops[o].inputs && ReadsInputs(a, b, g, o, count)
    ensures ReadsInputs(a, c, g, o, count)
  {
    var n := |a.ops[o].inputs|;
    forall j | n <= j < n + count
      ensures InputIs(c, g, a.ops[o].index, j - n, c.ops[o].inputs[j])
    {
      assert InputIs(b, g, a.ops[o].index, j - n, b.ops[o].inputs[j]);
    }
  }

  lemma WritesKept(a: Arena, b: Arena, c: Arena, g: Tflite.Subgraph, o: OpId, count: nat)
    requires o < |a.ops| && o < |b.ops| && o < |c.ops| && KeepsNames(b, c)
    requires c.ops[o].outputs == b.ops[o].outputs && WritesOutputs(a, b, g, o, count)
    ensures WritesOutputs(a, c, g, o, count)
  {
    var n := |a.ops[o].outputs|;
    forall j | n <= j < n + count
      ensures OutputIs(c, g, a.ops[o].index, j - n, c.ops[o].outputs[j])
    {
      assert OutputIs(b, g, a.ops[o].index, j - n, b.ops[o].outputs[j]);
    }
  }

  /** `get(index, layout, is_bias)` followed by `parse()`: the tensor of TFLite tensor
      `index`, without any new edge. */
  method FetchTensor(a: Arena, g: Tflite.Subgraph, index: int, layout: Option<Layout>, isBias: bool) returns (r: Result<(Arena, TensorId)>)
    requires Valid(a)
    ensures r.Ok? ==> 0 <= index < |g.tensors|
    ensures r.Ok? ==> Valid(r.value.0) && SameEdges(a, r.value.0)
    ensures r.Ok? ==> Obtained(a, r.value.0, r.value.1, layout, isBias)
    ensures r.Ok? ==> RegisteredAs(a, r.value.0, r.value.1, g.tensors[index].name)
    ensures r.Ok? ==> r.value.0.registry == a.registry[g.tensors[index].name := r.value.1]
    ensures r.Ok? && r.value.1 >= |a.tensors| ==> r.value.0.tensors[r.value.1].data == g.tensors[index].buffer
  {
    var got := Get(a, g, index, layout, isBias);
    if got.Err? {
      return Err(got.error);
    }
    var (b, t) := got.value;
    GetKeepsParsed(a, g, index, layout, isBias);
    var c := ParseAt(b, t);
    if c.Err? {
      return Err(c.error);
    }
    ParseAtKeepsParsed(b, t);
    KeepsParsedTrans(a, b, c.value);
    SameEdgesTrans(a, b, c.value);
    return Ok((c.value, t));
  }

  /** Parsing one tensor object keeps every parsed tensor, that one included, and the
      layout and edges of that one. */
  lemma ParseAtKeepsParsed(a: Arena, t: TensorId)
    requires Valid(a) && t < |a.tensors| && ParseAt(a, t).Ok?
    ensures KeepsParsed(a, ParseAt(a, t).value) && SameEdges(a, ParseAt(a, t).value)
    ensures var x := ParseAt(a, t).value.tensors[t];
            && x.layout == a.tensors[t].layout && x.status == Parsed
            && x.producers == a.tensors[t].producers && x.consumers == a.tensors[t].consumers
  {
  }

  /** A registry lookup keeps every parsed tensor; it fills a missing layout at most. */
  lemma GetKeepsParsed(a: Arena, g: Tflite.Subgraph, index: int, layout: Option<Layout>, isBias: bool)
    requires Valid(a) && Get(a, g, index, layout, isBias).Ok?
    ensures KeepsParsed(a, Get(a, g, index, layout, isBias).value.0)
    ensures SameEdges(a, Get(a, g, index, layout, isBias).value.0)
  {
  }

  lemma SameEdgesTrans(a: Arena, b: Arena, c: Arena)
    requires SameEdges(a, b) && SameEdges(b, c)
    ensures SameEdges(a, c)
  {
  }

  lemma KeepsParsedTrans(a: Arena, b: Arena, c: Arena)
    requires KeepsParsed(a, b) && KeepsParsed(b, c)
    ensures KeepsParsed(a, c)
  {
  }

  /** The tensor at input position `i`, obtained from the registry and parsed, without
      linking it to the operator. */
  method FetchInput(a: Arena, g: Tflite.Subgraph, o: OpId, i: nat, layout: Option<Layout>, isBias: bool) returns (r: Result<(Arena, TensorId)>)
    requires Valid(a) && o < |a.ops|
    ensures r.Ok? ==> InputIndex(a, g, o, i).Ok? && 0 <= InputIndex(a, g, o, i).value < |g.tensors|
    ensures r.Ok? ==> Valid(r.value.0) && SameEdges(a, r.value.0)
    ensures r.Ok? ==> Obtained(a, r.value.0, r.value.1, layout, isBias)
    ensures r.Ok? ==> RegisteredAs(a, r.value.0, r.value.1, g.tensors[InputIndex(a, g, o, i).value].name)
    ensures r.Ok? ==> r.value.0.registry == a.registry[g.tensors[InputIndex(a, g, o, i).value].name := r.value.1]
    ensures r.Ok? && r.value.1 >= |a.tensors| ==>
              r.value.0.tensors[r.value.1].data == g.tensors[InputIndex(a, g, o, i).value].buffer
  {
    var ii := InputIndex(a, g, o, i);
    if ii.Err? {
      return Err(ii.error);
    }
    r := FetchTensor(a, g, ii.value, layout, isBias);
  }

  /** `parseInput(i, layout, is_bias)`: the tensor at input position `i` is fetched and
      parsed; it is appended to the operator's inputs and the operator to its consumers. */
  method ParseInput(a: Arena, g: Tflite.Subgraph, o: OpId, i: nat, layout: Option<Layout>, isBias: bool) returns (r: Result<(Arena, TensorId)>)
    requires Valid(a) && o < |a.ops|
    ensures r.Ok? ==> InputIndex(a, g, o, i).Ok? && 0 <= InputIndex(a, g, o, i).value < |g.tensors|
    ensures r.Ok? ==> var (b, t) := r.value;
              && Valid(b)
              && Obtained(a, b, t, layout, isBias)
              && RegisteredAs(a, b, t, g.tensors[InputIndex(a, g, o, i).value].name)
              && b.registry == a.registry[g.tensors[InputIndex(a, g, o, i).value].name := t]
              && InputIs(b, g, a.ops[o].index, i, t)
              && b.ops == a.ops[o := a.ops[o].(inputs := a.ops[o].inputs + [t])]
              && o in b.tensors[t].consumers
              && (t < |a.tensors| ==> b.tensors[t].producers == a.tensors[t].producers)
              && (t >= |a.tensors| ==> b.tensors[t].data == g.tensors[InputIndex(a, g, o, i).value].buffer)
  {
    var f := FetchInput(a, g, o, i, layout, isBias);
    if f.Err? {
      return Err(f.error);
    }
    var (b, t) := f.value;
    var c := AddConsumerAt(b, t, o);
    if c.Err? {
      return Err(c.error);
    }
    return Ok((AppendInput(c.value, o, t), t));
  }

  /** The tensor at output position `i`, obtained from the registry and parsed. */
  method FetchOutput(a: Arena, g: Tflite.Subgraph, o: OpId, i: nat, layout: Option<Layout>) returns (r: Result<(Arena, TensorId)>)
    requires Valid(a) && o < |a.ops|
    ensures r.Ok? ==> OutputIndex(a, g, o, i).Ok? && 0 <= OutputIndex(a, g, o, i).value < |g.tensors|
    ensures r.Ok? ==> Valid(r.value.0) && SameEdges(a, r.value.0)
    ensures r.Ok? ==> Obtained(a, r.value.0, r.value.1, layout, false)
    ensures r.Ok? ==> RegisteredAs(a, r.value.0, r.value.1, g.tensors[OutputIndex(a, g, o, i).value].name)
  {
    var oi := OutputIndex(a, g, o, i);
    if oi.Err? {
      return Err(oi.error);
    }
    r := FetchTensor(a, g, oi.value, layout, false);
  }

  /** `parseOutput(i, layout)`: the tensor at output position `i` is fetched and parsed;
      it is appended to the operator's outputs and gets the operator as its producer. */
  method ParseOutput(a: Arena, g: Tflite.Subgraph, o: OpId, i: nat, layout: Option<Layout>) returns (r: Result<(Arena, TensorId)>)
    requires Valid(a) && o < |a.ops|
    ensures r.Ok? ==> OutputIndex(a, g, o, i).Ok? && 0 <= OutputIndex(a, g, o, i).value < |g.tensors|
    ensures r.Ok? ==> var (b, t) := r.value;
              && Valid(b)
              && Obtained(a, b, t, layout, false)
              && RegisteredAs(a, b, t, g.tensors[OutputIndex(a, g, o, i).value].name)
              && OutputIs(b, g, a.ops[o].index, i, t)
              && b.ops == a.ops[o := a.ops[o].(outputs := a.ops[o].outputs + [t])]
              && b.tensors[t].producers == [o]
              && (t < |a.tensors| ==> b.tensors[t].consumers == a.tensors[t].consumers)
  {
    var f := FetchOutput(a, g, o, i, layout);
    if f.Err? {
      return Err(f.error);
    }
    var (c, t) := f.value;
    var d := AddProducerAt(c, t, o);
    if d.Err? {
      return Err(d.error);
    }
    return Ok((AppendOutput(d.value, o, t), t));
  }

  /** The steps of `parseInput` keep the references between operators and tensors
      mutual: the lookup adds no edge, and the new edge is linked in both directions. */
  lemma ParseInputKeepsMutual(a: Arena, b: Arena, o: OpId, t: TensorId)
    requires Valid(a) && Valid(b) && Mutual(a) && SameEdges(a, b)
    requires o < |b.ops| && t < |b.tensors| && o !in b.tensors[t].consumers
    ensures AddConsumerAt(b, t, o).Ok?
    ensures Mutual(AppendInput(AddConsumerAt(b, t, o).value, o, t))
  {
    SameEdgesMutual(a, b);
    LinkInputKeepsMutual(b, o, t);
  }

  /** The steps of `parseOutput` keep the references between operators and tensors mutual. */
  lemma ParseOutputKeepsMutual(a: Arena, b: Arena, o: OpId, t: TensorId)
    requires Valid(a) && Valid(b) && Mutual(a) && SameEdges(a, b)
    requires o < |b.ops| && t < |b.tensors| && b.tensors[t].producers == []
    ensures AddProducerAt(b, t, o).Ok?
    ensures Mutual(AppendOutput(AddProducerAt(b, t, o).value, o, t))
  {
    SameEdgesMutual(a, b);
    LinkOutputKeepsMutual(b, o, t);
  }

  /** `parseInput(i)` for every position `i < n` in turn, as the converters with a variable
      number of inputs do. The tensors read are appended in order and all parsed. */
  method ParseInputs(a: Arena, g: Tflite.Subgraph, o: OpId, n: nat) returns (r: Result<(Arena, seq<TensorId>)>)
    requires Valid(a) && o < |a.ops|
    ensures r.Ok? ==> var (b, ts) := r.value;
              && Valid(b) && |ts| == n && KeepsParsed(a, b)
              && b.ops == a.ops[o := a.ops[o].(inputs := a.ops[o].inputs + ts)]
              && (forall k | 0 <= k < n :: ts[k] < |b.tensors| && b.tensors[ts[k]].status == Parsed)
              && (forall k | 0 <= k < n :: InputIs(b, g, a.ops[o].index, k, ts[k]))
              && ReadsInputs(a, b, g, o, n)
  {
    var b := a;
    var ts: seq<TensorId> := [];
    assert a.ops[o].inputs + ts == a.ops[o].inputs;
    assert a.ops[o := a.ops[o].(inputs := a.ops[o].inputs)] == a.ops;
    for i := 0 to n
      invariant Valid(b) && |ts| == i && KeepsParsed(a, b)
      invariant b.ops == a.ops[o := a.ops[o].(inputs := a.ops[o].inputs + ts)]
      invariant forall k | 0 <= k < i :: ts[k] < |b.tensors| && b.tensors[ts[k]].status == Parsed
      invariant forall k | 0 <= k < i :: InputIs(b, g, a.ops[o].index, k, ts[k])
    {
      var ri := ParseInput(b, g, o, i, None, false);
      if ri.Err? {
        return Err(ri.error);
      }
      var (c, t) := ri.value;
      KeepsParsedTrans(a, b, c);
      assert a.ops[o].inputs + ts + [t] == a.ops[o].inputs + (ts + [t]);
      assert forall k | 0 <= k < i :: InputIs(c, g, a.ops[o].index, k, ts[k]) by {
        forall k | 0 <= k < i
          ensures InputIs(c, g, a.ops[o].index, k, ts[k])
        {
          assert InputIs(b, g, a.ops[o].index, k, ts[k]);
        }
      }
      b, ts := c, ts + [t];
    }
    AppendedReads(a, b, g, o, ts);
    return Ok((b, ts));
  }

  /** `parseOutput(i)` for every position `i < n` in turn. Each tensor read is produced by
      the operator alone. */
  method ParseOutputs(a: Arena, g: Tflite.Subgraph, o: OpId, n: nat) returns (r: Result<(Arena, seq<TensorId>)>)
    requires Valid(a) && o < |a.ops|
    ensures r.Ok? ==> var (b, ts) := r.value;
              && Valid(b) && |ts| == n && KeepsParsed(a, b)
              && b.ops == a.ops[o := a.ops[o].(outputs := a.ops[o].outputs + ts)]
              && (forall k | 0 <= k < n :: ts[k] < |b.tensors| && b.tensors[ts[k]].status == Parsed)
              && (forall k | 0 <= k < n :: OutputIs(b, g, a.ops[o].index, k, ts[k]))
              && WritesOutputs(a, b, g, o, n)
  {
    var b := a;
    var ts: seq<TensorId> := [];
    assert a.ops[o].outputs + ts == a.ops[o].outputs;
    assert a.ops[o := a.ops[o].(outputs := a.ops[o].outputs)] == a.ops;
    for i := 0 to n
      invariant Valid(b) && |ts| == i && KeepsParsed(a, b)
      invariant b.ops == a.ops[o := a.ops[o].(outputs := a.ops[o].outputs + ts)]
      invariant forall k | 0 <= k < i :: ts[k] < |b.tensors| && b.tensors[ts[k]].status == Parsed
      invariant forall k | 0 <= k < i :: OutputIs(b, g, a.ops[o].index, k, ts[k])
    {
      var ro := ParseOutput(b, g, o, i, None);
      if ro.Err? {
        return Err(ro.error);
      }
      var (c, t) := ro.value;
      KeepsParsedTrans(a, b, c);
      assert a.ops[o].outputs + ts + [t] == a.ops[o].outputs + (ts + [t]);
      assert forall k | 0 <= k < i :: OutputIs(c, g, a.ops[o].index, k, ts[k]) by {
        forall k | 0 <= k < i
          ensures OutputIs(c, g, a.ops[o].index, k, ts[k])
        {
          assert OutputIs(b, g, a.ops[o].index, k, ts[k]);
        }
      }
      b, ts := c, ts + [t];
    }
    AppendedWrites(a, b, g, o, ts);
    return Ok((b, ts));
  }

  /** The data input and the output of a converter with one of each: `parseInput(0)` and
      `parseOutput(0)`, or the older base's `get`, `parse`, `addConsumer` and
      `addProducer` on them, which do the same. */
  method ParseInputOutput(a: Arena, g: Tflite.Subgraph, o: OpId) returns (r: Result<(Arena, TensorId, TensorId)>)
    requires Valid(a) && o < |a.ops|
    ensures r.Ok? ==> var (b, it, ot) := r.value;
              && Valid(b) && KeepsParsed(a, b) && it < |b.tensors| && ot < |b.tensors|
              && b.ops == a.ops[o := a.ops[o].(inputs := a.ops[o].inputs + [it], outputs := a.ops[o].outputs + [ot])]
              && b.tensors[it].status == Parsed && b.tensors[ot].status == Parsed
              && o in b.tensors[it].consumers && b.tensors[ot].producers == [o]
              && InputIs(b, g, a.ops[o].index, 0, it) && OutputIs(b, g, a.ops[o].index, 0, ot)
              && ReadsInputs(a, b, g, o, 1) && WritesOutputs(a, b, g, o, 1)
              && NewAmong(a, b, {it, ot})
  {
    var ri := ParseInput(a, g, o, 0, None, false);
    if ri.Err? {
      return Err(ri.error);
    }
    var (b, it) := ri.value;
    var ro := ParseOutput(b, g, o, 0, None);
    if ro.Err? {
      return Err(ro.error);
    }
    var (c, ot) := ro.value;
    KeepsParsedTrans(a, b, c);
    AppendedReads(a, c, g, o, [it]);
    AppendedWrites(a, c, g, o, [ot]);
    return Ok((c, it, ot));
  }

  /** Two arenas with the same operators whose tensors carry the same edges, the later
      arena possibly holding more tensors, all without edges. */
  predicate SameEdges(a: Arena, b: Arena) {
    && b.ops == a.ops && |a.tensors| <= |b.tensors|
    && (forall t | 0 <= t < |a.tensors| :: b.tensors[t].producers == a.tensors[t].producers
                                          && b.tensors[t].consumers == a.tensors[t].consumers)
    && (forall t | |a.tensors| <= t < |b.tensors| :: b.tensors[t].producers == [] && b.tensors[t].consumers == [])
  }

  /** Registry lookups and tensor parsing only add edgeless tensors and keep edges. */
  lemma SameEdgesMutual(a: Arena, b: Arena)
    requires Valid(a) && Valid(b) && SameEdges(a, b)
    ensures Mutual(a) ==> Mutual(b)
  {
    if Mutual(a) {
      assert forall o, t | 0 <= o < |b.ops| && t in b.ops[o].inputs :: o in b.tensors[t].consumers by {
        forall o, t | 0 <= o < |b.ops| && t in b.ops[o].inputs ensures o in b.tensors[t].consumers {
          assert t in a.ops[o].inputs;
        }
      }
      assert forall o, t | 0 <= o < |b.ops| && t in b.ops[o].outputs :: o in b.tensors[t].producers by {
        forall o, t | 0 <= o < |b.ops| && t in b.ops[o].outputs ensures o in b.tensors[t].producers {
          assert t in a.ops[o].outputs;
        }
      }
    }
  }

  /** `setParsed` of an operator: it is named (see `NameOnParse`) and marked parsed. */
  function SetOpParsed(a: Arena, o: OpId): (r: Result<Arena>)
    requires Valid(a) && o < |a.ops|
    ensures r.Ok? <==> a.ops[o].status == Initialized && NameOnParse(a.ops[o], OutputNames(a, o)).Ok?
    ensures r.Ok? ==> Valid(r.value)
    ensures r.Ok? ==> r.value == a.(ops := a.ops[o := a.ops[o].(name := NameOnParse(a.ops[o], OutputNames(a, o)).value,
                                                                 status := Parsed)])
  {
    var name :- NameOnParse(a.ops[o], OutputNames(a, o));
    var s :- SetParsed(a.ops[o].status);
    Ok(UpdateOp(a, o, a.ops[o].(name := name, status := s)))
  }

  /** The name of the first output, when there is one. */
  function OutputNames(a: Arena, o: OpId): (r: seq<string>)
    requires Valid(a) && o < |a.ops|
    ensures |r| == if |a.ops[o].outputs| > 0 then 1 else 0
  {
    if |a.ops[o].outputs| > 0 then [a.tensors[OutputOf(a, o, 0)].name] else []
  }

  /** A parsed newer-base operator that started unnamed carries the name of its first output. */
  lemma SetOpParsedNamesAfterOutput(a: Arena, o: OpId)
    requires Valid(a) && o < |a.ops| && a.ops[o].status == Initialized
    requires !Legacy(a.ops[o].kind) && a.ops[o].name.None? && |a.ops[o].outputs| > 0
    ensures SetOpParsed(a, o).Ok?
    ensures SetOpParsed(a, o).value.ops[o].name == Some(a.tensors[OutputOf(a, o, 0)].name)
  {
  }

  // ---------------------------------------------------------------- the opcode registry

  /** The opcodes each converter class claims (`TypeMapping` / `OpTypeMapping`). */
  function TypeMapping(k: Kind): (r: seq<int>)
    ensures NoDup(r)
  {
    match k
    case ReLU(_) => [Tflite.RELU, Tflite.RELU6]
    case Binary => [Tflite.ADD, Tflite.MUL]
    case Concat => [Tflite.CONCATENATION]
    case Conv => [Tflite.CONV_2D, Tflite.DEPTHWISE_CONV_2D]
    case ConvTranspose => [Tflite.TRANSPOSE_CONV]
    case FullyConnected => [Tflite.FULLY_CONNECTED]
    case Padding => [Tflite.PAD, Tflite.MIRROR_PAD]
    case Pooling => [Tflite.AVERAGE_POOL_2D, Tflite.MAX_POOL_2D]
    case Quantize => [Tflite.QUANTIZE, Tflite.DEQUANTIZE]
    case Reduce => [Tflite.MEAN]
    case Reshape(_) => [Tflite.RESHAPE]
    case Resize => [Tflite.RESIZE_NEAREST_NEIGHBOR, Tflite.RESIZE_BILINEAR]
    case Rsqrt => [Tflite.RSQRT]
    case Slice => [Tflite.STRIDED_SLICE]
    case Softmax => [Tflite.SOFTMAX]
    case Split => [Tflite.SPLIT]
    case SquaredDifferenceSub => [Tflite.SQUARED_DIFFERENCE]
    case SquaredDifferenceIdentity => [Tflite.SQUARED_DIFFERENCE]
    case Transpose => [Tflite.TRANSPOSE]
    case Unary => [Tflite.ABS]
    case _ => []
  }

  /** The `type` property of a converter class whose table maps the one opcode `opcode` to
      `name`: `name` while uninitialized; afterwards the table lookup of the TFLite opcode,
      which only `opcode` passes. */
  function MappedType(g: Tflite.Subgraph, op: Operator, opcode: int, name: string): (r: Result<string>)
    ensures op.status == Uninitialized ==> r == Ok(name)
    ensures op.status != Uninitialized ==>
              (r.Ok? <==> 0 <= op.index < |g.operators| && g.operators[op.index].opcode == opcode)
    ensures r.Ok? ==> r.value == name
  {
    if op.status.Uninitialized? then Ok(name)
    else
      var e :- OpEntry(g, op);
      :- Need(e.opcode == opcode, "opcode in self.TypeMapping");
      Ok(name)
  }

  /** `OpFactory.register(converter)`: each opcode of the converter is checked to be free
      and then bound to it, in order. */
  method RegisterConverter(registry: map<int, Kind>, k: Kind) returns (r: Result<map<int, Kind>>)
    ensures r.Ok? <==> forall c | c in TypeMapping(k) :: c !in registry
    ensures r.Ok? ==> forall c :: c in r.value <==> c in registry || c in TypeMapping(k)
    ensures r.Ok? ==> forall c | c in TypeMapping(k) :: r.value[c] == k
    ensures r.Ok? ==> forall c | c in registry :: r.value[c] == registry[c]
  {
    var opcodes := TypeMapping(k);
    var current := registry;
    var i := 0;
    while i < |opcodes|
      invariant 0 <= i <= |opcodes|
      invariant forall c | c in opcodes[..i] :: c !in registry
      invariant forall c :: c in current <==> c in registry || c in opcodes[..i]
      invariant forall c | c in opcodes[..i] :: current[c] == k
      invariant forall c | c in registry :: current[c] == registry[c]
    {
      var c := opcodes[i];
      assert opcodes[..i + 1] == opcodes[..i] + [c];
      if c in current {
        assert c !in opcodes[..i];
        return Err(Assertion("opcode already registered"));
      }
      current := current[c := k];
      i := i + 1;
    }
    assert opcodes[..i] == opcodes;
    return Ok(current);
  }

  /** `OpFactory.create(index)`: the converter registered for the operator's opcode, as a new
      operator object in the arena. An unregistered builtin opcode is unsupported; any other
      unregistered opcode is not a builtin. */
  function Create(a: Arena, g: Tflite.Subgraph, registry: map<int, Kind>, builtins: set<int>, index: int): (r: Result<(Arena, OpId)>)
    requires Valid(a)
    ensures r.Ok? <==> 0 <= index < |g.operators| && g.operators[index].opcode in registry
    ensures r.Err? && 0 <= index < |g.operators| ==>
              var opcode := g.operators[index].opcode;
              (opcode in builtins ==> r.error.Unsupported?) && (opcode !in builtins ==> r.error.BadValue?)
    ensures r.Ok? ==> Valid(r.value.0) && r.value.1 == |a.ops|
    ensures r.Ok? ==> r.value.0 == a.(ops := a.ops + [NewOperator(registry[g.operators[index].opcode], index)])
  {
    if index < 0 || index >= |g.operators| then Err(IndexOutOfRange("operator index out of range"))
    else
      var opcode := g.operators[index].opcode;
      if opcode !in registry then
        if opcode in builtins then Err(Unsupported("Unsupported TFLite OP"))
        else Err(BadValue("Opcode is not a TFLite builtin operator"))
      else
        Ok(PushOp(a, NewOperator(registry[opcode], index)))
  }

  /** The two SquaredDifference converters claim the same opcode, so at most one of them
      can be registered. */
  method SquaredDifferenceClash(registry: map<int, Kind>) returns (first: Result<map<int, Kind>>, second: Result<map<int, Kind>>)
    requires Tflite.SQUARED_DIFFERENCE !in registry
    ensures first.Ok? && second.Err?
  {
    first := RegisterConverter(registry, SquaredDifferenceSub);
    assert Tflite.SQUARED_DIFFERENCE in TypeMapping(SquaredDifferenceSub);
    second := RegisterConverter(first.value, SquaredDifferenceIdentity);
    assert Tflite.SQUARED_DIFFERENCE in TypeMapping(SquaredDifferenceIdentity);
  }
}

=== FILE: operator.dfy ===
/** The operator record shared by the converter classes of tflite2onnx/op/, and the
    operations on one operator record: construction, input and output replacement in both
    operator bases, validation, and the per-class list of tensors across which layouts
    propagate.

    Two operator bases coexist. The newer one (tflite2onnx/op/common.py) names an operator
    after its first output when it is parsed; the older one (tflite2onnx/op/operator.py)
    does not. Every class is modelled with an attribute map, as the newer base provides. */
module Operators {
  import opened Wrappers
  import opened Seqs
  import opened Lifecycle
  import opened Tensors

  /** An ONNX attribute value. */
  datatype Attr = ANone | AInt(i: int) | AInts(v: seq<int>) | AText(s: string) | AFloat(text: string)

  /** The converter class of an operator, with the per-object fields that are not attributes. */
  datatype Kind =
    | ReLU(preset: Option<int>)
    | Binary
    | PowerWrapper
    | SubtractWrapper
    | Concat
    | Conv
    | ConvTranspose
    | FullyConnected
    | Padding
    | Pooling
    | Quantize
    | Reduce
    | Reshape(forFakeBroadcasting: bool)
    | Resize
    | Rsqrt
    | Slice
    | Softmax
    | Split
    | SquaredDifferenceSub
    | SquaredDifferenceIdentity
    | Transpose
    | Unary

  /** The classes derived from the older base of tflite2onnx/op/operator.py. */
  predicate Legacy(k: Kind) {
    k.ReLU? || k.Binary? || k.PowerWrapper? || k.SubtractWrapper? || k.Concat? || k.Conv?
    || k.FullyConnected? || k.Pooling? || k.Quantize? || k.Reduce? || k.Reshape?
    || k.Softmax? || k.Transpose?
  }

  /** The attributes each constructor sets before parsing. */
  function InitialAttrs(k: Kind): map<string, Attr> {
    match k
    case Concat => map["axis" := AInt(-1)]
    case Conv => map["kernel_shape" := AInts([]), "strides" := AInts([]), "pads" := AInts([0, 0, 0, 0]),
                     "dilations" := AInts([]), "group" := AInt(-1)]
    case ConvTranspose => map["dilations" := AInts([]), "group" := AInt(-1), "output_shape" := AInts([]),
                              "kernel_shape" := AInts([]), "strides" := AInts([]), "auto_pad" := AText("SAME_UPPER")]
    case FullyConnected => map["alpha" := AFloat("1.0"), "beta" := AFloat("1.0"), "transA" := AInt(0), "transB" := AInt(1)]
    case Padding => map["mode" := AText("constant")]
    case Pooling => map["kernel_shape" := AInts([]), "strides" := AInts([]), "auto_pad" := AText("SAME_UPPER")]
    case Reduce => map["axes" := ANone, "keepdims" := AInt(0)]
    case Resize => map["coordinate_transformation_mode" := AText("half_pixel"), "cubic_coeff_a" := AFloat("-0.75"),
                       "exclude_outside" := AInt(0), "extrapolation_value" := AFloat("0.0"),
                       "mode" := AText("nearest"), "nearest_mode" := AText("round_prefer_floor")]
    case Softmax => map["axis" := AInt(-1)]
    case Split => map["axis" := AInt(-1), "split" := ANone]
    case Transpose => map["perm" := AInts([])]
    case _ => map[]
  }

  datatype Operator = Operator(
    kind: Kind,
    index: int,
    name: Option<string>,
    status: Status,
    inputs: seq<TensorId>,
    outputs: seq<TensorId>,
    pre: seq<OpId>,
    post: seq<OpId>,
    attrs: map<string, Attr>)

  /** A converter object for TFLite operator `index` (-1 for a helper the converter adds):
      no tensors and no helpers yet, the class's initial attributes, and initialized (every
      class calls `setInited` in its constructor). An operator of the newer base starts
      without a name, so that parsing names it; see `NewOperatorAsWritten`. */
  function NewOperator(kind: Kind, index: int): (op: Operator)
    ensures op.kind == kind && op.index == index && op.status == Initialized
    ensures op.inputs == [] && op.outputs == [] && op.pre == [] && op.post == []
    ensures op.attrs == InitialAttrs(kind)
    ensures op.name == if Legacy(kind) then Some(Tensors.DefaultName) else None
  {
    var name := if Legacy(kind) then Some(Tensors.DefaultName) else None;
    Operator(kind, index, name, Initialized, [], [], [], [], InitialAttrs(kind))
  }

  /** The constructor as written: the shared base gives every object, operators included,
      the placeholder name, so no operator starts unnamed. */
  function NewOperatorAsWritten(kind: Kind, index: int): (op: Operator)
    ensures op == NewOperator(kind, index).(name := Some(Tensors.DefaultName))
  {
    Operator(kind, index, Some(Tensors.DefaultName), Initialized, [], [], [], [], InitialAttrs(kind))
  }

  /** The name `setParsed` leaves: a newer-base operator without a name takes the name of
      its first output (IndexError without outputs); every other name is kept. */
  function NameOnParse(op: Operator, outputNames: seq<string>): (r: Result<Option<string>>)
    ensures Legacy(op.kind) || op.name.Some? ==> r == Ok(op.name)
    ensures !Legacy(op.kind) && op.name.None? ==>
              (r.Ok? <==> |outputNames| > 0) && (r.Ok? ==> r.value == Some(outputNames[0]))
  {
    if Legacy(op.kind) || op.name.Some? then Ok(op.name)
    else if |outputNames| == 0 then Err(IndexOutOfRange("list index out of range"))
    else Ok(Some(outputNames[0]))
  }

  /** The naming fallback is unreachable as written: an operator built by the constructor
      as written keeps the placeholder name through parsing, whatever its outputs. */
  lemma ParsedNameAsWritten(kind: Kind, index: int, outputNames: seq<string>)
    ensures NameOnParse(NewOperatorAsWritten(kind, index), outputNames) == Ok(Some(Tensors.DefaultName))
  {
  }

  /** With the constructor that leaves the name unset, a newer-base operator is named after
      its first output, and an older-base one keeps the placeholder. */
  lemma ParsedNameCorrected(kind: Kind, index: int, outputNames: seq<string>)
    requires |outputNames| > 0
    ensures !Legacy(kind) ==> NameOnParse(NewOperator(kind, index), outputNames) == Ok(Some(outputNames[0]))
    ensures Legacy(kind) ==> NameOnParse(NewOperator(kind, index), outputNames) == Ok(Some(Tensors.DefaultName))
  {
  }

  // ---------------------------------------------------------------- replacement

  /** `replaceInput` of the newer base: `original` must be an input, and its first
      occurrence becomes `replacement`; every other position is kept. */
  function ReplaceInput(op: Operator, original: TensorId, replacement: TensorId): (r: Result<Operator>)
    ensures r.Ok? <==> original in op.inputs
    ensures r.Ok? ==> r.value == op.(inputs := r.value.inputs)
    ensures r.Ok? ==> |r.value.inputs| == |op.inputs|
    ensures r.Ok? ==> r.value.inputs[FirstIndex(op.inputs, original)] == replacement
    ensures r.Ok? ==> forall j | 0 <= j < |op.inputs| && j != FirstIndex(op.inputs, original) ::
                        r.value.inputs[j] == op.inputs[j]
  {
    if original !in op.inputs then Err(Assertion("tensor to replace not found")) else
    Ok(op.(inputs := ReplaceFirst(op.inputs, original, replacement)))
  }

  /** `replaceOutput` of the newer base, as `ReplaceInput` on the outputs. */
  function ReplaceOutput(op: Operator, original: TensorId, replacement: TensorId): (r: Result<Operator>)
    ensures r.Ok? <==> original in op.outputs
    ensures r.Ok? ==> r.value == op.(outputs := r.value.outputs)
    ensures r.Ok? ==> |r.value.outputs| == |op.outputs|
    ensures r.Ok? ==> r.value.outputs[FirstIndex(op.outputs, original)] == replacement
    ensures r.Ok? ==> forall j | 0 <= j < |op.outputs| && j != FirstIndex(op.outputs, original) ::
                        r.value.outputs[j] == op.outputs[j]
  {
    if original !in op.outputs then Err(Assertion("tensor to replace not found")) else
    Ok(op.(outputs := ReplaceFirst(op.outputs, original, replacement)))
  }

  /** The scan of the older base: walk the list, overwrite the first identical element and
      stop; reaching the end fails. */
  method ScanReplace(s: seq<TensorId>, original: TensorId, replacement: TensorId) returns (r: Result<seq<TensorId>>)
    ensures r.Ok? <==> original in s
    ensures r.Err? ==> r.error == Assertion("tensor to replace not found")
    ensures r.Ok? ==> |r.value| == |s|
    ensures r.Ok? ==> r.value[FirstIndex(s, original)] == replacement
    ensures r.Ok? ==> forall j | 0 <= j < |s| && j != FirstIndex(s, original) :: r.value[j] == s[j]
  {
    var index := 0;
    while index < |s|
      invariant 0 <= index <= |s|
      invariant forall j | 0 <= j < index :: s[j] != original
    {
      if s[index] == original {
        assert FirstIndex(s, original) == index;
        return Ok(s[index := replacement]);
      }
      index := index + 1;
    }
    return Err(Assertion("tensor to replace not found"));
  }

  /** `replaceInput` of the older base agrees with the newer one on every input. */
  method LegacyReplaceInput(op: Operator, original: TensorId, replacement: TensorId) returns (r: Result<Operator>)
    ensures r == ReplaceInput(op, original, replacement)
  {
    var scanned := ScanReplace(op.inputs, original, replacement);
    if scanned.Err? {
      return Err(scanned.error);
    }
    r := Ok(op.(inputs := scanned.value));
    assert scanned.value == ReplaceFirst(op.inputs, original, replacement);
  }

  /** `replaceOutput` of the older base agrees with the newer one on every input. */
  method LegacyReplaceOutput(op: Operator, original: TensorId, replacement: TensorId) returns (r: Result<Operator>)
    ensures r == ReplaceOutput(op, original, replacement)
  {
    var scanned := ScanReplace(op.outputs, original, replacement);
    if scanned.Err? {
      return Err(scanned.error);
    }
    r := Ok(op.(outputs := scanned.value));
    assert scanned.value == ReplaceFirst(op.outputs, original, replacement);
  }

  /** Replacing an input by a tensor that is not an input, and back, restores the operator. */
  lemma {:induction false} ReplaceInputRoundTrip(op: Operator, original: TensorId, replacement: TensorId)
    requires original in op.inputs && replacement !in op.inputs
    ensures ReplaceInput(op, original, replacement).Ok?
    ensures ReplaceInput(ReplaceInput(op, original, replacement).value, replacement, original) == Ok(op)
  {
    var k := FirstIndex(op.inputs, original);
    var s := ReplaceFirst(op.inputs, original, replacement);
    assert s[k] == replacement;
    assert FirstIndex(s, replacement) == k;
    assert ReplaceFirst(s, replacement, original) == op.inputs;
  }

  // ---------------------------------------------------------------- validation and propagation

  /** `validate`: an operator must produce something. */
  function Validate(op: Operator): (r: Outcome)
    ensures r.Pass? <==> |op.outputs| >= 1
  {
    Need(|op.outputs| >= 1, "Operator should produce something")
  }

  /** Classes across all of whose tensors a layout passes unchanged. */
  predicate PropagatesAll(k: Kind) {
    k.ReLU? || k.Binary? || k.PowerWrapper? || k.SubtractWrapper? || k.Concat? || k.Rsqrt?
    || k.Softmax? || k.Split? || k.SquaredDifferenceSub? || k.SquaredDifferenceIdentity? || k.Unary?
  }

  /** Classes across whose data input and output only a layout passes. */
  predicate PropagatesFirst(k: Kind) {
    k.Padding? || k.Slice?
  }

  /** `propagatableTensors()` (or `layoutPropagatable` of the older base): the tensors of
      the operator across which a layout propagates. Padding and Slice read the first input
      and output, failing when either list is empty. */
  function Propagatable(op: Operator): (r: Result<seq<TensorId>>)
    ensures PropagatesAll(op.kind) ==> r == Ok(op.inputs + op.outputs)
    ensures PropagatesFirst(op.kind) ==>
              (r.Ok? <==> |op.inputs| > 0 && |op.outputs| > 0)
              && (r.Ok? ==> r.value == [op.inputs[0], op.outputs[0]])
    ensures !PropagatesAll(op.kind) && !PropagatesFirst(op.kind) ==> r == Ok([])
  {
    if PropagatesAll(op.kind) then Ok(op.inputs + op.outputs)
    else if PropagatesFirst(op.kind) then
      if |op.inputs| > 0 && |op.outputs| > 0 then Ok([op.inputs[0], op.outputs[0]])
      else Err(IndexOutOfRange("list index out of range"))
    else Ok([])
  }

  /** `layoutPropagatable`, derived from the list: a layout crosses the operator at all. */
  predicate LayoutPropagatable(k: Kind) {
    PropagatesAll(k) || PropagatesFirst(k)
  }

  /** Every tensor a layout may propagate to is a tensor of the operator, and an operator
      that is not layout-propagatable passes a layout to none of them. */
  lemma PropagatableAreOwnTensors(op: Operator)
    requires Propagatable(op).Ok?
    ensures forall t | t in Propagatable(op).value :: t in op.inputs || t in op.outputs
    ensures !LayoutPropagatable(op.kind) ==> Propagatable(op).value == []
    ensures LayoutPropagatable(op.kind) ==> |Propagatable(op).value| == if PropagatesAll(op.kind) then |op.inputs| + |op.outputs| else 2
  {
  }
}

=== FILE: padding.dfy ===
/** Padding (tflite2onnx/op/padding.py): the padding arithmetic of TFLite's SAME and VALID
    schemes, the PAD and MIRROR_PAD converter, and the reordering of a TFLite `[n, 2]`
    pads matrix into the flat begins-then-ends vector of ONNX. */
module PadOp {
  import opened Wrappers
  import opened Seqs
  import opened Lifecycle
  import opened Layouts
  import opened Payload
  import opened Tensors
  import opened Operators
  import opened Ir
  import opened OpCommon
  import Tflite
  import Dtypes

  /** `PaddingMapping`: the ONNX `auto_pad` spelling of a TFLite padding scheme. */
  function AutoPad(padding: int): (r: Result<string>)
    ensures r.Ok? <==> padding == Tflite.SAME || padding == Tflite.VALID
    ensures padding == Tflite.SAME ==> r == Ok("SAME_UPPER")
    ensures padding == Tflite.VALID ==> r == Ok("VALID")
  {
    if padding == Tflite.SAME then Ok("SAME_UPPER")
    else if padding == Tflite.VALID then Ok("VALID")
    else Err(KeyNotFound("padding scheme"))
  }

  // ---------------------------------------------------------------- computePaddingSize

  function Abs(x: int): nat {
    if x < 0 then -x else x
  }

  /** numpy's `divide` followed by `astype('int')`: true division, then rounding toward
      zero. The quotient times the divisor has the sign of the dividend and falls short
      of it in magnitude by less than one divisor. */
  function TruncDiv(x: int, y: int): (q: int)
    requires y != 0
    ensures x >= 0 && y > 0 ==> q == x / y
    ensures Abs(q * y) <= Abs(x) < Abs(q * y) + Abs(y)
    ensures q * y == 0 || ((q * y < 0) <==> (x < 0))
  {
    var m: int := Abs(x) / Abs(y);
    var q: int := if (x < 0) == (y < 0) then m else -m;
    TruncDivFacts(x, y, m, q);
    q
  }

  lemma TruncDivFacts(x: int, y: int, m: int, q: int)
    requires y != 0 && m == Abs(x) / Abs(y)
    requires q == if (x < 0) == (y < 0) then m else -m
    ensures x >= 0 && y > 0 ==> q == x / y
    ensures Abs(q * y) <= Abs(x) < Abs(q * y) + Abs(y)
    ensures q * y == 0 || ((q * y < 0) <==> (x < 0))
  {
    DivBounds(Abs(x), Abs(y));
    SignedProduct(m, y, q);
    if m == 0 {
      assert q * y == 0;
    }
  }

  /** `q` is `m` or `-m`: the product `q * y` has magnitude `m * |y|`, and its sign is the
      product of the signs. */
  lemma SignedProduct(m: int, y: int, q: int)
    requires m >= 0 && (q == m || q == -m)
    ensures Abs(q * y) == m * Abs(y)
    ensures q * y == 0 || ((q * y < 0) <==> ((q < 0) != (y < 0)))
  {
    if y < 0 {
      assert q * y == -(q * (-y));
    }
    if q < 0 {
      assert q * y == -(m * y);
    }
  }

  lemma DivBounds(x: nat, y: nat)
    requires y > 0
    ensures (x / y) * y <= x < (x / y) * y + y
  {
  }

  /** The extent a dilated kernel covers: its taps lie `dilation` apart, so without dilation
      it is the kernel itself, and a dilated kernel spans at least the kernel and at most
      `kernel * dilation`. */
  function EffectiveSize(kernel: int, dilation: int): (e: int)
    ensures dilation == 1 ==> e == kernel
    ensures kernel >= 1 && dilation >= 1 ==> kernel <= e <= kernel * dilation
  {
    assert (kernel - 1) * dilation + 1 == kernel * dilation - (dilation - 1);
    assert kernel >= 1 && dilation >= 1 ==> (kernel - 1) * dilation >= kernel - 1;
    (kernel - 1) * dilation + 1
  }

  /** `floor(x / s)` of a non-negative `x` and a positive `s`, as `TruncDiv` computes it. */
  lemma FloorBounds(x: int, s: int)
    requires x >= 0 && s >= 1
    ensures TruncDiv(x, s) * s <= x < TruncDiv(x, s) * s + s
    ensures (TruncDiv(x, s) - 1) * s == TruncDiv(x, s) * s - s
  {
    DivBounds(x, s);
  }

  /** `(input + stride - 1) / stride` is `ceil(input / stride)`. */
  lemma CeilBounds(input: int, stride: int)
    requires input >= 1 && stride >= 1
    ensures var q := TruncDiv(input + stride - 1, stride);
            (q - 1) * stride < input <= q * stride
  {
    FloorBounds(input + stride - 1, stride);
  }

  /** `(input + stride - e) / stride` counts the positions of a window of extent `e` that
      fit in `input`. */
  lemma FitBounds(input: int, e: int, stride: int)
    requires stride >= 1 && e <= input
    ensures var q := TruncDiv(input + stride - e, stride);
            q >= 1 && (q - 1) * stride + e <= input < q * stride + e
  {
    FloorBounds(input + stride - e, stride);
  }

  /** The output extent of one axis under SAME or VALID padding. Under SAME with a positive
      stride it is `ceil(input / stride)`; under VALID, when a window fits the input, it is
      the number of window positions that fit. */
  function OutputSize(mode: int, input: int, kernel: int, stride: int, dilation: int): (out: int)
    requires mode == Tflite.SAME || mode == Tflite.VALID
    requires stride != 0
    ensures mode == Tflite.SAME && input >= 1 && stride >= 1 ==>
              (out - 1) * stride < input <= out * stride
    ensures mode == Tflite.VALID && stride >= 1 && EffectiveSize(kernel, dilation) <= input ==>
              && out >= 1
              && (out - 1) * stride + EffectiveSize(kernel, dilation) <= input
              && input < out * stride + EffectiveSize(kernel, dilation)
  {
    if mode == Tflite.SAME then
      if input >= 1 && stride >= 1 then CeilBounds(input, stride); TruncDiv(input + stride - 1, stride)
      else TruncDiv(input + stride - 1, stride)
    else
      var e := EffectiveSize(kernel, dilation);
      if stride >= 1 && e <= input then FitBounds(input, e, stride); TruncDiv(input + stride - e, stride)
      else TruncDiv(input + stride - e, stride)
  }

  /** The padding one axis needs in total: what the windows of the output extent reach
      beyond the input, and nothing when they fit. */
  function AxisTotal(mode: int, input: int, kernel: int, stride: int, dilation: int): (total: int)
    requires mode == Tflite.SAME || mode == Tflite.VALID
    requires stride != 0
    ensures total >= 0
    ensures total >= (OutputSize(mode, input, kernel, stride, dilation) - 1) * stride
                     + EffectiveSize(kernel, dilation) - input
    ensures mode == Tflite.VALID && stride >= 1 && EffectiveSize(kernel, dilation) <= input ==> total == 0
  {
    var reach := (OutputSize(mode, input, kernel, stride, dilation) - 1) * stride + EffectiveSize(kernel, dilation) - input;
    if reach > 0 then reach else 0
  }

  /** `computePaddingSize(mode, input_size, kernel_size, stride, dilation)`: for each axis
      the padding before and after, as `[pre..., post...]`. The total of an axis is split
      so that the end gets the odd unit. */
  function ComputePaddingSize(mode: int, input: seq<int>, kernel: seq<int>, stride: seq<int>, dilation: seq<int>): (r: Result<seq<int>>)
    ensures r.Ok? <==> && |kernel| == |input| && |stride| == |input| && |dilation| == |input|
                       && (mode == Tflite.SAME || mode == Tflite.VALID)
                       && (forall i | 0 <= i < |stride| :: stride[i] != 0)
    ensures !(|kernel| == |input| && |stride| == |input| && |dilation| == |input|) ==> r.Err? && r.error.Assertion?
    ensures r.Ok? ==> |r.value| == 2 * |input|
    ensures r.Ok? ==> forall i | 0 <= i < |input| ::
              var total := AxisTotal(mode, input[i], kernel[i], stride[i], dilation[i]);
              && r.value[i] + r.value[|input| + i] == total
              && 0 <= r.value[i] <= r.value[|input| + i] <= r.value[i] + 1
  {
    var n := |input|;
    if |kernel| != n || |stride| != n || |dilation| != n then Err(Assertion("padding operands differ in rank"))
    else if mode != Tflite.SAME && mode != Tflite.VALID then Err(BadValue("Unknown padding mode!"))
    else if exists i | 0 <= i < n :: stride[i] == 0 then Err(BadValue("division by zero stride"))
    else
      var total := seq(n, i requires 0 <= i < n => AxisTotal(mode, input[i], kernel[i], stride[i], dilation[i]));
      var pre := seq(n, i requires 0 <= i < n => total[i] / 2);
      var post := seq(n, i requires 0 <= i < n => total[i] - pre[i]);
      Ok(pre + post)
  }

  /** The padding of a two-axis (height, width) window: four entries, the begins of
      both axes before their ends. */
  lemma {:induction false} PaddingOf2D(mode: int, input: seq<int>, kernel: seq<int>, stride: seq<int>, dilation: seq<int>)
    requires |input| == 2 && |kernel| == 2 && |stride| == 2 && |dilation| == 2
    requires mode == Tflite.SAME || mode == Tflite.VALID
    requires stride[0] != 0 && stride[1] != 0
    ensures ComputePaddingSize(mode, input, kernel, stride, dilation).Ok?
    ensures var p := ComputePaddingSize(mode, input, kernel, stride, dilation).value;
            && |p| == 4
            && p[0] + p[2] == AxisTotal(mode, input[0], kernel[0], stride[0], dilation[0])
            && p[1] + p[3] == AxisTotal(mode, input[1], kernel[1], stride[1], dilation[1])
            && 0 <= p[0] <= p[2] <= p[0] + 1 && 0 <= p[1] <= p[3] <= p[1] + 1
  {
    assert forall i | 0 <= i < |stride| :: stride[i] != 0 by {
      forall i | 0 <= i < |stride| ensures stride[i] != 0 {
        assert i == 0 || i == 1;
      }
    }
    var p := ComputePaddingSize(mode, input, kernel, stride, dilation).value;
    assert 0 <= 0 < |input| && 0 <= 1 < |input|;
  }

  /** SAME padding of a 10x10 input with a 3x3 kernel, unit strides and dilations pads one
      element on every side. */
  lemma PaddingSizeExample()
    ensures ComputePaddingSize(Tflite.SAME, [10, 10], [3, 3], [1, 1], [1, 1]) == Ok([1, 1, 1, 1])
  {
    assert OutputSize(Tflite.SAME, 10, 3, 1, 1) == 10;
    assert AxisTotal(Tflite.SAME, 10, 3, 1, 1) == 2;
    var r := ComputePaddingSize(Tflite.SAME, [10, 10], [3, 3], [1, 1], [1, 1]);
    assert r.Ok?;
    assert r.value == [1, 1, 1, 1];
  }

  // ---------------------------------------------------------------- the pads vector

  /** Column `c` of an `[n, 2]` matrix stored row by row. */
  function Column<T>(pads: seq<T>, c: nat): (r: seq<T>)
    requires |pads| % 2 == 0 && c < 2
    ensures |r| == |pads| / 2
    ensures forall i | 0 <= i < |r| :: r[i] == pads[2 * i + c]
  {
    seq(|pads| / 2, i requires 0 <= i < |pads| / 2 => pads[2 * i + c])
  }

  /** `Padding.transform` on the pads data: TFLite holds a `[n, 2]` matrix of (begin, end)
      rows; ONNX wants all begins and then all ends. With a layout on the data input, the
      begins and the ends are each reordered by it. A matrix of another shape, which
      parsing rules out, is an error. */
  function TransformPads<T>(pads: seq<T>, shape: seq<int>, layout: Option<Layout>): (r: Result<seq<T>>)
    ensures r.Ok? ==> |shape| == 2 && shape[1] == 2 && |pads| == 2 * shape[0]
    ensures (|shape| == 2 && shape[1] == 2 && |pads| == 2 * shape[0] && layout.None?) ==> r.Ok?
    ensures r.Ok? && layout.None? ==>
              && |r.value| == |pads|
              && forall i | 0 <= i < |pads| / 2 :: r.value[i] == pads[2 * i] && r.value[|pads| / 2 + i] == pads[2 * i + 1]
  {
    if !(|shape| == 2 && shape[1] == 2 && |pads| == 2 * shape[0]) then Err(Assertion("pads must be a [n, 2] matrix")) else
    var begins := Column(pads, 0);
    var ends := Column(pads, 1);
    match layout
    case None => Ok(begins + ends)
    case Some(l) =>
      var b :- Transform(begins, l.source, l.target);
      var e :- Transform(ends, l.source, l.target);
      Ok(b + e)
  }

  /** With a layout whose orders name the same distinct axes as the pads has rows, axis
      `i` of the target order gets the begin and end of axis `perm[i]` of the source order. */
  lemma {:induction false} TransformPadsPermutes<T>(pads: seq<T>, shape: seq<int>, l: Layout)
    requires |shape| == 2 && shape[1] == 2 && |pads| == 2 * shape[0]
    requires SameAxes(l.source, l.target) && |l.source| == shape[0]
    ensures TransformPads(pads, shape, Some(l)).Ok?
    ensures var r := TransformPads(pads, shape, Some(l)).value;
            var p := GetPerm(l.source, l.target).value;
            var n := shape[0];
            && |r| == |pads| && |p| == n
            && forall i | 0 <= i < n :: p[i] < n && r[i] == pads[2 * p[i]] && r[n + i] == pads[2 * p[i] + 1]
  {
    var n := shape[0];
    ColumnPermuted(pads, n, l, 0);
    ColumnPermuted(pads, n, l, 1);
    var b := Transform(Column(pads, 0), l.source, l.target).value;
    var e := Transform(Column(pads, 1), l.source, l.target).value;
    TransformPadsSome(pads, shape, l);
    BeginsThenEnds(pads, n, GetPerm(l.source, l.target).value, b, e);
  }

  /** Begins followed by ends, each gathered by `p` from its column. */
  lemma BeginsThenEnds<T>(pads: seq<T>, n: nat, p: seq<nat>, b: seq<T>, e: seq<T>)
    requires |pads| == 2 * n && |p| == n && |b| == n && |e| == n
    requires forall i | 0 <= i < n :: p[i] < n && b[i] == pads[2 * p[i] + 0]
    requires forall i | 0 <= i < n :: e[i] == pads[2 * p[i] + 1]
    ensures |b + e| == |pads|
    ensures forall i | 0 <= i < n :: p[i] < n && (b + e)[i] == pads[2 * p[i]] && (b + e)[n + i] == pads[2 * p[i] + 1]
  {
    forall i | 0 <= i < n
      ensures (b + e)[i] == pads[2 * p[i]] && (b + e)[n + i] == pads[2 * p[i] + 1]
    {
      assert (b + e)[n + i] == e[i];
    }
  }

  /** With a layout, the pads are the transformed begins followed by the transformed ends. */
  lemma TransformPadsSome<T>(pads: seq<T>, shape: seq<int>, l: Layout)
    requires |shape| == 2 && shape[1] == 2 && |pads| == 2 * shape[0]
    requires Transform(Column(pads, 0), l.source, l.target).Ok?
    requires Transform(Column(pads, 1), l.source, l.target).Ok?
    ensures TransformPads(pads, shape, Some(l))
            == Ok(Transform(Column(pads, 0), l.source, l.target).value + Transform(Column(pads, 1), l.source, l.target).value)
  {
  }

  /** Column `c` of an `[n, 2]` matrix, transformed: entry `i` is column `c` of row
      `perm[i]`. */
  lemma ColumnPermuted<T>(pads: seq<T>, n: nat, l: Layout, c: nat)
    requires |pads| == 2 * n && c < 2 && SameAxes(l.source, l.target) && |l.source| == n
    ensures Transform(Column(pads, c), l.source, l.target).Ok? && GetPerm(l.source, l.target).Ok?
    ensures var x := Transform(Column(pads, c), l.source, l.target).value;
            var p := GetPerm(l.source, l.target).value;
            && |x| == |p| == n
            && forall i | 0 <= i < n :: p[i] < n && x[i] == pads[2 * p[i] + c]
  {
    assert |pads| / 2 == n;
    var col := Column(pads, c);
    TransformDefined(col, l.source, l.target);
    forall i | 0 <= i < n
      ensures GetPerm(l.source, l.target).value[i] < n
      ensures Transform(col, l.source, l.target).value[i] == pads[2 * GetPerm(l.source, l.target).value[i] + c]
    {
      TransformAt(col, l.source, l.target, i);
    }
  }

  /** Entry `i` of a transformed sequence is the entry `perm[i]` of the original. */
  lemma TransformAt<T>(x: seq<T>, a: string, b: string, i: nat)
    requires SameAxes(a, b) && |x| == |a| && i < |b|
    ensures Transform(x, a, b).Ok? && GetPerm(a, b).Ok?
    ensures |GetPerm(a, b).value| == |b| && GetPerm(a, b).value[i] < |x|
    ensures Transform(x, a, b).value[i] == x[GetPerm(a, b).value[i]]
  {
    TransformDefined(x, a, b);
  }

  /** Without a layout, the reordered pads hold the same values as before. */
  lemma {:induction false} TransformPadsKeepsValues<T>(pads: seq<T>, shape: seq<int>)
    requires |shape| == 2 && shape[1] == 2 && |pads| == 2 * shape[0]
    ensures TransformPads(pads, shape, None).Ok?
    ensures multiset(TransformPads(pads, shape, None).value) == multiset(pads)
  {
    ColumnsKeepValues(pads);
  }

  /** Splitting a matrix of pairs into its two columns keeps every value. */
  lemma {:induction false} ColumnsKeepValues<T>(pads: seq<T>)
    requires |pads| % 2 == 0
    ensures multiset(Column(pads, 0) + Column(pads, 1)) == multiset(pads)
    decreases |pads|
  {
    if |pads| > 0 {
      var m := |pads|;
      var rest := pads[..m - 2];
      ColumnsKeepValues(rest);
      assert Column(pads, 0) == Column(rest, 0) + [pads[m - 2]];
      assert Column(pads, 1) == Column(rest, 1) + [pads[m - 1]];
      assert pads == rest + [pads[m - 2], pads[m - 1]];
      calc {
        multiset(Column(pads, 0) + Column(pads, 1));
        multiset(Column(rest, 0)) + multiset{pads[m - 2]} + multiset(Column(rest, 1)) + multiset{pads[m - 1]};
        multiset(Column(rest, 0) + Column(rest, 1)) + multiset{pads[m - 2], pads[m - 1]};
        multiset(rest) + multiset{pads[m - 2], pads[m - 1]};
        multiset(pads);
      }
    } else {
      assert Column(pads, 0) == [] && Column(pads, 1) == [];
    }
  }

  // ---------------------------------------------------------------- the converter

  /** The `mode` attribute of the ONNX Pad an opcode becomes. */
  function PadMode(opcode: int): string {
    if opcode == Tflite.MIRROR_PAD then "reflect" else "constant"
  }

  /** The inputs of a Padding: the data, and the pads, which must be a constant
      `[rank, 2]` matrix and are converted to int64. */
  method ReadPads(a: Arena, g: Tflite.Subgraph, o: OpId) returns (r: Result<(Arena, TensorId, TensorId)>)
    requires Valid(a) && o < |a.ops|
    ensures r.Ok? ==> var (b, it, pt) := r.value;
              && Valid(b) && it < |b.tensors| && pt < |b.tensors|
              && b.ops == a.ops[o := a.ops[o].(inputs := a.ops[o].inputs + [it, pt])]
              && b.tensors[it].status == Parsed && b.tensors[pt].status == Parsed
              && b.tensors[pt].shape == [|b.tensors[it].shape|, 2]
              && b.tensors[pt].dtype == Some(Dtypes.OnnxInt64) && IsInitializer(b.tensors[pt])
              && KeepsNames(a, b) && ReadsInputs(a, b, g, o, 2)
  {
    var ri := ParseInputs(a, g, o, 2);
    if ri.Err? {
      return Err(ri.error);
    }
    var (c, ts) := ri.value;
    var it, pt := ts[0], ts[1];
    var x := c.tensors[pt];
    if !(|x.shape| == 2 && x.shape[0] == |c.tensors[it].shape| && x.shape[1] == 2) {
      return Err(Assertion("pads must be a [rank, 2] matrix"));
    }
    if !IsInitializer(x) {
      return Err(Assertion("pads must be constant"));
    }
    var y := AsDtype(x, Dtypes.Int64).value;
    assert ts == [it, pt];
    var d := UpdateTensor(c, pt, y);
    ReadsKept(a, c, d, g, o, 2);
    return Ok((d, it, pt));
  }

  /** `Padding.parse`: a PAD or MIRROR_PAD with the data and the pads as inputs and one
      output. The pads must be a constant `[rank, 2]` matrix, rank being the data's rank,
      and are converted to int64. */
  method ParsePadding(a: Arena, g: Tflite.Subgraph, o: OpId) returns (r: Result<Arena>)
    requires Valid(a) && o < |a.ops|
    ensures r.Ok? ==> 0 <= a.ops[o].index < |g.operators|
    ensures r.Ok? ==> var e := g.operators[a.ops[o].index];
              && (e.opcode == Tflite.PAD || e.opcode == Tflite.MIRROR_PAD)
              && |e.inputs| == 2 && |e.outputs| == 1
    ensures r.Ok? ==> var b := r.value;
              && Valid(b) && |b.ops| == |a.ops|
              && b.ops[o].attrs == a.ops[o].attrs["mode" := AText(PadMode(g.operators[a.ops[o].index].opcode))]
              && b.ops[o].status == Parsed
              && |b.ops[o].outputs| == |a.ops[o].outputs| + 1
              && |b.ops[o].inputs| == |a.ops[o].inputs| + 2
    ensures r.Ok? ==> var b := r.value;
              var k := |a.ops[o].inputs|;
              var it := b.ops[o].inputs[k];
              var pt := b.ops[o].inputs[k + 1];
              && it < |b.tensors| && pt < |b.tensors|
              && b.tensors[pt].shape == [|b.tensors[it].shape|, 2]
              && b.tensors[pt].dtype == Some(Dtypes.OnnxInt64) && IsInitializer(b.tensors[pt])
    ensures r.Ok? ==> && ReadsInputs(a, r.value, g, o, 2) && WritesOutputs(a, r.value, g, o, 1)
                      && r.value.tensors[OutputOf(r.value, o, |a.ops[o].outputs|)].producers == [o]
  {
    var re := OpEntry(g, a.ops[o]);
    if re.Err? {
      return Err(re.error);
    }
    var e := re.value;
    if !(e.opcode == Tflite.PAD || e.opcode == Tflite.MIRROR_PAD) {
      return Err(Assertion("opcode is not a padding"));
    }
    var a1 := SetAttr(a, o, "mode", AText(PadMode(e.opcode)));
    if |e.inputs| != 2 {
      return Err(Assertion("Pad takes two inputs"));
    }
    if |e.outputs| != 1 {
      return Err(Assertion("Pad has one output"));
    }
    var rp := ReadPadding(a1, g, o);
    if rp.Err? {
      return Err(rp.error);
    }
    var f := rp.value;
    r := SetOpParsed(f, o);
    if r.Ok? {
      assert r.value.tensors == f.tensors;
      assert r.value.ops[o].inputs == f.ops[o].inputs && r.value.ops[o].outputs == f.ops[o].outputs;
      ReadsWritesKept(a1, f, r.value, g, o, 2, 1);
    }
  }

  /** The tensors of a Padding: data and pads as `ReadPads` reads them, then the output,
      produced by the operator. */
  method ReadPadding(a: Arena, g: Tflite.Subgraph, o: OpId) returns (r: Result<Arena>)
    requires Valid(a) && o < |a.ops|
    ensures r.Ok? ==> var b, k := r.value, |a.ops[o].inputs|;
              && Valid(b) && |b.ops| == |a.ops|
              && b.ops[o] == a.ops[o].(inputs := b.ops[o].inputs, outputs := b.ops[o].outputs)
              && ReadsInputs(a, b, g, o, 2) && WritesOutputs(a, b, g, o, 1)
              && b.tensors[OutputOf(b, o, |a.ops[o].outputs|)].producers == [o]
              && var it, pt := b.ops[o].inputs[k], b.ops[o].inputs[k + 1];
                 && it < |b.tensors| && pt < |b.tensors|
                 && b.tensors[pt].shape == [|b.tensors[it].shape|, 2]
                 && b.tensors[pt].dtype == Some(Dtypes.OnnxInt64) && IsInitializer(b.tensors[pt])
  {
    var rp := ReadPads(a, g, o);
    if rp.Err? {
      return Err(rp.error);
    }
    var (d, it, pt) := rp.value;
    var ro := ParseOutput(d, g, o, 0, None);
    if ro.Err? {
      return Err(ro.error);
    }
    var (f, ot) := ro.value;
    assert KeepsParsed(d, f);
    assert f.tensors[it].shape == d.tensors[it].shape && f.tensors[pt] == d.tensors[pt].(layout := f.tensors[pt].layout,
      producers := f.tensors[pt].producers, consumers := f.tensors[pt].consumers);
    ReadsKept(a, d, f, g, o, 2);
    AppendedWrites(a, f, g, o, [ot]);
    return Ok(f);
  }

  /** `Padding.transform`: the pads tensor (input 1) is replaced by the ONNX pads vector,
      reordered by the layout of the data input (input 0), with shape `[2 * rank]`. */
  function TransformPadding(a: Arena, o: OpId): (r: Result<Arena>)
    requires Valid(a) && o < |a.ops|
    ensures r.Ok? <==> && |a.ops[o].inputs| >= 2
                       && a.tensors[InputOf(a, o, 1)].data.Some?
                       && TransformPads(a.tensors[InputOf(a, o, 1)].data.value, a.tensors[InputOf(a, o, 1)].shape,
                                        a.tensors[InputOf(a, o, 0)].layout).Ok?
    ensures r.Ok? ==> Valid(r.value) && r.value.ops == a.ops && |r.value.tensors| == |a.tensors|
    ensures r.Ok? ==> var pt := InputOf(a, o, 1);
              var x := a.tensors[pt];
              && r.value.tensors == a.tensors[pt := r.value.tensors[pt]]
              && r.value.tensors[pt] == x.(data := Some(TransformPads(x.data.value, x.shape, a.tensors[InputOf(a, o, 0)].layout).value),
                                           shape := [2 * x.shape[0]])
  {
    if |a.ops[o].inputs| < 2 then Err(Assertion("list index out of range")) else
    var pt := InputOf(a, o, 1);
    var x := a.tensors[pt];
    :- Need(x.data.Some?, "pads without data");
    var pads :- TransformPads(x.data.value, x.shape, a.tensors[InputOf(a, o, 0)].layout);
    Ok(UpdateTensor(a, pt, x.(data := Some(pads), shape := [2 * x.shape[0]])))
  }
}

=== FILE: payload.dfy ===
/** Element values of constant tensor payloads, and the numpy `astype` conversions the
    converter applies to them. Payloads are kept flat; their shape lives in the tensor. */
module Payload {
  import opened Wrappers
  import opened Dtypes

  /** One payload element.
      - `Int(i)`: an exact integer.
      - `Real(text)`: a floating-point value, kept as the text Python prints for it (that
        text round-trips, so equal text means equal value).
      - `Affine(q, zeroPoint, scale)`: the float32 value `(int32(q) - zeroPoint) * scale`
        that dequantization produces, kept symbolic.
      - `Truncated(x)`: `x` converted to an integer type, rounding toward zero. */
  datatype Num =
    | Int(i: int)
    | Real(text: string)
    | Affine(q: Num, zeroPoint: int, scale: Num)
    | Truncated(x: Num)

  /** The payload as integers: a float element where an integer is read is a type error. */
  function Ints(xs: seq<Num>): (r: Result<seq<int>>)
    ensures r.Ok? <==> forall k | 0 <= k < |xs| :: xs[k].Int?
    ensures r.Ok? ==> |r.value| == |xs| && forall k | 0 <= k < |xs| :: xs[k] == Int(r.value[k])
  {
    if forall k | 0 <= k < |xs| :: xs[k].Int? then
      Ok(seq(|xs|, k requires 0 <= k < |xs| => xs[k].i))
    else
      Err(TypeMismatch("integer payload expected"))
  }

  /** Integers as a payload. */
  function FromInts(v: seq<int>): (r: seq<Num>)
    ensures |r| == |v|
    ensures forall k | 0 <= k < |v| :: r[k] == Int(v[k])
  {
    seq(|v|, k requires 0 <= k < |v| => Int(v[k]))
  }

  lemma IntsFromInts(v: seq<int>)
    ensures Ints(FromInts(v)) == Ok(v)
  {
    var r := Ints(FromInts(v));
    assert r.Ok?;
    assert r.value == v;
  }

  /** Two's-complement wrap-around of `i` into a signed or unsigned integer of `bits` bits. */
  function Wrap(i: int, bits: nat, signed: bool): (r: int)
    requires bits > 0
    ensures signed ==> -Pow2(bits - 1) <= r < Pow2(bits - 1)
    ensures !signed ==> 0 <= r < Pow2(bits)
  {
    var h := Pow2(bits - 1);
    if signed then (i + h) % (2 * h) - h else i % (2 * h)
  }

  function Pow2(n: nat): (r: int)
    ensures r >= 1
  {
    if n == 0 then 1 else 2 * Pow2(n - 1)
  }

  /** A value already in range is left alone by the wrap-around. */
  lemma WrapInRange(i: int, bits: nat, signed: bool)
    requires bits > 0
    requires signed ==> -Pow2(bits - 1) <= i < Pow2(bits - 1)
    requires !signed ==> 0 <= i < Pow2(bits)
    ensures Wrap(i, bits, signed) == i
  {
    var h := Pow2(bits - 1);
    assert Pow2(bits) == 2 * h;
    if signed {
      ModSmall(i + h, 2 * h);
    } else {
      ModSmall(i, 2 * h);
    }
  }

  lemma ModSmall(a: int, m: int)
    requires 0 <= a < m
    ensures a % m == a
  {
  }

  /** `numpy.ndarray.astype(name)` on one element, for the dtype names of the converter.
      Integer types wrap around; `bool` maps non-zero to 1; the float types keep the
      exact value (rounding to float16/float32 precision is not modelled). */
  function Cast(x: Num, name: TypeName): (r: Num)
  {
    match name
    case Int8 => CastInt(x, 8, true)
    case Int16 => CastInt(x, 16, true)
    case Int32 => CastInt(x, 32, true)
    case Int64 => CastInt(x, 64, true)
    case Uint8 => CastInt(x, 8, false)
    case Bool => if x.Int? then Int(if x.i != 0 then 1 else 0) else x
    case _ => x
  }

  function CastInt(x: Num, bits: nat, signed: bool): (r: Num)
    requires bits > 0
    ensures x.Int? ==> r == Int(Wrap(x.i, bits, signed))
    ensures x.Truncated? ==> r == x
    ensures !x.Int? && !x.Truncated? ==> r == Truncated(x)
  {
    if x.Int? then Int(Wrap(x.i, bits, signed))
    else if x.Truncated? then x
    else Truncated(x)
  }

  /** `astype` on a whole payload. */
  function CastAll(xs: seq<Num>, name: TypeName): (r: seq<Num>)
    ensures |r| == |xs|
    ensures forall k | 0 <= k < |xs| :: r[k] == Cast(xs[k], name)
  {
    seq(|xs|, k requires 0 <= k < |xs| => Cast(xs[k], name))
  }

  /** Widening an int32 payload to int64 keeps every value. */
  lemma WidenInt32ToInt64(v: seq<int>)
    requires forall k | 0 <= k < |v| :: -Pow2(31) <= v[k] < Pow2(31)
    ensures CastAll(FromInts(v), Int64) == FromInts(v)
  {
    forall k | 0 <= k < |v|
      ensures Cast(Int(v[k]), Int64) == Int(v[k])
    {
      Pow2Monotone(31, 63);
      WrapInRange(v[k], 64, true);
    }
  }

  lemma {:induction false} Pow2Monotone(a: nat, b: nat)
    requires a <= b
    ensures Pow2(a) <= Pow2(b)
    decreases b
  {
    if a < b {
      Pow2Monotone(a, b - 1);
    }
  }

  /** Converting twice to the same integer type is converting once. */
  lemma CastIdempotent(x: Num, name: TypeName)
    ensures Cast(Cast(x, name), name) == Cast(x, name)
  {
    match name
    case Int8 => WrapTwice(x, 8, true);
    case Int16 => WrapTwice(x, 16, true);
    case Int32 => WrapTwice(x, 32, true);
    case Int64 => WrapTwice(x, 64, true);
    case Uint8 => WrapTwice(x, 8, false);
    case _ =>
  }

  lemma WrapTwice(x: Num, bits: nat, signed: bool)
    requires bits > 0
    ensures CastInt(CastInt(x, bits, signed), bits, signed) == CastInt(x, bits, signed)
  {
    if x.Int? {
      var w := Wrap(x.i, bits, signed);
      assert Pow2(bits) == 2 * Pow2(bits - 1);
      WrapInRange(w, bits, signed);
    }
  }
}

=== FILE: pooling.dfy ===
/** The AVERAGE_POOL_2D and MAX_POOL_2D converter (tflite2onnx/op/pooling.py): one image
    input and one image output, both read channels-last and written channels-first, the
    window, strides and auto_pad attributes of the options, and the fused activation.
    Layouts do not propagate across it and its transformation changes nothing. */
module PoolingOp {
  import opened Wrappers
  import opened Lifecycle
  import opened Tensors
  import opened Operators
  import opened Ir
  import opened OpCommon
  import Tflite
  import PadOp
  import ConvOp
  import Activation

  /** `OpTypeMapping`: the ONNX operator type of each pooling opcode. */
  function PoolingTypeOf(opcode: int): (r: Result<string>)
    ensures r.Ok? <==> opcode == Tflite.AVERAGE_POOL_2D || opcode == Tflite.MAX_POOL_2D
    ensures opcode == Tflite.AVERAGE_POOL_2D ==> r == Ok("AveragePool")
    ensures opcode == Tflite.MAX_POOL_2D ==> r == Ok("MaxPool")
  {
    if opcode == Tflite.AVERAGE_POOL_2D then Ok("AveragePool")
    else if opcode == Tflite.MAX_POOL_2D then Ok("MaxPool")
    else Err(Assertion("opcode is not a pooling"))
  }

  /** The ONNX operator type: `Pooling` before initialization, afterwards the type of the
      opcode, which must be a pooling one. */
  function PoolingType(g: Tflite.Subgraph, op: Operator): (r: Result<string>)
    ensures op.status == Uninitialized ==> r == Ok("Pooling")
    ensures op.status != Uninitialized ==>
              (r.Ok? <==> 0 <= op.index < |g.operators| && PoolingTypeOf(g.operators[op.index].opcode).Ok?)
    ensures op.status != Uninitialized && r.Ok? ==> r == PoolingTypeOf(g.operators[op.index].opcode)
  {
    if op.status.Uninitialized? then Ok("Pooling")
    else
      var e :- OpEntry(g, op);
      PoolingTypeOf(e.opcode)
  }

  /** The attributes `parse` writes over the constructor's defaults: the auto_pad spelling of
      the padding scheme, the window extent and the strides. An unknown padding scheme
      fails the lookup. */
  function PoolingAttributes(opt: Tflite.Options): (r: Result<map<string, Attr>>)
    ensures r.Ok? <==> opt.padding == Tflite.SAME || opt.padding == Tflite.VALID
    ensures r.Ok? ==> && "auto_pad" in r.value && r.value["auto_pad"] == AText(PadOp.AutoPad(opt.padding).value)
                      && "kernel_shape" in r.value && r.value["kernel_shape"] == AInts([opt.filterHeight, opt.filterWidth])
                      && "strides" in r.value && r.value["strides"] == AInts([opt.strideH, opt.strideW])
  {
    var pad :- PadOp.AutoPad(opt.padding);
    Ok(map["auto_pad" := AText(pad), "kernel_shape" := AInts([opt.filterHeight, opt.filterWidth]),
           "strides" := AInts([opt.strideH, opt.strideW])])
  }

  /** Parsing overwrites every default of the constructor: the attributes of a freshly built
      pooling operator after the merge are exactly those of the options. */
  lemma {:induction false} PoolingAttributesOverride(opt: Tflite.Options)
    requires PoolingAttributes(opt).Ok?
    ensures InitialAttrs(Pooling) + PoolingAttributes(opt).value == PoolingAttributes(opt).value
  {
    var m := PoolingAttributes(opt).value;
    assert InitialAttrs(Pooling).Keys == m.Keys;
  }

  /** The input and the output with the image layout, in the order `parse` reads them. When
      both lookups create new tensor objects, each gets the image layout. */
  method ReadPooling(a: Arena, g: Tflite.Subgraph, o: OpId) returns (r: Result<(Arena, TensorId, TensorId)>)
    requires Valid(a) && o < |a.ops|
    ensures r.Ok? ==> var (b, it, ot) := r.value;
              && Valid(b) && KeepsParsed(a, b) && it < |b.tensors| && ot < |b.tensors|
              && b.ops == a.ops[o := a.ops[o].(inputs := a.ops[o].inputs + [it], outputs := a.ops[o].outputs + [ot])]
              && b.tensors[ot].producers == [o] && o in b.tensors[it].consumers
              && ReadsInputs(a, b, g, o, 1) && OutputIs(b, g, a.ops[o].index, 0, ot)
    ensures r.Ok? ==> var (b, it, ot) := r.value;
              it == |a.tensors| && ot == it + 1 ==>
                b.tensors[it].layout == Some(ConvOp.ImageLayout) && b.tensors[ot].layout == Some(ConvOp.ImageLayout)
  {
    var ri := ParseInput(a, g, o, 0, Some(ConvOp.ImageLayout), false);
    if ri.Err? {
      return Err(ri.error);
    }
    var (b1, it) := ri.value;
    var ro := ParseOutput(b1, g, o, 0, Some(ConvOp.ImageLayout));
    if ro.Err? {
      return Err(ro.error);
    }
    var (b, ot) := ro.value;
    KeepsParsedTrans(a, b1, b);
    AppendedReads(a, b, g, o, [it]);
    return Ok((b, it, ot));
  }

  /** `Pooling.parse()`: a pooling opcode with one input and one output, the attributes of
      the options merged over the operator's own, and the fused activation. The operator
      ends up parsed with no helper before it. */
  method ParsePooling(a: Arena, g: Tflite.Subgraph, o: OpId) returns (r: Result<Arena>)
    requires Valid(a) && o < |a.ops|
    ensures r.Ok? ==> 0 <= a.ops[o].index < |g.operators|
    ensures r.Ok? ==> var e := g.operators[a.ops[o].index];
              && PoolingTypeOf(e.opcode).Ok? && |e.inputs| == 1 && |e.outputs| == 1
              && PoolingAttributes(e.options).Ok?
    ensures r.Ok? ==> var e := g.operators[a.ops[o].index];
              var b := r.value;
              && Valid(b) && |b.ops| >= |a.ops| && b.ops[o].status == Parsed && b.ops[o].pre == a.ops[o].pre
              && |b.ops[o].inputs| == |a.ops[o].inputs| + 1 && b.ops[o].inputs[..|a.ops[o].inputs|] == a.ops[o].inputs
              && b.ops[o].attrs == a.ops[o].attrs + PoolingAttributes(e.options).value
    ensures r.Ok? ==> var e := g.operators[a.ops[o].index];
              && ReadsInputs(a, r.value, g, o, 1)
              && Activation.DeliversOutput(r.value, g, o, e.options.fusedActivation)
  {
    var re := OpEntry(g, a.ops[o]);
    if re.Err? {
      return Err(re.error);
    }
    var e := re.value;
    if PoolingTypeOf(e.opcode).Err? {
      return Err(Assertion("opcode is not a pooling"));
    }
    if |e.inputs| != 1 {
      return Err(Assertion("Pooling takes one input"));
    }
    if |e.outputs| != 1 {
      return Err(Assertion("Pooling has one output"));
    }
    var rt := ReadPooling(a, g, o);
    if rt.Err? {
      return Err(rt.error);
    }
    var (b, it, ot) := rt.value;
    var rm := PoolingAttributes(e.options);
    if rm.Err? {
      return Err(rm.error);
    }
    var c := SetAttrs(b, o, rm.value);
    var rh := Activation.HandleFusedActivation(c, o, e.options.fusedActivation, ot, o);
    if rh.Err? {
      return Err(rh.error);
    }
    var d := rh.value;
    assert d.ops[o].inputs == a.ops[o].inputs + [it];
    assert d.ops[o].inputs[..|a.ops[o].inputs|] == a.ops[o].inputs;
    r := SetOpParsed(d, o);
    if r.Ok? {
      Activation.FusedParsed(a, c, d, r.value, g, o, e.options.fusedActivation, ot, 1);
    }
  }
}

=== FILE: pow_splice.dfy ===
/** The splice shared by the SQUARED_DIFFERENCE and RSQRT converters
    (`appendSquare` in tflite2onnx/op/squared_difference.py and
    tflite2onnx/op/squareddifference.py, `appendInvert` in tflite2onnx/op/rsqrt.py): the
    first output of an operator is raised to a constant power by a Pow operator recorded
    as its post helper. The operator itself now writes an intermediate tensor, which the
    Pow reads together with a constant tensor of exponents. */
module PowerSplice {
  import opened Wrappers
  import opened Seqs
  import opened Lifecycle
  import opened Payload
  import opened Tensors
  import opened Operators
  import opened Ir
  import opened OpCommon
  import Dtypes

  /** What the Pow computes: the square (exponent 2) or the reciprocal (exponent -1). */
  datatype Power = Square | Invert {
    /** The prefix of the intermediate tensor's name. */
    function Prefix(): string {
      match this
      case Square => "TFLITE2ONNX_Square_"
      case Invert => "TFLITE2ONNX_Invert_"
    }

    /** The fill value of the exponent constant. */
    function Exponent(): int {
      match this
      case Square => 2
      case Invert => -1
    }
  }

  const PowDataPrefix := "TFLITE2ONNX_PowData_"

  /** The intermediate and the exponent tensor never share a name: the prefixes differ in
      their thirteenth character. */
  lemma NamesDiffer(p: Power, name: string)
    ensures p.Prefix() + name != PowDataPrefix + name
  {
    assert (p.Prefix() + name)[12] != (PowDataPrefix + name)[12];
  }

  /** No dimension of the shape is negative. */
  predicate Dims(shape: seq<int>) {
    forall i | 0 <= i < |shape| :: shape[i] >= 0
  }

  lemma {:induction false} ProductOfDims(shape: seq<int>)
    requires Dims(shape)
    ensures Product(shape) >= 0
  {
    if |shape| > 0 {
      ProductOfDims(shape[..|shape| - 1]);
    }
  }

  /** `numpy.full(shape, v)` flattened: one `v` per element of the shape, which may not
      have a negative dimension (a ValueError). */
  function Filled(shape: seq<int>, v: int): (r: Result<seq<Num>>)
    ensures r.Ok? <==> Dims(shape)
    ensures r.Ok? ==> |r.value| == Product(shape) && forall k | 0 <= k < |r.value| :: r.value[k] == Int(v)
  {
    if !Dims(shape) then Err(BadValue("negative dimensions are not allowed"))
    else
      ProductOfDims(shape);
      Ok(Repeat(Int(v), Product(shape)))
  }

  /** The copy `getWithRef` makes of `x` under a new name: type, layout, shape and
      quantization of `x`, no data, no edges, not yet parsed. */
  function RefCopy(x: Tensor, name: string): (t: Tensor)
    ensures t.name == name && t.origin == Helper && t.status == Initialized && !t.isBias
    ensures t.dtype == x.dtype && t.layout == x.layout && t.shape == x.shape
    ensures t.scale == x.scale && t.zeroPoint == x.zeroPoint
    ensures t.data == None && t.producers == [] && t.consumers == []
  {
    NewTensor(Helper, x.layout, false).(name := name, dtype := x.dtype, shape := x.shape, scale := x.scale, zeroPoint := x.zeroPoint)
  }

  /** The intermediate tensor: written by `self`, read by the Pow `pow`. */
  function Intermediate(x: Tensor, p: Power, self: OpId, pow: OpId): Tensor {
    RefCopy(x, p.Prefix() + x.name).(status := Parsed, producers := [self], consumers := [pow])
  }

  /** The exponent constant: the exponent once per element of `x`'s shape, read by `pow`. */
  function ExponentData(x: Tensor, p: Power, pow: OpId): Tensor
    requires Dims(x.shape)
  {
    RefCopy(x, PowDataPrefix + x.name).(data := Some(Filled(x.shape, p.Exponent()).value), status := Parsed, consumers := [pow])
  }

  /** The Pow operator once parsed: it reads the intermediate and the exponent tensor and
      writes the original output. */
  function PowOperator(st: TensorId, pt: TensorId, output: TensorId): Operator {
    NewOperator(PowerWrapper, -1).(inputs := [st, pt], outputs := [output], status := Parsed)
  }

  // ---------------------------------------------------------------- the steps

  /** `square_t = getWithRef(output, name, True); setParsed(); addProducer(self);
      addConsumer(pow)`. */
  method LinkIntermediate(a: Arena, self: OpId, pow: OpId, ref: TensorId, p: Power) returns (r: Result<(Arena, TensorId)>)
    requires Valid(a) && self < |a.ops| && pow < |a.ops| && ref < |a.tensors|
    ensures r.Ok? <==> p.Prefix() + a.tensors[ref].name !in a.registry
    ensures r.Ok? ==> var (b, t) := r.value;
              && Valid(b) && t == |a.tensors| && b.ops == a.ops
              && b.tensors == a.tensors + [Intermediate(a.tensors[ref], p, self, pow)]
              && b.registry == a.registry[p.Prefix() + a.tensors[ref].name := t]
  {
    var x := a.tensors[ref];
    var name := p.Prefix() + x.name;
    var rg := Factory.GetWithRef(a, ref, name, true);
    if rg.Err? {
      return Err(rg.error);
    }
    var (b, t) := rg.value;
    assert b.tensors == a.tensors + [RefCopy(x, name)];
    var y := RefCopy(x, name).(status := Parsed);
    var c := UpdateTensor(b, t, y);
    assert c.tensors == a.tensors + [y];
    var d := AddProducerAt(c, t, self).value;
    assert d.tensors == a.tensors + [y.(producers := [self])];
    var e := AddConsumerAt(d, t, pow).value;
    assert [] + [pow] == [pow];
    assert e.tensors == a.tensors + [y.(producers := [self], consumers := [pow])];
    return Ok((e, t));
  }

  /** `pow_t = getWithRef(output, name, True)`, filled with the exponent in the type
      `DTYPE_ONNX2NAME` names for the output's type (a KeyError for a type outside the
      table), parsed and read by `pow`. */
  method LinkExponent(a: Arena, pow: OpId, ref: TensorId, p: Power) returns (r: Result<(Arena, TensorId)>)
    requires Valid(a) && pow < |a.ops| && ref < |a.tensors|
    ensures r.Ok? <==> var x := a.tensors[ref];
              && PowDataPrefix + x.name !in a.registry
              && x.dtype.Some? && x.dtype.value in Dtypes.OnnxCodes && Dims(x.shape)
    ensures r.Ok? ==> var (b, t) := r.value;
              && Valid(b) && t == |a.tensors| && Dims(a.tensors[ref].shape) && b.ops == a.ops
              && b.tensors == a.tensors + [ExponentData(a.tensors[ref], p, pow)]
              && b.registry == a.registry[PowDataPrefix + a.tensors[ref].name := t]
  {
    var x := a.tensors[ref];
    var name := PowDataPrefix + x.name;
    var rg := Factory.GetWithRef(a, ref, name, true);
    if rg.Err? {
      return Err(rg.error);
    }
    var (b, t) := rg.value;
    assert b.tensors == a.tensors + [RefCopy(x, name)];
    if x.dtype.None? {
      return Err(KeyNotFound("None"));
    }
    var rn := Dtypes.OnnxName(x.dtype.value);
    if rn.Err? {
      return Err(rn.error);
    }
    var rf := Filled(x.shape, p.Exponent());
    if rf.Err? {
      return Err(rf.error);
    }
    var y := RefCopy(x, name).(data := Some(rf.value), status := Parsed);
    var c := UpdateTensor(b, t, y);
    assert c.tensors == a.tensors + [y];
    var d := AddConsumerAt(c, t, pow).value;
    assert [] + [pow] == [pow];
    assert y.(consumers := [pow]) == ExponentData(x, p, pow);
    assert d.tensors == a.tensors + [ExponentData(x, p, pow)];
    return Ok((d, t));
  }

  /** The two helper tensors of the splice, for the Pow `pow`. */
  method LinkTensors(a: Arena, self: OpId, pow: OpId, ref: TensorId, p: Power) returns (r: Result<Arena>)
    requires Valid(a) && self < |a.ops| && pow < |a.ops| && ref < |a.tensors|
    ensures r.Ok? <==> Guard(a, ref, p)
    ensures r.Ok? ==> var x := a.tensors[ref];
              var st := |a.tensors|;
              && Valid(r.value) && Dims(x.shape)
              && r.value.ops == a.ops
              && r.value.tensors == a.tensors + [Intermediate(x, p, self, pow), ExponentData(x, p, pow)]
              && r.value.registry == a.registry[p.Prefix() + x.name := st][PowDataPrefix + x.name := st + 1]
  {
    var x := a.tensors[ref];
    NamesDiffer(p, x.name);
    var ri := LinkIntermediate(a, self, pow, ref, p);
    if ri.Err? {
      return Err(ri.error);
    }
    var (b, st) := ri.value;
    var re := LinkExponent(b, pow, ref, p);
    if re.Err? {
      return Err(re.error);
    }
    var (c, pt) := re.value;
    assert a.tensors + [Intermediate(x, p, self, pow)] + [ExponentData(x, p, pow)]
        == a.tensors + [Intermediate(x, p, self, pow), ExponentData(x, p, pow)];
    return Ok(c);
  }

  /** What the splice needs of the output `ref`: both helper names are free, its type has
      an ONNX name, and no dimension is negative. */
  predicate Guard(a: Arena, ref: TensorId, p: Power)
    requires ref < |a.tensors|
  {
    var x := a.tensors[ref];
    && p.Prefix() + x.name !in a.registry && PowDataPrefix + x.name !in a.registry
    && x.dtype.Some? && x.dtype.value in Dtypes.OnnxCodes && Dims(x.shape)
  }

  /** The Pow reads `st` and `pt`, writes `output` and is parsed. */
  method WirePow(a: Arena, pow: OpId, output: TensorId, st: TensorId, pt: TensorId) returns (r: Arena)
    requires Valid(a) && pow < |a.ops| && output < |a.tensors| && st < |a.tensors| && pt < |a.tensors|
    requires a.ops[pow] == NewOperator(PowerWrapper, -1)
    ensures Valid(r)
    ensures r == a.(ops := a.ops[pow := PowOperator(st, pt, output)])
  {
    var b := AppendInput(AppendInput(a, pow, st), pow, pt);
    var c := AppendOutput(b, pow, output);
    r := SetOpParsed(c, pow).value;
    assert r.ops[pow] == PowOperator(st, pt, output);
  }

  /** `self` gives up `output` for `st` and records the Pow as its post helper. */
  method RewireSelf(a: Arena, self: OpId, pow: OpId, output: TensorId, st: TensorId) returns (r: Arena)
    requires Valid(a) && self < pow < |a.ops| && st < |a.tensors|
    requires output in a.ops[self].outputs
    ensures Valid(r)
    ensures r == a.(ops := a.ops[self := a.ops[self].(outputs := ReplaceFirst(a.ops[self].outputs, output, st),
                                                      post := a.ops[self].post + [pow])])
  {
    var d := ReplaceOutputAt(a, self, output, st).value;
    r := AppendPost(d, self, pow);
  }

  // ---------------------------------------------------------------- the splice

  /** The arena after the splice as written, for an operator `self` whose first output is
      `output`: the intermediate tensor and the exponent tensor are appended in that
      order, the Pow is the one new operator, and `self` writes the intermediate tensor in
      place of `output` — while `output` keeps its producers. */
  predicate AppendedAsWritten(a: Arena, b: Arena, self: OpId, p: Power)
    requires Valid(a) && self < |a.ops| && |a.ops[self].outputs| > 0
  {
    var output := OutputOf(a, self, 0);
    var x := a.tensors[output];
    var st := |a.tensors|;
    var pow := |a.ops|;
    && Dims(x.shape)
    && b.tensors == a.tensors + [Intermediate(x, p, self, pow), ExponentData(x, p, pow)]
    && b.registry == a.registry[p.Prefix() + x.name := st][PowDataPrefix + x.name := st + 1]
    && b.ops == a.ops[self := a.ops[self].(outputs := ReplaceFirst(a.ops[self].outputs, output, st),
                                           post := a.ops[self].post + [pow])]
                + [PowOperator(st, st + 1, output)]
  }

  /** `appendSquare` / `appendInvert` as written. Without an output the first lookup is an
      IndexError; otherwise the splice fails exactly when `Guard` does. */
  method AppendPowerAsWritten(a: Arena, self: OpId, p: Power) returns (r: Result<Arena>)
    requires Valid(a) && self < |a.ops|
    ensures r.Ok? <==> |a.ops[self].outputs| > 0 && Guard(a, OutputOf(a, self, 0), p)
    ensures r.Ok? ==> Valid(r.value) && AppendedAsWritten(a, r.value, self, p)
  {
    if |a.ops[self].outputs| == 0 {
      return Err(IndexOutOfRange("list index out of range"));
    }
    var output := OutputOf(a, self, 0);
    var (b, pow) := PushOp(a, NewOperator(PowerWrapper, -1));
    var rt := LinkTensors(b, self, pow, output, p);
    if rt.Err? {
      return Err(rt.error);
    }
    var c := rt.value;
    assert c.ops == b.ops;
    var c2 := WirePow(c, pow, output, |a.tensors|, |a.tensors| + 1);
    var d := RewireSelf(c2, self, pow, output, |a.tensors|);
    assert d.ops == a.ops[self := a.ops[self].(outputs := ReplaceFirst(a.ops[self].outputs, output, |a.tensors|),
                                               post := a.ops[self].post + [pow])]
                    + [PowOperator(|a.tensors|, |a.tensors| + 1, output)];
    return Ok(d);
  }

  /** With `self` the only producer of its one output, the splice as written leaves that
      output claiming `self` as producer although `self` no longer lists it among its
      outputs: the edges stop being mutual. */
  lemma StaleProducer(a: Arena, b: Arena, self: OpId, p: Power)
    requires Valid(a) && Mutual(a) && self < |a.ops| && |a.ops[self].outputs| == 1
    requires Valid(b) && AppendedAsWritten(a, b, self, p)
    ensures !Mutual(b)
  {
    var output := OutputOf(a, self, 0);
    var st := |a.tensors|;
    assert a.ops[self].outputs == [output];
    assert self in a.tensors[output].producers;
    assert b.tensors[output] == a.tensors[output];
    assert b.ops[self].outputs == [st];
    assert output !in b.ops[self].outputs;
  }

  /** The arena after the corrected splice: as written, except that the Pow now produces
      `output`. */
  predicate Appended(a: Arena, b: Arena, self: OpId, p: Power)
    requires Valid(a) && self < |a.ops| && |a.ops[self].outputs| > 0
  {
    var output := OutputOf(a, self, 0);
    var x := a.tensors[output];
    var st := |a.tensors|;
    var pow := |a.ops|;
    && Dims(x.shape)
    && b.tensors == a.tensors[output := x.(producers := [pow])] + [Intermediate(x, p, self, pow), ExponentData(x, p, pow)]
    && b.registry == a.registry[p.Prefix() + x.name := st][PowDataPrefix + x.name := st + 1]
    && b.ops == a.ops[self := a.ops[self].(outputs := ReplaceFirst(a.ops[self].outputs, output, st),
                                           post := a.ops[self].post + [pow])]
                + [PowOperator(st, st + 1, output)]
  }

  /** The splice with the Pow recorded as the producer of `output` in place of `self`,
      as `handleFusedActivation` does for its activation. */
  method AppendPower(a: Arena, self: OpId, p: Power) returns (r: Result<Arena>)
    requires Valid(a) && self < |a.ops|
    ensures r.Ok? <==> && |a.ops[self].outputs| > 0 && Guard(a, OutputOf(a, self, 0), p)
                       && a.tensors[OutputOf(a, self, 0)].producers == [self]
    ensures r.Ok? ==> Valid(r.value) && Appended(a, r.value, self, p)
  {
    var rw := AppendPowerAsWritten(a, self, p);
    if rw.Err? {
      return Err(rw.error);
    }
    var b := rw.value;
    var output := OutputOf(a, self, 0);
    var rp := ReplaceProducerAt(b, output, self, |a.ops|);
    if rp.Err? {
      return Err(rp.error);
    }
    var x := a.tensors[output];
    var helpers := [Intermediate(x, p, self, |a.ops|), ExponentData(x, p, |a.ops|)];
    assert b.tensors == a.tensors + helpers;
    assert b.tensors[output] == x;
    assert (a.tensors + helpers)[output := x.(producers := [|a.ops|])] == a.tensors[output := x.(producers := [|a.ops|])] + helpers;
    return Ok(rp.value);
  }

  /** The splice followed by `setParsed()` of the operator, as every converter using
      it ends its `parse`. */
  method AppendThenParse(a: Arena, o: OpId, p: Power) returns (r: Result<Arena>)
    requires Valid(a) && o < |a.ops|
    ensures r.Ok? ==> var b := r.value;
              && Valid(b) && |b.ops| == |a.ops| + 1 && |b.tensors| == |a.tensors| + 2 && b.ops[o].status == Parsed
              && b.ops[o].inputs == a.ops[o].inputs && |b.ops[o].outputs| == |a.ops[o].outputs|
              && (forall t | 0 <= t < |a.tensors| :: b.tensors[t].shape == a.tensors[t].shape)
              && b.ops[o].post == a.ops[o].post + [|a.ops|] && b.ops[o].pre == a.ops[o].pre
              && PowHelper(b, o, |a.ops|, p)
    ensures r.Ok? ==> |a.ops[o].outputs| > 0
    ensures r.Ok? ==> KeepsNames(a, r.value) && OutputOf(r.value, |a.ops|, 0) == OutputOf(a, o, 0)
    ensures r.Ok? ==> forall q | 0 <= q < |a.ops| && q != o :: r.value.ops[q] == a.ops[q]
    ensures r.Ok? ==> forall t | 0 <= t < |a.tensors| && t != OutputOf(a, o, 0) :: r.value.tensors[t] == a.tensors[t]
  {
    var rp := AppendPower(a, o, p);
    if rp.Err? {
      return Err(rp.error);
    }
    var b := rp.value;
    AppendedPowHelper(a, b, o, p);
    AppendedFrame(a, b, o, p);
    r := SetOpParsed(b, o);
    if r.Ok? {
      assert PowHelper(r.value, o, |a.ops|, p);
    }
  }

  /** `pow` is the Pow helper behind `self`: a parsed post helper of `self` reading the
      first output of `self` and the exponent constant, and writing the tensor the
      intermediate one stands in for, whose only producer it is. Intermediate and constant
      have the shape of that tensor, and the constant holds the exponent once per element. */
  predicate PowHelper(b: Arena, self: OpId, pow: OpId, p: Power)
    requires Valid(b) && self < |b.ops| && pow < |b.ops|
  {
    && |b.ops[self].outputs| > 0 && pow in b.ops[self].post
    && b.ops[pow].kind == PowerWrapper && b.ops[pow].status == Parsed
    && |b.ops[pow].inputs| == 2 && |b.ops[pow].outputs| == 1
    && var st := OutputOf(b, self, 0);
       var pt := InputOf(b, pow, 1);
       var out := b.tensors[OutputOf(b, pow, 0)];
       && InputOf(b, pow, 0) == st && st != pt
       && b.tensors[st].producers == [self] && b.tensors[st].consumers == [pow]
       && b.tensors[pt].consumers == [pow] && out.producers == [pow]
       && b.tensors[st].name == p.Prefix() + out.name && b.tensors[pt].name == PowDataPrefix + out.name
       && b.tensors[st].shape == out.shape && b.tensors[pt].shape == out.shape && Dims(out.shape)
       && b.tensors[pt].data == Some(Filled(out.shape, p.Exponent()).value)
  }

  /** After the corrected splice the new operator is the Pow helper of `self`, and it
      writes the tensor that was the first output of `self`. */
  lemma AppendedPowHelper(a: Arena, b: Arena, self: OpId, p: Power)
    requires Valid(a) && self < |a.ops| && |a.ops[self].outputs| > 0
    requires Valid(b) && Appended(a, b, self, p)
    ensures |b.ops| == |a.ops| + 1 && PowHelper(b, self, |a.ops|, p)
    ensures OutputOf(b, |a.ops|, 0) == OutputOf(a, self, 0)
  {
    var output := OutputOf(a, self, 0);
    var st := |a.tensors|;
    assert b.ops[self].outputs[0] == st;
    assert b.tensors[output].name == a.tensors[output].name;
  }

  /** Everything the corrected splice leaves alone: every operator but `self`, the
      inputs and pre helpers of `self`, every tensor but `output`, and every shape. */
  lemma AppendedFrame(a: Arena, b: Arena, self: OpId, p: Power)
    requires Valid(a) && self < |a.ops| && |a.ops[self].outputs| > 0
    requires Appended(a, b, self, p)
    ensures |b.tensors| == |a.tensors| + 2 && |b.ops| == |a.ops| + 1
    ensures forall q | 0 <= q < |a.ops| && q != self :: b.ops[q] == a.ops[q]
    ensures b.ops[self].inputs == a.ops[self].inputs && b.ops[self].pre == a.ops[self].pre
    ensures |b.ops[self].outputs| == |a.ops[self].outputs|
    ensures forall t | 0 <= t < |a.tensors| && t != OutputOf(a, self, 0) :: b.tensors[t] == a.tensors[t]
    ensures forall t | 0 <= t < |a.tensors| :: b.tensors[t].shape == a.tensors[t].shape
  {
  }

  /** The corrected splice keeps the edges of a consistent arena mutual when `self` has
      exactly one output and is its only producer. */
  lemma AppendedKeepsMutual(a: Arena, b: Arena, self: OpId, p: Power)
    requires Valid(a) && Mutual(a) && self < |a.ops| && |a.ops[self].outputs| == 1
    requires a.tensors[OutputOf(a, self, 0)].producers == [self]
    requires Valid(b) && Appended(a, b, self, p)
    ensures Mutual(b)
  {
    var output := OutputOf(a, self, 0);
    assert a.ops[self].outputs == [output];
    AppendedPointwise(a, b, self, p);
    InputsStayConsumed(a, b, self, output);
    OutputsStayProduced(a, b, self, output);
    ConsumersStayRead(a, b, self, output);
    ProducersStayWritten(a, b, self, output);
  }

  /** The corrected splice record by record: every old tensor but `output` and every old
      operator but `self` is unchanged. */
  predicate Pointwise(a: Arena, b: Arena, self: OpId, output: TensorId)
    requires self < |a.ops| && output < |a.tensors|
  {
    var st := |a.tensors|;
    var pow := |a.ops|;
    && |b.tensors| == st + 2 && |b.ops| == pow + 1
    && (forall t | 0 <= t < st && t != output :: b.tensors[t] == a.tensors[t])
    && b.tensors[output].consumers == a.tensors[output].consumers && b.tensors[output].producers == [pow]
    && b.tensors[st].producers == [self] && b.tensors[st].consumers == [pow]
    && b.tensors[st + 1].producers == [] && b.tensors[st + 1].consumers == [pow]
    && (forall o | 0 <= o < pow && o != self :: b.ops[o] == a.ops[o])
    && b.ops[self].inputs == a.ops[self].inputs && b.ops[self].outputs == [st]
    && b.ops[pow].inputs == [st, st + 1] && b.ops[pow].outputs == [output]
  }

  lemma AppendedPointwise(a: Arena, b: Arena, self: OpId, p: Power)
    requires Valid(a) && self < |a.ops| && |a.ops[self].outputs| == 1
    requires Appended(a, b, self, p)
    ensures Pointwise(a, b, self, OutputOf(a, self, 0))
  {
    var output := OutputOf(a, self, 0);
    assert a.ops[self].outputs == [output];
    assert ReplaceFirst([output], output, |a.tensors|) == [|a.tensors|];
  }

  lemma InputsStayConsumed(a: Arena, b: Arena, self: OpId, output: TensorId)
    requires Valid(a) && Mutual(a) && self < |a.ops| && output < |a.tensors|
    requires Pointwise(a, b, self, output)
    ensures forall o, t | 0 <= o < |b.ops| && t in b.ops[o].inputs :: o in b.tensors[t].consumers
  {
    forall o, t | 0 <= o < |b.ops| && t in b.ops[o].inputs
      ensures o in b.tensors[t].consumers
    {
      if o < |a.ops| {
        assert t in a.ops[o].inputs;
      }
    }
  }

  lemma OutputsStayProduced(a: Arena, b: Arena, self: OpId, output: TensorId)
    requires Valid(a) && Mutual(a) && self < |a.ops| && output < |a.tensors|
    requires a.tensors[output].producers == [self]
    requires Pointwise(a, b, self, output)
    ensures forall o, t | 0 <= o < |b.ops| && t in b.ops[o].outputs :: o in b.tensors[t].producers
  {
    forall o, t | 0 <= o < |b.ops| && t in b.ops[o].outputs
      ensures o in b.tensors[t].producers
    {
      if o < |a.ops| && o != self {
        assert t in a.ops[o].outputs;
        assert o in a.tensors[t].producers;
      }
    }
  }

  lemma ConsumersStayRead(a: Arena, b: Arena, self: OpId, output: TensorId)
    requires Valid(a) && Mutual(a) && self < |a.ops| && output < |a.tensors|
    requires Pointwise(a, b, self, output)
    ensures forall t, o | 0 <= t < |b.tensors| && o in b.tensors[t].consumers :: t in b.ops[o].inputs
  {
    forall t, o | 0 <= t < |b.tensors| && o in b.tensors[t].consumers
      ensures t in b.ops[o].inputs
    {
      if t < |a.tensors| {
        assert o in a.tensors[t].consumers;
        assert t in a.ops[o].inputs;
      }
    }
  }

  lemma ProducersStayWritten(a: Arena, b: Arena, self: OpId, output: TensorId)
    requires Valid(a) && Mutual(a) && self < |a.ops| && output < |a.tensors|
    requires a.ops[self].outputs == [output]
    requires Pointwise(a, b, self, output)
    ensures forall t, o | 0 <= t < |b.tensors| && o in b.tensors[t].producers :: t in b.ops[o].outputs
  {
    forall t, o | 0 <= t < |b.tensors| && o in b.tensors[t].producers
      ensures t in b.ops[o].outputs
    {
      if t < |a.tensors| && t != output {
        assert o in a.tensors[t].producers;
        assert t in a.ops[o].outputs;
      }
    }
  }
}

=== FILE: propagation.dfy ===
/** Layout propagation across the graph (`_propagateLayout` of tflite2onnx/graph.py): the
    tensors with a layout are walked one by one; through every operator next to a walked
    tensor, a layout-transparent operator hands the layout to its tensors that have none,
    a scalar among them is ignored instead, and any other operator makes its layout-less
    tensors ignored. Finally every walked tensor is transformed to its target layout. */
module Propagation {
  import opened Wrappers
  import opened Layouts
  import opened Tensors
  import opened Operators
  import opened Ir

  /** The four tensor sets of the walk: laid out and waiting, without layout yet, left
      without layout, and laid out and visited. */
  datatype Walk = Walk(toWalk: set<TensorId>, wild: set<TensorId>, ignored: set<TensorId>, walked: set<TensorId>)

  /** The tensors of `op` the walk looks at: those a layout crosses to when the operator is
      layout-propagatable, all of its tensors otherwise. */
  function Neighbours(op: Operator): (r: Result<seq<TensorId>>)
    ensures r.Ok? ==> forall t | t in r.value :: t in op.inputs || t in op.outputs
    ensures r.Err? <==> PropagatesFirst(op.kind) && (|op.inputs| == 0 || |op.outputs| == 0)
  {
    if LayoutPropagatable(op.kind) then Propagatable(op) else Ok(op.inputs + op.outputs)
  }

  /** The operators a tensor is connected to, producers first. */
  function Edges(x: Tensor): seq<OpId> {
    x.producers + x.consumers
  }

  /** The layouts the tensors of `u` carried before the walk. */
  function SeedSet(a0: Arena, u: set<TensorId>): set<Layout> {
    set s | s in u && 0 <= s < |a0.tensors| && a0.tensors[s].layout.Some? :: a0.tensors[s].layout.value
  }

  /** `a` is `a0` except that tensors of `u` without a layout may have received one,
      a layout some tensor of `u` carried to begin with. */
  predicate Frame(a0: Arena, a: Arena, u: set<TensorId>) {
    && |a.tensors| == |a0.tensors| && a.ops == a0.ops && a.registry == a0.registry
    && forall t | 0 <= t < |a0.tensors| ::
         a.tensors[t] == a0.tensors[t]
         || (&& t in u && a0.tensors[t].layout.None? && a.tensors[t].layout.Some?
             && a.tensors[t] == a0.tensors[t].(layout := a.tensors[t].layout)
             && a.tensors[t].layout.value in SeedSet(a0, u))
  }

  /** The walk's sets partition `u`; wild and ignored tensors have no layout, the others have one. */
  predicate Sound(a0: Arena, a: Arena, u: set<TensorId>, w: Walk) {
    && Valid(a) && Frame(a0, a, u)
    && (forall t | t in u :: t < |a.tensors|)
    && w.toWalk + w.wild + w.ignored + w.walked == u
    && w.toWalk !! w.wild && w.toWalk !! w.ignored && w.toWalk !! w.walked
    && w.wild !! w.ignored && w.wild !! w.walked && w.ignored !! w.walked
    && (forall t | t in w.wild :: t < |a.tensors| && a.tensors[t].layout.None?)
    && (forall t | t in w.ignored :: t < |a.tensors| && a.tensors[t].layout.None?)
    && (forall t | t in w.toWalk :: t < |a.tensors| && a.tensors[t].layout.Some?)
    && (forall t | t in w.walked :: t < |a.tensors| && a.tensors[t].layout.Some?)
  }

  /** Every operator of `es` could be crossed and left none of its tensors wild. */
  predicate Settled(a: Arena, w: Walk, es: seq<OpId>) {
    forall n | n in es && n < |a.ops| ::
      Neighbours(a.ops[n]).Ok? && forall t | t in Neighbours(a.ops[n]).value :: t !in w.wild
  }

  /** No walked tensor other than `except` is next to a wild one. */
  predicate ClosedBut(a: Arena, w: Walk, except: set<TensorId>) {
    forall x | x in w.walked && x !in except && x < |a.tensors| :: Settled(a, w, Edges(a.tensors[x]))
  }

  /** No walked tensor is next to a wild one. */
  predicate Closed(a: Arena, w: Walk) {
    ClosedBut(a, w, {})
  }

  /** A layout present during the walk is one of the seeds. */
  lemma LaidOutFromSeeds(a0: Arena, a: Arena, u: set<TensorId>, t: TensorId)
    requires Frame(a0, a, u) && t in u && t < |a.tensors| && a.tensors[t].layout.Some?
    ensures a.tensors[t].layout.value in SeedSet(a0, u)
  {
    if a.tensors[t] == a0.tensors[t] {
      assert a0.tensors[t].layout.value in SeedSet(a0, u);
    }
  }

  /** Removing tensors from the wild set keeps operators settled. */
  lemma SettledStable(a: Arena, b: Arena, w: Walk, v: Walk, es: seq<OpId>)
    requires b.ops == a.ops && v.wild <= w.wild && Settled(a, w, es)
    ensures Settled(b, v, es)
  {
  }

  /** Giving a layout to a wild tensor of `u`, with a layout of the seeds, keeps the frame. */
  lemma FrameStep(a0: Arena, a: Arena, u: set<TensorId>, t: TensorId, l: Layout)
    requires Frame(a0, a, u) && t in u && t < |a.tensors| && a.tensors[t].layout.None? && l in SeedSet(a0, u)
    ensures Frame(a0, a.(tensors := a.tensors[t := a.tensors[t].(layout := Some(l))]), u)
  {
  }

  /** Only layouts change, so every tensor keeps its operators. */
  lemma FrameEdges(a0: Arena, a: Arena, u: set<TensorId>, x: TensorId)
    requires Frame(a0, a, u) && x < |a0.tensors|
    ensures Edges(a.tensors[x]) == Edges(a0.tensors[x])
  {
  }

  /** After crossing one more operator of the visited tensor, the walked tensors other
      than it stay settled and so do the operators crossed so far. */
  lemma CrossStep(a0: Arena, u: set<TensorId>, b: Arena, v: Walk, c: Arena, v': Walk, T: TensorId, es: seq<OpId>, j: nat)
    requires Sound(a0, b, u, v) && Sound(a0, c, u, v') && c.ops == b.ops
    requires v'.wild <= v.wild && v'.walked == v.walked && j < |es|
    requires ClosedBut(b, v, {T}) && Settled(b, v, es[..j]) && Settled(c, v', [es[j]])
    ensures ClosedBut(c, v', {T}) && Settled(c, v', es[..j + 1])
  {
    forall x | x in v'.walked && x !in {T} && x < |c.tensors|
      ensures Settled(c, v', Edges(c.tensors[x]))
    {
      FrameEdges(a0, b, u, x);
      FrameEdges(a0, c, u, x);
      SettledStable(b, c, v, v', Edges(b.tensors[x]));
    }
    SettledStable(b, c, v, v', es[..j]);
    assert es[..j + 1] == es[..j] + [es[j]];
  }

  /** Popping a tensor to walk: every walked tensor but it stays settled. */
  lemma PopClosed(a: Arena, w: Walk, T: TensorId)
    requires Closed(a, w)
    ensures ClosedBut(a, w.(toWalk := w.toWalk - {T}, walked := w.walked + {T}), {T})
  {
    var w' := w.(toWalk := w.toWalk - {T}, walked := w.walked + {T});
    forall x | x in w'.walked && x !in {T} && x < |a.tensors|
      ensures Settled(a, w', Edges(a.tensors[x]))
    {
      SettledStable(a, a, w, w', Edges(a.tensors[x]));
    }
  }

  /** Popping a tensor to walk leaves fewer tensors unwalked. */
  lemma PopShrinks(u: set<TensorId>, walked: set<TensorId>, T: TensorId)
    requires T in u && T !in walked
    ensures |u - (walked + {T})| < |u - walked|
  {
    assert u - (walked + {T}) == (u - walked) - {T};
    Shrinks(u - walked, T);
  }

  /** Moving a tensor from the to-walk set to the walked set keeps the walk sound. */
  lemma PopSound(a0: Arena, a: Arena, u: set<TensorId>, w: Walk, T: TensorId)
    requires Sound(a0, a, u, w) && T in w.toWalk
    ensures Sound(a0, a, u, w.(toWalk := w.toWalk - {T}, walked := w.walked + {T}))
  {
  }

  /** Taking a member out of a set makes it smaller. */
  lemma Shrinks<T>(s: set<T>, x: T)
    requires x in s
    ensures |s - {x}| < |s|
  {
  }

  /** When nothing is left to walk, the walked tensors of `u` are exactly those with a
      layout, and they include every tensor that had one to begin with. */
  lemma Finished(a0: Arena, a: Arena, u: set<TensorId>, w: Walk)
    requires Sound(a0, a, u, w) && w.toWalk == {}
    ensures forall t | t in u :: t in w.walked <==> a.tensors[t].layout.Some?
    ensures forall t | t in u && t < |a0.tensors| && a0.tensors[t].layout.Some? :: t in w.walked
  {
  }

  /** One tensor `t` of an operator next to the walked tensor `T`. A wild `t` leaves the
      wild set: across a layout-propagatable operator it takes `T`'s layout and waits to be
      walked, unless it is a scalar, which is ignored (and a tensor with neither shape nor
      data makes the scalar test fail); across any other operator it is ignored. */
  method CrossTensor(a0: Arena, u: set<TensorId>, a: Arena, w: Walk, T: TensorId, t: TensorId, propagate: bool)
    returns (r: Result<(Arena, Walk)>)
    requires Sound(a0, a, u, w) && T in w.walked
    ensures r.Err? ==> propagate && t in w.wild && IsScalar(a.tensors[t]).Err?
    ensures r.Ok? ==> var (b, v) := r.value;
              && Sound(a0, b, u, v) && b.ops == a.ops && v.walked == w.walked
              && v.wild == w.wild - {t} && w.toWalk <= v.toWalk && w.ignored <= v.ignored
    ensures r.Ok? && t in w.wild && propagate && IsScalar(a.tensors[t]) == Ok(false) ==>
              r.value.1.toWalk == w.toWalk + {t} && r.value.0.tensors[t].layout == a.tensors[T].layout
    ensures r.Ok? && t in w.wild && (!propagate || IsScalar(a.tensors[t]) == Ok(true)) ==>
              r.value.1.ignored == w.ignored + {t} && r.value.0 == a
  {
    if t == T || t !in w.wild {
      return Ok((a, w));
    }
    var v := w.(wild := w.wild - {t});
    if !propagate {
      return Ok((a, v.(ignored := v.ignored + {t})));
    }
    var s := IsScalar(a.tensors[t]);
    if s.Err? {
      return Err(s.error);
    }
    if s.value {
      return Ok((a, v.(ignored := v.ignored + {t})));
    }
    var l := a.tensors[T].layout.value;
    LaidOutFromSeeds(a0, a, u, T);
    FrameStep(a0, a, u, t, l);
    var b := UpdateTensor(a, t, a.tensors[t].(layout := Some(l)));
    return Ok((b, v.(toWalk := v.toWalk + {t})));
  }

  /** The tensors of `T`'s operator `n`, as in the inner loops of `_propagateLayout`. */
  method CrossOperator(a0: Arena, u: set<TensorId>, a: Arena, w: Walk, T: TensorId, n: OpId) returns (r: Result<(Arena, Walk)>)
    requires Sound(a0, a, u, w) && T in w.walked && n < |a.ops|
    ensures Neighbours(a.ops[n]).Err? ==> r.Err?
    ensures r.Ok? ==> var (b, v) := r.value;
              && Sound(a0, b, u, v) && v.walked == w.walked && v.wild <= w.wild && w.toWalk <= v.toWalk
              && w.ignored <= v.ignored && Settled(b, v, [n])
  {
    var nb := Neighbours(a.ops[n]);
    if nb.Err? {
      return Err(nb.error);
    }
    var ts := nb.value;
    var b, v := a, w;
    var j := 0;
    while j < |ts|
      invariant 0 <= j <= |ts|
      invariant Sound(a0, b, u, v) && b.ops == a.ops
      invariant v.walked == w.walked && v.wild <= w.wild && w.toWalk <= v.toWalk && w.ignored <= v.ignored
      invariant forall k | 0 <= k < j :: ts[k] !in v.wild
    {
      var rt := CrossTensor(a0, u, b, v, T, ts[j], LayoutPropagatable(a.ops[n].kind));
      if rt.Err? {
        return Err(rt.error);
      }
      b, v := rt.value.0, rt.value.1;
      j := j + 1;
    }
    return Ok((b, v));
  }

  /** `for n in T.producers + T.consumers`: every operator next to `T`. */
  method VisitTensor(a0: Arena, u: set<TensorId>, a: Arena, w: Walk, T: TensorId) returns (r: Result<(Arena, Walk)>)
    requires Sound(a0, a, u, w) && T in w.walked && ClosedBut(a, w, {T})
    ensures r.Ok? ==> var (b, v) := r.value;
              && Sound(a0, b, u, v) && v.walked == w.walked && v.wild <= w.wild && Closed(b, v)
  {
    var es := Edges(a.tensors[T]);
    var b, v := a, w;
    var j := 0;
    while j < |es|
      invariant 0 <= j <= |es|
      invariant Sound(a0, b, u, v) && b.ops == a.ops && v.walked == w.walked && v.wild <= w.wild
      invariant ClosedBut(b, v, {T}) && Settled(b, v, es[..j])
    {
      var n := es[j];
      assert n in a.tensors[T].producers || n in a.tensors[T].consumers;
      var rc := CrossOperator(a0, u, b, v, T, n);
      if rc.Err? {
        return Err(rc.error);
      }
      CrossStep(a0, u, b, v, rc.value.0, rc.value.1, T, es, j);
      b, v := rc.value.0, rc.value.1;
      j := j + 1;
    }
    FrameEdges(a0, a, u, T);
    FrameEdges(a0, b, u, T);
    assert es[..j] == es;
    return Ok((b, v));
  }

  /** The tensors of `u` with a layout start the walk; the others are wild. */
  function Start(a0: Arena, u: set<TensorId>): (w: Walk)
    requires forall t | t in u :: t < |a0.tensors|
    ensures w.toWalk + w.wild == u && w.toWalk !! w.wild
    ensures forall t | t in u :: t in w.toWalk <==> a0.tensors[t].layout.Some?
    ensures w.ignored == {} && w.walked == {}
  {
    Walk(set t | t in u && a0.tensors[t].layout.Some?, set t | t in u && a0.tensors[t].layout.None?, {}, {})
  }

  /** The starting walk is sound and, having walked nothing, closed. */
  lemma StartSound(a0: Arena, u: set<TensorId>)
    requires Valid(a0) && forall t | t in u :: t < |a0.tensors|
    ensures Sound(a0, a0, u, Start(a0, u)) && Closed(a0, Start(a0, u))
  {
  }

  /** `_propagateLayout` up to the transformation, over the tensors `u` of the graph. On
      success nothing is left to walk, only tensors of `u` that had no layout got one (a
      seed's), the seeded tensors were all walked, the walked tensors are exactly those
      with a layout, and no walked tensor is next to a wild one. */
  method PropagateLayout(a0: Arena, u: set<TensorId>) returns (r: Result<(Arena, Walk)>)
    requires Valid(a0) && forall t | t in u :: t < |a0.tensors|
    ensures r.Ok? ==> Sound(a0, r.value.0, u, r.value.1) && r.value.1.toWalk == {} && Closed(r.value.0, r.value.1)
    ensures r.Ok? ==> forall t | t in u :: t in r.value.1.walked <==> r.value.0.tensors[t].layout.Some?
    ensures r.Ok? ==> forall t | t in u && a0.tensors[t].layout.Some? :: t in r.value.1.walked
    ensures (forall t | t in u :: a0.tensors[t].layout.None?) ==> r == Ok((a0, Walk({}, u, {}, {})))
  {
    var a := a0;
    var w := Start(a0, u);
    StartSound(a0, u);
    if forall t | t in u :: a0.tensors[t].layout.None? {
      // Nothing is laid out, so the walk has nowhere to start.
      assert w == Walk({}, u, {}, {});
      return Ok((a0, w));
    }
    while w.toWalk != {}
      invariant Sound(a0, a, u, w) && Closed(a, w)
      decreases |u - w.walked|
    {
      var T :| T in w.toWalk;
      PopSound(a0, a, u, w, T);
      PopClosed(a, w, T);
      PopShrinks(u, w.walked, T);
      var rv := VisitTensor(a0, u, a, w.(toWalk := w.toWalk - {T}, walked := w.walked + {T}), T);
      if rv.Err? {
        return Err(rv.error);
      }
      a, w := rv.value.0, rv.value.1;
    }
    Finished(a0, a, u, w);
    return Ok((a, w));
  }

  /** The loop `for t in T_walked: t.transform()`: every tensor of `ts` is moved to its
      target layout, failing when one of them cannot be; nothing else changes, and each
      transformed tensor is then in its target layout. */
  method TransformWalked(a: Arena, ts: set<TensorId>) returns (r: Result<Arena>)
    requires Valid(a) && forall t | t in ts :: t < |a.tensors|
    ensures r.Ok? <==> forall t | t in ts :: TransformTensor(a.tensors[t]).Ok?
    ensures r.Ok? ==> var b := r.value;
              && Valid(b) && |b.tensors| == |a.tensors| && b.ops == a.ops && b.registry == a.registry
              && forall t | 0 <= t < |a.tensors| ::
                   b.tensors[t] == if t in ts then TransformTensor(a.tensors[t]).value else a.tensors[t]
    ensures r.Ok? ==> forall t | t in ts ::
              r.value.tensors[t].layout.Some? && r.value.tensors[t].layout.value.current == r.value.tensors[t].layout.value.target
  {
    var b := a;
    var rest := ts;
    while rest != {}
      invariant rest <= ts
      invariant Valid(b) && |b.tensors| == |a.tensors| && b.ops == a.ops && b.registry == a.registry
      invariant forall t | t in ts - rest :: TransformTensor(a.tensors[t]).Ok?
      invariant forall t | 0 <= t < |a.tensors| ::
                  b.tensors[t] == if t in ts - rest then TransformTensor(a.tensors[t]).value else a.tensors[t]
      decreases |rest|
    {
      var t :| t in rest;
      var x := TransformTensor(b.tensors[t]);
      if x.Err? {
        return Err(x.error);
      }
      b := UpdateTensor(b, t, x.value);
      rest := rest - {t};
    }
    return Ok(b);
  }
}

=== FILE: quantize.dfy ===
/** The QUANTIZE and DEQUANTIZE converter (tflite2onnx/op/quantize.py): an ONNX
    QuantizeLinear when its output is uint8 and a DequantizeLinear otherwise, with one
    input and one output and, once the graph is dequantized, the scale and zero point of
    its quantized side as two more inputs. */
module QuantizeOp {
  import opened Wrappers
  import opened Lifecycle
  import opened Payload
  import opened Tensors
  import opened Operators
  import opened Ir
  import opened OpCommon
  import Tflite
  import Dtypes
  import Factory

  /** `isQuantize`: the operator is parsed and its first output is uint8. Reading the first
      output of a parsed operator without outputs is an IndexError. */
  function IsQuantize(a: Arena, o: OpId): (r: Result<bool>)
    requires Valid(a) && o < |a.ops|
    ensures a.ops[o].status != Parsed ==> r == Ok(false)
    ensures a.ops[o].status == Parsed ==> (r.Ok? <==> |a.ops[o].outputs| > 0)
    ensures a.ops[o].status == Parsed && r.Ok? ==>
              (r.value <==> a.tensors[OutputOf(a, o, 0)].dtype == Some(Dtypes.OnnxUint8))
  {
    if a.ops[o].status != Parsed then Ok(false)
    else if |a.ops[o].outputs| == 0 then Err(IndexOutOfRange("list index out of range"))
    else Ok(a.tensors[OutputOf(a, o, 0)].dtype == Some(Dtypes.OnnxUint8))
  }

  /** The ONNX operator type: QuantizeLinear exactly when `isQuantize` holds, so every
      operator that is not parsed yet reports DequantizeLinear. */
  function QuantizeType(a: Arena, o: OpId): (r: Result<string>)
    requires Valid(a) && o < |a.ops|
    ensures r.Ok? <==> IsQuantize(a, o).Ok?
    ensures r.Ok? ==> (r.value == "QuantizeLinear" <==> IsQuantize(a, o).value)
    ensures r.Ok? ==> r.value in {"QuantizeLinear", "DequantizeLinear"}
  {
    var q :- IsQuantize(a, o);
    Ok(if q then "QuantizeLinear" else "DequantizeLinear")
  }

  /** A parsed operator whose output is uint8 is a QuantizeLinear, and one whose output
      has any other type a DequantizeLinear. */
  lemma {:induction false} TypeFollowsOutput(a: Arena, o: OpId)
    requires Valid(a) && o < |a.ops| && a.ops[o].status == Parsed && |a.ops[o].outputs| > 0
    ensures QuantizeType(a, o).Ok?
    ensures QuantizeType(a, o).value == (if a.tensors[OutputOf(a, o, 0)].dtype == Some(Dtypes.OnnxUint8)
                                         then "QuantizeLinear" else "DequantizeLinear")
  {
    assert IsQuantize(a, o).Ok?;
  }

  /** The opcode check of `parse` as written: the second operand of `or` is the constant
      DEQUANTIZE, which is non-zero and therefore true. */
  predicate OpcodeCheckAsWritten(opcode: int) {
    opcode == Tflite.QUANTIZE || Tflite.DEQUANTIZE != 0
  }

  /** The check as intended: the opcode is QUANTIZE or DEQUANTIZE. */
  predicate IsQuantizeOpcode(opcode: int) {
    opcode == Tflite.QUANTIZE || opcode == Tflite.DEQUANTIZE
  }

  /** The check as written lets every opcode through, ADD among them, which the intended
      check rejects. */
  lemma OpcodeCheckAcceptsAll(opcode: int)
    ensures OpcodeCheckAsWritten(opcode)
    ensures OpcodeCheckAsWritten(Tflite.ADD) && !IsQuantizeOpcode(Tflite.ADD)
  {
  }

  /** `Quantize.parse()`: a QUANTIZE or DEQUANTIZE with one input and one output, neither
      given a layout. */
  method ParseQuantize(a: Arena, g: Tflite.Subgraph, o: OpId) returns (r: Result<Arena>)
    requires Valid(a) && o < |a.ops|
    ensures r.Ok? ==> 0 <= a.ops[o].index < |g.operators|
    ensures r.Ok? ==> var e := g.operators[a.ops[o].index];
              IsQuantizeOpcode(e.opcode) && |e.inputs| == 1 && |e.outputs| == 1
    ensures r.Ok? ==> var b := r.value;
              && Valid(b) && |b.ops| == |a.ops| && b.ops[o].status == Parsed
              && |b.ops[o].inputs| == |a.ops[o].inputs| + 1 && |b.ops[o].outputs| == |a.ops[o].outputs| + 1
              && b.ops[o].attrs == a.ops[o].attrs
              && b.tensors[OutputOf(b, o, |a.ops[o].outputs|)].producers == [o]
              && ReadsInputs(a, b, g, o, 1) && WritesOutputs(a, b, g, o, 1)
  {
    var re := OpEntry(g, a.ops[o]);
    if re.Err? {
      return Err(re.error);
    }
    var e := re.value;
    if !IsQuantizeOpcode(e.opcode) {
      return Err(Assertion("opcode is not QUANTIZE or DEQUANTIZE"));
    }
    if |e.inputs| != 1 {
      return Err(Assertion("Quantize takes one input"));
    }
    if |e.outputs| != 1 {
      return Err(Assertion("Quantize has one output"));
    }
    var rio := ParseInputOutput(a, g, o);
    if rio.Err? {
      return Err(rio.error);
    }
    var (b, it, ot) := rio.value;
    assert b.ops[o].outputs[|a.ops[o].outputs|] == ot;
    r := SetOpParsed(b, o);
    if r.Ok? {
      ReadsWritesKept(a, b, r.value, g, o, 1, 1);
    }
  }

  /** The float and the quantized side of the operator: input and output of a
      QuantizeLinear, output and input of a DequantizeLinear. */
  function Sides(a: Arena, o: OpId): (r: Result<(TensorId, TensorId)>)
    requires Valid(a) && o < |a.ops|
    ensures r.Ok? <==> IsQuantize(a, o).Ok? && |a.ops[o].inputs| > 0 && |a.ops[o].outputs| > 0
    ensures r.Ok? ==> r.value.0 < |a.tensors| && r.value.1 < |a.tensors|
  {
    var q :- IsQuantize(a, o);
    if |a.ops[o].inputs| == 0 || |a.ops[o].outputs| == 0 then Err(IndexOutOfRange("list index out of range"))
    else if q then Ok((InputOf(a, o, 0), OutputOf(a, o, 0)))
    else Ok((OutputOf(a, o, 0), InputOf(a, o, 0)))
  }

  /** `ft.dequantize(); assert(qt.quantized)`: the float side is dequantized, and the
      quantized side, another tensor, must still be quantized. */
  method DequantizeSides(a: Arena, o: OpId) returns (r: Result<(Arena, TensorId, TensorId)>)
    requires Valid(a) && o < |a.ops|
    ensures r.Ok? <==> && Sides(a, o).Ok?
                       && Sides(a, o).value.0 != Sides(a, o).value.1 && Quantized(a.tensors[Sides(a, o).value.1])
    ensures r.Ok? ==> var (b, ft, qt) := r.value;
              && (ft, qt) == Sides(a, o).value
              && Valid(b) && b.ops == a.ops && b.registry == a.registry
              && b.tensors == a.tensors[ft := Dequantize(a.tensors[ft])]
  {
    var rs := Sides(a, o);
    if rs.Err? {
      return Err(rs.error);
    }
    var (ft, qt) := rs.value;
    var b := UpdateTensor(a, ft, Dequantize(a.tensors[ft]));
    if !Quantized(b.tensors[qt]) {
      return Err(Assertion("the quantized side is not quantized"));
    }
    return Ok((b, ft, qt));
  }

  /** `t.addConsumer(self); self.inputs.append(t)` for a helper constant `t`. */
  method LinkHelper(a: Arena, o: OpId, t: TensorId) returns (r: Result<Arena>)
    requires Valid(a) && o < |a.ops| && t < |a.tensors|
    ensures r.Ok? <==> o !in a.tensors[t].consumers
    ensures r.Ok? ==> && Valid(r.value) && Extends(a, r.value) && o in r.value.tensors[t].consumers
                      && r.value.ops == a.ops[o := a.ops[o].(inputs := a.ops[o].inputs + [t])]
  {
    var rc := AddConsumerAt(a, t, o);
    if rc.Err? {
      return Err(rc.error);
    }
    return Ok(AppendInput(rc.value, o, t));
  }

  /** `st = createQuantScale(qt); st.addConsumer(self); self.inputs.append(st)`: the
      float32 scalar of the scale of `qt`, read by `o`. */
  method LinkScale(a: Arena, o: OpId, qt: TensorId) returns (r: Result<(Arena, TensorId)>)
    requires Valid(a) && o < |a.ops| && qt < |a.tensors|
    ensures r.Ok? ==> var (b, st) := r.value;
              var n := Factory.ScalarName(Dtypes.Float32, a.tensors[qt].scale);
              && Valid(b) && Extends(a, b) && st < |b.tensors| && o in b.tensors[st].consumers
              && n in b.registry && b.registry[n] == st
              && b.ops == a.ops[o := a.ops[o].(inputs := a.ops[o].inputs + [st])]
  {
    var (c, st) := Factory.CreateQuantScale(a, qt).value;
    var rl := LinkHelper(c, o, st);
    if rl.Err? {
      return Err(rl.error);
    }
    ExtendsTrans(a, c, rl.value);
    return Ok((rl.value, st));
  }

  /** `zpt = createQuantZeroPoint(qt); zpt.addConsumer(self); self.inputs.append(zpt)`:
      the uint8 scalar of the zero point of `qt`, read by `o`. */
  method LinkZeroPoint(a: Arena, o: OpId, qt: TensorId) returns (r: Result<(Arena, TensorId)>)
    requires Valid(a) && o < |a.ops| && qt < |a.tensors|
    ensures r.Ok? ==> 0 <= a.tensors[qt].zeroPoint <= 255
    ensures r.Ok? ==> var (b, zt) := r.value;
              var n := Factory.ScalarName(Dtypes.Uint8, Int(a.tensors[qt].zeroPoint));
              && Valid(b) && Extends(a, b) && zt < |b.tensors| && o in b.tensors[zt].consumers
              && n in b.registry && b.registry[n] == zt
              && b.ops == a.ops[o := a.ops[o].(inputs := a.ops[o].inputs + [zt])]
  {
    var rz := Factory.CreateQuantZeroPoint(a, qt);
    if rz.Err? {
      return Err(rz.error);
    }
    var (c, zt) := rz.value;
    var rl := LinkHelper(c, o, zt);
    if rl.Err? {
      return Err(rl.error);
    }
    ExtendsTrans(a, c, rl.value);
    return Ok((rl.value, zt));
  }

  /** `Quantize.dequantize()`: the float side is dequantized, and the scale (a float32
      scalar) and the zero point (a uint8 scalar) of the quantized side become two more
      inputs of the operator, each read by it. Its outputs and the other operators are
      unchanged. */
  method DequantizeQuantize(a: Arena, o: OpId) returns (r: Result<Arena>)
    requires Valid(a) && o < |a.ops|
    ensures r.Ok? ==> && Sides(a, o).Ok? && Sides(a, o).value.0 != Sides(a, o).value.1
                      && Quantized(a.tensors[Sides(a, o).value.1])
                      && 0 <= a.tensors[Sides(a, o).value.1].zeroPoint <= 255
    ensures r.Ok? ==> var b := r.value;
              var (ft, qt) := Sides(a, o).value;
              var k := |a.ops[o].inputs|;
              && Valid(b) && |b.ops| == |a.ops| && |b.tensors| >= |a.tensors| && |b.ops[o].inputs| == k + 2
              && b.ops[o] == a.ops[o].(inputs := a.ops[o].inputs + b.ops[o].inputs[k..])
              && (forall q | 0 <= q < |a.ops| && q != o :: b.ops[q] == a.ops[q])
              && b.tensors[ft].dtype == Dequantize(a.tensors[ft]).dtype && !Quantized(b.tensors[ft])
              && var st := b.ops[o].inputs[k];
                 var zt := b.ops[o].inputs[k + 1];
                 && st < |b.tensors| && zt < |b.tensors|
                 && Factory.ScalarName(Dtypes.Float32, a.tensors[qt].scale) in b.registry
                 && b.registry[Factory.ScalarName(Dtypes.Float32, a.tensors[qt].scale)] == st
                 && Factory.ScalarName(Dtypes.Uint8, Int(a.tensors[qt].zeroPoint)) in b.registry
                 && b.registry[Factory.ScalarName(Dtypes.Uint8, Int(a.tensors[qt].zeroPoint))] == zt
                 && o in b.tensors[st].consumers && o in b.tensors[zt].consumers
  {
    var rd := DequantizeSides(a, o);
    if rd.Err? {
      return Err(rd.error);
    }
    var (b, ft, qt) := rd.value;
    var rs := LinkScale(b, o, qt);
    if rs.Err? {
      return Err(rs.error);
    }
    var (c, st) := rs.value;
    var rz := LinkZeroPoint(c, o, qt);
    if rz.Err? {
      return Err(rz.error);
    }
    var (d, zt) := rz.value;
    ExtendsTrans(b, c, d);
    assert d.ops[o].inputs == a.ops[o].inputs + [st, zt];
    assert d.ops[o].inputs[|a.ops[o].inputs|..] == [st, zt];
    return Ok(d);
  }
}

=== FILE: quantize_splice.dfy ===
/** The splices that put a quantize or dequantize operator on an edge of the graph:
    `createQuantize` and `createDequantize` of tflite2onnx/op/quantize.py, and the older
    `createQuantize` of tflite2onnx/quantize.py. Each creates a tensor named after the
    tensor it stands for and a Quantize operator between the two. */
module QuantizeSplice {
  import opened Wrappers
  import opened Seqs
  import opened Lifecycle
  import opened Layouts
  import opened Tensors
  import opened Operators
  import opened Ir
  import Dtypes

  /** The name of the quantized tensor made for `x`: `x`'s name between a fixed prefix and
      suffix, never `x`'s own name. */
  function QuantizedName(x: Tensor): (r: string)
    ensures |r| == |x.name| + 22 && r[..12] == "TFLITE2ONNX_" && r[12..|r| - 10] == x.name
    ensures r[|r| - 10..] == "_quantized"
    ensures r != x.name
  {
    "TFLITE2ONNX_" + x.name + "_quantized"
  }

  /** The name of the dequantized tensor made for `x`: `x`'s name between a fixed prefix and
      suffix, never `x`'s own name nor the name of `x`'s quantized tensor. */
  function DequantizedName(x: Tensor): (r: string)
    ensures |r| == |x.name| + 24 && r[..12] == "TFLITE2ONNX_" && r[12..|r| - 12] == x.name
    ensures r[|r| - 12..] == "_dequantized"
    ensures r != x.name && r != QuantizedName(x)
  {
    "TFLITE2ONNX_" + x.name + "_dequantized"
  }

  /** The tensor a splice creates for `x`: built with index -1, then given the name, the
      type, the layout, and the shape and quantization of `x`, and parsed. */
  function Derived(x: Tensor, name: string, dtype: int, layout: Option<Layout>): (t: Tensor)
    ensures t.name == name && t.dtype == Some(dtype) && t.layout == layout && t.origin == Helper
    ensures t.shape == x.shape && t.scale == x.scale && t.zeroPoint == x.zeroPoint
    ensures t.status == Parsed && t.data == None && !t.isBias
    ensures t.producers == [] && t.consumers == []
  {
    NewTensor(Helper, layout, false).(name := name, dtype := Some(dtype), shape := x.shape, scale := x.scale,
                                      zeroPoint := x.zeroPoint, status := Parsed)
  }

  /** The Quantize operator a splice creates: index -1, named, one input, one output,
      parsed. */
  function QuantizeOperator(name: string, input: TensorId, output: TensorId): Operator {
    NewOperator(Quantize, -1).(name := Some(name), inputs := [input], outputs := [output], status := Parsed)
  }

  /** The new tensor `x`, registered under `key`, and the Quantize operator from `input` to
      it, neither linked to any other object yet. */
  method PushPair(a: Arena, x: Tensor, key: string, name: string, input: TensorId) returns (r: Arena)
    requires Valid(a) && x.producers == [] && x.consumers == [] && input < |a.tensors|
    ensures Valid(r)
    ensures r.tensors == a.tensors + [x] && r.registry == a.registry[key := |a.tensors|]
    ensures r.ops == a.ops + [QuantizeOperator(name, input, |a.tensors|)]
  {
    var (b, t) := PushTensor(a, x);
    var c := Register(b, key, t);
    var (d, op) := PushOp(c, QuantizeOperator(name, input, t).(inputs := [], outputs := []));
    var e := SetInputs(d, op, [input]);
    assert [] + [t] == [t];
    r := AppendOutput(e, op, t);
  }

  // ---------------------------------------------------------------- createQuantize

  /** The arena after a quantize splice on the edge from `f` into `post`: `post` reads the
      new uint8 tensor in place of `f`; `f` is read by the new operator instead of `post`;
      the new tensor is produced by the new operator and, when `linked`, read by `post`. */
  predicate QuantizeSpliced(a: Arena, b: Arena, f: TensorId, post: OpId, layout: Option<Layout>, linked: bool)
    requires Valid(a) && f < |a.tensors| && post < |a.ops|
    requires post in a.tensors[f].consumers && f in a.ops[post].inputs
  {
    var x := a.tensors[f];
    var qt := |a.tensors|;
    var op := |a.ops|;
    var name := QuantizedName(x);
    && b.tensors == a.tensors[f := x.(consumers := RemoveFirst(x.consumers + [op], post))]
                    + [Derived(x, name, Dtypes.OnnxUint8, layout).(producers := [op], consumers := if linked then [post] else [])]
    && b.registry == a.registry[name := qt]
    && b.ops == a.ops[post := a.ops[post].(inputs := ReplaceFirst(a.ops[post].inputs, f, qt))]
                + [QuantizeOperator(name, f, qt)]
  }

  /** The first half of a splice: the new tensor and operator are pushed, and the operator
      takes the place of `post` among the consumers of `f`. */
  method CutEdge(a: Arena, f: TensorId, post: OpId, x: Tensor, name: string) returns (r: Result<Arena>)
    requires Valid(a) && f < |a.tensors| && post < |a.ops| && x.producers == [] && x.consumers == []
    ensures r.Ok? <==> post in a.tensors[f].consumers
    ensures r.Ok? ==> && Valid(r.value) && r.value.registry == a.registry[name := |a.tensors|]
                      && r.value.ops == a.ops + [QuantizeOperator(name, f, |a.tensors|)]
                      && r.value.tensors == a.tensors[f := a.tensors[f].(consumers := RemoveFirst(a.tensors[f].consumers + [|a.ops|], post))] + [x]
  {
    var op := |a.ops|;
    var b := PushPair(a, x, name, name, f);
    var c := AddConsumerAt(b, f, op).value;
    assert post in c.tensors[f].consumers <==> post in a.tensors[f].consumers;
    r := RemoveConsumerAt(c, f, post);
  }

  /** The second half of a splice: the new operator produces the new tensor, which `post`
      reads in place of `f`, listed as its consumer when `linked`. */
  method JoinEdge(b: Arena, f: TensorId, qt: TensorId, op: OpId, post: OpId, linked: bool) returns (r: Result<Arena>)
    requires Valid(b) && qt < |b.tensors| && op < |b.ops| && post < |b.ops|
    requires b.tensors[qt].producers == [] && b.tensors[qt].consumers == []
    ensures r.Ok? <==> f in b.ops[post].inputs
    ensures r.Ok? ==> && Valid(r.value) && r.value.registry == b.registry
                      && r.value.tensors == b.tensors[qt := b.tensors[qt].(producers := [op], consumers := if linked then [post] else [])]
                      && r.value.ops == b.ops[post := b.ops[post].(inputs := ReplaceFirst(b.ops[post].inputs, f, qt))]
  {
    var d := AddProducerAt(b, qt, op).value;
    var e := if linked then AddConsumerAt(d, qt, post).value else d;
    assert [] + [post] == [post];
    r := ReplaceInputAt(e, post, f, qt);
  }

  /** The steps both versions share, with the layout the new tensor gets and whether
      `post` is recorded as a consumer of it. */
  method SpliceQuantize(a: Arena, f: TensorId, post: OpId, layout: Option<Layout>, linked: bool)
    returns (r: Result<(Arena, TensorId, OpId)>)
    requires Valid(a) && f < |a.tensors| && post < |a.ops|
    ensures r.Ok? <==> && QuantizedName(a.tensors[f]) !in a.registry
                       && post in a.tensors[f].consumers && f in a.ops[post].inputs
    ensures r.Ok? ==> var (b, qt, op) := r.value;
              && qt == |a.tensors| && op == |a.ops| && Valid(b)
              && QuantizeSpliced(a, b, f, post, layout, linked)
  {
    var x := a.tensors[f];
    var name := QuantizedName(x);
    if name in a.registry {
      return Err(Assertion("quantized tensor name already registered"));
    }
    var qt := |a.tensors|;
    var op := |a.ops|;
    var rc := CutEdge(a, f, post, Derived(x, name, Dtypes.OnnxUint8, layout), name);
    if rc.Err? {
      return Err(rc.error);
    }
    var c := rc.value;
    assert c.ops[post] == a.ops[post];
    var rj := JoinEdge(c, f, qt, op, post, linked);
    if rj.Err? {
      return Err(rj.error);
    }
    return Ok((rj.value, qt, op));
  }

  /** `createQuantize(ftensor, post_op)` of tflite2onnx/op/quantize.py: the new tensor copies
      the layout of `f`, and `post` is recorded as its consumer. */
  method CreateQuantize(a: Arena, f: TensorId, post: OpId) returns (r: Result<(Arena, TensorId, OpId)>)
    requires Valid(a) && f < |a.tensors| && post < |a.ops|
    ensures r.Ok? <==> && QuantizedName(a.tensors[f]) !in a.registry
                       && post in a.tensors[f].consumers && f in a.ops[post].inputs
    ensures r.Ok? ==> var (b, qt, op) := r.value;
              && qt == |a.tensors| && op == |a.ops| && Valid(b)
              && QuantizeSpliced(a, b, f, post, a.tensors[f].layout, true)
  {
    r := SpliceQuantize(a, f, post, a.tensors[f].layout, true);
  }

  /** `createQuantize(ftensor, post_op)` of tflite2onnx/quantize.py: the new tensor gets no
      layout, and `post` is not recorded as its consumer. */
  method CreateQuantizeLegacy(a: Arena, f: TensorId, post: OpId) returns (r: Result<(Arena, TensorId, OpId)>)
    requires Valid(a) && f < |a.tensors| && post < |a.ops|
    ensures r.Ok? <==> && QuantizedName(a.tensors[f]) !in a.registry
                       && post in a.tensors[f].consumers && f in a.ops[post].inputs
    ensures r.Ok? ==> var (b, qt, op) := r.value;
              && qt == |a.tensors| && op == |a.ops| && Valid(b)
              && QuantizeSpliced(a, b, f, post, None, false)
  {
    r := SpliceQuantize(a, f, post, None, false);
  }

  /** What a quantize splice promises about the edge it cuts: `post` reads the new tensor
      where it read `f`; the new operator reads `f` and is its consumer, `post` no longer is
      when it was listed once; the new operator writes the new tensor and is its producer;
      the new tensor is a uint8 copy of `f` in shape and quantization. */
  lemma {:induction false} QuantizeEdges(a: Arena, b: Arena, f: TensorId, post: OpId, layout: Option<Layout>, linked: bool)
    requires Valid(a) && f < |a.tensors| && post < |a.ops|
    requires post in a.tensors[f].consumers && f in a.ops[post].inputs
    requires QuantizeSpliced(a, b, f, post, layout, linked)
    ensures var qt := |a.tensors|;
            var op := |a.ops|;
            var x := a.tensors[f];
            && |b.tensors| == qt + 1 && |b.ops| == op + 1
            && b.ops[post].inputs[FirstIndex(a.ops[post].inputs, f)] == qt
            && b.ops[op].inputs == [f] && b.ops[op].outputs == [qt]
            && op in b.tensors[f].consumers && (Once(x.consumers, post) ==> post !in b.tensors[f].consumers)
            && b.tensors[qt].producers == [op] && (b.tensors[qt].consumers == [post] <==> linked)
            && b.tensors[qt].dtype == Some(Dtypes.OnnxUint8) && b.tensors[qt].shape == x.shape
            && b.tensors[qt].scale == x.scale && b.tensors[qt].zeroPoint == x.zeroPoint
            && b.tensors[qt].name == QuantizedName(x) && b.registry[QuantizedName(x)] == qt
  {
    HandedOver(a.tensors[f].consumers, post, |a.ops|);
  }

  /** Adding `op` to the consumers of a tensor and then removing `post` keeps `op`, and
      removes `post` when it was listed once. */
  lemma {:induction false} HandedOver(cs: seq<OpId>, post: OpId, op: OpId)
    requires post in cs && post != op
    ensures op in RemoveFirst(cs + [op], post)
    ensures Once(cs, post) ==> post !in RemoveFirst(cs + [op], post)
  {
    RemoveFirstKeeps(cs + [op], post);
    if Once(cs, post) {
      var k := FirstIndex(cs, post);
      assert FirstIndex(cs + [op], post) == k by {
        assert (cs + [op])[k] == post;
        FirstIndexOfPrefix(cs, [op], post);
      }
      assert RemoveFirst(cs + [op], post) == RemoveFirst(cs, post) + [op];
    }
  }

  /** A splice with the consumer edge recorded keeps a consistent arena consistent, when
      `post` reads `f` once and is listed once among its consumers. */
  lemma {:induction false} QuantizeKeepsMutual(a: Arena, b: Arena, f: TensorId, post: OpId, layout: Option<Layout>)
    requires Valid(a) && Mutual(a) && f < |a.tensors| && post < |a.ops|
    requires Once(a.tensors[f].consumers, post) && Once(a.ops[post].inputs, f)
    requires QuantizeSpliced(a, b, f, post, layout, true) && Valid(b)
    ensures Mutual(b)
  {
    QuantizeEdges(a, b, f, post, layout, true);
    SplicedInputsConsumed(a, b, f, post, layout);
    SplicedOutputsProduced(a, b, f, post, layout);
    SplicedConsumersRead(a, b, f, post, layout);
    SplicedProducersWritten(a, b, f, post, layout);
  }

  lemma {:induction false} SplicedInputsConsumed(a: Arena, b: Arena, f: TensorId, post: OpId, layout: Option<Layout>)
    requires Valid(a) && Mutual(a) && f < |a.tensors| && post < |a.ops|
    requires Once(a.tensors[f].consumers, post) && Once(a.ops[post].inputs, f)
    requires QuantizeSpliced(a, b, f, post, layout, true) && Valid(b)
    ensures forall o, t | 0 <= o < |b.ops| && t in b.ops[o].inputs :: o in b.tensors[t].consumers
  {
    var x := a.tensors[f];
    var qt := |a.tensors|;
    RemoveFirstKeeps(x.consumers + [|a.ops|], post);
    ReplaceMembers(a.ops[post].inputs, f, qt);
    forall o, t | 0 <= o < |b.ops| && t in b.ops[o].inputs
      ensures o in b.tensors[t].consumers
    {
      if o == |a.ops| {
        assert t == f;
      } else if o == post {
        if t != qt {
          assert t in a.ops[post].inputs;
          assert t != f by { ReplaceFirstKeeps(a.ops[post].inputs, f, qt); }
        }
      } else {
        assert t in a.ops[o].inputs;
      }
    }
  }

  lemma {:induction false} SplicedOutputsProduced(a: Arena, b: Arena, f: TensorId, post: OpId, layout: Option<Layout>)
    requires Valid(a) && Mutual(a) && f < |a.tensors| && post < |a.ops|
    requires post in a.tensors[f].consumers && f in a.ops[post].inputs
    requires QuantizeSpliced(a, b, f, post, layout, true) && Valid(b)
    ensures forall o, t | 0 <= o < |b.ops| && t in b.ops[o].outputs :: o in b.tensors[t].producers
  {
    forall o, t | 0 <= o < |b.ops| && t in b.ops[o].outputs
      ensures o in b.tensors[t].producers
    {
      if o < |a.ops| {
        assert t in a.ops[o].outputs;
      }
    }
  }

  lemma {:induction false} SplicedConsumersRead(a: Arena, b: Arena, f: TensorId, post: OpId, layout: Option<Layout>)
    requires Valid(a) && Mutual(a) && f < |a.tensors| && post < |a.ops|
    requires Once(a.tensors[f].consumers, post) && Once(a.ops[post].inputs, f)
    requires QuantizeSpliced(a, b, f, post, layout, true) && Valid(b)
    ensures forall t, o | 0 <= t < |b.tensors| && o in b.tensors[t].consumers :: t in b.ops[o].inputs
  {
    var x := a.tensors[f];
    var qt := |a.tensors|;
    QuantizeEdges(a, b, f, post, layout, true);
    RemoveMembers(x.consumers + [|a.ops|], post);
    ReplaceFirstKeeps(a.ops[post].inputs, f, qt);
    forall t, o | 0 <= t < |b.tensors| && o in b.tensors[t].consumers
      ensures t in b.ops[o].inputs
    {
      if t == qt {
        assert o == post;
      } else if t == f {
        assert o != post;
        AppendMembers(x.consumers, |a.ops|);
        if o != |a.ops| {
          assert o in x.consumers;
        }
      } else {
        assert o in a.tensors[t].consumers;
        assert t in a.ops[o].inputs;
      }
    }
  }

  lemma {:induction false} SplicedProducersWritten(a: Arena, b: Arena, f: TensorId, post: OpId, layout: Option<Layout>)
    requires Valid(a) && Mutual(a) && f < |a.tensors| && post < |a.ops|
    requires post in a.tensors[f].consumers && f in a.ops[post].inputs
    requires QuantizeSpliced(a, b, f, post, layout, true) && Valid(b)
    ensures forall t, o | 0 <= t < |b.tensors| && o in b.tensors[t].producers :: t in b.ops[o].outputs
  {
    forall t, o | 0 <= t < |b.tensors| && o in b.tensors[t].producers
      ensures t in b.ops[o].outputs
    {
      if t < |a.tensors| {
        assert o in a.tensors[t].producers;
      }
    }
  }

  /** The older splice leaves the graph inconsistent: the new tensor is read by `post` but
      does not list it as a consumer. */
  lemma {:induction false} MissingConsumerEdge(a: Arena, b: Arena, f: TensorId, post: OpId)
    requires Valid(a) && f < |a.tensors| && post < |a.ops|
    requires post in a.tensors[f].consumers && f in a.ops[post].inputs
    requires QuantizeSpliced(a, b, f, post, None, false) && Valid(b)
    ensures |a.tensors| in b.ops[post].inputs && post !in b.tensors[|a.tensors|].consumers
    ensures !Mutual(b)
  {
    var qt := |a.tensors|;
    var s := a.ops[post].inputs;
    var k := FirstIndex(s, f);
    assert ReplaceFirst(s, f, qt)[k] == qt;
  }

  // ---------------------------------------------------------------- createDequantize

  /** `for c in consumers: c.replaceInput(q, ft); ft.addConsumer(c)`: every listed operator
      reads `ft` in place of its first `q`, and `ft` lists each of them once. It fails when an
      operator is listed twice or does not read `q`. */
  method RewireConsumers(a: Arena, q: TensorId, ft: TensorId, cs: seq<OpId>) returns (r: Result<Arena>)
    requires Valid(a) && q < |a.tensors| && ft < |a.tensors| && a.tensors[ft].consumers == []
    requires forall c | c in cs :: c < |a.ops|
    ensures r.Ok? <==> NoDup(cs) && forall c | c in cs :: q in a.ops[c].inputs
    ensures r.Ok? ==> && Valid(r.value) && r.value.registry == a.registry
                      && r.value.tensors == a.tensors[ft := a.tensors[ft].(consumers := cs)]
                      && |r.value.ops| == |a.ops|
                      && forall o | 0 <= o < |a.ops| ::
                           r.value.ops[o] == if o in cs && q in a.ops[o].inputs
                                             then a.ops[o].(inputs := ReplaceFirst(a.ops[o].inputs, q, ft))
                                             else a.ops[o]
  {
    var b := a;
    var i := 0;
    assert a.tensors[ft := a.tensors[ft].(consumers := [])] == a.tensors;
    while i < |cs|
      invariant 0 <= i <= |cs|
      invariant Valid(b) && b.registry == a.registry && |b.ops| == |a.ops|
      invariant forall c | c in cs[..i] :: c in cs && c < |a.ops|
      invariant NoDup(cs[..i]) && forall c | c in cs[..i] :: q in a.ops[c].inputs
      invariant b.tensors == a.tensors[ft := a.tensors[ft].(consumers := cs[..i])]
      invariant forall o | 0 <= o < |a.ops| ::
                  b.ops[o] == if o in cs[..i] && q in a.ops[o].inputs
                              then a.ops[o].(inputs := ReplaceFirst(a.ops[o].inputs, q, ft))
                              else a.ops[o]
    {
      var c := cs[i];
      assert c in cs;
      if c in cs[..i] {
        var j :| 0 <= j < i && cs[j] == c;
        assert !NoDup(cs);
        return Err(Assertion("operator already a consumer"));
      }
      if q !in b.ops[c].inputs {
        return Err(Assertion("operator does not read the tensor"));
      }
      b := RewireOne(b, q, ft, c);
      assert cs[..i + 1] == cs[..i] + [c];
      i := i + 1;
    }
    assert cs[..i] == cs;
    return Ok(b);
  }

  /** One operator `c` of the loop: it reads `ft` in place of its first `q`, and `ft` gains
      it as consumer. */
  method RewireOne(b: Arena, q: TensorId, ft: TensorId, c: OpId) returns (d: Arena)
    requires Valid(b) && q < |b.tensors| && ft < |b.tensors| && c < |b.ops|
    requires q in b.ops[c].inputs && c !in b.tensors[ft].consumers
    ensures Valid(d) && d.registry == b.registry
    ensures d.tensors == b.tensors[ft := b.tensors[ft].(consumers := b.tensors[ft].consumers + [c])]
    ensures d.ops == b.ops[c := b.ops[c].(inputs := ReplaceFirst(b.ops[c].inputs, q, ft))]
  {
    var e := ReplaceInputAt(b, c, q, ft).value;
    d := AddConsumerAt(e, ft, c).value;
  }

  /** `q` read by `o` alone: its consumer list becomes `[o]`. */
  function OnlyConsumer(a: Arena, t: TensorId, o: OpId): (r: Arena)
    requires Valid(a) && t < |a.tensors| && o < |a.ops|
    ensures Valid(r)
    ensures r == a.(tensors := a.tensors[t := a.tensors[t].(consumers := [o])])
  {
    TensorEditValid(a, t, a.tensors[t].(consumers := [o]));
    a.(tensors := a.tensors[t := a.tensors[t].(consumers := [o])])
  }

  /** Every registered name names a tensor called so. */
  predicate NamesAgree(a: Arena)
    requires Valid(a)
  {
    forall n | n in a.registry :: a.tensors[a.registry[n]].name == n
  }

  /** The arena after a dequantize splice behind `q`: the new float tensor is registered
      under `key`, produced by the new operator from `q`, and read by every former consumer
      of `q` in its place. `q` is read by the new operator, alone when `cleared`, after its
      former consumers otherwise. */
  predicate DequantizeSpliced(a: Arena, b: Arena, q: TensorId, key: string, cleared: bool)
    requires Valid(a) && q < |a.tensors|
  {
    var x := a.tensors[q];
    var ft := |a.tensors|;
    var op := |a.ops|;
    var name := DequantizedName(x);
    && b.tensors == a.tensors[q := x.(consumers := if cleared then [op] else x.consumers + [op])]
                    + [Derived(x, name, Dtypes.OnnxFloat, x.layout).(producers := [op], consumers := x.consumers)]
    && b.registry == a.registry[key := ft]
    && |b.ops| == op + 1 && b.ops[op] == QuantizeOperator(name, q, ft)
    && forall o | 0 <= o < op ::
         b.ops[o] == if o in x.consumers && q in a.ops[o].inputs
                     then a.ops[o].(inputs := ReplaceFirst(a.ops[o].inputs, q, ft))
                     else a.ops[o]
  }

  /** The steps both versions share, with the registry key of the new tensor and whether the
      consumers of `q` are dropped. */
  method SpliceDequantize(a: Arena, q: TensorId, key: string, cleared: bool) returns (r: Result<(Arena, TensorId, OpId)>)
    requires Valid(a) && q < |a.tensors|
    ensures r.Ok? <==> && DequantizedName(a.tensors[q]) !in a.registry && NoDup(a.tensors[q].consumers)
                       && forall c | c in a.tensors[q].consumers :: q in a.ops[c].inputs
    ensures r.Ok? ==> var (b, ft, op) := r.value;
              && ft == |a.tensors| && op == |a.ops| && Valid(b)
              && DequantizeSpliced(a, b, q, key, cleared)
  {
    var x := a.tensors[q];
    var name := DequantizedName(x);
    if name in a.registry {
      return Err(Assertion("dequantized tensor name already registered"));
    }
    var ft := |a.tensors|;
    var op := |a.ops|;
    var b := PushPair(a, Derived(x, name, Dtypes.OnnxFloat, x.layout), key, name, q);
    var rw := RewireConsumers(b, q, ft, x.consumers);
    if rw.Err? {
      return Err(rw.error);
    }
    var c := rw.value;
    var d := AddProducerAt(c, ft, op).value;
    var e := if cleared then OnlyConsumer(d, q, op) else AddConsumerAt(d, q, op).value;
    return Ok((e, ft, op));
  }

  /** `createDequantize(qtensor, pre_op)` as written: the new tensor is registered under the
      name of `q`, and the former consumers of `q` stay on its list. */
  method CreateDequantizeAsWritten(a: Arena, q: TensorId) returns (r: Result<(Arena, TensorId, OpId)>)
    requires Valid(a) && q < |a.tensors|
    ensures r.Ok? <==> && DequantizedName(a.tensors[q]) !in a.registry && NoDup(a.tensors[q].consumers)
                       && forall c | c in a.tensors[q].consumers :: q in a.ops[c].inputs
    ensures r.Ok? ==> var (b, ft, op) := r.value;
              && ft == |a.tensors| && op == |a.ops| && Valid(b)
              && DequantizeSpliced(a, b, q, a.tensors[q].name, false)
  {
    r := SpliceDequantize(a, q, a.tensors[q].name, false);
  }

  /** `createDequantize(qtensor, pre_op)` as intended: the new tensor is registered under its
      own name, and `q` is read by the new operator alone. */
  method CreateDequantize(a: Arena, q: TensorId) returns (r: Result<(Arena, TensorId, OpId)>)
    requires Valid(a) && q < |a.tensors|
    ensures r.Ok? <==> && DequantizedName(a.tensors[q]) !in a.registry && NoDup(a.tensors[q].consumers)
                       && forall c | c in a.tensors[q].consumers :: q in a.ops[c].inputs
    ensures r.Ok? ==> var (b, ft, op) := r.value;
              && ft == |a.tensors| && op == |a.ops| && Valid(b)
              && DequantizeSpliced(a, b, q, DequantizedName(a.tensors[q]), true)
  {
    r := SpliceDequantize(a, q, DequantizedName(a.tensors[q]), true);
  }

  /** As written, the name of `q` now finds the new tensor, which is called otherwise, and
      the freshness check of a second splice behind `q` passes again. */
  lemma {:induction false} RegistryMisnamed(a: Arena, b: Arena, q: TensorId)
    requires Valid(a) && q < |a.tensors| && DequantizedName(a.tensors[q]) !in a.registry
    requires DequantizeSpliced(a, b, q, a.tensors[q].name, false) && Valid(b)
    ensures !NamesAgree(b)
    ensures DequantizedName(a.tensors[q]) !in b.registry
  {
    var x := a.tensors[q];
    assert |DequantizedName(x)| != |x.name|;
    assert b.tensors[b.registry[x.name]].name == DequantizedName(x);
  }

  /** As intended, registered names keep naming their tensors, and a second splice behind
      `q` fails its freshness check. */
  lemma {:induction false} DequantizeKeepsNames(a: Arena, b: Arena, q: TensorId)
    requires Valid(a) && NamesAgree(a) && q < |a.tensors|
    requires DequantizeSpliced(a, b, q, DequantizedName(a.tensors[q]), true) && Valid(b)
    ensures NamesAgree(b)
    ensures DequantizedName(a.tensors[q]) in b.registry
  {
    forall n | n in b.registry
      ensures b.tensors[b.registry[n]].name == n
    {
      if n != DequantizedName(a.tensors[q]) {
        assert a.tensors[a.registry[n]].name == n;
      }
    }
  }

  /** As written, a former consumer of `q` that read it once no longer reads it but is still
      listed as its consumer. */
  lemma {:induction false} StaleConsumers(a: Arena, b: Arena, q: TensorId, c: OpId)
    requires Valid(a) && q < |a.tensors| && c in a.tensors[q].consumers && Once(a.ops[c].inputs, q)
    requires DequantizeSpliced(a, b, q, a.tensors[q].name, false) && Valid(b)
    ensures c in b.tensors[q].consumers && q !in b.ops[c].inputs
    ensures !Mutual(b)
  {
    var x := a.tensors[q];
    ReplaceFirstKeeps(a.ops[c].inputs, q, |a.tensors|);
    assert b.tensors[q].consumers == x.consumers + [|a.ops|];
  }

  /** As intended, a dequantize splice keeps a consistent arena consistent, when every
      consumer of `q` reads it once. */
  lemma {:induction false} DequantizeKeepsMutual(a: Arena, b: Arena, q: TensorId, key: string)
    requires Valid(a) && Mutual(a) && q < |a.tensors|
    requires forall c | c in a.tensors[q].consumers :: Once(a.ops[c].inputs, q)
    requires DequantizeSpliced(a, b, q, key, true) && Valid(b)
    ensures Mutual(b)
  {
    DequantizedInputsConsumed(a, b, q, key);
    DequantizedOutputsProduced(a, b, q, key);
    DequantizedConsumersRead(a, b, q, key);
    DequantizedProducersWritten(a, b, q, key);
  }

  lemma {:induction false} DequantizedInputsConsumed(a: Arena, b: Arena, q: TensorId, key: string)
    requires Valid(a) && Mutual(a) && q < |a.tensors|
    requires forall c | c in a.tensors[q].consumers :: Once(a.ops[c].inputs, q)
    requires DequantizeSpliced(a, b, q, key, true) && Valid(b)
    ensures forall o, t | 0 <= o < |b.ops| && t in b.ops[o].inputs :: o in b.tensors[t].consumers
  {
    var x := a.tensors[q];
    var ft := |a.tensors|;
    forall o, t | 0 <= o < |b.ops| && t in b.ops[o].inputs
      ensures o in b.tensors[t].consumers
    {
      if o == |a.ops| {
        assert t == q;
      } else if o in x.consumers {
        ReplaceMembers(a.ops[o].inputs, q, ft);
        ReplaceFirstKeeps(a.ops[o].inputs, q, ft);
        if t != ft {
          assert t in a.ops[o].inputs && t != q;
        }
      } else {
        assert t in a.ops[o].inputs;
        assert t != q;
      }
    }
  }

  lemma {:induction false} DequantizedOutputsProduced(a: Arena, b: Arena, q: TensorId, key: string)
    requires Valid(a) && Mutual(a) && q < |a.tensors|
    requires forall c | c in a.tensors[q].consumers :: Once(a.ops[c].inputs, q)
    requires DequantizeSpliced(a, b, q, key, true) && Valid(b)
    ensures forall o, t | 0 <= o < |b.ops| && t in b.ops[o].outputs :: o in b.tensors[t].producers
  {
    forall o, t | 0 <= o < |b.ops| && t in b.ops[o].outputs
      ensures o in b.tensors[t].producers
    {
      if o < |a.ops| {
        assert t in a.ops[o].outputs;
      }
    }
  }

  lemma {:induction false} DequantizedConsumersRead(a: Arena, b: Arena, q: TensorId, key: string)
    requires Valid(a) && Mutual(a) && q < |a.tensors|
    requires forall c | c in a.tensors[q].consumers :: Once(a.ops[c].inputs, q)
    requires DequantizeSpliced(a, b, q, key, true) && Valid(b)
    ensures forall t, o | 0 <= t < |b.tensors| && o in b.tensors[t].consumers :: t in b.ops[o].inputs
  {
    var x := a.tensors[q];
    var ft := |a.tensors|;
    forall t, o | 0 <= t < |b.tensors| && o in b.tensors[t].consumers
      ensures t in b.ops[o].inputs
    {
      if t == ft {
        assert o in x.consumers;
        var s := a.ops[o].inputs;
        assert ReplaceFirst(s, q, ft)[FirstIndex(s, q)] == ft;
      } else if t != q {
        assert o in a.tensors[t].consumers;
        assert t in a.ops[o].inputs;
        if o in x.consumers {
          ReplaceFirstKeeps(a.ops[o].inputs, q, ft);
        }
      }
    }
  }

  lemma {:induction false} DequantizedProducersWritten(a: Arena, b: Arena, q: TensorId, key: string)
    requires Valid(a) && Mutual(a) && q < |a.tensors|
    requires forall c | c in a.tensors[q].consumers :: Once(a.ops[c].inputs, q)
    requires DequantizeSpliced(a, b, q, key, true) && Valid(b)
    ensures forall t, o | 0 <= t < |b.tensors| && o in b.tensors[t].producers :: t in b.ops[o].outputs
  {
    forall t, o | 0 <= t < |b.tensors| && o in b.tensors[t].producers
      ensures t in b.ops[o].outputs
    {
      if t < |a.tensors| {
        assert o in a.tensors[t].producers;
      }
    }
  }

  /** The first occurrence of `x` in `s + t` is its first occurrence in `s`, when it
      occurs there. */
  lemma {:induction false} FirstIndexOfPrefix<T>(s: seq<T>, t: seq<T>, x: T)
    requires x in s
    ensures FirstIndex(s + t, x) == FirstIndex(s, x)
  {
    if s[0] != x {
      assert (s + t)[1..] == s[1..] + t;
      FirstIndexOfPrefix(s[1..], t, x);
    }
  }
}

=== FILE: reduce.dfy ===
/** The MEAN converter (tflite2onnx/op/reduce.py): a ReduceMean whose "axes" are read
    from the constant second input, keeping the reduced dimensions exactly when the output
    has the rank of the input. Layouts do not propagate across it; when its input has one,
    the axes are remapped by it. */
module ReduceOp {
  import opened Wrappers
  import opened Lifecycle
  import opened Layouts
  import opened Tensors
  import opened Operators
  import opened Ir
  import opened OpCommon
  import opened Factory
  import opened Axes
  import Tflite

  /** `Reduce.parse()`: a MEAN with the data and the axes constant as inputs and one
      output. Only the data input becomes an input of the operator. */
  method ParseReduce(a: Arena, g: Tflite.Subgraph, o: OpId) returns (r: Result<Arena>)
    requires Valid(a) && o < |a.ops|
    ensures r.Ok? ==> 0 <= a.ops[o].index < |g.operators|
    ensures r.Ok? ==> var e := g.operators[a.ops[o].index];
              && e.opcode == Tflite.MEAN && |e.inputs| == 2 && |e.outputs| == 1
              && IntData(g, e.inputs[1]).Ok?
    ensures r.Ok? ==> var e := g.operators[a.ops[o].index];
              var b := r.value;
              && Valid(b) && |b.ops| == |a.ops| && b.ops[o].status == Parsed
              && |b.ops[o].inputs| == |a.ops[o].inputs| + 1 && |b.ops[o].outputs| == |a.ops[o].outputs| + 1
              && var it := b.tensors[InputOf(b, o, |a.ops[o].inputs|)];
                 var ot := b.tensors[OutputOf(b, o, |a.ops[o].outputs|)];
                 && b.ops[o].attrs == a.ops[o].attrs["axes" := DataAttr(IntData(g, e.inputs[1]).value)]
                                                    ["keepdims" := AInt(if |ot.shape| == |it.shape| then 1 else 0)]
    ensures r.Ok? ==> ReadsInputs(a, r.value, g, o, 1) && WritesOutputs(a, r.value, g, o, 1)
  {
    var re := OpEntry(g, a.ops[o]);
    if re.Err? {
      return Err(re.error);
    }
    var e := re.value;
    if e.opcode != Tflite.MEAN {
      return Err(Assertion("opcode is not MEAN"));
    }
    if |e.inputs| != 2 {
      return Err(Assertion("Reduce takes two inputs"));
    }
    if |e.outputs| != 1 {
      return Err(Assertion("Reduce has one output"));
    }
    var rio := ParseInputOutput(a, g, o);
    if rio.Err? {
      return Err(rio.error);
    }
    var (b, it, ot) := rio.value;
    var rd := IntData(g, e.inputs[1]);
    if rd.Err? {
      return Err(rd.error);
    }
    var keep := if |b.tensors[ot].shape| == |b.tensors[it].shape| then 1 else 0;
    var c := SetAttr(SetAttr(b, o, "axes", DataAttr(rd.value)), o, "keepdims", AInt(keep));
    r := SetOpParsed(c, o);
    if r.Ok? {
      ReadsWritesKept(a, b, r.value, g, o, 1, 1);
    }
  }

  /** `Reduce.transform()` with each negative axis normalized by itself: without a layout
      on the data input nothing changes; otherwise every axis is remapped by that layout.
      Axes never read (`None`) cannot be iterated, a TypeError. */
  function TransformReduce(a: Arena, o: OpId): (r: Result<Arena>)
    requires Valid(a) && o < |a.ops|
    ensures |a.ops[o].inputs| == 0 ==> r.Err?
    ensures |a.ops[o].inputs| > 0 && a.tensors[InputOf(a, o, 0)].layout.None? ==> r == Ok(a)
    ensures |a.ops[o].inputs| > 0 && a.tensors[InputOf(a, o, 0)].layout.Some? ==>
              var l := a.tensors[InputOf(a, o, 0)].layout.value;
              var attrs := a.ops[o].attrs;
              && (r.Ok? <==> "axes" in attrs && attrs["axes"].AInts? && RemapAxes(attrs["axes"].v, l).Ok?)
              && (r.Ok? ==> r.value == a.(ops := a.ops[o := a.ops[o].(attrs := attrs["axes" := AInts(RemapAxes(attrs["axes"].v, l).value)])]))
  {
    if |a.ops[o].inputs| == 0 then Err(Assertion("list index out of range")) else
    var layout := a.tensors[InputOf(a, o, 0)].layout;
    if layout.None? then Ok(a)
    else
      :- Need("axes" in a.ops[o].attrs && a.ops[o].attrs["axes"].AInts?, "axes attribute is not a list of integers");
      var axes :- RemapAxes(a.ops[o].attrs["axes"].v, layout.value);
      Ok(SetAttr(a, o, "axes", AInts(axes)))
  }

  /** After the transformation each entry of "axes" names, in the input's target order,
      the axis the original entry named in its source order. */
  lemma ReducedAxesFollowInput(a: Arena, o: OpId)
    requires Valid(a) && o < |a.ops| && |a.ops[o].inputs| > 0
    requires "axes" in a.ops[o].attrs && a.ops[o].attrs["axes"].AInts?
    requires var x := a.tensors[InputOf(a, o, 0)];
             && x.layout.Some? && SameAxes(x.layout.value.source, x.layout.value.target)
             && forall k | 0 <= k < |a.ops[o].attrs["axes"].v| ::
                  -|x.layout.value.source| <= a.ops[o].attrs["axes"].v[k] < |x.layout.value.source|
    ensures TransformReduce(a, o).Ok?
    ensures var l := a.tensors[InputOf(a, o, 0)].layout.value;
            var axes := a.ops[o].attrs["axes"].v;
            var after := TransformReduce(a, o).value.ops[o].attrs["axes"];
            && after.AInts? && |after.v| == |axes|
            && forall k | 0 <= k < |axes| ::
                 0 <= after.v[k] < |l.target| && l.target[after.v[k]] == l.source[Normalize(axes[k], |l.source|)]
  {
    var l := a.tensors[InputOf(a, o, 0)].layout.value;
    RemapAxesMeaning(a.ops[o].attrs["axes"].v, l);
  }

  // ---------------------------------------------------------------- the transform as written

  /** One element of the list the transform builds, as written: a non-negative axis is
      kept, but a negative one is replaced by the whole axes array shifted by the rank. */
  datatype Entry = Kept(axis: int) | Shifted(all: seq<int>)

  function EntriesAsWritten(axes: seq<int>, rank: nat): (r: seq<Entry>)
    ensures |r| == |axes|
    ensures forall k | 0 <= k < |axes| :: r[k] == if axes[k] >= 0 then Kept(axes[k]) else Shifted(Shift(axes, rank))
  {
    seq(|axes|, k requires 0 <= k < |axes| => if axes[k] >= 0 then Kept(axes[k]) else Shifted(Shift(axes, rank)))
  }

  /** numpy's `axes + rank`: every element shifted. */
  function Shift(axes: seq<int>, rank: nat): (r: seq<int>)
    ensures |r| == |axes| && forall k | 0 <= k < |axes| :: r[k] == axes[k] + rank
  {
    seq(|axes|, k requires 0 <= k < |axes| => axes[k] + rank)
  }

  /** `perm.index(entry)`: an array entry compares elementwise, which decides the search
      only when the array has a single element; a longer one is a ValueError ("the truth
      value of an array with more than one element is ambiguous"). */
  function IndexAsWritten(perm: seq<nat>, x: Entry): (r: Result<nat>)
  {
    match x
    case Kept(v) => Seqs.Index(perm, v)
    case Shifted(all) =>
      if |all| == 1 then Seqs.Index(perm, all[0])
      else Err(BadValue("truth value of an array is ambiguous"))
  }

  function IndicesAsWritten(perm: seq<nat>, xs: seq<Entry>): (r: Result<seq<nat>>)
    ensures r.Ok? ==> |r.value| == |xs|
  {
    if |xs| == 0 then Ok([])
    else
      var head :- IndexAsWritten(perm, xs[0]);
      var tail :- IndicesAsWritten(perm, xs[1..]);
      Ok([head] + tail)
  }

  /** The axes as `Reduce.transform()` writes them: `axes + len(layout.perm)` shifts the
      whole array instead of the one negative axis. */
  function RemapAxesAsWritten(axes: seq<int>, l: Layout): (r: Result<seq<nat>>)
  {
    if |axes| == 0 then Ok([])
    else
      var perm :- l.Perm();
      IndicesAsWritten(perm, EntriesAsWritten(axes, |perm|))
  }

  /** The two definitions agree whenever no axis is negative, and also for a single
      negative axis, whose one-element array compares like its element. */
  lemma {:induction false} AsWrittenAgrees(axes: seq<int>, l: Layout)
    requires (forall k | 0 <= k < |axes| :: axes[k] >= 0) || |axes| == 1
    ensures RemapAxesAsWritten(axes, l) == RemapAxes(axes, l)
  {
    if l.Perm().Ok? {
      var perm := l.Perm().value;
      AgreesFrom(axes, perm, l, |perm|);
    }
  }

  lemma {:induction false} AgreesFrom(axes: seq<int>, perm: seq<nat>, l: Layout, rank: nat)
    requires l.Perm() == Ok(perm) && rank == |perm|
    requires (forall k | 0 <= k < |axes| :: axes[k] >= 0) || |axes| == 1
    ensures IndicesAsWritten(perm, EntriesAsWritten(axes, rank)) == RemapAxes(axes, l)
    decreases |axes|
  {
    if |axes| > 0 {
      var xs := EntriesAsWritten(axes, rank);
      assert IndexAsWritten(perm, xs[0]) == RemapAxis(axes[0], l);
      if |axes| == 1 {
        assert xs[1..] == [];
        assert axes[1..] == [];
      } else {
        assert xs[1..] == EntriesAsWritten(axes[1..], rank);
        AgreesFrom(axes[1..], perm, l, rank);
      }
    }
  }

  lemma PermNhwcToNchw()
    ensures NewLayout("NHWC", "NCHW").Perm() == Ok([0, 3, 1, 2])
  {
    assert LastIndex("NHWC", 'N') == 0 && LastIndex("NHWC", 'C') == 3;
    assert LastIndex("NHWC", 'H') == 1 && LastIndex("NHWC", 'W') == 2;
    assert Layouts.Perm("NHWC", "NCHW") == [0, 3, 1, 2];
  }

  /** Two axes of which one is negative: the source raises a ValueError on a layout from
      NHWC to NCHW, where the evident intent maps `[-1, 1]` (C and H) to `[1, 2]`. */
  lemma NegativeAxisAmongSeveral()
    ensures RemapAxesAsWritten([-1, 1], NewLayout("NHWC", "NCHW")).Err?
    ensures RemapAxes([-1, 1], NewLayout("NHWC", "NCHW")) == Ok([1, 2])
  {
    PermNhwcToNchw();
    AsWrittenFailsOnNhwc();
    IntendedOnNhwc();
  }

  lemma AsWrittenFailsOnNhwc()
    requires NewLayout("NHWC", "NCHW").Perm() == Ok([0, 3, 1, 2])
    ensures RemapAxesAsWritten([-1, 1], NewLayout("NHWC", "NCHW")).Err?
  {
    var xs := EntriesAsWritten([-1, 1], 4);
    assert xs[0] == Shifted([3, 5]);
  }

  lemma IntendedOnNhwc()
    requires NewLayout("NHWC", "NCHW").Perm() == Ok([0, 3, 1, 2])
    ensures RemapAxes([-1, 1], NewLayout("NHWC", "NCHW")) == Ok([1, 2])
  {
    var l := NewLayout("NHWC", "NCHW");
    var perm: seq<nat> := [0, 3, 1, 2];
    assert Seqs.FirstIndex(perm, 3) == 1;
    assert Seqs.FirstIndex(perm, 1) == 2;
    assert RemapAxis(-1, l) == Ok(1);
    assert RemapAxis(1, l) == Ok(2);
    var axes := [-1, 1];
    assert axes[0] == -1 && axes[1] == 1;
    var r := RemapAxes(axes, l);
    assert r.value == [1, 2];
  }

}

=== FILE: reshape.dfy ===
/** The RESHAPE converter (tflite2onnx/op/reshape.py), which also serves as the helper
    that fake broadcasting inserts before a binary operator. The new shape is the second
    input, a constant converted to int64; a helper Reshape reorders that constant by the
    layout of its output when layouts are transformed. */
module ReshapeOp {
  import opened Wrappers
  import opened Lifecycle
  import opened Layouts
  import opened Payload
  import opened Tensors
  import opened Operators
  import opened Ir
  import opened OpCommon
  import Tflite
  import Dtypes

  /** The data input and the shape input of `Reshape.parse()`. The shape tensor is
      obtained as a bias, must carry data, and gets the int64 type with its data
      converted element by element. */
  method ReadReshapeInputs(a: Arena, g: Tflite.Subgraph, o: OpId) returns (r: Result<(Arena, TensorId, TensorId)>)
    requires Valid(a) && o < |a.ops|
    ensures r.Ok? ==> var (b, it, st) := r.value;
              && Valid(b) && it < |b.tensors| && st < |b.tensors| && |b.tensors| >= |a.tensors|
              && b.ops == a.ops[o := a.ops[o].(inputs := a.ops[o].inputs + [it, st])]
              && KeepsNames(a, b) && InputIs(b, g, a.ops[o].index, 0, it) && InputIs(b, g, a.ops[o].index, 1, st)
              && b.tensors[st].status == Parsed && b.tensors[st].dtype == Some(Dtypes.OnnxInt64)
              && IsInitializer(b.tensors[st])
  {
    var ri := ParseInput(a, g, o, 0, None, false);
    if ri.Err? {
      return Err(ri.error);
    }
    var (b, it) := ri.value;
    var rs := ParseInput(b, g, o, 1, None, true);
    if rs.Err? {
      return Err(rs.error);
    }
    var (c, st) := rs.value;
    assert KeepsParsed(b, c);
    var x := c.tensors[st];
    if !IsInitializer(x) {
      return Err(TypeMismatch("'NoneType' object has no attribute 'astype'"));
    }
    var y := AsDtype(x, Dtypes.Int64).value;
    assert a.ops[o].inputs + [it] + [st] == a.ops[o].inputs + [it, st];
    return Ok((UpdateTensor(c, st, y), it, st));
  }

  /** `Reshape.parse()`: a RESHAPE with the data and the new shape as inputs and one
      output. */
  method ParseReshape(a: Arena, g: Tflite.Subgraph, o: OpId) returns (r: Result<Arena>)
    requires Valid(a) && o < |a.ops|
    ensures r.Ok? ==> 0 <= a.ops[o].index < |g.operators|
    ensures r.Ok? ==> var e := g.operators[a.ops[o].index];
              e.opcode == Tflite.RESHAPE && |e.inputs| == 2 && |e.outputs| == 1
    ensures r.Ok? ==> var b := r.value;
              && Valid(b) && |b.ops| == |a.ops| && b.ops[o].status == Parsed
              && |b.ops[o].inputs| == |a.ops[o].inputs| + 2
              && |b.ops[o].outputs| == |a.ops[o].outputs| + 1
    ensures r.Ok? ==> var b := r.value;
              var st := b.ops[o].inputs[|a.ops[o].inputs| + 1];
              st < |b.tensors| && b.tensors[st].dtype == Some(Dtypes.OnnxInt64) && IsInitializer(b.tensors[st])
    ensures r.Ok? ==> ReadsInputs(a, r.value, g, o, 2) && WritesOutputs(a, r.value, g, o, 1)
                      && r.value.ops[o].attrs == a.ops[o].attrs
  {
    var re := OpEntry(g, a.ops[o]);
    if re.Err? {
      return Err(re.error);
    }
    var e := re.value;
    if e.opcode != Tflite.RESHAPE {
      return Err(Assertion("opcode is not RESHAPE"));
    }
    if |e.inputs| != 2 {
      return Err(Assertion("Reshape takes two inputs"));
    }
    if |e.outputs| != 1 {
      return Err(Assertion("Reshape has one output"));
    }
    var ri := ReadReshapeInputs(a, g, o);
    if ri.Err? {
      return Err(ri.error);
    }
    var (b, it, st) := ri.value;
    var ro := ParseOutput(b, g, o, 0, None);
    if ro.Err? {
      return Err(ro.error);
    }
    var (c, ot) := ro.value;
    assert KeepsParsed(b, c);
    assert c.tensors[st].dtype == b.tensors[st].dtype && c.tensors[st].data == b.tensors[st].data;
    assert InputIs(c, g, a.ops[o].index, 0, it) && InputIs(c, g, a.ops[o].index, 1, st);
    assert c.ops[o].inputs == a.ops[o].inputs + [it, st];
    AppendedReads(a, c, g, o, [it, st]);
    AppendedWrites(a, c, g, o, [ot]);
    r := SetOpParsed(c, o);
    if r.Ok? {
      ReadsWritesKept(a, c, r.value, g, o, 2, 1);
    }
  }

  /** `Reshape.transform()`: a Reshape from the model is left alone. A helper Reshape of
      fake broadcasting changes rank; its shape constant is reordered by the layout of
      its output, which must have one. */
  function TransformReshape(a: Arena, o: OpId): (r: Result<Arena>)
    requires Valid(a) && o < |a.ops| && a.ops[o].kind.Reshape?
    ensures !a.ops[o].kind.forFakeBroadcasting ==> r == Ok(a)
    ensures a.ops[o].kind.forFakeBroadcasting ==>
              (r.Ok? <==> && |a.ops[o].inputs| >= 2 && |a.ops[o].outputs| >= 1
                          && |a.tensors[InputOf(a, o, 0)].shape| != |a.tensors[OutputOf(a, o, 0)].shape|
                          && a.tensors[OutputOf(a, o, 0)].layout.Some?
                          && a.tensors[InputOf(a, o, 1)].data.Some?
                          && var l := a.tensors[OutputOf(a, o, 0)].layout.value;
                             Transform(a.tensors[InputOf(a, o, 1)].data.value, l.source, l.target).Ok?)
    ensures a.ops[o].kind.forFakeBroadcasting && r.Ok? ==>
              var st := InputOf(a, o, 1);
              var l := a.tensors[OutputOf(a, o, 0)].layout.value;
              && Valid(r.value) && r.value.ops == a.ops && r.value.registry == a.registry
              && r.value.tensors == a.tensors[st := a.tensors[st].(data := Some(Transform(a.tensors[st].data.value, l.source, l.target).value))]
  {
    if !a.ops[o].kind.forFakeBroadcasting then Ok(a)
    else
      :- Need(|a.ops[o].inputs| >= 2 && |a.ops[o].outputs| >= 1, "list index out of range");
      var i := InputOf(a, o, 0);
      var out := OutputOf(a, o, 0);
      :- Need(|a.tensors[i].shape| != |a.tensors[out].shape|, "fake broadcasting Reshape keeps the rank");
      var st := InputOf(a, o, 1);
      :- Need(a.tensors[out].layout.Some?, "Requires layout description");
      var l := a.tensors[out].layout.value;
      :- Need(a.tensors[st].data.Some?, "shape constant without data");
      var applied :- l.Apply(a.tensors[st].data.value);
      Ok(UpdateTensor(a, st, a.tensors[st].(data := Some(applied.0))))
  }

  /** Reordering commutes with reading integers as payload values. */
  lemma TransformFromInts(s: seq<int>, src: string, tgt: string)
    ensures Transform(FromInts(s), src, tgt).Ok? <==> Transform(s, src, tgt).Ok?
    ensures Transform(s, src, tgt).Ok? ==> Transform(FromInts(s), src, tgt).value == FromInts(Transform(s, src, tgt).value)
  {
    if src != tgt && Transform(s, src, tgt).Ok? {
      var x := Transform(FromInts(s), src, tgt).value;
      var y := FromInts(Transform(s, src, tgt).value);
      assert |x| == |y|;
      assert forall i | 0 <= i < |x| :: x[i] == y[i];
    }
  }

  /** The shape constant of a fake broadcasting Reshape follows its output: when it holds
      a shape `s`, transforming the Reshape leaves it holding `s` reordered by the
      output's layout, the very shape the output itself gets when it is transformed. */
  lemma {:induction false} ShapeFollowsOutput(a: Arena, o: OpId, s: seq<int>)
    requires Valid(a) && o < |a.ops| && a.ops[o].kind == Reshape(true)
    requires |a.ops[o].inputs| >= 2 && |a.ops[o].outputs| >= 1
    requires a.tensors[InputOf(a, o, 1)].data == Some(FromInts(s))
    requires var out := a.tensors[OutputOf(a, o, 0)];
             out.shape == s && TransformTensor(out).Ok?
    requires |a.tensors[InputOf(a, o, 0)].shape| != |s|
    ensures TransformReshape(a, o).Ok?
    ensures var st := InputOf(a, o, 1);
            TransformReshape(a, o).value.tensors[st].data == Some(FromInts(TransformTensor(a.tensors[OutputOf(a, o, 0)]).value.shape))
  {
    var out := a.tensors[OutputOf(a, o, 0)];
    var l := out.layout.value;
    TransformFromInts(s, l.source, l.target);
  }
}

=== FILE: resize.dfy ===
/** The RESIZE_BILINEAR and RESIZE_NEAREST_NEIGHBOR converter (tflite2onnx/op/resize.py): an
    ONNX Resize reading the image, two empty placeholders for the region of interest and
    the scales, and the target sizes, widened from (height, width) to the rank of the
    image. Layouts do not propagate across it and its transformation changes nothing. */
module ResizeOp {
  import opened Wrappers
  import opened Payload
  import opened Lifecycle
  import opened Tensors
  import opened Operators
  import opened Ir
  import opened OpCommon
  import Tflite
  import Dtypes
  import Factory

  /** The ONNX operator type, in every state. */
  function ResizeType(op: Operator): (r: string)
    ensures r == "Resize"
  {
    "Resize"
  }

  /** The opcodes the converter is meant to accept. */
  predicate IsResize(opcode: int) {
    opcode == Tflite.RESIZE_BILINEAR || opcode == Tflite.RESIZE_NEAREST_NEIGHBOR
  }

  /** The opcode assertion as written: `opcode is RESIZE_BILINEAR or RESIZE_NEAREST_NEIGHBOR`
      tests the second constant on its own, which is not zero. */
  function OpcodeCheckAsWritten(opcode: int): bool {
    opcode == Tflite.RESIZE_BILINEAR || Tflite.RESIZE_NEAREST_NEIGHBOR != 0
  }

  /** The assertion as written lets every opcode through, ADD among them. */
  lemma OpcodeCheckAcceptsAll(opcode: int)
    ensures OpcodeCheckAsWritten(opcode)
    ensures OpcodeCheckAsWritten(Tflite.ADD) && !IsResize(Tflite.ADD)
  {
  }

  /** The attributes `parse` overrides: linear interpolation for a bilinear resize, and the
      align_corners coordinate mapping when the options ask for it. */
  function ResizeOverrides(bilinear: bool, alignCorners: bool): (r: map<string, Attr>)
    ensures "mode" in r <==> bilinear
    ensures "coordinate_transformation_mode" in r <==> alignCorners
    ensures r.Keys <= {"mode", "coordinate_transformation_mode"}
  {
    var m := if bilinear then map["mode" := AText("linear")] else map[];
    if alignCorners then m["coordinate_transformation_mode" := AText("align_corners")] else m
  }

  /** On a freshly built Resize the interpolation is linear exactly for a bilinear resize
      and nearest otherwise, the coordinate mapping is align_corners exactly when asked and
      half_pixel otherwise, and the other defaults stay. */
  lemma {:induction false} ResizeModes(index: int, bilinear: bool, alignCorners: bool)
    ensures var m := NewOperator(Resize, index).attrs + ResizeOverrides(bilinear, alignCorners);
            && m.Keys == InitialAttrs(Resize).Keys
            && m["mode"] == AText(if bilinear then "linear" else "nearest")
            && m["coordinate_transformation_mode"] == AText(if alignCorners then "align_corners" else "half_pixel")
            && m["nearest_mode"] == AText("round_prefer_floor") && m["exclude_outside"] == AInt(0)
  {
    var m := NewOperator(Resize, index).attrs + ResizeOverrides(bilinear, alignCorners);
    assert "mode" in m && "coordinate_transformation_mode" in m;
    if bilinear {
      assert m["mode"] == AText("linear");
    } else {
      assert m["mode"] == InitialAttrs(Resize)["mode"];
    }
  }

  /** The sizes input widened to the rank of the image: the image's first and last
      dimension (batch and channels, the image being channels-last still) before the two
      target sizes. Sizes without data fail like `len(None)`; other than two sizes, or an
      image not of rank four, fail the assertions. */
  function ExtendSizes(imageShape: seq<int>, sizes: Option<seq<Num>>): (r: Result<seq<Num>>)
    ensures r.Ok? <==> sizes.Some? && |sizes.value| == 2 && |imageShape| == 4
    ensures r.Ok? ==> |r.value| == 4 && r.value[2..] == sizes.value
                      && r.value[0] == Int(imageShape[0]) && r.value[1] == Int(imageShape[3])
  {
    if sizes.None? then Err(TypeMismatch("object of type 'NoneType' has no len()"))
    else if |sizes.value| != 2 then Err(Assertion("sizes holds two elements"))
    else if |imageShape| != 4 then Err(Assertion("image of rank four"))
    else Ok([Int(imageShape[0]), Int(imageShape[|imageShape| - 1])] + sizes.value)
  }

  /** The TFLite tensor `x` is not registered yet, or registered and already parsed: what
      `parseInput` then hands over is its buffer, or the data that object already holds. */
  predicate SizesSettled(a: Arena, g: Tflite.Subgraph, x: int)
    requires Valid(a) && 0 <= x < |g.tensors|
  {
    g.tensors[x].name in a.registry ==> a.tensors[a.registry[g.tensors[x].name]].status == Parsed
  }

  /** The sizes as `parseInput(1)` hands them over for the TFLite tensor `x`: the data of
      the object already registered under its name, else the tensor's own buffer. */
  function SizesRead(a: Arena, g: Tflite.Subgraph, x: int): Option<seq<Num>>
    requires Valid(a) && 0 <= x < |g.tensors|
  {
    var n := g.tensors[x].name;
    if n in a.registry then a.tensors[a.registry[n]].data else g.tensors[x].buffer
  }

  /** `sz` holds the sizes `read`, widened against the image shape: an int64 vector of shape
      `[4]` whose contents are batch, channels and the two sizes. */
  predicate Widened(b: Arena, sz: TensorId, imageShape: seq<int>, read: Option<seq<Num>>)
    requires sz < |b.tensors|
  {
    && b.tensors[sz].shape == [4] && b.tensors[sz].dtype == Some(Dtypes.OnnxInt64)
    && ExtendSizes(imageShape, read).Ok?
    && b.tensors[sz].data == Some(ExtendSizes(imageShape, read).value)
  }

  /** The name of the empty float32 vector standing for the region of interest and the
      scales. */
  function PlaceholderName(): string {
    Factory.VectorName(Dtypes.Float32, [])
  }

  /** Dropping the extra argument alone is not enough: `np.array([])` holds float64, a type
      the dtype table lacks, so a first empty vector of that type fails the lookup. */
  lemma Float64VectorFails(a: Arena)
    requires Valid(a)
    requires "TFLITE2ONNX_Vector_float64_" + Factory.Render([]) !in a.registry
    ensures Factory.CreateVector(a, Dtypes.Other("float64"), []).Err?
  {
    var name := Factory.VectorName(Dtypes.Other("float64"), []);
    assert name == "TFLITE2ONNX_Vector_float64_" + Factory.Render([]);
    assert Factory.CreateVector(a, Dtypes.Other("float64"), []) == Factory.Constant(a, name, Dtypes.Other("float64"), FromInts([]), [0]);
  }

  /** `createVector(np.array([], dtype='float32'))` followed by `parse()`: the empty vector,
      built once and shared by name. */
  method Placeholder(a: Arena) returns (r: Result<(Arena, TensorId)>)
    requires Valid(a)
    ensures PlaceholderName() !in a.registry ==> r.Ok?
    ensures r.Ok? ==> var (b, h) := r.value;
              && Valid(b) && h < |b.tensors| && |b.tensors| >= |a.tensors| && b.ops == a.ops
              && b.registry == a.registry[PlaceholderName() := h] && b.tensors[h].status == Parsed
              && b.tensors[h].consumers == (if h < |a.tensors| then a.tensors[h].consumers else [])
              && (forall u | 0 <= u < |a.tensors| && u != h :: b.tensors[u] == a.tensors[u])
              && (PlaceholderName() in a.registry ==> h == a.registry[PlaceholderName()])
    ensures PlaceholderName() in a.registry && a.tensors[a.registry[PlaceholderName()]].status == Parsed ==>
              r == Ok((a, a.registry[PlaceholderName()]))
    ensures r.Ok? && PlaceholderName() !in a.registry ==> var (b, h) := r.value;
              && h == |a.tensors| && b.tensors[h].data == Some([]) && b.tensors[h].shape == [0]
              && b.tensors[h].dtype == Some(Dtypes.OnnxFloat)
  {
    var rv := Factory.CreateVector(a, Dtypes.Float32, []);
    if rv.Err? {
      return Err(rv.error);
    }
    var (b, h) := rv.value;
    var rp := Factory.ParseAt(b, h);
    if rp.Err? {
      return Err(rp.error);
    }
    if b.tensors[h].status == Parsed {
      assert b.tensors[h := b.tensors[h]] == b.tensors;
    }
    return Ok((rp.value, h));
  }

  /** The two placeholders: the empty vector linked as input of `o`, then appended once
      more, without a second consumer entry, for the scales. Both are the same tensor since
      the factory shares vectors by name. */
  method ReadPlaceholders(a: Arena, o: OpId) returns (r: Result<(Arena, TensorId)>)
    requires Valid(a) && o < |a.ops|
    ensures r.Ok? ==> var (b, h) := r.value;
              && Valid(b) && h < |b.tensors| && |b.tensors| >= |a.tensors|
              && b.ops == a.ops[o := a.ops[o].(inputs := a.ops[o].inputs + [h, h])]
              && b.registry == a.registry[PlaceholderName() := h] && KeepsNames(a, b)
              && o in b.tensors[h].consumers && b.tensors[h].status == Parsed
              && (forall u | 0 <= u < |a.tensors| && u != h :: b.tensors[u] == a.tensors[u])
              && KeepsParsed(a, b)
  {
    var rl := LinkPlaceholder(a, o);
    if rl.Err? {
      return Err(rl.error);
    }
    var (c, h) := rl.value;
    var e := AppendPlaceholder(c, o, h);
    assert a.ops[o].inputs + [h] + [h] == a.ops[o].inputs + [h, h];
    return Ok((e, h));
  }

  /** The first placeholder, linked as input of `o`. */
  method LinkPlaceholder(a: Arena, o: OpId) returns (r: Result<(Arena, TensorId)>)
    requires Valid(a) && o < |a.ops|
    ensures r.Ok? ==> var (c, h) := r.value;
              && Valid(c) && h < |c.tensors| && |c.tensors| >= |a.tensors|
              && c.ops == a.ops[o := a.ops[o].(inputs := a.ops[o].inputs + [h])]
              && c.registry == a.registry[PlaceholderName() := h]
              && (PlaceholderName() in a.registry ==> h == a.registry[PlaceholderName()])
              && o in c.tensors[h].consumers && c.tensors[h].status == Parsed
              && (forall u | 0 <= u < |a.tensors| && u != h :: c.tensors[u] == a.tensors[u])
              && KeepsParsed(a, c)
  {
    var rv := Placeholder(a);
    if rv.Err? {
      return Err(rv.error);
    }
    var (b, h) := rv.value;
    var rl := LinkInput(b, o, h);
    if rl.Err? {
      return Err(rl.error);
    }
    var c := rl.value;
    assert c.tensors == b.tensors[h := b.tensors[h].(consumers := b.tensors[h].consumers + [o])];
    assert c.registry == b.registry;
    return Ok((c, h));
  }

  /** The second placeholder: already built and parsed, so it is only appended to the
      inputs of `o`. */
  method AppendPlaceholder(c: Arena, o: OpId, h: TensorId) returns (e: Arena)
    requires Valid(c) && o < |c.ops| && PlaceholderName() in c.registry && c.registry[PlaceholderName()] == h
    requires h < |c.tensors| && c.tensors[h].status == Parsed
    ensures Valid(e) && e.tensors == c.tensors && e.registry == c.registry
    ensures e.ops == c.ops[o := c.ops[o].(inputs := c.ops[o].inputs + [h])]
  {
    var rs := Placeholder(c);
    var (d, sc) := rs.value;
    e := AppendInput(d, o, sc);
  }

  /** The sizes input, read as the second input of `o` and widened to rank four: shape
      `[4]`, type int64, the image's batch and channel dimensions first. */
  method ReadSizes(a: Arena, g: Tflite.Subgraph, o: OpId, im: TensorId) returns (r: Result<(Arena, TensorId)>)
    requires Valid(a) && o < |a.ops| && im < |a.tensors|
    ensures r.Ok? ==> var (b, sz) := r.value;
              && Valid(b) && sz < |b.tensors| && |b.tensors| >= |a.tensors|
              && b.ops == a.ops[o := a.ops[o].(inputs := a.ops[o].inputs + [sz])]
              && KeepsNames(a, b) && InputIs(b, g, a.ops[o].index, 1, sz)
              && o in b.tensors[sz].consumers
              && b.tensors[sz].shape == [4] && b.tensors[sz].dtype == Some(Dtypes.OnnxInt64)
              && b.tensors[sz].data.Some? && |b.tensors[sz].data.value| == 4
              && (forall u | 0 <= u < |a.tensors| && u != sz :: b.tensors[u] == a.tensors[u])
    ensures r.Ok? ==> var (b, sz) := r.value;
              sz != im ==> && |a.tensors[im].shape| == 4
                           && b.tensors[sz].data.value[..2] == [Int(a.tensors[im].shape[0]), Int(a.tensors[im].shape[3])]
    ensures r.Ok? ==> var (b, sz) := r.value;
              var x := g.operators[a.ops[o].index].inputs[1];
              && b.tensors[sz].status == Parsed
              && (SizesSettled(a, g, x) ==> Widened(b, sz, a.tensors[im].shape, SizesRead(a, g, x)))
  {
    var ri := ParseInput(a, g, o, 1, None, false);
    if ri.Err? {
      return Err(ri.error);
    }
    var (b, sz) := ri.value;
    var x := InputIndex(a, g, o, 1).value;
    if SizesSettled(a, g, x) {
      assert b.tensors[sz].data == SizesRead(a, g, x);
      assert b.tensors[im].shape == a.tensors[im].shape;
    }
    var rs := ExtendSizes(b.tensors[im].shape, b.tensors[sz].data);
    if rs.Err? {
      return Err(rs.error);
    }
    var c := UpdateTensor(b, sz, b.tensors[sz].(data := Some(rs.value), shape := [4], dtype := Some(Dtypes.OnnxInt64)));
    return Ok((c, sz));
  }

  /** `Resize.parse()` as written: the region-of-interest placeholder is asked of the
      factory as `createVector(im, np.array([]))`, one argument more than the factory
      takes, so every parse that gets past the first input fails. */
  method ParseResizeAsWritten(a: Arena, g: Tflite.Subgraph, o: OpId) returns (r: Result<Arena>)
    requires Valid(a) && o < |a.ops|
    ensures r.Err?
  {
    var re := OpEntry(g, a.ops[o]);
    if re.Err? {
      return Err(re.error);
    }
    var e := re.value;
    if !OpcodeCheckAsWritten(e.opcode) {
      return Err(Assertion("opcode is not a resize"));
    }
    if |e.inputs| < 2 {
      return Err(Assertion("Only first two arguments: image and size, are compulsory"));
    }
    if |e.outputs| != 1 {
      return Err(Assertion("Resize has one output"));
    }
    var ri := ParseInput(a, g, o, 0, None, false);
    if ri.Err? {
      return Err(ri.error);
    }
    return Err(TypeMismatch("createVector() takes 2 positional arguments but 3 were given"));
  }

  /** The tensors of a Resize in the order `parse` reads them: the image, the placeholder
      twice, the widened sizes, and the output. */
  method ReadResize(a: Arena, g: Tflite.Subgraph, o: OpId) returns (r: Result<(Arena, TensorId, TensorId, TensorId)>)
    requires Valid(a) && o < |a.ops|
    ensures r.Ok? ==> var (b, im, h, sz) := r.value;
              && Valid(b) && |b.ops| == |a.ops| && |b.ops[o].outputs| == |a.ops[o].outputs| + 1
              && b.ops[o] == a.ops[o].(inputs := a.ops[o].inputs + [im, h, h, sz], outputs := b.ops[o].outputs)
              && PlaceholderName() in b.registry && b.registry[PlaceholderName()] == h
              && InputIs(b, g, a.ops[o].index, 0, im) && InputIs(b, g, a.ops[o].index, 1, sz)
              && WritesOutputs(a, b, g, o, 1)
    ensures r.Ok? ==> var (b, im, h, sz) := r.value;
              var x := g.operators[a.ops[o].index].inputs[1];
              && im < |b.tensors| && sz < |b.tensors|
              && b.tensors[sz].shape == [4] && b.tensors[sz].dtype == Some(Dtypes.OnnxInt64)
              && (sz != im && sz != h && SizesSettled(a, g, x) ==>
                    Widened(b, sz, b.tensors[im].shape, SizesRead(a, g, x)))
  {
    var rm := ReadImage(a, g, o);
    if rm.Err? {
      return Err(rm.error);
    }
    var (c, im, h) := rm.value;
    var rt := ReadSizesOutput(c, g, o, im);
    if rt.Err? {
      return Err(rt.error);
    }
    var (f, sz) := rt.value;
    var x := g.operators[a.ops[o].index].inputs[1];
    if sz != im && sz != h && SizesSettled(a, g, x) {
      SizesSeenAlike(a, c, g, x, g.tensors[g.operators[a.ops[o].index].inputs[0]].name, im, h, sz);
    }
    assert a.ops[o].inputs + [im, h, h] + [sz] == a.ops[o].inputs + [im, h, h, sz];
    return Ok((f, im, h, sz));
  }

  /** The widened sizes, TFLite input 1, then the output, TFLite output 0, read after the
      image `im`. */
  method ReadSizesOutput(c: Arena, g: Tflite.Subgraph, o: OpId, im: TensorId) returns (r: Result<(Arena, TensorId)>)
    requires Valid(c) && o < |c.ops| && im < |c.tensors| && c.tensors[im].status == Parsed
    ensures r.Ok? ==> var (f, sz) := r.value;
              && Valid(f) && |f.ops| == |c.ops| && |f.ops[o].outputs| == |c.ops[o].outputs| + 1
              && f.ops[o] == c.ops[o].(inputs := c.ops[o].inputs + [sz], outputs := f.ops[o].outputs)
              && KeepsNames(c, f) && InputIs(f, g, c.ops[o].index, 1, sz)
              && WritesOutputs(c, f, g, o, 1)
    ensures r.Ok? ==> var (f, sz) := r.value;
              var x := g.operators[c.ops[o].index].inputs[1];
              && im < |f.tensors| && sz < |f.tensors|
              && f.tensors[sz].shape == [4] && f.tensors[sz].dtype == Some(Dtypes.OnnxInt64)
              && (sz != im && SizesSettled(c, g, x) ==> Widened(f, sz, f.tensors[im].shape, SizesRead(c, g, x)))
  {
    var rs := ReadSizes(c, g, o, im);
    if rs.Err? {
      return Err(rs.error);
    }
    var (d, sz) := rs.value;
    var ro := ParseOutput(d, g, o, 0, None);
    if ro.Err? {
      return Err(ro.error);
    }
    var (f, ot) := ro.value;
    var x := g.operators[c.ops[o].index].inputs[1];
    SizesKept(d, f, im, sz, d.tensors[im].shape, SizesRead(c, g, x), sz != im && SizesSettled(c, g, x));
    AppendedWrites(c, f, g, o, [ot]);
    return Ok((f, sz));
  }

  /** Reading the image and the placeholders leaves the sizes' TFLite tensor as it was:
      registered under the same object, or not at all, unless it names either of them. */
  lemma SizesSeenAlike(a: Arena, c: Arena, g: Tflite.Subgraph, x: int, n0: string, im: TensorId, h: TensorId, sz: TensorId)
    requires Valid(a) && Valid(c) && 0 <= x < |g.tensors| && KeepsParsed(a, c)
    requires c.registry == a.registry[n0 := im][PlaceholderName() := h]
    requires g.tensors[x].name in c.registry ==> c.registry[g.tensors[x].name] == sz
    requires sz != im && sz != h && SizesSettled(a, g, x)
    ensures SizesSettled(c, g, x) && SizesRead(c, g, x) == SizesRead(a, g, x)
  {
  }

  /** Parsing the output keeps the widened sizes and the image's shape, both being parsed
      already. */
  lemma SizesKept(d: Arena, f: Arena, im: TensorId, sz: TensorId, shape: seq<int>, read: Option<seq<Num>>, widened: bool)
    requires im < |d.tensors| && sz < |d.tensors| && KeepsParsed(d, f)
    requires d.tensors[im].status == Parsed && d.tensors[sz].status == Parsed && d.tensors[im].shape == shape
    requires d.tensors[sz].shape == [4] && d.tensors[sz].dtype == Some(Dtypes.OnnxInt64)
    requires widened ==> Widened(d, sz, shape, read)
    ensures im < |f.tensors| && sz < |f.tensors|
    ensures f.tensors[sz].shape == [4] && f.tensors[sz].dtype == Some(Dtypes.OnnxInt64)
    ensures widened ==> Widened(f, sz, f.tensors[im].shape, read)
  {
  }

  /** The image, TFLite input 0, then the placeholder twice. */
  method ReadImage(a: Arena, g: Tflite.Subgraph, o: OpId) returns (r: Result<(Arena, TensorId, TensorId)>)
    requires Valid(a) && o < |a.ops|
    ensures r.Ok? ==> var (c, im, h) := r.value;
              && Valid(c) && im < |c.tensors| && KeepsNames(a, c)
              && c.ops == a.ops[o := a.ops[o].(inputs := a.ops[o].inputs + [im, h, h])]
              && PlaceholderName() in c.registry && c.registry[PlaceholderName()] == h
              && InputIs(c, g, a.ops[o].index, 0, im)
              && KeepsParsed(a, c) && c.tensors[im].status == Parsed
              && c.registry == a.registry[g.tensors[g.operators[a.ops[o].index].inputs[0]].name := im][PlaceholderName() := h]
  {
    var ri := ParseInput(a, g, o, 0, None, false);
    if ri.Err? {
      return Err(ri.error);
    }
    var (b, im) := ri.value;
    var rh := ReadPlaceholders(b, o);
    if rh.Err? {
      return Err(rh.error);
    }
    var (c, h) := rh.value;
    assert a.ops[o].inputs + [im] + [h, h] == a.ops[o].inputs + [im, h, h];
    return Ok((c, im, h));
  }

  /** `Resize.parse()` with the placeholder built as the empty float32 vector: inputs image,
      region of interest, scales (the same empty vector) and sizes, in that order; the
      interpolation and coordinate mapping of the opcode and options. */
  method ParseResize(a: Arena, g: Tflite.Subgraph, o: OpId) returns (r: Result<Arena>)
    requires Valid(a) && o < |a.ops|
    ensures r.Ok? ==> 0 <= a.ops[o].index < |g.operators|
    ensures r.Ok? ==> var e := g.operators[a.ops[o].index];
              IsResize(e.opcode) && |e.inputs| >= 2 && |e.outputs| == 1
    ensures r.Ok? ==> var e := g.operators[a.ops[o].index];
              var b := r.value;
              var k := |a.ops[o].inputs|;
              && Valid(b) && |b.ops| == |a.ops| && b.ops[o].status == Parsed
              && |b.ops[o].inputs| == k + 4 && b.ops[o].inputs[..k] == a.ops[o].inputs
              && b.ops[o].inputs[k + 1] == b.ops[o].inputs[k + 2]
              && PlaceholderName() in b.registry && b.registry[PlaceholderName()] == b.ops[o].inputs[k + 1]
              && b.ops[o].attrs == a.ops[o].attrs + ResizeOverrides(e.opcode == Tflite.RESIZE_BILINEAR, e.options.alignCorners)
    ensures r.Ok? ==> var b, k := r.value, |a.ops[o].inputs|;
              && InputIs(b, g, a.ops[o].index, 0, b.ops[o].inputs[k])
              && InputIs(b, g, a.ops[o].index, 1, b.ops[o].inputs[k + 3])
              && WritesOutputs(a, b, g, o, 1)
    ensures r.Ok? ==> var b, k := r.value, |a.ops[o].inputs|;
              var im, h, sz := InputOf(b, o, k), InputOf(b, o, k + 1), InputOf(b, o, k + 3);
              var x := g.operators[a.ops[o].index].inputs[1];
              && b.tensors[sz].shape == [4] && b.tensors[sz].dtype == Some(Dtypes.OnnxInt64)
              && (sz != im && sz != h && SizesSettled(a, g, x) ==>
                    Widened(b, sz, b.tensors[im].shape, SizesRead(a, g, x)))
  {
    var re := OpEntry(g, a.ops[o]);
    if re.Err? {
      return Err(re.error);
    }
    var e := re.value;
    if !IsResize(e.opcode) {
      return Err(Assertion("opcode is not a resize"));
    }
    if |e.inputs| < 2 {
      return Err(Assertion("Only first two arguments: image and size, are compulsory"));
    }
    if |e.outputs| != 1 {
      return Err(Assertion("Resize has one output"));
    }
    var rt := ReadResize(a, g, o);
    if rt.Err? {
      return Err(rt.error);
    }
    var (f, im, h, sz) := rt.value;
    var s := SetAttrs(f, o, ResizeOverrides(e.opcode == Tflite.RESIZE_BILINEAR, e.options.alignCorners));
    var k := |a.ops[o].inputs|;
    assert s.ops[o].inputs[..k] == a.ops[o].inputs;
    assert s.ops[o].inputs[k] == im && s.ops[o].inputs[k + 3] == sz;
    r := SetOpParsed(s, o);
    if r.Ok? {
      WritesKept(a, f, r.value, g, o, 1);
    }
  }
}

=== FILE: rsqrt.dfy ===
/** The RSQRT converter (tflite2onnx/op/rsqrt.py): the operator itself becomes the square
    root (ONNX `Sqrt`) of its input, and a Pow helper behind it takes the reciprocal with
    exponent -1. Layouts cross every tensor and its transformation changes nothing. */
module RsqrtOp {
  import opened Wrappers
  import opened Lifecycle
  import opened Tensors
  import opened Operators
  import opened Ir
  import opened OpCommon
  import opened PowerSplice
  import Tflite

  /** The ONNX operator type: `Sqrt` before and after initialization; a parsed operator
      whose TFLite opcode is not RSQRT fails the lookup. */
  function SqrtType(g: Tflite.Subgraph, op: Operator): (r: Result<string>)
    ensures op.status == Uninitialized ==> r == Ok("Sqrt")
    ensures op.status != Uninitialized ==>
              (r.Ok? <==> 0 <= op.index < |g.operators| && g.operators[op.index].opcode == Tflite.RSQRT)
    ensures r.Ok? ==> r.value == "Sqrt"
  {
    MappedType(g, op, Tflite.RSQRT, "Sqrt")
  }

  /** `Rsqrt.parse()`: one input and one output, then the Pow helper inverting the first
      output. The operator ends up parsed, with the Pow as its one new post helper. */
  method ParseRsqrt(a: Arena, g: Tflite.Subgraph, o: OpId) returns (r: Result<Arena>)
    requires Valid(a) && o < |a.ops|
    ensures r.Ok? ==> 0 <= a.ops[o].index < |g.operators|
    ensures r.Ok? ==> var e := g.operators[a.ops[o].index];
              && e.opcode == Tflite.RSQRT && |e.inputs| == 1 && |e.outputs| == 1
    ensures r.Ok? ==> var b := r.value;
              && Valid(b) && |b.ops| == |a.ops| + 1 && b.ops[o].status == Parsed
              && |b.ops[o].inputs| == |a.ops[o].inputs| + 1 && |b.ops[o].outputs| == |a.ops[o].outputs| + 1
              && b.ops[o].pre == a.ops[o].pre && b.ops[o].post == a.ops[o].post + [|a.ops|]
              && PowHelper(b, o, |a.ops|, Invert)
    ensures r.Ok? ==> ReadsInputs(a, r.value, g, o, 1)
    ensures r.Ok? && a.ops[o].outputs == [] ==> OutputIs(r.value, g, a.ops[o].index, 0, OutputOf(r.value, |a.ops|, 0))
  {
    var re := OpEntry(g, a.ops[o]);
    if re.Err? {
      return Err(re.error);
    }
    var e := re.value;
    if e.opcode != Tflite.RSQRT {
      return Err(Assertion("opcode is not RSQRT"));
    }
    if |e.inputs| != 1 {
      return Err(Assertion("Rsqrt takes one input"));
    }
    if |e.outputs| != 1 {
      return Err(Assertion("Rsqrt has one output"));
    }
    var rio := ParseInputOutput(a, g, o);
    if rio.Err? {
      return Err(rio.error);
    }
    var b := rio.value.0;
    r := AppendThenParse(b, o, Invert);
    if r.Ok? {
      ReadsKept(a, b, r.value, g, o, 1);
    }
  }
}

=== FILE: seqs.dfy ===
/** Python list primitives the converter relies on, stated over Dafny sequences:
    `list.index`, replacing or removing the first identical element, negative
    indexing, clamped slicing, `range`, and `str` of an integer. */
module Seqs {
  import opened Wrappers

  predicate NoDup<T(==)>(s: seq<T>) {
    forall i, j | 0 <= i < j < |s| :: s[i] != s[j]
  }

  /** Position of the first occurrence of `x`: Python's `list.index`. */
  function FirstIndex<T(==)>(s: seq<T>, x: T): (k: nat)
    requires x in s
    ensures k < |s| && s[k] == x
    ensures forall j | 0 <= j < k :: s[j] != x
  {
    if s[0] == x then 0 else 1 + FirstIndex(s[1..], x)
  }

  /** `list.index` with its ValueError when the value is absent. */
  function Index<T(==)>(s: seq<T>, x: T): (r: Result<nat>)
    ensures r.Ok? <==> x in s
    ensures r.Ok? ==> r.value < |s| && s[r.value] == x
    ensures r.Ok? ==> forall j | 0 <= j < r.value :: s[j] != x
  {
    if x in s then Ok(FirstIndex(s, x)) else Err(BadValue("value is not in list"))
  }

  /** Overwrite the first element identical to `x` with `y`; every other position keeps its element. */
  function ReplaceFirst<T(==)>(s: seq<T>, x: T, y: T): (r: seq<T>)
    requires x in s
    ensures |r| == |s|
    ensures r[FirstIndex(s, x)] == y
    ensures forall j | 0 <= j < |s| && j != FirstIndex(s, x) :: r[j] == s[j]
  {
    s[FirstIndex(s, x) := y]
  }

  /** `list.remove(x)`: drop the first element identical to `x`. */
  function RemoveFirst<T(==)>(s: seq<T>, x: T): (r: seq<T>)
    requires x in s
    ensures |r| == |s| - 1
    ensures r == s[..FirstIndex(s, x)] + s[FirstIndex(s, x) + 1..]
  {
    var k := FirstIndex(s, x);
    s[..k] + s[k + 1..]
  }

  /** Replacing the only occurrence of `x` by a new element `y` removes `x` and keeps
      every other element and the absence of duplicates. */
  lemma ReplaceFirstNoDup<T>(s: seq<T>, x: T, y: T)
    requires x in s && NoDup(s) && y !in s
    ensures x !in ReplaceFirst(s, x, y) && y in ReplaceFirst(s, x, y)
    ensures NoDup(ReplaceFirst(s, x, y))
    ensures forall z | z in s && z != x :: z in ReplaceFirst(s, x, y)
    ensures forall z | z in ReplaceFirst(s, x, y) :: z in s || z == y
  {
    var k := FirstIndex(s, x);
    var r := ReplaceFirst(s, x, y);
    forall z | z in s && z != x
      ensures z in r
    {
      var i :| 0 <= i < |s| && s[i] == z;
      assert r[i] == z;
    }
    forall z | z in r
      ensures z in s || z == y
    {
      var i :| 0 <= i < |r| && r[i] == z;
      if i != k { assert s[i] == z; }
    }
  }

  lemma RemoveFirstNoDup<T>(s: seq<T>, x: T)
    requires x in s && NoDup(s)
    ensures x !in RemoveFirst(s, x)
    ensures NoDup(RemoveFirst(s, x))
    ensures forall y | y in s && y != x :: y in RemoveFirst(s, x)
    ensures forall y | y in RemoveFirst(s, x) :: y in s
  {
    var k := FirstIndex(s, x);
    var r := RemoveFirst(s, x);
    forall i | 0 <= i < |r|
      ensures r[i] == (if i < k then s[i] else s[i + 1])
    {
    }
    forall y | y in s && y != x
      ensures y in r
    {
      var j :| 0 <= j < |s| && s[j] == y;
      assert r[if j < k then j else j - 1] == y;
    }
  }

  /** `x` occurs exactly once in `s`. */
  predicate Once<T(==)>(s: seq<T>, x: T) {
    x in s && x !in RemoveFirst(s, x)
  }

  /** Replacing the first `x` keeps every other element, and removes `x` when it occurred
      once. */
  lemma {:induction false} ReplaceFirstKeeps<T>(s: seq<T>, x: T, y: T)
    requires x in s
    ensures forall z | z in s && z != x :: z in ReplaceFirst(s, x, y)
    ensures Once(s, x) && x != y ==> x !in ReplaceFirst(s, x, y)
  {
    var k := FirstIndex(s, x);
    var r := ReplaceFirst(s, x, y);
    forall z | z in s && z != x
      ensures z in r
    {
      var i :| 0 <= i < |s| && s[i] == z;
      assert r[i] == z;
    }
  }

  /** Removing the first `x` keeps every other element. */
  lemma {:induction false} RemoveFirstKeeps<T>(s: seq<T>, x: T)
    requires x in s
    ensures forall z | z in s && z != x :: z in RemoveFirst(s, x)
  {
    var k := FirstIndex(s, x);
    var r := RemoveFirst(s, x);
    forall z | z in s && z != x
      ensures z in r
    {
      var j :| 0 <= j < |s| && s[j] == z;
      assert j != k;
      assert r[if j < k then j else j - 1] == z;
    }
  }

  /** Python indexing `s[i]`, where a negative index counts from the end. */
  function PyIndex<T>(s: seq<T>, i: int): (r: Result<T>)
    ensures r.Ok? <==> -|s| <= i < |s|
    ensures r.Ok? && 0 <= i ==> r.value == s[i]
    ensures r.Ok? && i < 0 ==> r.value == s[|s| + i]
  {
    if 0 <= i < |s| then Ok(s[i])
    else if -|s| <= i < 0 then Ok(s[|s| + i])
    else Err(IndexOutOfRange("list index out of range"))
  }

  /** Python slicing `s[lo:hi]` with non-negative bounds, which clamps instead of failing. */
  function PySlice<T>(s: seq<T>, lo: nat, hi: nat): (r: seq<T>)
    ensures |r| == if lo <= hi && lo <= |s| then (if hi <= |s| then hi else |s|) - lo else 0
    ensures forall i | 0 <= i < |r| :: r[i] == s[lo + i]
  {
    var h := if hi <= |s| then hi else |s|;
    if lo <= h then s[lo..h] else []
  }

  /** `list(range(n))`. */
  function Range(n: nat): (r: seq<int>)
    ensures |r| == n
    ensures forall i | 0 <= i < n :: r[i] == i
  {
    if n == 0 then [] else Range(n - 1) + [n - 1]
  }

  /** `[v] * n`, `numpy.full((n,), v)`. */
  function Repeat<T>(v: T, n: nat): (r: seq<T>)
    ensures |r| == n
    ensures forall i | 0 <= i < n :: r[i] == v
  {
    if n == 0 then [] else Repeat(v, n - 1) + [v]
  }

  function Product(s: seq<int>): int {
    if |s| == 0 then 1 else Product(s[..|s| - 1]) * s[|s| - 1]
  }

  function DigitChar(d: nat): char
    requires d < 10
  {
    "0123456789"[d]
  }

  /** Decimal text of a natural number, as Python's `str`. */
  function NatToString(n: nat): (r: string)
    ensures |r| >= 1
    ensures forall i | 0 <= i < |r| :: r[i] in "0123456789"
  {
    if n < 10 then [DigitChar(n)] else NatToString(n / 10) + [DigitChar(n % 10)]
  }

  /** Decimal text of an integer, with a leading '-' when negative, as Python's `str`. */
  function IntToString(n: int): (r: string)
    ensures |r| >= 1
    ensures (r[0] == '-') <==> n < 0
  {
    if n < 0 then "-" + NatToString(-n) else NatToString(n)
  }
}

=== FILE: slice.dfy ===
/** The STRIDED_SLICE converter (tflite2onnx/op/slice.py): the data input sliced by
    constant begin, end and strides vectors of one entry per dimension. The begin and end
    masks of TFLite are folded into the constants, an axes vector `[0, rank)` is inserted
    before the strides, and when layouts are transformed the three constants are
    reordered by the layout of the output. */
module SliceOp {
  import opened Wrappers
  import opened Seqs
  import opened Lifecycle
  import opened Layouts
  import opened Payload
  import opened Tensors
  import opened Operators
  import opened Ir
  import opened OpCommon
  import opened Factory
  import opened Axes
  import Tflite
  import Dtypes

  // ---------------------------------------------------------------- mask bits

  /** Bit `i` of a non-negative integer, bit 0 the least significant. */
  function Bit(d: nat, i: nat): (b: nat)
    ensures b < 2
    ensures d < Pow2(i) ==> b == 0
  {
    if i == 0 then d % 2 else Bit(d / 2, i - 1)
  }

  /** The binary digits of `d`, most significant first, as Python's format `b` writes
      them: `0` is the single digit 0. */
  function Binary(d: nat): (r: seq<nat>)
    ensures |r| >= 1
    ensures forall k | 0 <= k < |r| :: r[k] < 2
    ensures |r| > 1 ==> r[0] == 1
    ensures d > 0 ==> r[0] == 1
    decreases d
  {
    if d < 2 then [d] else Binary(d / 2) + [d % 2]
  }

  /** `_intToBitsList(data, size)` as written: `'{:0{size}b}'.format(data)` digit by digit,
      the binary digits most significant first, left-padded with zeros to `size` digits.
      A negative mask is formatted with a sign that `int` cannot read, a ValueError. */
  function BitsAsWritten(data: int, size: nat): (r: Result<seq<int>>)
    ensures r.Ok? <==> data >= 0
  {
    if data < 0 then Err(BadValue("invalid literal for int() with base 10: '-'"))
    else
      var digits := Binary(data);
      Ok(if |digits| < size then Repeat(0, size - |digits|) + digits else digits)
  }

  /** The mask bits in the order the dimensions are numbered: entry `i` is bit `i`, the
      bit TFLite assigns to dimension `i`. */
  function Bits(data: int, size: nat): (r: Result<seq<int>>)
    ensures r.Ok? <==> data >= 0
    ensures r.Ok? ==> |r.value| == size && forall i | 0 <= i < size :: r.value[i] == Bit(data, i)
  {
    if data >= 0 then Ok(seq(size, i requires 0 <= i < size => Bit(data, i)))
    else Err(BadValue("invalid literal for int() with base 10: '-'"))
  }

  /** A mask that fits in `size` bits is padded to exactly `size` digits, the most
      significant first. */
  lemma {:induction false} PaddedBinary(d: nat, n: nat)
    requires n >= 1 && d < Pow2(n)
    ensures var r := BitsAsWritten(d, n).value;
            |r| == n && forall i | 0 <= i < n :: r[i] == Bit(d, n - 1 - i)
    decreases n
  {
    var r := BitsAsWritten(d, n).value;
    if n == 1 {
      assert Binary(d) == [d];
    } else {
      PaddedBinary(d / 2, n - 1);
      var s := BitsAsWritten(d / 2, n - 1).value;
      PaddedStep(d, n);
      assert r == s + [d % 2];
      forall i | 0 <= i < n
        ensures r[i] == Bit(d, n - 1 - i)
      {
        if i < n - 1 {
          assert r[i] == s[i] == Bit(d / 2, n - 2 - i);
        }
      }
    }
  }

  lemma PaddedStep(d: nat, n: nat)
    requires n >= 2 && d < Pow2(n)
    ensures d / 2 < Pow2(n - 1)
    ensures BitsAsWritten(d, n).value == BitsAsWritten(d / 2, n - 1).value + [d % 2]
  {
    var digits := Binary(d);
    if d < 2 {
      assert Binary(d / 2) == [0];
      assert Repeat(0, n - 1 - 1) + [0] == Repeat(0, n - 1);
      assert Repeat(0, n - 1) + [d] == Repeat(0, n - 2) + [0] + [d % 2];
    } else {
      assert digits == Binary(d / 2) + [d % 2];
      if |Binary(d / 2)| < n - 1 {
        assert Repeat(0, n - 1 - |Binary(d / 2)|) + Binary(d / 2) + [d % 2]
            == Repeat(0, n - |digits|) + digits;
      } else {
        BinaryFits(d / 2, n - 1);
      }
    }
  }

  /** A value below `2^n` has at most `n` binary digits. */
  lemma {:induction false} BinaryFits(d: nat, n: nat)
    requires n >= 1 && d < Pow2(n)
    ensures |Binary(d)| <= n
    decreases n
  {
    if d >= 2 {
      assert n >= 2;
      BinaryFits(d / 2, n - 1);
    }
  }

  /** As written, the mask bits are read the wrong way round: the entry for dimension `i`
      is the bit TFLite assigns to dimension `rank - 1 - i`. */
  lemma MaskBitsReversed(mask: nat, rank: nat)
    requires rank >= 1 && mask < Pow2(rank)
    ensures BitsAsWritten(mask, rank).Ok? && Bits(mask, rank).Ok?
    ensures var w := BitsAsWritten(mask, rank).value;
            var b := Bits(mask, rank).value;
            |w| == |b| == rank && forall i | 0 <= i < rank :: w[i] == b[rank - 1 - i]
  {
    PaddedBinary(mask, rank);
  }

  /** `begin[i] = 0 if mask == 1 else begin` (and `extent` for the end): over the
      positions the bits, the fill values and the data all reach, a set bit replaces the
      entry by the fill value. Other entries are kept. */
  function Masked(data: seq<Num>, bits: seq<int>, fill: seq<int>): (r: seq<Num>)
    ensures |r| == |data|
    ensures forall i | 0 <= i < |data| ::
              r[i] == if i < |bits| && i < |fill| && bits[i] == 1 then Int(fill[i]) else data[i]
  {
    seq(|data|, i requires 0 <= i < |data| => if i < |bits| && i < |fill| && bits[i] == 1 then Int(fill[i]) else data[i])
  }

  lemma BitsOfOne()
    ensures BitsAsWritten(1, 2) == Ok([0, 1]) && Bits(1, 2) == Ok([1, 0])
  {
    assert Binary(1) == [1];
    assert Repeat(0, 1) == [0];
    assert Repeat(0, 1) + [1] == [0, 1];
    var b := Bits(1, 2).value;
    assert Bit(1, 0) == 1 && Bit(1, 1) == 0;
    assert b[0] == 1 && b[1] == 0;
    assert b == [1, 0];
  }

  /** Begin mask 1 (dimension 0) on a rank-2 slice: the source clears the begin of
      dimension 1 instead of dimension 0. */
  lemma BeginMaskOfFirstDimension()
    ensures BitsAsWritten(1, 2) == Ok([0, 1]) && Bits(1, 2) == Ok([1, 0])
    ensures Masked([Int(5), Int(7)], [0, 1], [0, 0]) == [Int(5), Int(0)]
    ensures Masked([Int(5), Int(7)], [1, 0], [0, 0]) == [Int(0), Int(7)]
  {
    BitsOfOne();
    var w := Masked([Int(5), Int(7)], [0, 1], [0, 0]);
    assert w[0] == Int(5) && w[1] == Int(0);
    var c := Masked([Int(5), Int(7)], [1, 0], [0, 0]);
    assert c[0] == Int(0) && c[1] == Int(7);
  }

  // ---------------------------------------------------------------- parse

  /** The data input and the output of `Slice.parse()`, of equal rank. */
  method ReadSliceData(a: Arena, g: Tflite.Subgraph, o: OpId) returns (r: Result<(Arena, TensorId)>)
    requires Valid(a) && o < |a.ops|
    ensures r.Ok? ==> var (b, it) := r.value;
              && Valid(b) && KeepsParsed(a, b) && it < |b.tensors| && b.tensors[it].status == Parsed
              && |b.ops| == |a.ops| && b.ops[o].inputs == a.ops[o].inputs + [it]
              && |b.ops[o].outputs| == |a.ops[o].outputs| + 1
              && |b.tensors[OutputOf(b, o, |a.ops[o].outputs|)].shape| == |b.tensors[it].shape|
              && b.ops[o].attrs == a.ops[o].attrs && b.ops[o].status == a.ops[o].status
              && b.ops[o].index == a.ops[o].index
              && InputIs(b, g, a.ops[o].index, 0, it) && WritesOutputs(a, b, g, o, 1)
              && NewAmong(a, b, {it, OutputOf(b, o, |a.ops[o].outputs|)})
  {
    var rio := ParseInputOutput(a, g, o);
    if rio.Err? {
      return Err(rio.error);
    }
    var (b, it, ot) := rio.value;
    assert OutputOf(b, o, |a.ops[o].outputs|) == ot;
    if |b.tensors[it].shape| != |b.tensors[ot].shape| {
      return Err(Assertion("Slice keeps the rank"));
    }
    return Ok((b, it));
  }

  /** The parsed tensors of `a` stay parsed with their shapes, and all but `t` keep their
      data. */
  predicate KeptBut(a: Arena, b: Arena, t: TensorId) {
    && |a.tensors| <= |b.tensors|
    && forall u | 0 <= u < |a.tensors| && a.tensors[u].status == Parsed ::
         && b.tensors[u].status == Parsed && b.tensors[u].shape == a.tensors[u].shape
         && (u != t ==> b.tensors[u].data == a.tensors[u].data)
  }

  /** Replacing a parsed tensor of a grown arena by one of the same status and shape. */
  lemma KeptButUpdate(a: Arena, b: Arena, t: TensorId, x: Tensor)
    requires KeepsParsed(a, b) && t < |b.tensors|
    requires x.status == b.tensors[t].status == Parsed && x.shape == b.tensors[t].shape
    ensures KeptBut(a, b.(tensors := b.tensors[t := x]), t)
  {
  }

  /** `b` is `a` with the constant `t` of TFLite input position `pos` appended to the inputs
      of `o`: one entry per dimension, its data `before` masked, a tensor that was already
      parsed giving its own data as `before`; nothing else parsed changes and no name moves. */
  predicate BoundRead(a: Arena, b: Arena, g: Tflite.Subgraph, o: OpId, pos: nat, rank: nat,
                      bits: seq<int>, fill: seq<int>, t: TensorId, before: seq<Num>)
    requires o < |a.ops|
  {
    && Valid(b) && t < |b.tensors| && |b.ops| == |a.ops|
    && b.ops == a.ops[o := a.ops[o].(inputs := a.ops[o].inputs + [t])]
    && |b.tensors[t].shape| >= 1 && b.tensors[t].shape[0] == rank
    && b.tensors[t].data == Some(Masked(before, bits, fill)) && b.tensors[t].status == Parsed
    && (t < |a.tensors| && a.tensors[t].status == Parsed && a.tensors[t].data.Some? ==> before == a.tensors[t].data.value)
    && KeptBut(a, b, t)
    && KeepsNames(a, b) && InputIs(b, g, a.ops[o].index, pos, t) && NewAmong(a, b, {t})
    && (t >= |a.tensors| ==> MaskedBuffer(b, g, a.ops[o].index, pos, t, bits, fill))
  }

  /** A begin or end constant at input position `pos`: an initializer with one entry per
      dimension whose data is masked. The data it held before is returned with it. */
  method ReadBound(a: Arena, g: Tflite.Subgraph, o: OpId, pos: nat, rank: nat, bits: seq<int>, fill: seq<int>)
    returns (r: Result<(Arena, TensorId, seq<Num>)>)
    requires Valid(a) && o < |a.ops|
    ensures r.Ok? ==> var (b, t, before) := r.value;
              BoundRead(a, b, g, o, pos, rank, bits, fill, t, before)
  {
    var ri := ParseInput(a, g, o, pos, None, false);
    if ri.Err? {
      return Err(ri.error);
    }
    var (b, t) := ri.value;
    var x := b.tensors[t];
    if !IsInitializer(x) {
      return Err(Assertion("slice bound is not a constant"));
    }
    if |x.shape| == 0 {
      return Err(IndexOutOfRange("list index out of range"));
    }
    if x.shape[0] != rank {
      return Err(Assertion("one slice bound per dimension"));
    }
    var before := x.data.value;
    KeptButUpdate(a, b, t, x.(data := Some(Masked(before, bits, fill))));
    return Ok((UpdateTensor(b, t, x.(data := Some(Masked(before, bits, fill)))), t, before));
  }

  /** `t` holds the buffer of the TFLite tensor at input position `k` of entry `index`,
      every entry whose mask bit is set replaced by the fill value of its dimension. */
  predicate MaskedBuffer(b: Arena, g: Tflite.Subgraph, index: int, k: nat, t: TensorId, bits: seq<int>, fill: seq<int>)
    requires t < |b.tensors|
  {
    && 0 <= index < |g.operators| && k < |g.operators[index].inputs|
    && var x := g.operators[index].inputs[k];
       && 0 <= x < |g.tensors| && g.tensors[x].buffer.Some?
       && b.tensors[t].data == Some(Masked(g.tensors[x].buffer.value, bits, fill))
  }

  /** Every entry whose mask bit is set holds the fill value of its dimension. */
  predicate MaskHolds(data: Option<seq<Num>>, bits: seq<int>, fill: seq<int>) {
    data.Some? && forall i | 0 <= i < |data.value| && i < |bits| && i < |fill| && bits[i] == 1 :: data.value[i] == Int(fill[i])
  }

  lemma MaskedHolds(before: seq<Num>, bits: seq<int>, fill: seq<int>)
    ensures MaskHolds(Some(Masked(before, bits, fill)), bits, fill)
  {
  }

  /** `it`, `bt` and `et` are the tensors registered for TFLite inputs 0, 1 and 2, and the
      one output is TFLite output 0. */
  predicate BoundsAreInputs(a: Arena, b: Arena, g: Tflite.Subgraph, o: OpId, it: TensorId, bt: TensorId, et: TensorId)
    requires o < |a.ops| && o < |b.ops|
  {
    && InputIs(b, g, a.ops[o].index, 0, it) && InputIs(b, g, a.ops[o].index, 1, bt)
    && InputIs(b, g, a.ops[o].index, 2, et) && WritesOutputs(a, b, g, o, 1)
  }

  /** A begin or end object created for this operator alone holds the TFLite buffer
      masked: begin entries by 0, end entries by the extent of their dimension. */
  predicate FreshBoundsMasked(a: Arena, b: Arena, g: Tflite.Subgraph, o: OpId, it: TensorId, bt: TensorId, et: TensorId,
                              beginBits: seq<int>, endBits: seq<int>)
    requires o < |a.ops| && o < |b.ops| && it < |b.tensors| && bt < |b.tensors| && et < |b.tensors|
    requires |b.ops[o].outputs| > |a.ops[o].outputs|
  {
    var ot := b.ops[o].outputs[|a.ops[o].outputs|];
    var rank := |b.tensors[it].shape|;
    && (bt >= |a.tensors| && bt !in {it, et, ot} ==> MaskedBuffer(b, g, a.ops[o].index, 1, bt, beginBits, Repeat(0, rank)))
    && (et >= |a.tensors| && et !in {it, bt, ot} ==> MaskedBuffer(b, g, a.ops[o].index, 2, et, endBits, b.tensors[it].shape))
  }

  /** The data `it` and the bounds `bt` and `et` as read: parsed, one bound entry per
      dimension, masked, and wired to TFLite inputs 0 to 2. */
  predicate BoundsRead(a: Arena, b: Arena, g: Tflite.Subgraph, o: OpId, it: TensorId, bt: TensorId, et: TensorId,
                       beginBits: seq<int>, endBits: seq<int>)
    requires o < |a.ops| && o < |b.ops| && it < |b.tensors| && bt < |b.tensors| && et < |b.tensors|
    requires |b.ops[o].outputs| > |a.ops[o].outputs|
  {
    var rank := |b.tensors[it].shape|;
    && b.tensors[it].status == Parsed && b.tensors[bt].status == Parsed && b.tensors[et].status == Parsed
    && |b.tensors[bt].shape| >= 1 && b.tensors[bt].shape[0] == rank
    && |b.tensors[et].shape| >= 1 && b.tensors[et].shape[0] == rank
    && MaskHolds(b.tensors[et].data, endBits, b.tensors[it].shape)
    && (bt != et ==> MaskHolds(b.tensors[bt].data, beginBits, Repeat(0, rank)))
    && BoundsAreInputs(a, b, g, o, it, bt, et)
    && NewAmong(a, b, {it, bt, et, b.ops[o].outputs[|a.ops[o].outputs|]})
    && FreshBoundsMasked(a, b, g, o, it, bt, et, beginBits, endBits)
  }

  /** The facts of the three reading steps of `ReadSliceBounds` combine. */
  lemma BoundsLifted(a: Arena, b1: Arena, b2: Arena, b3: Arena, g: Tflite.Subgraph, o: OpId,
                     it: TensorId, bt: TensorId, et: TensorId, beginBits: seq<int>, endBits: seq<int>,
                     begin: seq<Num>, end: seq<Num>)
    requires o < |a.ops| && |b1.ops| == |a.ops| && it < |b1.tensors| && b1.tensors[it].status == Parsed
    requires b1.ops[o].index == a.ops[o].index && |b1.ops[o].outputs| == |a.ops[o].outputs| + 1
    requires InputIs(b1, g, a.ops[o].index, 0, it) && WritesOutputs(a, b1, g, o, 1)
    requires NewAmong(a, b1, {it, b1.ops[o].outputs[|a.ops[o].outputs|]})
    requires BoundRead(b1, b2, g, o, 1, |b1.tensors[it].shape|, beginBits, Repeat(0, |b1.tensors[it].shape|), bt, begin)
    requires o < |b2.ops| && BoundRead(b2, b3, g, o, 2, |b1.tensors[it].shape|, endBits, b1.tensors[it].shape, et, end)
    ensures |b3.ops| == |a.ops| && |b3.ops[o].outputs| == |a.ops[o].outputs| + 1
    ensures it < |b3.tensors| && b3.tensors[it].shape == b1.tensors[it].shape
    ensures BoundsRead(a, b3, g, o, it, bt, et, beginBits, endBits)
  {
    MaskedHolds(end, endBits, b1.tensors[it].shape);
    if bt != et {
      assert b3.tensors[bt].data == b2.tensors[bt].data;
      MaskedHolds(begin, beginBits, Repeat(0, |b1.tensors[it].shape|));
    }
    assert KeepsNames(b1, b3);
    WritesKept(a, b1, b3, g, o, 1);
    var ot := b3.ops[o].outputs[|a.ops[o].outputs|];
    assert ot == b1.ops[o].outputs[|a.ops[o].outputs|];
    NewAmongTrans(a, b1, b2, {it, ot}, {bt});
    NewAmongTrans(a, b2, b3, {it, ot} + {bt}, {et});
    assert {it, ot} + {bt} + {et} == {it, bt, et, ot};
    if bt >= |a.tensors| && bt !in {it, et, ot} {
      if bt < |b1.tensors| {
        NewIsAmong(a, b1, {it, ot}, bt);
      }
      assert b3.tensors[bt].data == b2.tensors[bt].data;
    }
    if et >= |a.tensors| && et !in {it, bt, ot} {
      if et < |b1.tensors| {
        NewIsAmong(a, b1, {it, ot}, et);
      } else if et < |b2.tensors| {
        NewIsAmong(b1, b2, {bt}, et);
      }
    }
  }

  /** `Slice.parse()` up to the axes: the data input, the output, and the begin and end
      constants masked by the corrected mask bits of the options. */
  method ReadSliceBounds(a: Arena, g: Tflite.Subgraph, o: OpId, e: Tflite.OperatorEntry)
    returns (r: Result<(Arena, TensorId, TensorId, TensorId)>)
    requires Valid(a) && o < |a.ops|
    ensures r.Ok? ==> var (b, it, bt, et) := r.value;
              && Valid(b) && |b.ops| == |a.ops| && it < |b.tensors| && bt < |b.tensors| && et < |b.tensors|
              && b.ops[o].inputs == a.ops[o].inputs + [it, bt, et]
              && |b.ops[o].outputs| == |a.ops[o].outputs| + 1
              && b.ops[o].attrs == a.ops[o].attrs && b.ops[o].status == a.ops[o].status
              && b.ops[o].index == a.ops[o].index
              && var rank := |b.tensors[it].shape|;
                 && Bits(e.options.beginMask, rank).Ok? && Bits(e.options.endMask, rank).Ok?
                 && BoundsRead(a, b, g, o, it, bt, et, Bits(e.options.beginMask, rank).value, Bits(e.options.endMask, rank).value)
  {
    var rd := ReadSliceData(a, g, o);
    if rd.Err? {
      return Err(rd.error);
    }
    var (b1, it) := rd.value;
    var shape := b1.tensors[it].shape;
    var rank := |shape|;
    var rb := Bits(e.options.beginMask, rank);
    if rb.Err? {
      return Err(rb.error);
    }
    var re := Bits(e.options.endMask, rank);
    if re.Err? {
      return Err(re.error);
    }
    var rr := ReadBothBounds(a, b1, g, o, it, rb.value, re.value);
    if rr.Err? {
      return Err(rr.error);
    }
    var (b3, bt, et) := rr.value;
    return Ok((b3, it, bt, et));
  }

  /** The begin constant, then the end constant, read after the data `it` and the output. */
  method ReadBothBounds(a: Arena, b1: Arena, g: Tflite.Subgraph, o: OpId, it: TensorId, beginBits: seq<int>, endBits: seq<int>)
    returns (r: Result<(Arena, TensorId, TensorId)>)
    requires o < |a.ops| && Valid(b1) && |b1.ops| == |a.ops| && it < |b1.tensors| && b1.tensors[it].status == Parsed
    requires b1.ops[o].index == a.ops[o].index && |b1.ops[o].outputs| == |a.ops[o].outputs| + 1
    requires InputIs(b1, g, a.ops[o].index, 0, it) && WritesOutputs(a, b1, g, o, 1)
    requires NewAmong(a, b1, {it, b1.ops[o].outputs[|a.ops[o].outputs|]})
    ensures r.Ok? ==> var (b, bt, et) := r.value;
              && Valid(b) && |b.ops| == |a.ops| && it < |b.tensors| && bt < |b.tensors| && et < |b.tensors|
              && b.ops[o] == b1.ops[o].(inputs := b1.ops[o].inputs + [bt, et])
              && b.tensors[it].shape == b1.tensors[it].shape
              && BoundsRead(a, b, g, o, it, bt, et, beginBits, endBits)
  {
    var rank := |b1.tensors[it].shape|;
    var r1 := ReadBound(b1, g, o, 1, rank, beginBits, Repeat(0, rank));
    if r1.Err? {
      return Err(r1.error);
    }
    var (b2, bt, begin) := r1.value;
    var r2 := ReadBound(b2, g, o, 2, rank, endBits, b1.tensors[it].shape);
    if r2.Err? {
      return Err(r2.error);
    }
    var (b3, et, end) := r2.value;
    BoundsLifted(a, b1, b2, b3, g, o, it, bt, et, beginBits, endBits, begin, end);
    return Ok((b3, bt, et));
  }

  /** The name the factory gives the int32 vector `[0, rank)`. */
  function AxesName(rank: nat): string {
    VectorName(Dtypes.Int32, Range(rank))
  }

  /** `createVector(arange(rank).astype('int32'))` linked as the next input of the
      operator. */
  method AddAxes(a: Arena, o: OpId, rank: nat) returns (r: Result<(Arena, TensorId)>)
    requires Valid(a) && o < |a.ops|
    ensures r.Ok? ==> var (b, at) := r.value;
              && Valid(b) && Extends(a, b) && at < |b.tensors|
              && b.ops == a.ops[o := a.ops[o].(inputs := a.ops[o].inputs + [at])]
              && (at >= |a.tensors| ==> b.tensors[at].data == Some(FromInts(Range(rank))) && b.tensors[at].shape == [rank]
                                        && b.tensors[at].status == Parsed)
              && AxesName(rank) in b.registry && b.registry[AxesName(rank)] == at && NewAmong(a, b, {at})
  {
    var rv := CreateVector(a, Dtypes.Int32, Range(rank));
    if rv.Err? {
      return Err(rv.error);
    }
    var (b, at) := rv.value;
    assert NewAmong(a, b, {at}) && |b.tensors| <= |a.tensors| + 1;
    var rl := LinkInput(b, o, at);
    if rl.Err? {
      return Err(rl.error);
    }
    var c := rl.value;
    ExtendsTrans(a, b, c);
    assert c.tensors[at] == b.tensors[at].(consumers := c.tensors[at].consumers);
    return Ok((c, at));
  }

  /** The strides constant at input position 3: an initializer with one entry per
      dimension. */
  method ReadStrides(a: Arena, g: Tflite.Subgraph, o: OpId, rank: nat) returns (r: Result<(Arena, TensorId)>)
    requires Valid(a) && o < |a.ops|
    ensures r.Ok? ==> var (b, st) := r.value;
              && Valid(b) && KeepsParsed(a, b) && st < |b.tensors|
              && b.ops == a.ops[o := a.ops[o].(inputs := a.ops[o].inputs + [st])]
              && IsInitializer(b.tensors[st]) && |b.tensors[st].shape| >= 1 && b.tensors[st].shape[0] == rank
              && InputIs(b, g, a.ops[o].index, 3, st) && NewAmong(a, b, {st})
  {
    var ri := ParseInput(a, g, o, 3, None, false);
    if ri.Err? {
      return Err(ri.error);
    }
    var (b, st) := ri.value;
    if !IsInitializer(b.tensors[st]) {
      return Err(Assertion("slice strides are not a constant"));
    }
    if |b.tensors[st].shape| == 0 {
      return Err(IndexOutOfRange("list index out of range"));
    }
    if b.tensors[st].shape[0] != rank {
      return Err(Assertion("one stride per dimension"));
    }
    return Ok((b, st));
  }

  /** The axes vector and the strides, the last two inputs of the operator. */
  method ReadAxesStrides(a: Arena, g: Tflite.Subgraph, o: OpId, rank: nat) returns (r: Result<(Arena, TensorId, TensorId)>)
    requires Valid(a) && o < |a.ops|
    ensures r.Ok? ==> var (b, at, st) := r.value;
              && Valid(b) && KeepsParsed(a, b) && at < |b.tensors| && st < |b.tensors|
              && b.ops == a.ops[o := a.ops[o].(inputs := a.ops[o].inputs + [at, st])]
              && IsInitializer(b.tensors[st]) && |b.tensors[st].shape| >= 1 && b.tensors[st].shape[0] == rank
              && InputIs(b, g, a.ops[o].index, 3, st) && NewAmong(a, b, {at, st})
              && AxesName(rank) in b.registry && b.registry[AxesName(rank)] == at
              && (at >= |a.tensors| ==> b.tensors[at].data == Some(FromInts(Range(rank))) && b.tensors[at].shape == [rank])
  {
    var ra := AddAxes(a, o, rank);
    if ra.Err? {
      return Err(ra.error);
    }
    var (c, at) := ra.value;
    var rs := ReadStrides(c, g, o, rank);
    if rs.Err? {
      return Err(rs.error);
    }
    var (b, st) := rs.value;
    ExtendsKeepsParsed(a, c);
    KeepsParsedTrans(a, c, b);
    assert c.ops[o].inputs + [st] == a.ops[o].inputs + [at, st];
    NewAmongTrans(a, c, b, {at}, {st});
    assert {at} + {st} == {at, st};
    return Ok((b, at, st));
  }

  /** The five inputs appended by `Slice.parse()`: data, begin and end are TFLite inputs
      0 to 2, the axes are the int32 vector `[0, rank)` under its factory name, strides is
      TFLite input 3, and the output is TFLite output 0. Only these objects can be new; a
      fresh axes vector holds `[0, rank)` and fresh begin and end constants hold their
      buffers masked. */
  predicate SliceWiring(a: Arena, b: Arena, g: Tflite.Subgraph, o: OpId, beginBits: seq<int>, endBits: seq<int>)
    requires o < |a.ops| && o < |b.ops|
  {
    var n := |a.ops[o].inputs|;
    && |b.ops[o].inputs| == n + 5 && b.ops[o].inputs[..n] == a.ops[o].inputs
    && |b.ops[o].outputs| == |a.ops[o].outputs| + 1
    && var it, bt, et, at, st := b.ops[o].inputs[n], b.ops[o].inputs[n + 1], b.ops[o].inputs[n + 2],
                                 b.ops[o].inputs[n + 3], b.ops[o].inputs[n + 4];
       var ot := b.ops[o].outputs[|a.ops[o].outputs|];
       && it < |b.tensors| && bt < |b.tensors| && et < |b.tensors| && at < |b.tensors|
       && BoundsAreInputs(a, b, g, o, it, bt, et) && InputIs(b, g, a.ops[o].index, 3, st)
       && NewAmong(a, b, {it, bt, et, at, st, ot})
       && FreshBoundsMasked(a, b, g, o, it, bt, et, beginBits, endBits)
       && var rank := |b.tensors[it].shape|;
          && AxesName(rank) in b.registry && b.registry[AxesName(rank)] == at
          && (at >= |a.tensors| && at !in {it, bt, et, ot} ==>
                b.tensors[at].data == Some(FromInts(Range(rank))) && b.tensors[at].shape == [rank])
  }

  /** The facts of `ReadSliceBounds` and `ReadAxesStrides` combine into the wiring. */
  lemma SliceWired(a: Arena, b: Arena, d: Arena, g: Tflite.Subgraph, o: OpId, it: TensorId, bt: TensorId, et: TensorId,
                   at: TensorId, st: TensorId, beginBits: seq<int>, endBits: seq<int>)
    requires o < |a.ops| && |b.ops| == |a.ops| && it < |b.tensors| && bt < |b.tensors| && et < |b.tensors|
    requires b.ops[o].inputs == a.ops[o].inputs + [it, bt, et] && |b.ops[o].outputs| == |a.ops[o].outputs| + 1
    requires b.ops[o].index == a.ops[o].index
    requires BoundsRead(a, b, g, o, it, bt, et, beginBits, endBits)
    requires KeepsParsed(b, d) && at < |d.tensors| && st < |d.tensors|
    requires d.ops == b.ops[o := b.ops[o].(inputs := b.ops[o].inputs + [at, st])]
    requires InputIs(d, g, a.ops[o].index, 3, st) && NewAmong(b, d, {at, st})
    requires AxesName(|b.tensors[it].shape|) in d.registry && d.registry[AxesName(|b.tensors[it].shape|)] == at
    requires at >= |b.tensors| ==> d.tensors[at].data == Some(FromInts(Range(|b.tensors[it].shape|)))
                                   && d.tensors[at].shape == [|b.tensors[it].shape|]
    ensures SliceWiring(a, d, g, o, beginBits, endBits)
    ensures d.ops[o].inputs == a.ops[o].inputs + [it, bt, et, at, st]
  {
    var ot := b.ops[o].outputs[|a.ops[o].outputs|];
    assert d.ops[o].inputs == a.ops[o].inputs + [it, bt, et, at, st];
    WritesKept(a, b, d, g, o, 1);
    NewAmongTrans(a, b, d, {it, bt, et, ot}, {at, st});
    assert {it, bt, et, ot} + {at, st} == {it, bt, et, at, st, ot};
    if at >= |a.tensors| && at !in {it, bt, et, ot} && at < |b.tensors| {
      NewIsAmong(a, b, {it, bt, et, ot}, at);
    }
  }

  lemma ExtendsKeepsParsed(a: Arena, b: Arena)
    requires Extends(a, b)
    ensures KeepsParsed(a, b)
  {
  }

  /** What `Slice.parse()` leaves on operator `o` beside its status: five inputs appended,
      data, begin, end, the axes `[0, rank)` and strides, and one output. A begin entry
      whose mask bit is set is 0 and an end entry whose bit is set is the extent of its
      dimension, the bits read in dimension order; see `SliceWiring` for where the five
      objects come from. */
  predicate SliceOperands(a: Arena, b: Arena, g: Tflite.Subgraph, o: OpId)
    requires o < |a.ops|
  {
    && 0 <= a.ops[o].index < |g.operators|
    && var e := g.operators[a.ops[o].index];
       var n := |a.ops[o].inputs|;
       && Valid(b) && |b.ops| == |a.ops|
       && |b.ops[o].inputs| == n + 5 && |b.ops[o].outputs| == |a.ops[o].outputs| + 1
       && b.ops[o].attrs == a.ops[o].attrs
       && var it := b.tensors[InputOf(b, o, n)];
          var bt := b.tensors[InputOf(b, o, n + 1)];
          var et := b.tensors[InputOf(b, o, n + 2)];
          var st := b.tensors[InputOf(b, o, n + 4)];
          var rank := |it.shape|;
          && Bits(e.options.beginMask, rank).Ok? && Bits(e.options.endMask, rank).Ok?
          && |bt.shape| >= 1 && bt.shape[0] == rank && |et.shape| >= 1 && et.shape[0] == rank
          && IsInitializer(st) && |st.shape| >= 1 && st.shape[0] == rank
          && MaskHolds(et.data, Bits(e.options.endMask, rank).value, it.shape)
          && (InputOf(b, o, n + 1) != InputOf(b, o, n + 2) ==>
                MaskHolds(bt.data, Bits(e.options.beginMask, rank).value, Repeat(0, rank)))
          && SliceWiring(a, b, g, o, Bits(e.options.beginMask, rank).value, Bits(e.options.endMask, rank).value)
  }

  /** The facts of `ReadSliceBounds` and `ReadAxesStrides` give the operands. */
  lemma SliceRead(a: Arena, b: Arena, d: Arena, g: Tflite.Subgraph, o: OpId, e: Tflite.OperatorEntry,
                  it: TensorId, bt: TensorId, et: TensorId, at: TensorId, st: TensorId)
    requires o < |a.ops| && 0 <= a.ops[o].index < |g.operators| && e == g.operators[a.ops[o].index]
    requires |b.ops| == |a.ops| && it < |b.tensors| && bt < |b.tensors| && et < |b.tensors|
    requires b.ops[o].inputs == a.ops[o].inputs + [it, bt, et] && |b.ops[o].outputs| == |a.ops[o].outputs| + 1
    requires b.ops[o].attrs == a.ops[o].attrs && b.ops[o].index == a.ops[o].index
    requires var rank := |b.tensors[it].shape|;
               && Bits(e.options.beginMask, rank).Ok? && Bits(e.options.endMask, rank).Ok?
               && BoundsRead(a, b, g, o, it, bt, et, Bits(e.options.beginMask, rank).value, Bits(e.options.endMask, rank).value)
    requires Valid(d) && KeepsParsed(b, d) && at < |d.tensors| && st < |d.tensors|
    requires d.ops == b.ops[o := b.ops[o].(inputs := b.ops[o].inputs + [at, st])]
    requires IsInitializer(d.tensors[st]) && |d.tensors[st].shape| >= 1 && d.tensors[st].shape[0] == |b.tensors[it].shape|
    requires InputIs(d, g, a.ops[o].index, 3, st) && NewAmong(b, d, {at, st})
    requires AxesName(|b.tensors[it].shape|) in d.registry && d.registry[AxesName(|b.tensors[it].shape|)] == at
    requires at >= |b.tensors| ==> d.tensors[at].data == Some(FromInts(Range(|b.tensors[it].shape|)))
                                   && d.tensors[at].shape == [|b.tensors[it].shape|]
    ensures SliceOperands(a, d, g, o)
  {
    var rank := |b.tensors[it].shape|;
    SliceWired(a, b, d, g, o, it, bt, et, at, st, Bits(e.options.beginMask, rank).value, Bits(e.options.endMask, rank).value);
    var n := |a.ops[o].inputs|;
    assert InputOf(d, o, n) == it && InputOf(d, o, n + 1) == bt && InputOf(d, o, n + 2) == et;
    assert InputOf(d, o, n + 4) == st;
  }

  /** Renaming the operator and marking it parsed keeps its operands. */
  lemma SliceOperandsKept(a: Arena, b: Arena, c: Arena, g: Tflite.Subgraph, o: OpId)
    requires o < |a.ops| && SliceOperands(a, b, g, o) && Valid(c)
    requires c.tensors == b.tensors && c.registry == b.registry && |c.ops| == |b.ops|
    requires c.ops[o].inputs == b.ops[o].inputs && c.ops[o].outputs == b.ops[o].outputs
    requires c.ops[o].attrs == b.ops[o].attrs
    ensures SliceOperands(a, c, g, o)
  {
  }

  /** The data, bounds, axes and strides of `Slice.parse()`, before the operator is
      marked parsed. */
  method ReadSliceOperands(a: Arena, g: Tflite.Subgraph, o: OpId, e: Tflite.OperatorEntry) returns (r: Result<Arena>)
    requires Valid(a) && o < |a.ops|
    requires 0 <= a.ops[o].index < |g.operators| && e == g.operators[a.ops[o].index]
    ensures r.Ok? ==> SliceOperands(a, r.value, g, o) && r.value.ops[o].status == a.ops[o].status
  {
    var rb := ReadSliceBounds(a, g, o, e);
    if rb.Err? {
      return Err(rb.error);
    }
    var (b, it, bt, et) := rb.value;
    var rank := |b.tensors[it].shape|;
    var rs := ReadAxesStrides(b, g, o, rank);
    if rs.Err? {
      return Err(rs.error);
    }
    var (d, at, st) := rs.value;
    SliceRead(a, b, d, g, o, e, it, bt, et, at, st);
    return Ok(d);
  }

  /** `Slice.parse()`: a STRIDED_SLICE with data, begin, end and strides inputs and one
      output, without the ellipsis, new-axis and shrink-axis masks; its operands are
      described by `SliceOperands`. */
  method ParseSlice(a: Arena, g: Tflite.Subgraph, o: OpId) returns (r: Result<Arena>)
    requires Valid(a) && o < |a.ops|
    ensures r.Ok? ==> 0 <= a.ops[o].index < |g.operators|
    ensures r.Ok? ==> var e := g.operators[a.ops[o].index];
              && e.opcode == Tflite.STRIDED_SLICE && |e.inputs| == 4 && |e.outputs| == 1
              && e.options.ellipsisMask == 0 && e.options.newAxisMask == 0 && e.options.shrinkAxisMask == 0
    ensures r.Ok? ==> SliceOperands(a, r.value, g, o) && r.value.ops[o].status == Parsed
  {
    var re := OpEntry(g, a.ops[o]);
    if re.Err? {
      return Err(re.error);
    }
    var e := re.value;
    if e.opcode != Tflite.STRIDED_SLICE {
      return Err(Assertion("opcode is not STRIDED_SLICE"));
    }
    if |e.inputs| != 4 {
      return Err(Assertion("Slice takes four inputs"));
    }
    if |e.outputs| != 1 {
      return Err(Assertion("Slice has one output"));
    }
    if e.options.ellipsisMask != 0 {
      return Err(Assertion("EllipsisMask not supported!"));
    }
    if e.options.newAxisMask != 0 {
      return Err(Assertion("NewAxisMask not supported!"));
    }
    if e.options.shrinkAxisMask != 0 {
      return Err(Assertion("ShrinkAxisMask not supported!"));
    }
    var rd := ReadSliceOperands(a, g, o, e);
    if rd.Err? {
      return Err(rd.error);
    }
    r := SetOpParsed(rd.value, o);
    if r.Ok? {
      SliceOperandsKept(a, rd.value, r.value, g, o);
    }
  }


  // ---------------------------------------------------------------- transform

  /** `t.data = layout.transform(t.data)`: the entries of a constant reordered like the
      dimensions. A tensor without data cannot be indexed, a TypeError. */
  function TransformData(a: Arena, t: TensorId, l: Layout): (r: Result<Arena>)
    requires Valid(a) && t < |a.tensors|
    ensures r.Ok? <==> a.tensors[t].data.Some? && Transform(a.tensors[t].data.value, l.source, l.target).Ok?
    ensures r.Ok? ==> r.value == a.(tensors := a.tensors[t := a.tensors[t].(data := Some(Transform(a.tensors[t].data.value, l.source, l.target).value))])
  {
    if a.tensors[t].data.None? then Err(Assertion("'NoneType' object is not subscriptable")) else
    var d :- Transform(a.tensors[t].data.value, l.source, l.target);
    Ok(UpdateTensor(a, t, a.tensors[t].(data := Some(d))))
  }

  /** `Slice.transform()`: without a layout on the output nothing changes; otherwise the
      begin, end and strides constants (inputs 1, 2 and 4 of five) are reordered by that
      layout, one after the other. */
  function TransformSlice(a: Arena, o: OpId): (r: Result<Arena>)
    requires Valid(a) && o < |a.ops|
    ensures |a.ops[o].outputs| == 0 ==> r.Err?
    ensures |a.ops[o].outputs| > 0 && a.tensors[OutputOf(a, o, 0)].layout.None? ==> r == Ok(a)
    ensures |a.ops[o].outputs| > 0 && a.tensors[OutputOf(a, o, 0)].layout.Some? && r.Ok? ==>
              |a.ops[o].inputs| == 5 && r.value.ops == a.ops && |r.value.tensors| == |a.tensors|
    ensures r.Ok? ==> Valid(r.value) && r.value.ops == a.ops && r.value.registry == a.registry && |r.value.tensors| == |a.tensors|
                      && forall t | 0 <= t < |a.tensors| :: r.value.tensors[t] == a.tensors[t].(data := r.value.tensors[t].data)
  {
    if |a.ops[o].outputs| == 0 then Err(Assertion("list index out of range")) else
    var layout := a.tensors[OutputOf(a, o, 0)].layout;
    if layout.None? then Ok(a)
    else
      :- Need(|a.ops[o].inputs| == 5, "Slice has five inputs");
      var b :- TransformData(a, InputOf(a, o, 1), layout.value);
      var c :- TransformData(b, InputOf(a, o, 2), layout.value);
      TransformData(c, InputOf(a, o, 4), layout.value)
  }

  /** `y` holds, at the position where layout `l` moves each axis below `rank`, the entry
      `x` holds at that axis. */
  predicate EntriesFollow<T(==)>(x: seq<T>, y: seq<T>, l: Layout, rank: nat) {
    forall axis | 0 <= axis < rank ::
      && RemapAxis(axis, l).Ok? && RemapAxis(axis, l).value < |y| && axis < |x|
      && y[RemapAxis(axis, l).value] == x[axis]
  }

  /** A sequence with one entry per axis of a layout follows the layout when transformed. */
  lemma TransformedFollows<T>(x: seq<T>, l: Layout)
    requires SameAxes(l.source, l.target) && |x| == |l.source|
    ensures Transform(x, l.source, l.target).Ok?
    ensures EntriesFollow(x, Transform(x, l.source, l.target).value, l, |x|)
  {
    forall axis | 0 <= axis < |x|
      ensures RemapAxis(axis, l).Ok? && RemapAxis(axis, l).value < |Transform(x, l.source, l.target).value|
      ensures Transform(x, l.source, l.target).value[RemapAxis(axis, l).value] == x[axis]
    {
      RemapAxisExtent(x, axis, l);
    }
  }

  /** When the begin, end and strides constants are distinct tensors with one entry per
      dimension of the output, and the layout names the same distinct axes, the
      transformation succeeds, and every constant holds the entry of a dimension at the
      position where the transformed output has that dimension. */
  lemma {:induction false} BoundsFollowOutput(a: Arena, o: OpId)
    requires Valid(a) && o < |a.ops| && |a.ops[o].outputs| > 0 && |a.ops[o].inputs| == 5
    requires var out := a.tensors[OutputOf(a, o, 0)];
             && out.status == Parsed && out.layout.Some?
             && SameAxes(out.layout.value.source, out.layout.value.target)
             && |out.shape| == |out.layout.value.source|
    requires var t1, t2, t4 := InputOf(a, o, 1), InputOf(a, o, 2), InputOf(a, o, 4);
             && t1 != t2 && t1 != t4 && t2 != t4
             && a.tensors[t1].data.Some? && |a.tensors[t1].data.value| == |a.tensors[OutputOf(a, o, 0)].shape|
             && a.tensors[t2].data.Some? && |a.tensors[t2].data.value| == |a.tensors[OutputOf(a, o, 0)].shape|
             && a.tensors[t4].data.Some? && |a.tensors[t4].data.value| == |a.tensors[OutputOf(a, o, 0)].shape|
    ensures TransformSlice(a, o).Ok? && TransformTensor(a.tensors[OutputOf(a, o, 0)]).Ok?
    ensures var out := a.tensors[OutputOf(a, o, 0)];
            var b := TransformSlice(a, o).value;
            var t1, t2, t4 := InputOf(a, o, 1), InputOf(a, o, 2), InputOf(a, o, 4);
            && EntriesFollow(out.shape, TransformTensor(out).value.shape, out.layout.value, |out.shape|)
            && b.tensors[t1].data.Some? && EntriesFollow(a.tensors[t1].data.value, b.tensors[t1].data.value, out.layout.value, |out.shape|)
            && b.tensors[t2].data.Some? && EntriesFollow(a.tensors[t2].data.value, b.tensors[t2].data.value, out.layout.value, |out.shape|)
            && b.tensors[t4].data.Some? && EntriesFollow(a.tensors[t4].data.value, b.tensors[t4].data.value, out.layout.value, |out.shape|)
  {
    var out := a.tensors[OutputOf(a, o, 0)];
    var l := out.layout.value;
    var t1, t2, t4 := InputOf(a, o, 1), InputOf(a, o, 2), InputOf(a, o, 4);
    TransformedFollows(out.shape, l);
    TransformedFollows(a.tensors[t1].data.value, l);
    TransformedFollows(a.tensors[t2].data.value, l);
    TransformedFollows(a.tensors[t4].data.value, l);
    var b := TransformData(a, t1, l).value;
    var c := TransformData(b, t2, l).value;
    var d := TransformData(c, t4, l).value;
    assert TransformSlice(a, o) == Ok(d);
  }
}

=== FILE: softmax.dfy ===
/** The SOFTMAX converter (tflite2onnx/op/softmax.py): one input and one output, always
    over the last axis. Layouts cross both tensors and the axis is left as it is. */
module SoftmaxOp {
  import opened Wrappers
  import opened Lifecycle
  import opened Tensors
  import opened Operators
  import opened Ir
  import opened OpCommon
  import Tflite

  /** `Softmax.parse()`: a SOFTMAX over axis -1, the last one. */
  method ParseSoftmax(a: Arena, g: Tflite.Subgraph, o: OpId) returns (r: Result<Arena>)
    requires Valid(a) && o < |a.ops|
    ensures r.Ok? ==> 0 <= a.ops[o].index < |g.operators|
    ensures r.Ok? ==> var e := g.operators[a.ops[o].index];
              e.opcode == Tflite.SOFTMAX && |e.inputs| == 1 && |e.outputs| == 1
    ensures r.Ok? ==> var b := r.value;
              && Valid(b) && |b.ops| == |a.ops| && b.ops[o].status == Parsed
              && |b.ops[o].inputs| == |a.ops[o].inputs| + 1 && |b.ops[o].outputs| == |a.ops[o].outputs| + 1
              && b.ops[o].attrs == a.ops[o].attrs["axis" := AInt(-1)]
              && ReadsInputs(a, b, g, o, 1) && WritesOutputs(a, b, g, o, 1)
  {
    var re := OpEntry(g, a.ops[o]);
    if re.Err? {
      return Err(re.error);
    }
    var e := re.value;
    if e.opcode != Tflite.SOFTMAX {
      return Err(Assertion("opcode is not SOFTMAX"));
    }
    if |e.inputs| != 1 {
      return Err(Assertion("Softmax takes one input"));
    }
    if |e.outputs| != 1 {
      return Err(Assertion("Softmax has one output"));
    }
    var rio := ParseInputOutput(a, g, o);
    if rio.Err? {
      return Err(rio.error);
    }
    var b := rio.value.0;
    r := SetOpParsed(SetAttr(b, o, "axis", AInt(-1)), o);
    if r.Ok? {
      ReadsWritesKept(a, b, r.value, g, o, 1, 1);
    }
  }
}

=== FILE: split.dfy ===
/** The SPLIT converter (tflite2onnx/op/split.py): the data input is cut along an axis
    read from a constant into `NumSplits` outputs of equal size. Layouts cross every
    tensor, and the axis follows the layout of the first output. */
module SplitOp {
  import opened Wrappers
  import opened Seqs
  import opened Lifecycle
  import opened Tensors
  import opened Operators
  import opened Ir
  import opened OpCommon
  import opened Factory
  import Tflite
  import PadOp

  /** The "split" attribute: `numpy.full((n,), extent / n).astype('int')`, the extent
      divided by the number of pieces and rounded toward zero, once per piece. Zero
      pieces is a ZeroDivisionError. */
  function Pieces(extent: int, n: int): (r: Result<seq<int>>)
    ensures r.Ok? <==> n >= 1
  {
    if n < 1 then Err(BadValue("division by zero"))
    else Ok(Repeat(PadOp.TruncDiv(extent, n), n))
  }

  function Total(s: seq<int>): int {
    if |s| == 0 then 0 else Total(s[..|s| - 1]) + s[|s| - 1]
  }

  lemma {:induction false} TotalRepeat(v: int, n: nat)
    ensures Total(Repeat(v, n)) == v * n
  {
    if n > 0 {
      var s := Repeat(v, n);
      assert s[..n - 1] == Repeat(v, n - 1);
      TotalRepeat(v, n - 1);
    }
  }

  /** The pieces of a non-negative extent together cover it when the number of pieces
      divides it, and fall short of it by less than one piece per piece otherwise. */
  lemma PiecesCover(extent: nat, n: int)
    requires n >= 1
    ensures Pieces(extent, n).Ok?
    ensures var s := Pieces(extent, n).value;
            && |s| == n
            && Total(s) <= extent < Total(s) + n
            && (extent % n == 0 <==> Total(s) == extent)
  {
    var q := PadOp.TruncDiv(extent, n);
    TotalRepeat(q, n);
  }

  /** The axis constant of `Split.parse()`: the first input holds exactly one integer. */
  function SplitAxis(g: Tflite.Subgraph, e: Tflite.OperatorEntry): (r: Result<int>)
    requires |e.inputs| == 2
    ensures r.Ok? <==> IntData(g, e.inputs[0]).Ok? && IntData(g, e.inputs[0]).value.Some?
                       && |IntData(g, e.inputs[0]).value.value| == 1
    ensures r.Ok? ==> IntData(g, e.inputs[0]).value.value == [r.value]
  {
    var d :- IntData(g, e.inputs[0]);
    if d.None? then Err(TypeMismatch("'NoneType' object has no attribute 'size'"))
    else if |d.value| != 1 then Err(Assertion("axis holds one element"))
    else Ok(d.value[0])
  }

  /** `Split.parse()` up to its outputs: the data input at position 1, the "axis" and
      "split" attributes. The extent along the axis is read with Python's indexing, so
      a negative axis counts from the end. */
  method ReadSplit(a: Arena, g: Tflite.Subgraph, o: OpId, e: Tflite.OperatorEntry) returns (r: Result<(Arena, TensorId)>)
    requires Valid(a) && o < |a.ops| && |e.inputs| == 2
    ensures r.Ok? ==> SplitAxis(g, e).Ok? && |e.outputs| == e.options.numSplits >= 1
    ensures r.Ok? ==> var (b, it) := r.value;
              && Valid(b) && KeepsParsed(a, b) && it < |b.tensors| && b.tensors[it].status == Parsed
              && InputIs(b, g, a.ops[o].index, 1, it)
              && PyIndex(b.tensors[it].shape, SplitAxis(g, e).value).Ok?
              && var extent := PyIndex(b.tensors[it].shape, SplitAxis(g, e).value).value;
                 b.ops == a.ops[o := a.ops[o].(inputs := a.ops[o].inputs + [it],
                                               attrs := a.ops[o].attrs["axis" := AInt(SplitAxis(g, e).value)]
                                                                      ["split" := AInts(Pieces(extent, e.options.numSplits).value)])]
  {
    var ri := ParseInput(a, g, o, 1, None, false);
    if ri.Err? {
      return Err(ri.error);
    }
    var (b, it) := ri.value;
    var ra := SplitAxis(g, e);
    if ra.Err? {
      return Err(ra.error);
    }
    var axis := ra.value;
    var n := e.options.numSplits;
    if |e.outputs| != n {
      return Err(Assertion("one output per split"));
    }
    var rx := PyIndex(b.tensors[it].shape, axis);
    if rx.Err? {
      return Err(rx.error);
    }
    var rp := Pieces(rx.value, n);
    if rp.Err? {
      return Err(rp.error);
    }
    var c := SetAttr(SetAttr(b, o, "axis", AInt(axis)), o, "split", AInts(rp.value));
    return Ok((c, it));
  }

  /** `Split.parse()`: a SPLIT with the axis constant and the data as inputs and one
      output per piece. */
  method ParseSplit(a: Arena, g: Tflite.Subgraph, o: OpId) returns (r: Result<Arena>)
    requires Valid(a) && o < |a.ops|
    ensures r.Ok? ==> 0 <= a.ops[o].index < |g.operators|
    ensures r.Ok? ==> var e := g.operators[a.ops[o].index];
              && e.opcode == Tflite.SPLIT && |e.inputs| == 2 && SplitAxis(g, e).Ok?
              && |e.outputs| == e.options.numSplits >= 1
    ensures r.Ok? ==> var e := g.operators[a.ops[o].index];
              && Valid(r.value) && |r.value.ops| == |a.ops| && r.value.ops[o].status == Parsed
              && |r.value.ops[o].inputs| == |a.ops[o].inputs| + 1
              && |r.value.ops[o].outputs| == |a.ops[o].outputs| + |e.outputs|
              && "axis" in r.value.ops[o].attrs && "split" in r.value.ops[o].attrs
              && r.value.ops[o].attrs["axis"] == AInt(SplitAxis(g, e).value)
              && r.value.ops[o].attrs["split"].AInts? && |r.value.ops[o].attrs["split"].v| == |e.outputs|
    ensures r.Ok? ==> var e := g.operators[a.ops[o].index];
              var b, n := r.value, |a.ops[o].inputs|;
              && b.ops[o].inputs[..n] == a.ops[o].inputs && b.ops[o].inputs[n] < |b.tensors|
              && InputIs(b, g, a.ops[o].index, 1, b.ops[o].inputs[n])
              && WritesOutputs(a, b, g, o, |e.outputs|)
              && PyIndex(b.tensors[b.ops[o].inputs[n]].shape, SplitAxis(g, e).value).Ok?
              && var extent := PyIndex(b.tensors[b.ops[o].inputs[n]].shape, SplitAxis(g, e).value).value;
                 b.ops[o].attrs == a.ops[o].attrs["axis" := AInt(SplitAxis(g, e).value)]
                                                 ["split" := AInts(Pieces(extent, e.options.numSplits).value)]
  {
    var re := OpEntry(g, a.ops[o]);
    if re.Err? {
      return Err(re.error);
    }
    var e := re.value;
    if e.opcode != Tflite.SPLIT {
      return Err(Assertion("opcode is not SPLIT"));
    }
    if |e.inputs| != 2 {
      return Err(Assertion("Split takes two inputs"));
    }
    var rs := ReadSplit(a, g, o, e);
    if rs.Err? {
      return Err(rs.error);
    }
    var (b, it) := rs.value;
    var ro := ParseOutputs(b, g, o, |e.outputs|);
    if ro.Err? {
      return Err(ro.error);
    }
    var c := ro.value.0;
    assert c.tensors[it].shape == b.tensors[it].shape;
    assert c.ops[o].inputs == a.ops[o].inputs + [it];
    r := SetOpParsed(c, o);
    if r.Ok? {
      WritesKept(b, c, r.value, g, o, |e.outputs|);
    }
  }
}

=== FILE: squared_difference.dfy ===
/** The SQUARED_DIFFERENCE converter of tflite2onnx/op/squared_difference.py: the operator
    itself becomes the subtraction (ONNX `Sub`) of its two inputs, and a Pow helper behind
    it squares the difference. Layouts cross every tensor and its transformation changes
    nothing. */
module SquaredDifferenceOp {
  import opened Wrappers
  import opened Lifecycle
  import opened Tensors
  import opened Operators
  import opened Ir
  import opened OpCommon
  import opened PowerSplice
  import Tflite

  /** The ONNX operator type: `Sub` before and after initialization; a parsed operator
      whose TFLite opcode is not SQUARED_DIFFERENCE fails the lookup. */
  function SubType(g: Tflite.Subgraph, op: Operator): (r: Result<string>)
    ensures op.status == Uninitialized ==> r == Ok("Sub")
    ensures op.status != Uninitialized ==>
              (r.Ok? <==> 0 <= op.index < |g.operators| && g.operators[op.index].opcode == Tflite.SQUARED_DIFFERENCE)
    ensures r.Ok? ==> r.value == "Sub"
  {
    MappedType(g, op, Tflite.SQUARED_DIFFERENCE, "Sub")
  }

  /** The inputs and the output, read in the order `parse` reads them. */
  method ReadTensors(a: Arena, g: Tflite.Subgraph, o: OpId) returns (r: Result<Arena>)
    requires Valid(a) && o < |a.ops|
    ensures r.Ok? ==> var b := r.value;
              && Valid(b) && |b.ops| == |a.ops| && b.ops[o].status == a.ops[o].status
              && b.ops[o].post == a.ops[o].post && b.ops[o].pre == a.ops[o].pre && b.ops[o].kind == a.ops[o].kind
              && |b.ops[o].inputs| == |a.ops[o].inputs| + 2 && |b.ops[o].outputs| == |a.ops[o].outputs| + 1
              && (|a.ops[o].outputs| == 0 ==> b.tensors[OutputOf(b, o, 0)].producers == [o])
              && ReadsInputs(a, b, g, o, 2) && WritesOutputs(a, b, g, o, 1)
  {
    var ri := ParseInputs(a, g, o, 2);
    if ri.Err? {
      return Err(ri.error);
    }
    var b := ri.value.0;
    var ro := ParseOutput(b, g, o, 0, None);
    if ro.Err? {
      return Err(ro.error);
    }
    var (c, ot) := ro.value;
    ReadsKept(a, b, c, g, o, 2);
    AppendedWrites(a, c, g, o, [ot]);
    return Ok(c);
  }

  /** `SquaredDifference.parse()`: two inputs of equal rank and one output, then the Pow
      helper squaring the first output. The operator ends up parsed, with the Pow as its
      one new post helper. */
  method ParseSquaredDifference(a: Arena, g: Tflite.Subgraph, o: OpId) returns (r: Result<Arena>)
    requires Valid(a) && o < |a.ops|
    ensures r.Ok? ==> 0 <= a.ops[o].index < |g.operators|
    ensures r.Ok? ==> var e := g.operators[a.ops[o].index];
              && e.opcode == Tflite.SQUARED_DIFFERENCE && |e.inputs| == 2 && |e.outputs| == 1
    ensures r.Ok? ==> var b := r.value;
              && Valid(b) && |b.ops| == |a.ops| + 1 && b.ops[o].status == Parsed
              && |b.ops[o].inputs| == |a.ops[o].inputs| + 2 && |b.ops[o].outputs| == |a.ops[o].outputs| + 1
              && |b.tensors[InputOf(b, o, 0)].shape| == |b.tensors[InputOf(b, o, 1)].shape|
              && b.ops[o].post == a.ops[o].post + [|a.ops|]
              && PowHelper(b, o, |a.ops|, Square)
    ensures r.Ok? ==> ReadsInputs(a, r.value, g, o, 2)
    ensures r.Ok? && a.ops[o].outputs == [] ==> OutputIs(r.value, g, a.ops[o].index, 0, OutputOf(r.value, |a.ops|, 0))
  {
    var re := OpEntry(g, a.ops[o]);
    if re.Err? {
      return Err(re.error);
    }
    var e := re.value;
    if e.opcode != Tflite.SQUARED_DIFFERENCE {
      return Err(Assertion("opcode is not SQUARED_DIFFERENCE"));
    }
    if |e.inputs| != 2 {
      return Err(Assertion("SquaredDifference takes two inputs"));
    }
    if |e.outputs| != 1 {
      return Err(Assertion("SquaredDifference has one output"));
    }
    var rt := ReadTensors(a, g, o);
    if rt.Err? {
      return Err(rt.error);
    }
    var b := rt.value;
    if |b.tensors[InputOf(b, o, 0)].shape| != |b.tensors[InputOf(b, o, 1)].shape| {
      return Err(Assertion("inputs have the same rank"));
    }
    r := AppendThenParse(b, o, PowerSplice.Square);
    if r.Ok? {
      ReadsKept(a, b, r.value, g, o, 2);
    }
  }
}

=== FILE: squareddifference.dfy ===
/** The SQUARED_DIFFERENCE converter of tflite2onnx/op/squareddifference.py: the operator
    becomes an ONNX `Identity` between two helpers — a Sub in front of it computing the
    difference of its two inputs, and a Pow behind it squaring the result. Layouts cross
    every tensor and its transformation changes nothing. */
module SquaredDifferenceIdentityOp {
  import opened Wrappers
  import opened Seqs
  import opened Lifecycle
  import opened Tensors
  import opened Operators
  import opened Ir
  import opened OpCommon
  import opened PowerSplice
  import SquaredDifferenceOp
  import Factory
  import Tflite

  /** The ONNX operator type: `Identity` before and after initialization. Both
      SquaredDifference classes claim the same one opcode, so this type exists exactly where
      the Sub-based class's does. */
  function IdentityType(g: Tflite.Subgraph, op: Operator): (r: Result<string>)
    ensures r.Ok? <==> SquaredDifferenceOp.SubType(g, op).Ok?
    ensures op.status == Uninitialized ==> r == Ok("Identity")
    ensures r.Ok? ==> r.value == "Identity"
  {
    MappedType(g, op, Tflite.SQUARED_DIFFERENCE, "Identity")
  }

  const DiffPrefix := "TFLITE2ONNX_Diff_"

  /** The difference tensor: a copy of the output `x`, written by the Sub `sub` and read
      by the operator `self`. */
  function Difference(x: Tensor, sub: OpId, self: OpId): Tensor {
    RefCopy(x, DiffPrefix + x.name).(status := Parsed, producers := [sub], consumers := [self])
  }

  /** The Sub operator once parsed: it reads the two original inputs and writes the
      difference tensor. */
  function SubOperator(i0: TensorId, i1: TensorId, dt: TensorId): Operator {
    NewOperator(SubtractWrapper, -1).(inputs := [i0, i1], outputs := [dt], status := Parsed)
  }

  // ---------------------------------------------------------------- the steps

  /** `difference_t = getWithRef(output, name, True); setParsed(); addProducer(sub);
      addConsumer(self)`. */
  method LinkDifference(a: Arena, self: OpId, sub: OpId, ref: TensorId) returns (r: Result<(Arena, TensorId)>)
    requires Valid(a) && self < |a.ops| && sub < |a.ops| && ref < |a.tensors|
    ensures r.Ok? <==> DiffPrefix + a.tensors[ref].name !in a.registry
    ensures r.Ok? ==> var (b, t) := r.value;
              && Valid(b) && t == |a.tensors| && b.ops == a.ops
              && b.tensors == a.tensors + [Difference(a.tensors[ref], sub, self)]
              && b.registry == a.registry[DiffPrefix + a.tensors[ref].name := t]
  {
    var x := a.tensors[ref];
    var name := DiffPrefix + x.name;
    var rg := Factory.GetWithRef(a, ref, name, true);
    if rg.Err? {
      return Err(rg.error);
    }
    var (b, t) := rg.value;
    assert b.tensors == a.tensors + [RefCopy(x, name)];
    var y := RefCopy(x, name).(status := Parsed);
    var c := UpdateTensor(b, t, y);
    assert c.tensors == a.tensors + [y];
    var d := AddProducerAt(c, t, sub).value;
    assert d.tensors == a.tensors + [y.(producers := [sub])];
    var e := AddConsumerAt(d, t, self).value;
    assert [] + [self] == [self];
    assert e.tensors == a.tensors + [y.(producers := [sub], consumers := [self])];
    return Ok((e, t));
  }

  /** `sub.inputs.append(t); t.replaceConsumer(self, sub)` for the input `t` at position
      `k` of `self`: the tensor now feeds the Sub instead. */
  method MoveInput(a: Arena, self: OpId, sub: OpId, k: nat) returns (r: Result<Arena>)
    requires Valid(a) && self < |a.ops| && sub < |a.ops| && k < |a.ops[self].inputs|
    ensures var t := InputOf(a, self, k);
            r.Ok? <==> self in a.tensors[t].consumers
    ensures r.Ok? ==> var t := InputOf(a, self, k);
              && Valid(r.value) && r.value.registry == a.registry
              && r.value.tensors == a.tensors[t := a.tensors[t].(consumers := ReplaceFirst(a.tensors[t].consumers, self, sub))]
              && r.value.ops == a.ops[sub := a.ops[sub].(inputs := a.ops[sub].inputs + [t])]
  {
    var t := InputOf(a, self, k);
    var b := AppendInput(a, sub, t);
    var c := ReplaceConsumerAt(b, t, self, sub);
    if c.Err? {
      return Err(c.error);
    }
    return Ok(c.value);
  }

  /** `self.inputs = [dt]; sub.outputs.append(dt); sub.setParsed(); self.pre.append(sub)`. */
  method Finish(a: Arena, self: OpId, sub: OpId, dt: TensorId) returns (r: Arena)
    requires Valid(a) && self < sub < |a.ops| && dt < |a.tensors|
    requires a.ops[sub].status == Initialized && a.ops[sub].kind == SubtractWrapper
    ensures Valid(r) && r.tensors == a.tensors && r.registry == a.registry
    ensures r.ops == a.ops[self := a.ops[self].(inputs := [dt], pre := a.ops[self].pre + [sub])]
                          [sub := a.ops[sub].(outputs := a.ops[sub].outputs + [dt], status := Parsed)]
  {
    var b := SetInputs(a, self, [dt]);
    var c := AppendOutput(b, sub, dt);
    var d := SetOpParsed(c, sub).value;
    r := AppendPre(d, self, sub);
  }

  // ---------------------------------------------------------------- the splice

  /** What `prependSubtraction` needs: an output, a free name for the difference tensor,
      two inputs, and `self` among the consumers of each of them when its turn comes. */
  predicate Guard(a: Arena, self: OpId)
    requires Valid(a) && self < |a.ops|
  {
    && |a.ops[self].outputs| > 0
    && DiffPrefix + a.tensors[OutputOf(a, self, 0)].name !in a.registry
    && |a.ops[self].inputs| >= 2
    && var i0 := InputOf(a, self, 0);
       var i1 := InputOf(a, self, 1);
       && self in a.tensors[i0].consumers
       && self in (if i1 == i0 then ReplaceFirst(a.tensors[i0].consumers, self, |a.ops|) else a.tensors[i1].consumers)
  }

  /** The consumers of `t` once `self` has handed it to `sub`. */
  function Handed(x: Tensor, self: OpId, sub: OpId): Tensor
    requires self in x.consumers
  {
    x.(consumers := ReplaceFirst(x.consumers, self, sub))
  }

  /** The arena after `prependSubtraction`: the difference tensor and the Sub are the one
      new tensor and operator; both inputs are handed from `self` to the Sub, and `self`
      reads only the difference tensor. */
  predicate Prepended(a: Arena, b: Arena, self: OpId)
    requires Valid(a) && self < |a.ops| && Guard(a, self)
  {
    var i0 := InputOf(a, self, 0);
    var i1 := InputOf(a, self, 1);
    var x := a.tensors[OutputOf(a, self, 0)];
    var dt := |a.tensors|;
    var sub := |a.ops|;
    var t0 := a.tensors[i0 := Handed(a.tensors[i0], self, sub)];
    && b.tensors == t0[i1 := Handed(t0[i1], self, sub)] + [Difference(x, sub, self)]
    && b.registry == a.registry[DiffPrefix + x.name := dt]
    && b.ops == a.ops[self := a.ops[self].(inputs := [dt], pre := a.ops[self].pre + [sub])] + [SubOperator(i0, i1, dt)]
  }

  /** `prependSubtraction()`. */
  method PrependSubtraction(a: Arena, self: OpId) returns (r: Result<Arena>)
    requires Valid(a) && self < |a.ops|
    ensures r.Ok? <==> Guard(a, self)
    ensures r.Ok? ==> Valid(r.value) && Prepended(a, r.value, self)
  {
    if |a.ops[self].outputs| == 0 {
      return Err(IndexOutOfRange("list index out of range"));
    }
    var output := OutputOf(a, self, 0);
    var (b, sub) := PushOp(a, NewOperator(SubtractWrapper, -1));
    var rd := LinkDifference(b, self, sub, output);
    if rd.Err? {
      return Err(rd.error);
    }
    var (c, dt) := rd.value;
    r := HandInputs(a, c, self, sub, dt);
  }

  /** The two inputs move to the Sub, and the operator and the Sub are finished. */
  method HandInputs(a0: Arena, a: Arena, self: OpId, sub: OpId, dt: TensorId) returns (r: Result<Arena>)
    requires Valid(a0) && self < |a0.ops| && |a0.ops[self].outputs| > 0
    requires DiffPrefix + a0.tensors[OutputOf(a0, self, 0)].name !in a0.registry
    requires sub == |a0.ops| && dt == |a0.tensors|
    requires Valid(a) && a.ops == a0.ops + [NewOperator(SubtractWrapper, -1)]
    requires a.tensors == a0.tensors + [Difference(a0.tensors[OutputOf(a0, self, 0)], sub, self)]
    requires a.registry == a0.registry[DiffPrefix + a0.tensors[OutputOf(a0, self, 0)].name := dt]
    ensures r.Ok? <==> Guard(a0, self)
    ensures r.Ok? ==> Valid(r.value) && Prepended(a0, r.value, self)
  {
    if |a.ops[self].inputs| < 1 {
      return Err(IndexOutOfRange("list index out of range"));
    }
    var i0 := InputOf(a, self, 0);
    var rm0 := MoveInput(a, self, sub, 0);
    if rm0.Err? {
      return Err(rm0.error);
    }
    var b := rm0.value;
    if |b.ops[self].inputs| < 2 {
      return Err(IndexOutOfRange("list index out of range"));
    }
    var i1 := InputOf(b, self, 1);
    assert a.ops[self] == a0.ops[self] && b.ops[self] == a0.ops[self];
    assert i1 == InputOf(a0, self, 1);
    assert b.tensors[i1] == (if i1 == i0 then Handed(a0.tensors[i0], self, sub) else a0.tensors[i1]);
    var rm1 := MoveInput(b, self, sub, 1);
    if rm1.Err? {
      return Err(rm1.error);
    }
    var c := rm1.value;
    var d := Finish(c, self, sub, dt);
    HandedSplice(a0, a, b, c, d, self, sub, dt);
    return Ok(d);
  }

  /** The two moves and the finish, taken together, are the splice `prependSubtraction`
      promises. */
  lemma HandedSplice(a0: Arena, a: Arena, b: Arena, c: Arena, d: Arena, self: OpId, sub: OpId, dt: TensorId)
    requires Valid(a0) && self < |a0.ops| && |a0.ops[self].outputs| > 0 && |a0.ops[self].inputs| >= 2
    requires DiffPrefix + a0.tensors[OutputOf(a0, self, 0)].name !in a0.registry
    requires sub == |a0.ops| && dt == |a0.tensors|
    requires a.ops == a0.ops + [NewOperator(SubtractWrapper, -1)]
    requires a.tensors == a0.tensors + [Difference(a0.tensors[OutputOf(a0, self, 0)], sub, self)]
    requires a.registry == a0.registry[DiffPrefix + a0.tensors[OutputOf(a0, self, 0)].name := dt]
    requires var i0 := InputOf(a0, self, 0);
             && self in a0.tensors[i0].consumers && b.registry == a.registry
             && b.tensors == a.tensors[i0 := a.tensors[i0].(consumers := ReplaceFirst(a.tensors[i0].consumers, self, sub))]
             && b.ops == a.ops[sub := a.ops[sub].(inputs := a.ops[sub].inputs + [i0])]
    requires var i1 := InputOf(a0, self, 1);
             && self in b.tensors[i1].consumers && c.registry == b.registry
             && c.tensors == b.tensors[i1 := b.tensors[i1].(consumers := ReplaceFirst(b.tensors[i1].consumers, self, sub))]
             && c.ops == b.ops[sub := b.ops[sub].(inputs := b.ops[sub].inputs + [i1])]
    requires d.tensors == c.tensors && d.registry == c.registry
    requires d.ops == c.ops[self := c.ops[self].(inputs := [dt], pre := c.ops[self].pre + [sub])]
                           [sub := c.ops[sub].(outputs := c.ops[sub].outputs + [dt], status := Parsed)]
    ensures Guard(a0, self) && Prepended(a0, d, self)
  {
    var i0 := InputOf(a0, self, 0);
    var i1 := InputOf(a0, self, 1);
    var x := a0.tensors[OutputOf(a0, self, 0)];
    var t0 := a0.tensors[i0 := Handed(a0.tensors[i0], self, sub)];
    assert b.tensors == t0 + [Difference(x, sub, self)];
    assert c.ops[sub].inputs == [i0, i1];
    assert d.ops[sub] == SubOperator(i0, i1, dt);
  }

  /** `SquaredDifference.parse()`: two inputs of equal rank and one output, then the Sub
      in front and the Pow behind the operator. The Sub reads the two inputs; the operator,
      parsed, passes the difference on to the Pow. */
  method ParseSquaredDifferenceIdentity(a: Arena, g: Tflite.Subgraph, o: OpId) returns (r: Result<Arena>)
    requires Valid(a) && o < |a.ops|
    ensures r.Ok? ==> 0 <= a.ops[o].index < |g.operators|
    ensures r.Ok? ==> var e := g.operators[a.ops[o].index];
              && e.opcode == Tflite.SQUARED_DIFFERENCE && |e.inputs| == 2 && |e.outputs| == 1
    ensures r.Ok? ==> Squared(a, r.value, o) && SubReads(a, r.value, g, o) && PowWrites(a, r.value, g, o)
  {
    var re := OpEntry(g, a.ops[o]);
    if re.Err? {
      return Err(re.error);
    }
    var e := re.value;
    if e.opcode != Tflite.SQUARED_DIFFERENCE {
      return Err(Assertion("opcode is not SQUARED_DIFFERENCE"));
    }
    if |e.inputs| != 2 {
      return Err(Assertion("SquaredDifference takes two inputs"));
    }
    if |e.outputs| != 1 {
      return Err(Assertion("SquaredDifference has one output"));
    }
    var rt := SquaredDifferenceOp.ReadTensors(a, g, o);
    if rt.Err? {
      return Err(rt.error);
    }
    var b := rt.value;
    if |b.tensors[InputOf(b, o, 0)].shape| != |b.tensors[InputOf(b, o, 1)].shape| {
      return Err(Assertion("inputs have the same rank"));
    }
    r := Decompose(b, o);
    if r.Ok? {
      DecomposedEntry(a, b, r.value, g, o);
    }
  }

  /** The Sub reads two tensors of equal rank; when the operator read nothing before
      parsing, they are the tensors of TFLite input positions 0 and 1 of its entry. */
  predicate SubReads(a: Arena, b: Arena, g: Tflite.Subgraph, o: OpId)
    requires Valid(a) && o < |a.ops| && Squared(a, b, o)
  {
    var i0 := InputOf(b, |a.ops|, 0);
    var i1 := InputOf(b, |a.ops|, 1);
    && |b.tensors[i0].shape| == |b.tensors[i1].shape|
    && (a.ops[o].inputs == [] ==> InputIs(b, g, a.ops[o].index, 0, i0) && InputIs(b, g, a.ops[o].index, 1, i1))
  }

  /** When the operator wrote nothing before parsing, the Pow writes the tensor of TFLite
      output position 0 of its entry. */
  predicate PowWrites(a: Arena, b: Arena, g: Tflite.Subgraph, o: OpId)
    requires Valid(a) && o < |a.ops| && Squared(a, b, o)
  {
    a.ops[o].outputs == [] ==> OutputIs(b, g, a.ops[o].index, 0, OutputOf(b, |a.ops| + 1, 0))
  }

  /** Reading the entry's tensors and then decomposing leaves the Sub reading them and the
      Pow writing the entry's output. */
  lemma DecomposedEntry(a: Arena, b: Arena, c: Arena, g: Tflite.Subgraph, o: OpId)
    requires Valid(a) && o < |a.ops| && Valid(b) && |b.ops| == |a.ops|
    requires b.ops[o].pre == a.ops[o].pre && b.ops[o].post == a.ops[o].post
    requires ReadsInputs(a, b, g, o, 2) && WritesOutputs(a, b, g, o, 1)
    requires |b.ops[o].inputs| >= 2 && |b.tensors[InputOf(b, o, 0)].shape| == |b.tensors[InputOf(b, o, 1)].shape|
    requires Squared(b, c, o) && c.ops[|b.ops|].inputs == b.ops[o].inputs[..2]
    requires KeepsNames(b, c) && |b.ops[o].outputs| > 0 && OutputOf(c, |b.ops| + 1, 0) == OutputOf(b, o, 0)
    requires |b.tensors| <= |c.tensors| && forall t | 0 <= t < |b.tensors| :: c.tensors[t].shape == b.tensors[t].shape
    ensures Squared(a, c, o) && SubReads(a, c, g, o) && PowWrites(a, c, g, o)
  {
    var n := |a.ops[o].inputs|;
    assert InputOf(c, |a.ops|, 0) == InputOf(b, o, 0) && InputOf(c, |a.ops|, 1) == InputOf(b, o, 1);
    if n == 0 {
      assert InputIs(b, g, a.ops[o].index, 0, b.ops[o].inputs[0]);
      assert InputIs(b, g, a.ops[o].index, 1, b.ops[o].inputs[1]);
    }
    if a.ops[o].outputs == [] {
      assert OutputIs(b, g, a.ops[o].index, 0, b.ops[o].outputs[0]);
    }
  }

  /** `prependSubtraction()` as the rest of `parse` sees it: the Sub helper reads the first
      two inputs and writes a new tensor, the operator keeps its outputs, and every old
      tensor keeps its shape and every name its tensor. */
  method PrependSub(a: Arena, o: OpId) returns (r: Result<Arena>)
    requires Valid(a) && o < |a.ops|
    ensures r.Ok? ==> var c := r.value;
              var sub := |a.ops|;
              && |a.ops[o].inputs| >= 2 && |a.ops[o].outputs| > 0
              && Valid(c) && |c.ops| == sub + 1 && |c.tensors| == |a.tensors| + 1 && SubHelper(c, o, sub)
              && c.ops[sub].inputs == a.ops[o].inputs[..2] && InputOf(c, o, 0) == |a.tensors|
              && c.ops[o].outputs == a.ops[o].outputs && c.ops[o].status == a.ops[o].status
              && c.ops[o].pre == a.ops[o].pre + [sub] && c.ops[o].post == a.ops[o].post
              && (forall t | 0 <= t < |a.tensors| :: c.tensors[t].shape == a.tensors[t].shape)
              && KeepsNames(a, c)
  {
    r := PrependSubtraction(a, o);
    if r.Ok? {
      PrependedSubHelper(a, r.value, o);
    }
  }

  /** `prependSubtraction(); appendSquare(); setParsed()`. */
  method Decompose(a: Arena, o: OpId) returns (r: Result<Arena>)
    requires Valid(a) && o < |a.ops|
    ensures r.Ok? ==> var b := r.value;
              var sub := |a.ops|;
              && |a.ops[o].inputs| >= 2
              && Squared(a, b, o) && |b.tensors| == |a.tensors| + 3
              && b.ops[sub].inputs == a.ops[o].inputs[..2]
              && (forall t | 0 <= t < |a.tensors| :: b.tensors[t].shape == a.tensors[t].shape)
              && KeepsNames(a, b) && |a.ops[o].outputs| > 0 && OutputOf(b, sub + 1, 0) == OutputOf(a, o, 0)
  {
    var rp := PrependSub(a, o);
    if rp.Err? {
      return Err(rp.error);
    }
    var c := rp.value;
    var dt := InputOf(c, o, 0);
    r := AppendThenParse(c, o, Square);
    if r.Ok? {
      var b := r.value;
      assert OutputOf(c, o, 0) == OutputOf(a, o, 0);
      assert b.tensors[dt] == c.tensors[dt];
      assert b.ops[|a.ops|] == c.ops[|a.ops|];
      assert SubHelper(b, o, |a.ops|);
    }
  }

  /** `b` is `a` with operator `o` parsed and decomposed: its new operators are the Sub
      helper in front of it and the Pow helper of exponent 2 behind it. */
  predicate Squared(a: Arena, b: Arena, o: OpId)
    requires Valid(a) && o < |a.ops|
  {
    var sub := |a.ops|;
    && Valid(b) && |b.ops| == |a.ops| + 2 && b.ops[o].status == Parsed
    && b.ops[o].pre == a.ops[o].pre + [sub] && b.ops[o].post == a.ops[o].post + [sub + 1]
    && SubHelper(b, o, sub) && PowHelper(b, o, sub + 1, Square)
  }

  /** `sub` is the Sub helper in front of `self`: a parsed pre helper of `self` writing
      the one tensor `self` reads, whose only producer it is and whose only consumer is
      `self`. */
  predicate SubHelper(b: Arena, self: OpId, sub: OpId)
    requires Valid(b) && self < |b.ops| && sub < |b.ops|
  {
    && sub in b.ops[self].pre && b.ops[sub].kind == SubtractWrapper && b.ops[sub].status == Parsed
    && |b.ops[self].inputs| == 1 && |b.ops[sub].inputs| == 2 && |b.ops[sub].outputs| == 1
    && var dt := InputOf(b, self, 0);
       && OutputOf(b, sub, 0) == dt
       && b.tensors[dt].producers == [sub] && b.tensors[dt].consumers == [self]
  }

  /** After `prependSubtraction` the new operator is the Sub helper of `self`, and it
      reads the two tensors that were the first inputs of `self`. */
  lemma PrependedSubHelper(a: Arena, b: Arena, self: OpId)
    requires Valid(a) && self < |a.ops| && Guard(a, self)
    requires Valid(b) && Prepended(a, b, self)
    ensures |b.ops| == |a.ops| + 1 && SubHelper(b, self, |a.ops|)
    ensures b.ops[|a.ops|].inputs == a.ops[self].inputs[..2]
  {
  }

  /** Handing the inputs to the Sub keeps the edges of a consistent arena mutual when
      `self` reads exactly two different tensors, each listing `self` once. */
  lemma PrependedKeepsMutual(a: Arena, b: Arena, self: OpId)
    requires Valid(a) && Mutual(a) && self < |a.ops| && Guard(a, self)
    requires |a.ops[self].inputs| == 2 && InputOf(a, self, 0) != InputOf(a, self, 1)
    requires NoDup(a.tensors[InputOf(a, self, 0)].consumers) && NoDup(a.tensors[InputOf(a, self, 1)].consumers)
    requires Valid(b) && Prepended(a, b, self)
    ensures Mutual(b)
  {
    var i0 := InputOf(a, self, 0);
    var i1 := InputOf(a, self, 1);
    var sub := |a.ops|;
    assert sub !in a.tensors[i0].consumers && sub !in a.tensors[i1].consumers;
    ReplaceFirstNoDup(a.tensors[i0].consumers, self, sub);
    ReplaceFirstNoDup(a.tensors[i1].consumers, self, sub);
    PrependedPointwise(a, b, self);
    PreInputsConsumed(a, b, self, i0, i1);
    PreOutputsProduced(a, b, self, i0, i1);
    PreConsumersRead(a, b, self, i0, i1);
    PreProducersWritten(a, b, self, i0, i1);
  }

  /** The splice record by record, for two different inputs. */
  predicate PrePointwise(a: Arena, b: Arena, self: OpId, i0: TensorId, i1: TensorId)
    requires self < |a.ops| && i0 < |a.tensors| && i1 < |a.tensors|
  {
    var dt := |a.tensors|;
    var sub := |a.ops|;
    && |b.tensors| == dt + 1 && |b.ops| == sub + 1
    && (forall t | 0 <= t < dt && t != i0 && t != i1 :: b.tensors[t] == a.tensors[t])
    && b.tensors[i0].producers == a.tensors[i0].producers && b.tensors[i1].producers == a.tensors[i1].producers
    && (self !in b.tensors[i0].consumers && sub in b.tensors[i0].consumers)
    && (forall c | c in b.tensors[i0].consumers :: c in a.tensors[i0].consumers || c == sub)
    && (forall c | c in a.tensors[i0].consumers && c != self :: c in b.tensors[i0].consumers)
    && (self !in b.tensors[i1].consumers && sub in b.tensors[i1].consumers)
    && (forall c | c in b.tensors[i1].consumers :: c in a.tensors[i1].consumers || c == sub)
    && (forall c | c in a.tensors[i1].consumers && c != self :: c in b.tensors[i1].consumers)
    && b.tensors[dt].producers == [sub] && b.tensors[dt].consumers == [self]
    && (forall o | 0 <= o < sub && o != self :: b.ops[o] == a.ops[o])
    && b.ops[self].inputs == [dt] && b.ops[self].outputs == a.ops[self].outputs
    && b.ops[sub].inputs == [i0, i1] && b.ops[sub].outputs == [dt]
  }

  lemma PrependedPointwise(a: Arena, b: Arena, self: OpId)
    requires Valid(a) && self < |a.ops| && Guard(a, self)
    requires |a.ops[self].inputs| == 2 && InputOf(a, self, 0) != InputOf(a, self, 1)
    requires var i0 := InputOf(a, self, 0);
             var i1 := InputOf(a, self, 1);
             var sub := |a.ops|;
             && self !in ReplaceFirst(a.tensors[i0].consumers, self, sub) && sub in ReplaceFirst(a.tensors[i0].consumers, self, sub)
             && (forall c | c in ReplaceFirst(a.tensors[i0].consumers, self, sub) :: c in a.tensors[i0].consumers || c == sub)
             && (forall c | c in a.tensors[i0].consumers && c != self :: c in ReplaceFirst(a.tensors[i0].consumers, self, sub))
             && self !in ReplaceFirst(a.tensors[i1].consumers, self, sub) && sub in ReplaceFirst(a.tensors[i1].consumers, self, sub)
             && (forall c | c in ReplaceFirst(a.tensors[i1].consumers, self, sub) :: c in a.tensors[i1].consumers || c == sub)
             && (forall c | c in a.tensors[i1].consumers && c != self :: c in ReplaceFirst(a.tensors[i1].consumers, self, sub))
    requires Prepended(a, b, self)
    ensures PrePointwise(a, b, self, InputOf(a, self, 0), InputOf(a, self, 1))
  {
  }

  lemma PreInputsConsumed(a: Arena, b: Arena, self: OpId, i0: TensorId, i1: TensorId)
    requires Valid(a) && Mutual(a) && self < |a.ops| && i0 < |a.tensors| && i1 < |a.tensors| && i0 != i1
    requires PrePointwise(a, b, self, i0, i1)
    ensures forall o, t | 0 <= o < |b.ops| && t in b.ops[o].inputs :: o in b.tensors[t].consumers
  {
    forall o, t | 0 <= o < |b.ops| && t in b.ops[o].inputs
      ensures o in b.tensors[t].consumers
    {
      if o < |a.ops| && o != self {
        assert t in a.ops[o].inputs;
        assert o in a.tensors[t].consumers;
      }
    }
  }

  lemma PreOutputsProduced(a: Arena, b: Arena, self: OpId, i0: TensorId, i1: TensorId)
    requires Valid(a) && Mutual(a) && self < |a.ops| && i0 < |a.tensors| && i1 < |a.tensors| && i0 != i1
    requires PrePointwise(a, b, self, i0, i1)
    ensures forall o, t | 0 <= o < |b.ops| && t in b.ops[o].outputs :: o in b.tensors[t].producers
  {
    forall o, t | 0 <= o < |b.ops| && t in b.ops[o].outputs
      ensures o in b.tensors[t].producers
    {
      if o < |a.ops| {
        assert t in a.ops[o].outputs;
        assert o in a.tensors[t].producers;
      }
    }
  }

  lemma PreConsumersRead(a: Arena, b: Arena, self: OpId, i0: TensorId, i1: TensorId)
    requires Valid(a) && Mutual(a) && self < |a.ops| && i0 < |a.tensors| && i1 < |a.tensors| && i0 != i1
    requires a.ops[self].inputs == [i0, i1]
    requires PrePointwise(a, b, self, i0, i1)
    ensures forall t, o | 0 <= t < |b.tensors| && o in b.tensors[t].consumers :: t in b.ops[o].inputs
  {
    forall t, o | 0 <= t < |b.tensors| && o in b.tensors[t].consumers
      ensures t in b.ops[o].inputs
    {
      if t < |a.tensors| && o != |a.ops| {
        assert o in a.tensors[t].consumers;
        assert t in a.ops[o].inputs;
      }
    }
  }

  lemma PreProducersWritten(a: Arena, b: Arena, self: OpId, i0: TensorId, i1: TensorId)
    requires Valid(a) && Mutual(a) && self < |a.ops| && i0 < |a.tensors| && i1 < |a.tensors| && i0 != i1
    requires PrePointwise(a, b, self, i0, i1)
    ensures forall t, o | 0 <= t < |b.tensors| && o in b.tensors[t].producers :: t in b.ops[o].outputs
  {
    forall t, o | 0 <= t < |b.tensors| && o in b.tensors[t].producers
      ensures t in b.ops[o].outputs
    {
      if t < |a.tensors| {
        assert o in a.tensors[t].producers;
        assert t in a.ops[o].outputs;
      }
    }
  }
}

=== FILE: tensor.dfy ===
/** The tensor record of tflite2onnx/tensor.py and the operations on one tensor: its
    producer and consumer edges, the payload predicates, dequantization, dtype conversion,
    the layout transformation of its shape, validation and parsing from the TFLite entry.

    Operators are referred to by handle (`OpId`), an index into the operator arena; two
    handles are the same operator exactly when they are equal, as Python object identity. */
module Tensors {
  import opened Wrappers
  import opened Seqs
  import opened Lifecycle
  import opened Layouts
  import opened Payload
  import Tflite
  import Dtypes

  type OpId = nat
  type TensorId = nat

  /** `self.tflite`: the TFLite tensor entry behind the tensor, or none for a helper
      tensor the converter creates itself (index -1). */
  datatype Origin = Helper | FromModel(index: nat, entry: Tflite.TensorEntry)

  /** The name every object carries until it is parsed (spelled as in the source). */
  const DefaultName: string := "Unintialized"
  const DefaultScale: Num := Real("1.0")
  const DefaultZeroPoint: int := 127

  datatype Tensor = Tensor(
    name: string,
    origin: Origin,
    shape: seq<int>,
    dtype: Option<int>,
    data: Option<seq<Num>>,
    scale: Num,
    zeroPoint: int,
    layout: Option<Layout>,
    producers: seq<OpId>,
    consumers: seq<OpId>,
    isBias: bool,
    status: Status)

  /** `Tensor(model, graph, index, layout, is_bias)`: no shape, type or data yet, the
      default quantization parameters, no edges, and already initialized. */
  function NewTensor(origin: Origin, layout: Option<Layout>, isBias: bool): (t: Tensor)
    ensures t.status == Initialized && t.origin == origin
    ensures t.name == DefaultName && t.shape == [] && t.dtype == None && t.data == None
    ensures t.scale == DefaultScale && t.zeroPoint == DefaultZeroPoint
    ensures t.layout == layout && t.isBias == isBias
    ensures t.producers == [] && t.consumers == []
  {
    Tensor(DefaultName, origin, [], None, None, DefaultScale, DefaultZeroPoint, layout, [], [], isBias, Initialized)
  }

  // ---------------------------------------------------------------- edges

  /** `addProducer`: only a tensor without producer may get one, and then has exactly that one. */
  function AddProducer(t: Tensor, op: OpId): (r: Result<Tensor>)
    ensures r.Ok? <==> |t.producers| == 0
    ensures r.Ok? ==> r.value == t.(producers := [op])
  {
    if |t.producers| != 0 then Err(Assertion("tensor already has a producer")) else
    Ok(t.(producers := t.producers + [op]))
  }

  /** `removeProducer`: the single producer must be `op`; afterwards there is none. */
  function RemoveProducer(t: Tensor, op: OpId): (r: Result<Tensor>)
    ensures r.Ok? <==> t.producers == [op]
    ensures r.Ok? ==> r.value == t.(producers := [])
  {
    if |t.producers| != 1 then Err(Assertion("tensor has not exactly one producer")) else
    :- Need(t.producers[0] == op, "producer to remove is not the producer");
    Ok(t.(producers := RemoveFirst(t.producers, op)))
  }

  /** `replaceProducer`: the single producer must be `original`; it becomes `replacement`. */
  function ReplaceProducer(t: Tensor, original: OpId, replacement: OpId): (r: Result<Tensor>)
    ensures r.Ok? <==> t.producers == [original]
    ensures r.Ok? ==> r.value == t.(producers := [replacement])
  {
    if |t.producers| != 1 then Err(Assertion("tensor has not exactly one producer")) else
    :- Need(t.producers[0] == original, "producer to replace is not the producer");
    Ok(t.(producers := t.producers[0 := replacement]))
  }

  /** `addConsumer`: an operator already consuming the tensor is rejected; a new one goes last. */
  function AddConsumer(t: Tensor, op: OpId): (r: Result<Tensor>)
    ensures r.Ok? <==> op !in t.consumers
    ensures r.Ok? ==> r.value == t.(consumers := t.consumers + [op])
  {
    if op in t.consumers then Err(Assertion("operator already consumes the tensor")) else
    Ok(t.(consumers := t.consumers + [op]))
  }

  /** `removeConsumer`: `op` must consume the tensor; its first occurrence is dropped. */
  function RemoveConsumer(t: Tensor, op: OpId): (r: Result<Tensor>)
    ensures r.Ok? <==> op in t.consumers
    ensures r.Ok? ==> |r.value.consumers| == |t.consumers| - 1
    ensures r.Ok? ==> r.value == t.(consumers := RemoveFirst(t.consumers, op))
  {
    if op !in t.consumers then Err(Assertion("operator to remove does not consume the tensor")) else
    Ok(t.(consumers := RemoveFirst(t.consumers, op)))
  }

  /** `replaceConsumer`: `original` must consume the tensor; its first occurrence becomes
      `replacement`, and every other position and the order are kept. */
  function ReplaceConsumer(t: Tensor, original: OpId, replacement: OpId): (r: Result<Tensor>)
    ensures r.Ok? <==> original in t.consumers
    ensures r.Ok? ==> r.value == t.(consumers := r.value.consumers)
    ensures r.Ok? ==> |r.value.consumers| == |t.consumers|
    ensures r.Ok? ==> r.value.consumers[FirstIndex(t.consumers, original)] == replacement
    ensures r.Ok? ==> forall j | 0 <= j < |t.consumers| && j != FirstIndex(t.consumers, original) ::
                        r.value.consumers[j] == t.consumers[j]
  {
    if original !in t.consumers then Err(Assertion("operator to replace does not consume the tensor")) else
    Ok(t.(consumers := ReplaceFirst(t.consumers, original, replacement)))
  }

  /** Adding a producer and removing it again gives back the tensor. */
  lemma ProducerRoundTrip(t: Tensor, op: OpId)
    requires |t.producers| == 0
    ensures AddProducer(t, op).Ok?
    ensures RemoveProducer(AddProducer(t, op).value, op) == Ok(t)
  {
  }

  /** Adding a consumer and removing it again gives back the tensor. */
  lemma {:induction false} ConsumerRoundTrip(t: Tensor, op: OpId)
    requires op !in t.consumers
    ensures AddConsumer(t, op).Ok?
    ensures RemoveConsumer(AddConsumer(t, op).value, op) == Ok(t)
  {
    var c := t.consumers + [op];
    assert FirstIndex(c, op) == |t.consumers|;
    assert RemoveFirst(c, op) == t.consumers;
  }

  /** Replacing a consumer by a fresh one and back gives back the tensor. */
  lemma {:induction false} ReplaceConsumerRoundTrip(t: Tensor, original: OpId, replacement: OpId)
    requires original in t.consumers && replacement !in t.consumers
    ensures ReplaceConsumer(t, original, replacement).Ok?
    ensures ReplaceConsumer(ReplaceConsumer(t, original, replacement).value, replacement, original) == Ok(t)
  {
    var k := FirstIndex(t.consumers, original);
    var c := ReplaceFirst(t.consumers, original, replacement);
    assert c[k] == replacement;
    assert FirstIndex(c, replacement) == k;
    assert ReplaceFirst(c, replacement, original) == t.consumers;
  }

  /** Consumer lists built by `addConsumer` stay duplicate-free, and so do those where a
      consumer is replaced by one that is not yet there. */
  lemma {:induction false} ConsumersStayDistinct(t: Tensor, op: OpId, original: OpId, replacement: OpId)
    requires NoDup(t.consumers)
    ensures AddConsumer(t, op).Ok? ==> NoDup(AddConsumer(t, op).value.consumers)
    ensures original in t.consumers && replacement !in t.consumers ==>
              NoDup(ReplaceConsumer(t, original, replacement).value.consumers)
  {
    if original in t.consumers && replacement !in t.consumers {
      var k := FirstIndex(t.consumers, original);
      var c := ReplaceConsumer(t, original, replacement).value.consumers;
      forall i, j | 0 <= i < j < |c|
        ensures c[i] != c[j]
      {
        if i != k && j != k {
          assert c[i] == t.consumers[i] && c[j] == t.consumers[j];
        } else if i == k {
          assert c[j] == t.consumers[j];
        } else {
          assert c[i] == t.consumers[i];
        }
      }
    }
  }

  // ---------------------------------------------------------------- payload predicates

  /** `isInitializer`: the tensor carries constant data, which is what sends it to the
      initializers of the ONNX graph rather than to its value infos. */
  predicate IsInitializer(t: Tensor): (b: bool)
    ensures b <==> t.data != None
  {
    t.data.Some?
  }

  /** `validate`: an initializer has no producer, any other tensor at most one, and the
      name is not empty. */
  function Validate(t: Tensor): (r: Outcome)
    ensures r.Pass? <==> |t.producers| <= (if IsInitializer(t) then 0 else 1) && |t.name| > 0
  {
    if IsInitializer(t) && |t.producers| != 0 then Fail(Assertion("Initializer should not have producer"))
    else if !IsInitializer(t) && |t.producers| > 1 then Fail(Assertion("Tensor should have 1 producer or no"))
    else Need(|t.name| > 0, "Tensor must have valid name")
  }

  /** A named activation tensor with a fresh producer validates; a constant with one does not. */
  lemma ValidateAfterAddProducer(t: Tensor, op: OpId)
    requires |t.producers| == 0 && |t.name| > 0
    ensures AddProducer(t, op).Ok?
    ensures Validate(AddProducer(t, op).value).Pass? <==> !IsInitializer(t)
  {
  }

  /** `quantized`: the element type is UINT8, or INT32 for a bias; a tensor read from the
      model must also carry a quantization record. */
  predicate Quantized(t: Tensor): (b: bool)
    ensures b ==> t.dtype == Some(Dtypes.OnnxUint8) || t.dtype == Some(Dtypes.OnnxInt32)
    ensures t.dtype == Some(Dtypes.OnnxInt32) && !t.isBias ==> !b
    ensures t.origin.FromModel? && t.origin.entry.quantization.None? ==> !b
    ensures t.origin.Helper? && t.dtype == Some(Dtypes.OnnxUint8) ==> b
  {
    var quantType := t.dtype == Some(Dtypes.OnnxUint8) || (t.dtype == Some(Dtypes.OnnxInt32) && t.isBias);
    match t.origin
    case Helper => quantType
    case FromModel(_, entry) => quantType && entry.quantization.Some?
  }

  /** `dequantize`: nothing happens to a tensor that is not quantized; otherwise its type
      becomes FLOAT and each constant element `q` becomes `(q - zero_point) * scale`. */
  function Dequantize(t: Tensor): (r: Tensor)
    ensures !Quantized(t) ==> r == t
    ensures Quantized(t) ==> r == t.(dtype := r.dtype, data := r.data)
    ensures Quantized(t) ==> r.dtype == Some(Dtypes.OnnxFloat) && !Quantized(r)
    ensures Quantized(t) ==> (r.data.Some? <==> t.data.Some?)
    ensures Quantized(t) && t.data.Some? ==>
              |r.data.value| == |t.data.value|
              && forall k | 0 <= k < |t.data.value| :: r.data.value[k] == Affine(t.data.value[k], t.zeroPoint, t.scale)
  {
    if !Quantized(t) then t
    else
      var data := if IsInitializer(t) then
                    Some(seq(|t.data.value|, k requires 0 <= k < |t.data.value| =>
                      Affine(t.data.value[k], t.zeroPoint, t.scale)))
                  else t.data;
      t.(dtype := Some(Dtypes.OnnxFloat), data := data)
  }

  /** Dequantizing twice is dequantizing once. */
  lemma DequantizeIdempotent(t: Tensor)
    ensures Dequantize(Dequantize(t)) == Dequantize(t)
  {
  }

  /** `isScalar`: no layout, rank 0 and a single element. Reading the length of absent
      data is a TypeError, reached only when the first two conditions hold. */
  function IsScalar(t: Tensor): (r: Result<bool>)
    ensures r.Err? <==> t.layout.None? && |t.shape| == 0 && t.data.None?
    ensures r.Ok? ==> (r.value <==> t.layout.None? && |t.shape| == 0 && t.data.Some? && |t.data.value| == 1)
  {
    if t.layout.Some? || |t.shape| != 0 then Ok(false)
    else if t.data.None? then Err(TypeMismatch("object of type 'NoneType' has no len()"))
    else Ok(|t.data.value| == 1)
  }

  /** `asDtype(name)`: the type code of `name` (KeyError for an unknown name), and the
      constant data converted element by element. */
  function AsDtype(t: Tensor, name: Dtypes.TypeName): (r: Result<Tensor>)
    ensures r.Ok? <==> Dtypes.OnnxCode(name).Ok?
    ensures r.Ok? ==> r.value == t.(dtype := Some(Dtypes.OnnxCode(name).value), data := r.value.data)
    ensures r.Ok? ==> (r.value.data.Some? <==> t.data.Some?)
    ensures r.Ok? && t.data.Some? ==> r.value.data.value == CastAll(t.data.value, name)
  {
    var code :- Dtypes.OnnxCode(name);
    var data := if IsInitializer(t) then Some(CastAll(t.data.value, name)) else t.data;
    Ok(t.(dtype := Some(code), data := data))
  }

  /** Converting to the same type twice is converting once. */
  lemma {:induction false} AsDtypeIdempotent(t: Tensor, name: Dtypes.TypeName)
    requires AsDtype(t, name).Ok?
    ensures AsDtype(AsDtype(t, name).value, name) == AsDtype(t, name)
  {
    var once := AsDtype(t, name).value;
    if t.data.Some? {
      var d := t.data.value;
      forall k | 0 <= k < |d|
        ensures Cast(Cast(d[k], name), name) == Cast(d[k], name)
      {
        CastIdempotent(d[k], name);
      }
      assert CastAll(CastAll(d, name), name) == CastAll(d, name);
    }
  }

  /** `Tensor.transform`: a parsed tensor with a layout gets its shape reordered from the
      layout's source order to its target order, and the layout is marked as being in the
      target order. The physical reordering of constant data is not modelled. */
  function TransformTensor(t: Tensor): (r: Result<Tensor>)
    ensures r.Ok? <==> t.status == Parsed && t.layout.Some?
                       && Transform(t.shape, t.layout.value.source, t.layout.value.target).Ok?
    ensures r.Ok? ==> r.value == t.(shape := r.value.shape, layout := r.value.layout)
    ensures r.Ok? ==> r.value.shape == Transform(t.shape, t.layout.value.source, t.layout.value.target).value
    ensures r.Ok? ==> r.value.layout == Some(t.layout.value.(current := t.layout.value.target))
  {
    if !t.status.Parsed? then Err(Assertion("tensor transformed before it is parsed")) else
    :- Need(t.layout.Some?, "tensor transformed without layout");
    var applied :- t.layout.value.Apply(t.shape);
    Ok(t.(shape := applied.0, layout := Some(applied.1)))
  }

  /** When the layout names the same distinct axes in both orders and the rank matches,
      the transformation succeeds and only permutes the shape. */
  lemma TransformTensorPermutes(t: Tensor)
    requires t.status == Parsed && t.layout.Some?
    requires SameAxes(t.layout.value.source, t.layout.value.target)
    requires |t.shape| == |t.layout.value.source|
    ensures TransformTensor(t).Ok?
    ensures multiset(TransformTensor(t).value.shape) == multiset(t.shape)
  {
    TransformIsPermutation(t.shape, t.layout.value.source, t.layout.value.target);
  }

  // ---------------------------------------------------------------- parse

  /** The quantization a quantized tensor must carry: one scale and one zero point. */
  predicate PerTensorQuantization(q: Tflite.Quantization) {
    |q.scales| == 1 && |q.zeroPoints| == 1
  }

  /** The type code an entry parses to, when its TFLite type is supported. */
  function ParsedType(entry: Tflite.TensorEntry): Option<int> {
    var table := Dtypes.TfliteToOnnxTable();
    if entry.elementType in table then Some(table[entry.elementType]) else None
  }

  /** `Tensor.parse`: a parsed tensor is left alone; otherwise name, shape, type,
      quantization parameters and data come from the TFLite entry. The TFLite type must be
      supported, and a quantized tensor must use per-tensor quantization. */
  function Parse(t: Tensor): (r: Result<Tensor>)
    ensures t.status == Parsed ==> r == Ok(t)
    ensures t.status != Parsed ==>
              (r.Ok? <==> t.status == Initialized && t.origin.FromModel?
                          && ParsedType(t.origin.entry).Some?
                          && (Quantized(t.(dtype := ParsedType(t.origin.entry))) ==>
                                PerTensorQuantization(t.origin.entry.quantization.value)))
    ensures t.status != Parsed && r.Ok? ==>
              var e := t.origin.entry;
              && r.value.status == Parsed
              && r.value.name == e.name && r.value.shape == e.shape
              && r.value.dtype == ParsedType(e) && r.value.data == e.buffer
              && r.value.origin == t.origin && r.value.layout == t.layout && r.value.isBias == t.isBias
              && r.value.producers == t.producers && r.value.consumers == t.consumers
              && (Quantized(r.value) ==> r.value.scale == e.quantization.value.scales[0]
                                          && r.value.zeroPoint == e.quantization.value.zeroPoints[0])
              && (!Quantized(r.value) ==> r.value.scale == t.scale && r.value.zeroPoint == t.zeroPoint)
  {
    if t.status.Parsed? then Ok(t)
    else match t.origin
      case Helper => Err(TypeMismatch("'NoneType' object has no attribute 'Name'"))
      case FromModel(_, e) =>
        var dtype := ParsedType(e);
        :- Need(dtype.Some?, "TFLite tensor type has no ONNX counterpart");
        var typed := t.(name := e.name, shape := e.shape, dtype := dtype);
        var quant :- if Quantized(typed) then ReadQuantization(typed, e.quantization.value) else Ok(typed);
        var status :- SetParsed(t.status);
        Ok(quant.(data := e.buffer, status := status))
  }

  function ReadQuantization(t: Tensor, q: Tflite.Quantization): (r: Result<Tensor>)
    ensures r.Ok? <==> PerTensorQuantization(q)
    ensures r.Ok? ==> r.value == t.(scale := q.scales[0], zeroPoint := q.zeroPoints[0])
  {
    if |q.scales| != 1 then Err(Assertion("Per-tensor support only currently")) else
    :- Need(|q.zeroPoints| == 1, "Per-tensor support only currently");
    Ok(t.(scale := q.scales[0], zeroPoint := q.zeroPoints[0]))
  }

  /** Parsing a parsed tensor changes nothing, so parsing twice is parsing once. */
  lemma ParseIdempotent(t: Tensor)
    requires Parse(t).Ok?
    ensures Parse(Parse(t).value) == Parse(t)
  {
  }
}

=== FILE: tflite.dfy ===
/** The read-only view of one TFLite subgraph that the converter works from: its tensor
    table, its operator table, and the enum codes of the TFLite flatbuffer schema that the
    converter compares against. Decoding the flatbuffer is not modelled: a tensor's buffer
    is given already decoded into payload elements. */
module Tflite {
  import opened Wrappers
  import opened Payload

  // BuiltinOperator codes of the TFLite schema.
  const ADD: int := 0
  const AVERAGE_POOL_2D: int := 1
  const CONCATENATION: int := 2
  const CONV_2D: int := 3
  const DEPTHWISE_CONV_2D: int := 4
  const DEQUANTIZE: int := 6
  const FULLY_CONNECTED: int := 9
  const MAX_POOL_2D: int := 17
  const MUL: int := 18
  const RELU: int := 19
  const RELU6: int := 21
  const RESHAPE: int := 22
  const RESIZE_BILINEAR: int := 23
  const SOFTMAX: int := 25
  const PAD: int := 34
  const TRANSPOSE: int := 39
  const MEAN: int := 40
  const STRIDED_SLICE: int := 45
  const SPLIT: int := 49
  const TRANSPOSE_CONV: int := 67
  const RSQRT: int := 76
  const RESIZE_NEAREST_NEIGHBOR: int := 97
  const SQUARED_DIFFERENCE: int := 99
  const MIRROR_PAD: int := 100
  const ABS: int := 101
  const QUANTIZE: int := 114

  // ActivationFunctionType.
  const ACT_NONE: int := 0
  const ACT_RELU: int := 1
  const ACT_RELU_N1_TO_1: int := 2
  const ACT_RELU6: int := 3

  // Padding.
  const SAME: int := 0
  const VALID: int := 1

  // FullyConnectedOptionsWeightsFormat.
  const WEIGHTS_DEFAULT: int := 0

  /** The per-tensor quantization record: scale and zero-point arrays. */
  datatype Quantization = Quantization(scales: seq<Num>, zeroPoints: seq<int>)

  /** A tensor entry: name, shape, element type code, optional quantization, and the
      decoded contents of its buffer (`None` when the buffer holds no data). */
  datatype TensorEntry = TensorEntry(
    name: string,
    shape: seq<int>,
    elementType: int,
    quantization: Option<Quantization>,
    buffer: Option<seq<Num>>)

  /** The builtin options of an operator. Every options table of the schema is a subset of
      these fields; a converter reads only the fields of its own table. */
  datatype Options = Options(
    fusedActivation: int,
    axis: int,
    padding: int,
    strideH: int,
    strideW: int,
    dilationH: int,
    dilationW: int,
    depthMultiplier: int,
    filterHeight: int,
    filterWidth: int,
    numSplits: int,
    beginMask: int,
    endMask: int,
    ellipsisMask: int,
    newAxisMask: int,
    shrinkAxisMask: int,
    alignCorners: bool,
    keepNumDims: bool,
    weightsFormat: int)

  /** An operator entry: builtin code, tensor indices of its inputs and outputs, options. */
  datatype OperatorEntry = OperatorEntry(opcode: int, inputs: seq<int>, outputs: seq<int>, options: Options)

  datatype Subgraph = Subgraph(tensors: seq<TensorEntry>, operators: seq<OperatorEntry>)

  /** `graph.Tensors(index)`: an index outside the table reads no tensor. */
  function TensorAt(g: Subgraph, index: int): (r: Result<TensorEntry>)
    ensures r.Ok? <==> 0 <= index < |g.tensors|
    ensures r.Ok? ==> r.value == g.tensors[index]
  {
    if 0 <= index < |g.tensors| then Ok(g.tensors[index])
    else Err(IndexOutOfRange("tensor index out of range"))
  }

  /** `op.Inputs(i)` / `op.Outputs(i)`: the tensor index at position `i` of the list. */
  function IndexAt(indices: seq<int>, i: nat): (r: Result<int>)
    ensures r.Ok? <==> i < |indices|
    ensures r.Ok? ==> r.value == indices[i]
  {
    if i < |indices| then Ok(indices[i]) else Err(IndexOutOfRange("operator tensor position out of range"))
  }
}

=== FILE: transpose.dfy ===
/** The TRANSPOSE converter (tflite2onnx/op/transpose.py): the data input and the output
    become tensors of the operator, while the permutation constant is read into the
    "perm" attribute without becoming an input. Layouts do not propagate across it and
    its transformation changes nothing. */
module TransposeOp {
  import opened Wrappers
  import opened Lifecycle
  import opened Tensors
  import opened Operators
  import opened Ir
  import opened OpCommon
  import opened Factory
  import Tflite

  /** `Transpose.parse()` up to the permutation: the data input and the "perm" attribute
      read from the constant at input position 1. */
  method ReadTranspose(a: Arena, g: Tflite.Subgraph, o: OpId, e: Tflite.OperatorEntry) returns (r: Result<(Arena, TensorId)>)
    requires Valid(a) && o < |a.ops| && |e.inputs| == 2
    ensures r.Ok? ==> IntData(g, e.inputs[1]).Ok?
    ensures r.Ok? ==> var (b, it) := r.value;
              && Valid(b) && KeepsParsed(a, b) && it < |b.tensors| && b.tensors[it].status == Parsed
              && b.ops == a.ops[o := a.ops[o].(inputs := a.ops[o].inputs + [it],
                                               attrs := a.ops[o].attrs["perm" := DataAttr(IntData(g, e.inputs[1]).value)])]
              && InputIs(b, g, a.ops[o].index, 0, it)
  {
    var ri := ParseInput(a, g, o, 0, None, false);
    if ri.Err? {
      return Err(ri.error);
    }
    var (b, it) := ri.value;
    var rd := IntData(g, e.inputs[1]);
    if rd.Err? {
      return Err(rd.error);
    }
    return Ok((SetAttr(b, o, "perm", DataAttr(rd.value)), it));
  }

  /** `Transpose.parse()`: a TRANSPOSE with data and permutation inputs and one output.
      The operator has one input more and one output more than before. */
  method ParseTranspose(a: Arena, g: Tflite.Subgraph, o: OpId) returns (r: Result<Arena>)
    requires Valid(a) && o < |a.ops|
    ensures r.Ok? ==> 0 <= a.ops[o].index < |g.operators|
    ensures r.Ok? ==> var e := g.operators[a.ops[o].index];
              && e.opcode == Tflite.TRANSPOSE && |e.inputs| == 2 && |e.outputs| == 1
              && IntData(g, e.inputs[1]).Ok?
    ensures r.Ok? ==> var e := g.operators[a.ops[o].index];
              var b := r.value;
              && Valid(b) && |b.ops| == |a.ops| && b.ops[o].status == Parsed
              && |b.ops[o].inputs| == |a.ops[o].inputs| + 1 && |b.ops[o].outputs| == |a.ops[o].outputs| + 1
              && b.ops[o].attrs == a.ops[o].attrs["perm" := DataAttr(IntData(g, e.inputs[1]).value)]
              && ReadsInputs(a, b, g, o, 1) && WritesOutputs(a, b, g, o, 1)
  {
    var re := OpEntry(g, a.ops[o]);
    if re.Err? {
      return Err(re.error);
    }
    var e := re.value;
    if e.opcode != Tflite.TRANSPOSE {
      return Err(Assertion("opcode is not TRANSPOSE"));
    }
    if |e.inputs| != 2 {
      return Err(Assertion("Transpose takes two inputs"));
    }
    if |e.outputs| != 1 {
      return Err(Assertion("Transpose has one output"));
    }
    var rt := ReadTranspose(a, g, o, e);
    if rt.Err? {
      return Err(rt.error);
    }
    var (b, it) := rt.value;
    var ro := ParseOutput(b, g, o, 0, None);
    if ro.Err? {
      return Err(ro.error);
    }
    var (c, ot) := ro.value;
    AppendedReads(a, c, g, o, [it]);
    AppendedWrites(a, c, g, o, [ot]);
    r := SetOpParsed(c, o);
    if r.Ok? {
      ReadsWritesKept(a, c, r.value, g, o, 1, 1);
    }
  }
}

=== FILE: transpose_helper.dfy ===
/** Layout helpers (tflite2onnx/transpose.py): a Transpose operator that moves a tensor
    between the TFLite and the ONNX axis order, and the tensor it reads or writes. */
module TransposeHelpers {
  import opened Wrappers
  import opened Seqs
  import opened Lifecycle
  import opened Layouts
  import opened Tensors
  import opened Operators
  import opened Ir
  import opened OpCommon

  /** The name `createTransposeHelper` gives every layout helper it creates. */
  const HelperName: string := "Layout Helper"

  /** The permutation of a helper: upstream of a tensor it undoes the layout of its output
      (`getPerm(target, source)`), downstream it applies the layout of its input
      (`getPerm(source, target)`). A tensor without layout has no `target`. */
  function HelperPerm(a: Arena, input: TensorId, output: TensorId, upstream: bool): (r: Result<seq<nat>>)
    requires input < |a.tensors| && output < |a.tensors|
    ensures upstream ==> var l := a.tensors[output].layout;
              && (r.Ok? <==> l.Some? && GetPerm(l.value.target, l.value.source).Ok?)
              && (r.Ok? ==> r.value == GetPerm(l.value.target, l.value.source).value)
    ensures !upstream ==> var l := a.tensors[input].layout;
              && (r.Ok? <==> l.Some? && GetPerm(l.value.source, l.value.target).Ok?)
              && (r.Ok? ==> r.value == GetPerm(l.value.source, l.value.target).value)
  {
    if upstream then
      :- Need(a.tensors[output].layout.Some?, "'NoneType' object has no attribute 'target'");
      var l := a.tensors[output].layout.value;
      GetPerm(l.target, l.source)
    else
      :- Need(a.tensors[input].layout.Some?, "'NoneType' object has no attribute 'source'");
      var l := a.tensors[input].layout.value;
      GetPerm(l.source, l.target)
  }

  /** The Transpose object of a helper, named and parsed, reading `input` and writing
      `output`, with the attributes given; its edges are linked both ways. */
  method LinkHelper(a: Arena, input: TensorId, output: TensorId, attrs: map<string, Attr>) returns (r: Result<(Arena, OpId)>)
    requires Valid(a) && input < |a.tensors| && output < |a.tensors|
    ensures r.Ok? <==> a.tensors[output].producers == []
    ensures r.Ok? ==> var (b, h) := r.value;
              && Valid(b) && h == |a.ops| && |b.ops| == |a.ops| + 1 && b.ops[..|a.ops|] == a.ops
              && b.ops[h].kind == Transpose && b.ops[h].index == -1 && b.ops[h].status == Parsed
              && b.ops[h].name == Some(HelperName) && b.ops[h].attrs == attrs
              && b.ops[h].inputs == [input] && b.ops[h].outputs == [output]
              && b.ops[h].pre == [] && b.ops[h].post == []
              && |b.tensors| == |a.tensors| && b.registry == a.registry
              && b.tensors[input].consumers == a.tensors[input].consumers + [h]
              && b.tensors[output].producers == [h]
  {
    var x := NewOperator(Transpose, -1).(name := Some(HelperName), attrs := attrs);
    var (b, h) := PushOp(a, x);
    assert h !in b.tensors[input].consumers;
    var c := LinkInput(b, h, input).value;
    if c.tensors[output].producers != [] {
      return Err(Assertion("tensor already has a producer"));
    }
    var d := LinkOutput(c, h, output).value;
    var e := SetOpParsed(d, h).value;
    assert e.ops[..|a.ops|] == a.ops;
    return Ok((e, h));
  }

  lemma TransposeInitialAttrs()
    ensures InitialAttrs(Transpose) == map["perm" := AInts([])]
  {
  }

  /** `createTransposeHelper(input, output, upstream)` as written: the permutation is
      stored in a field `op.perm` that nothing reads, and the "perm" attribute that the
      ONNX node is built from keeps the empty list of the constructor. */
  method CreateTransposeHelperAsWritten(a: Arena, input: TensorId, output: TensorId, upstream: bool)
    returns (r: Result<(Arena, OpId, seq<nat>)>)
    requires Valid(a) && input < |a.tensors| && output < |a.tensors|
    ensures r.Ok? ==> HelperPerm(a, input, output, upstream).Ok? && r.value.2 == HelperPerm(a, input, output, upstream).value
    ensures r.Ok? ==> var (b, h, _) := r.value;
              && Valid(b) && h == |a.ops| && |b.ops| == |a.ops| + 1
              && b.ops[h].attrs == map["perm" := AInts([])]
  {
    var rp := HelperPerm(a, input, output, upstream);
    if rp.Err? {
      return Err(rp.error);
    }
    TransposeInitialAttrs();
    var rl := LinkHelper(a, input, output, InitialAttrs(Transpose));
    if rl.Err? {
      return Err(rl.error);
    }
    return Ok((rl.value.0, rl.value.1, rp.value));
  }

  /** `createTransposeHelper(input, output, upstream)` with the permutation stored as the
      "perm" attribute of the Transpose. */
  method CreateTransposeHelper(a: Arena, input: TensorId, output: TensorId, upstream: bool) returns (r: Result<(Arena, OpId)>)
    requires Valid(a) && input < |a.tensors| && output < |a.tensors|
    ensures r.Ok? <==> HelperPerm(a, input, output, upstream).Ok? && a.tensors[output].producers == []
    ensures r.Ok? ==> var (b, h) := r.value;
              && Valid(b) && h == |a.ops| && |b.ops| == |a.ops| + 1 && b.ops[..|a.ops|] == a.ops
              && |b.tensors| == |a.tensors|
              && b.ops[h].kind == Transpose && b.ops[h].status == Parsed && b.ops[h].name == Some(HelperName)
              && b.ops[h].inputs == [input] && b.ops[h].outputs == [output]
              && b.ops[h].attrs == map["perm" := AInts(HelperPerm(a, input, output, upstream).value)]
              && b.tensors[input].consumers == a.tensors[input].consumers + [h]
              && b.tensors[output].producers == [h]
  {
    var rp := HelperPerm(a, input, output, upstream);
    if rp.Err? {
      return Err(rp.error);
    }
    var rl := LinkHelper(a, input, output, map["perm" := AInts(rp.value)]);
    if rl.Err? {
      return Err(rl.error);
    }
    return Ok(rl.value);
  }

  /** ONNX Transpose: output dimension `i` is input dimension `perm[i]`. */
  function TransposeShape(shape: seq<int>, perm: seq<nat>): (r: Result<seq<int>>)
    ensures r == Gather(shape, perm)
  {
    Gather(shape, perm)
  }

  /** Transposing by `getPerm(a, b)` is reordering from `a` to `b`. */
  lemma GatherIsTransform<T>(x: seq<T>, a: string, b: string)
    requires SameAxes(a, b) && |x| == |a|
    ensures GetPerm(a, b).Ok?
    ensures Gather(x, GetPerm(a, b).value) == Transform(x, a, b)
  {
    TransformDefined(x, a, b);
    if a == b {
      GetPermIdentity(a);
      assert Gather(x, Range(|a|)).value == x;
    }
  }

  /** Downstream of a tensor in the TFLite order, the helper's Transpose yields the shape
      the layout transformation gives; upstream of one, it takes the transformed shape back
      to the original one. */
  lemma {:induction false} HelperMovesShape(a: Arena, input: TensorId, output: TensorId, upstream: bool, x: seq<int>)
    requires input < |a.tensors| && output < |a.tensors|
    requires var l := if upstream then a.tensors[output].layout else a.tensors[input].layout;
             l.Some? && SameAxes(l.value.source, l.value.target) && |x| == |l.value.source|
    ensures HelperPerm(a, input, output, upstream).Ok?
    ensures var l := if upstream then a.tensors[output].layout.value else a.tensors[input].layout.value;
            var perm := HelperPerm(a, input, output, upstream).value;
            && Transform(x, l.source, l.target).Ok?
            && (!upstream ==> TransposeShape(x, perm) == Transform(x, l.source, l.target))
            && (upstream ==> TransposeShape(Transform(x, l.source, l.target).value, perm) == Ok(x))
  {
    var l := if upstream then a.tensors[output].layout.value else a.tensors[input].layout.value;
    TransformRoundTrip(x, l.source, l.target);
    if upstream {
      var y := Transform(x, l.source, l.target).value;
      TransformDefined(x, l.source, l.target);
      assert SameAxes(l.target, l.source);
      GatherIsTransform(y, l.target, l.source);
    } else {
      GatherIsTransform(x, l.source, l.target);
    }
  }

  /** On a layout from NHWC to NCHW the helper as written keeps an empty "perm" attribute
      although its permutation is `[0, 3, 1, 2]`. */
  lemma PermAttributeLost()
    ensures GetPerm("NHWC", "NCHW") == Ok([0, 3, 1, 2])
    ensures InitialAttrs(Transpose)["perm"] == AInts([]) != AInts(GetPerm("NHWC", "NCHW").value)
  {
    assert LastIndex("NHWC", 'N') == 0 && LastIndex("NHWC", 'C') == 3;
    assert LastIndex("NHWC", 'H') == 1 && LastIndex("NHWC", 'W') == 2;
    assert Perm("NHWC", "NCHW") == [0, 3, 1, 2];
  }

  // ---------------------------------------------------------------- transpose tensors

  /** The layout the transpose tensor is named after and the layout it carries: upstream
      it is in the target order, downstream in the source order. */
  function NamingLayout(l: Layout, upstream: bool): (r: Layout)
    ensures r.source == (if upstream then l.target else l.source)
    ensures r.target == (if upstream then l.source else l.target)
  {
    if upstream then NewLayout(l.target, l.source) else NewLayout(l.source, l.target)
  }

  function OwnLayout(l: Layout, upstream: bool): (r: Layout)
    ensures r.source == r.target == r.current == (if upstream then l.target else l.source)
  {
    if upstream then NewLayout(l.target, l.target) else NewLayout(l.source, l.source)
  }

  /** `createTransposeTensor(ref, upstream)` as written: it names the tensor after
      `l.nameSuffix`, an attribute the Layout class does not define, so every call that
      gets that far is an AttributeError. */
  function CreateTransposeTensorAsWritten(a: Arena, ref: TensorId, upstream: bool): (r: Result<(Arena, TensorId)>)
    requires ref < |a.tensors|
    ensures r.Err?
  {
    if a.tensors[ref].name !in a.registry then Err(Assertion("reference tensor is not registered")) else
    :- Need(a.tensors[ref].layout.Some?, "'NoneType' object has no attribute 'target'");
    Err(Unsupported("'Layout' object has no attribute 'nameSuffix'"))
  }

  /** `createTransposeTensor(ref, upstream)` with the name suffix of a layout given as
      `suffix(source, target)`: the tensor registered under the reference's name plus the
      suffix when there is one, otherwise a new parsed tensor of the reference's type whose
      shape is the reference's shape reordered by the reference's layout. */
  function CreateTransposeTensor(a: Arena, ref: TensorId, upstream: bool, suffix: (string, string) -> string)
    : (r: Result<(Arena, TensorId)>)
    requires Valid(a) && ref < |a.tensors|
    ensures r.Ok? ==> a.tensors[ref].name in a.registry && a.tensors[ref].layout.Some?
    ensures r.Ok? ==> Valid(r.value.0) && Extends(a, r.value.0) && r.value.0.ops == a.ops && r.value.1 < |r.value.0.tensors|
    ensures a.tensors[ref].name in a.registry && a.tensors[ref].layout.Some? ==>
              var x := a.tensors[ref];
              var l := NamingLayout(x.layout.value, upstream);
              var name := x.name + suffix(l.source, l.target);
              && (name in a.registry ==> r == Ok((a, a.registry[name])))
              && (name !in a.registry ==>
                    && (r.Ok? <==> Transform(x.shape, x.layout.value.source, x.layout.value.target).Ok?)
                    && (r.Ok? ==> var (b, t) := r.value;
                          && t == |a.tensors| && b.registry == a.registry[name := t]
                          && b.tensors[t].name == name && b.tensors[t].origin == Helper
                          && b.tensors[t].dtype == x.dtype && b.tensors[t].status == Parsed
                          && b.tensors[t].layout == Some(OwnLayout(x.layout.value, upstream))
                          && b.tensors[t].shape == Transform(x.shape, x.layout.value.source, x.layout.value.target).value
                          && b.tensors[t].producers == [] && b.tensors[t].consumers == []))
  {
    var x := a.tensors[ref];
    :- Need(x.name in a.registry, "reference tensor is not registered");
    :- Need(x.layout.Some?, "'NoneType' object has no attribute 'target'");
    var l := NamingLayout(x.layout.value, upstream);
    var name := x.name + suffix(l.source, l.target);
    if name in a.registry then Ok((a, a.registry[name]))
    else
      var shape :- Transform(x.shape, x.layout.value.source, x.layout.value.target);
      var made := NewTensor(Helper, Some(OwnLayout(x.layout.value, upstream)), false)
                     .(name := name, dtype := x.dtype, shape := shape, status := Parsed);
      var (b, t) := PushTensor(a, made);
      Ok((Register(b, name, t), t))
  }

  /** A second call finds the tensor the first one registered. */
  lemma TransposeTensorIdempotent(a: Arena, ref: TensorId, upstream: bool, suffix: (string, string) -> string)
    requires Valid(a) && ref < |a.tensors|
    requires CreateTransposeTensor(a, ref, upstream, suffix).Ok?
    ensures var (b, t) := CreateTransposeTensor(a, ref, upstream, suffix).value;
            CreateTransposeTensor(b, ref, upstream, suffix) == Ok((b, t))
  {
    var (b, t) := CreateTransposeTensor(a, ref, upstream, suffix).value;
    assert b.tensors[ref] == a.tensors[ref].(consumers := b.tensors[ref].consumers);
  }

  /** A new transpose tensor holds the dimensions of its reference, reordered, and the
      layout's reverse order gives the reference's shape back. */
  lemma TransposeTensorShape(a: Arena, ref: TensorId, upstream: bool, suffix: (string, string) -> string)
    requires Valid(a) && ref < |a.tensors|
    requires a.tensors[ref].name in a.registry && a.tensors[ref].layout.Some?
    requires var x := a.tensors[ref];
             var l := NamingLayout(x.layout.value, upstream);
             x.name + suffix(l.source, l.target) !in a.registry
    requires var l := a.tensors[ref].layout.value;
             SameAxes(l.source, l.target) && |a.tensors[ref].shape| == |l.source|
    ensures CreateTransposeTensor(a, ref, upstream, suffix).Ok?
    ensures var (b, t) := CreateTransposeTensor(a, ref, upstream, suffix).value;
            var l := a.tensors[ref].layout.value;
            && multiset(b.tensors[t].shape) == multiset(a.tensors[ref].shape)
            && Transform(b.tensors[t].shape, l.target, l.source) == Ok(a.tensors[ref].shape)
  {
    var x := a.tensors[ref];
    TransformIsPermutation(x.shape, x.layout.value.source, x.layout.value.target);
    TransformRoundTrip(x.shape, x.layout.value.source, x.layout.value.target);
  }
}

=== FILE: unary.dfy ===
/** The element-wise unary converter (tflite2onnx/op/unary.py): ABS, with one input and
    one output across which layouts pass. */
module UnaryOp {
  import opened Wrappers
  import opened Lifecycle
  import opened Tensors
  import opened Operators
  import opened Ir
  import opened OpCommon
  import Tflite

  /** `Unary.parse()`: an ABS with one input and one output. */
  method ParseUnary(a: Arena, g: Tflite.Subgraph, o: OpId) returns (r: Result<Arena>)
    requires Valid(a) && o < |a.ops|
    ensures r.Ok? ==> 0 <= a.ops[o].index < |g.operators|
    ensures r.Ok? ==> var e := g.operators[a.ops[o].index];
              e.opcode == Tflite.ABS && |e.inputs| == 1 && |e.outputs| == 1
    ensures r.Ok? ==> var b := r.value;
              && Valid(b) && |b.ops| == |a.ops| && b.ops[o].status == Parsed
              && |b.ops[o].inputs| == |a.ops[o].inputs| + 1 && |b.ops[o].outputs| == |a.ops[o].outputs| + 1
              && b.ops[o].attrs == a.ops[o].attrs
              && ReadsInputs(a, b, g, o, 1) && WritesOutputs(a, b, g, o, 1)
  {
    var re := OpEntry(g, a.ops[o]);
    if re.Err? {
      return Err(re.error);
    }
    var e := re.value;
    if e.opcode != Tflite.ABS {
      return Err(Assertion("opcode is not ABS"));
    }
    if |e.inputs| != 1 {
      return Err(Assertion("Unary takes one input"));
    }
    if |e.outputs| != 1 {
      return Err(Assertion("Unary has one output"));
    }
    var rio := ParseInputOutput(a, g, o);
    if rio.Err? {
      return Err(rio.error);
    }
    r := SetOpParsed(rio.value.0, o);
    if r.Ok? {
      ReadsWritesKept(a, rio.value.0, r.value, g, o, 1, 1);
    }
  }
}

=== FILE: wrappers.dfy ===
/** Failure-compatible result types. Every `assert` and every exception raised by
    the converter is surfaced as an `Error`: the variants follow the kind of
    failure the converter raises (a failed internal assertion, a missing
    dictionary key, an index out of range, a rejected value, an unsupported
    feature, an operation applied to a value of the wrong type). */
module Wrappers {

  datatype Option<+T> = None | Some(value: T) {
    predicate IsFailure() {
      None?
    }

    function PropagateFailure<U>(): Option<U>
      requires None?
    {
      None
    }

    function Extract(): T
      requires Some?
    {
      value
    }
  }

  datatype Error =
    | Assertion(what: string)
    | KeyNotFound(what: string)
    | IndexOutOfRange(what: string)
    | BadValue(what: string)
    | Unsupported(what: string)
    | TypeMismatch(what: string)

  datatype Result<+T> = Ok(value: T) | Err(error: Error) {
    predicate IsFailure() {
      Err?
    }

    function PropagateFailure<U>(): Result<U>
      requires Err?
    {
      Err(error)
    }

    function Extract(): T
      requires Ok?
    {
      value
    }
  }

  /** The outcome of a checked `assert`: no value, or the failure. */
  datatype Outcome = Pass | Fail(error: Error) {
    predicate IsFailure() {
      Fail?
    }

    function PropagateFailure<U>(): Result<U>
      requires Fail?
    {
      Err(error)
    }
  }

  /** `assert(condition)` of the converter. */
  function Need(condition: bool, what: string): (r: Outcome)
    ensures r.Pass? <==> condition
  {
    if condition then Pass else Fail(Assertion(what))
  }
}
